=== FILE: README.md ===
# Unleash Yggdrasil: a Dafny model of the engine boundary and its bindings

Yggdrasil is Unleash's feature-flag evaluation engine. The engine is written in Rust, and about twenty language bindings call into it across a foreign-function boundary. This project models, in Dafny, the parts that decide what a flag evaluates to and what crosses that boundary:

- **The features document and the rule upgrader.** The document holds toggles, strategies, constraints, segments and variants. The upgrader turns a toggle's strategies into the text of one boolean rule. The newer engine (`Upgrade`) and the older `sdk-core` one (`UpgradeLegacy`) are modelled separately.
- **The rule evaluators.** Compiled fragment trees are evaluated against a context: `Fragments` for the newer engine, and `FragmentsLegacy`, `FragmentsPrototype` and `RuleParser` for the older ones. `YggdrasilEngine` and `CoreEngine` are the engines around them, with state loading, `is_enabled`, variant selection and metric counts. `WasmEngine` and `WasmEnvelope` are the WebAssembly engines.
- **The wire protocol.** `FfiEnvelope` is the JSON envelope `{status_code, value, error_message}` of the C ABI. `WireBytes`, `PackedMessage`, `PackedOneShot` and `LowLevelMessage` are the packed little-endian request messages and their one-shot entry points. `PureWasm` covers the packed replies of the pure WebAssembly engine.
- **The bindings.** Each binding reads replies and frees foreign buffers exactly once: .NET, Go, Java (JNA and WebAssembly hosts), JavaScript, Python and Ruby. `ReleaseLedger` records the steps of one call as a trace, so that "released exactly once" can be stated.
- **The custom-strategy bridge.** Each binding has its own resolver: it finds the strategies the engine does not know, numbers the registered ones `customStrategyN` and evaluates them locally (`CustomResults` holds what the resolvers share). Every resolver is modelled as written, because their known-strategy lists, numbering and duplicate policies genuinely differ.
- **Helpers and metrics.** Impact-metric counters with canonical label keys and their registry (`ImpactMetrics`, `MetricsRegistry`), the Java camel-to-snake symbol mapper (`CamelSnake`), and the response checks of the playground page (`UiParsing`).

Hashing (murmur3), randomness, clocks, JSON parsing, rule-text compilation and the operating system are parameters of the model: functions passed in whose results the model does not constrain beyond their stated range.

## Model

| member | source | states |
|---|---|---|
| Common.Split | unleash-yggdrasil/src/strategy_upgrade.rs:191-192 | splitting on a separator always gives at least one part, no part holds the separator, and joining the parts with the separator gives the input back |
| Common.SplitJoin | unleash-yggdrasil/src/strategy_upgrade.rs:191-192 | splitting undoes joining whenever no part holds the separator |
| Common.Trim | unleash-yggdrasil/src/strategy_upgrade.rs:196 | trimming removes exactly the leading and trailing whitespace: the result is a contiguous piece of the input with only whitespace before and after it, and it neither starts nor ends with whitespace |
| Common.TrimUnique | unleash-yggdrasil/src/strategy_upgrade.rs:196 | any cut of the input with only whitespace outside it and no whitespace at its ends is the trimmed text |
| Common.TrimIdempotent | unleash-yggdrasil/src/strategy_upgrade.rs:196 | trimming twice is trimming once |
| Common.BlankTrimsEmpty | unleash-yggdrasil/src/strategy_upgrade.rs:196 | a text made only of whitespace trims to the empty text |
| Common.ParseUnsigned | unleash-yggdrasil/src/strategy_upgrade.rs:272-277 | a text of one or more decimal digits, optionally after a single `+`, parses to its decimal value when that is below the width's bound; any other text, or a value at or above the bound, is rejected |
| Common.PaddedNumeral | unleash-yggdrasil/src/strategy_upgrade.rs:272-277 | a printed number with any run of leading zeros and an optional `+` parses back to that number when it is below the bound, and is rejected otherwise |
| Common.NatToString | unleash-yggdrasil/src/strategy_upgrade.rs:172 | the printed number is a non-empty digit string whose decimal value is the number |
| Common.ParsePrinted | unleash-yggdrasil/src/strategy_parsing.rs:238-247 | a number below a width's bound, printed into rule text, is read back as the same number by a parser of that width |
| Common.EscapeQuotes | unleash-yggdrasil/src/strategy_upgrade.rs:302-304 | escaping never shortens the text and never leaves a bare quote at the front |
| Common.UnescapeQuotes | unleash-yggdrasil/src/strategy_parsing.rs:260 | unescaping never lengthens the text, leaves a text without `\"` unchanged, and shortens one only by producing a quote |
| Common.UnescapeEscape | unleash-yggdrasil/src/strategy_parsing.rs:260 | unescaping undoes the upgrader's escaping for every text |
| Common.StripEnds | unleash-yggdrasil/src/strategy_parsing.rs:255-259 | dropping the first and last character leaves the inside of a text of two or more characters, and nothing of a shorter one; the prototype parser's group id and the rule parser's string literals are read the same way |
| Common.QuotedLiteralRoundTrip | unleash-yggdrasil/src/strategy_parsing.rs:255-261 | a value quoted and escaped by the upgrader is decoded back to itself by the evaluator's string rule |
| Common.NormalizedHash | unleash-yggdrasil/src/strategy_parsing.rs:38-46 | a bucket exists exactly when the hash succeeds, and it lies between 1 and the modulus |
| Common.RemainderHash | sdk-core/src/strategy_parsing.rs:32-35 | a bucket exists exactly when the hash succeeds, and it lies below the modulus |
| Features.Param | unleash-yggdrasil/src/strategy_upgrade.rs:93-95 | a parameter is present exactly when the strategy has parameters holding the key, and then it is the stored value |
| Features.ToEnriched | yggdrasil-wasm/src/lib.rs:156 | the enriched variant keeps the variant's name, payload and enabled flag, and adds the toggle's state |
| Upgrade.StrategyTypeOf | unleash-yggdrasil/src/strategy_upgrade.rs:100-114 | a strategy name outside the eight built-in names is a custom strategy, and it keeps its name |
| Upgrade.RolloutTarget | unleash-yggdrasil/src/strategy_upgrade.rs:272-277 | a rollout target exists exactly when the parameter is present and parses as an unsigned integer; an absent parameter and an unparseable one both give none |
| Upgrade.ContextName | unleash-yggdrasil/src/strategy_upgrade.rs:398-408 | the six well-known context names map to their snake_case rule names; any other name becomes the `context["name"]` property reference |
| Upgrade.ContextNameRoundTrip | unleash-yggdrasil/src/strategy_upgrade.rs:398-408 | the declared context name can be read back from the rule text, so two distinct names never produce the same rule text |
| Upgrade.Stickiness | unleash-yggdrasil/src/strategy_upgrade.rs:386-396 | an absent stickiness and `default` both give the default fallback chain; `random` stays `random`; any other value is a context name |
| Upgrade.OperatorText | unleash-yggdrasil/src/strategy_upgrade.rs:347-384 | only an unknown operator has no rule text; `In` is `in`, `NotIn` is `not_in`, the three string-fragment operators are `ends_with_any`, `starts_with_any` and `contains_any` with `_ignore_case` added exactly when case-insensitive, `NumEq`/`SemverEq` are `==`, `NumGt`/`DateAfter`/`SemverGt` are `>`, `NumGte` is `>=`, `NumLt`/`DateBefore`/`SemverLt` are `<`, and `NumLte` is `<=` |
| Upgrade.FragmentOperatorText | unleash-yggdrasil/src/strategy_upgrade.rs:351-371 | `ends_with_any`, `starts_with_any` and `contains_any`, each with `_ignore_case` appended exactly when the constraint is case-insensitive |
| Upgrade.OperatorTextInjective | unleash-yggdrasil/src/strategy_upgrade.rs:347-384 | among the list operators, and among the numeric operators, distinct operators get distinct texts, and a string-fragment text also tells whether it ignores case |
| Upgrade.UpgradeConstraint | unleash-yggdrasil/src/strategy_upgrade.rs:306-345 | the constraint renders as `false` exactly when its operator is unknown or it is a semver comparison with a `v`-prefixed value; otherwise it is exactly `{!}{context name} {operator text} {value}`: `!` exactly when inverted, the mapped context name, the operator's text, and the quoted, escaped value list (list operators) or the single value (other operators) |
| Upgrade.ConstraintTextShape | unleash-yggdrasil/src/strategy_upgrade.rs:344 | the rendered `{inversion}{context} {op} {value}` text is never the text `false`, so a rejection can be told apart from a rendered constraint |
| Upgrade.QuoteAll | unleash-yggdrasil/src/strategy_upgrade.rs:318-327 | each value of a list operator becomes a double-quoted literal with its inner quotes escaped, in order |
| Upgrade.RenderAll | unleash-yggdrasil/src/strategy_upgrade.rs:283-286 | one rendered constraint per constraint, in order |
| Upgrade.UpgradeConstraints | unleash-yggdrasil/src/strategy_upgrade.rs:279-289 | no constraints give no clause; otherwise the rendered constraints are joined with ` and `, in order |
| Upgrade.SegmentConstraints | unleash-yggdrasil/src/strategy_upgrade.rs:133-145 | the segment constraints are absent exactly when some listed segment id is missing from the segment map |
| Upgrade.ResolvedConstraints | unleash-yggdrasil/src/strategy_upgrade.rs:133-156 | a strategy without segments keeps only its own constraints; a strategy with segments has no constraint list exactly when a segment is missing |
| Upgrade.FlexibleRolloutRule | unleash-yggdrasil/src/strategy_upgrade.rs:166-186 | without a parseable `rollout` the rule is `false`; otherwise it is exactly `N% sticky on S`, or `N% sticky on S with group_id of "G"` when a group id `G` is given, where `S` is the upgraded stickiness |
| Upgrade.QuotedUserIds | unleash-yggdrasil/src/strategy_upgrade.rs:188-200 | each comma-separated user id becomes one literal, and unquoting and unescaping that literal gives back the trimmed id |
| Upgrade.UserWithIdRule | unleash-yggdrasil/src/strategy_upgrade.rs:188-203 | without `userIds` the rule is `false`; otherwise it is `user_id in [..]` over the quoted ids |
| Upgrade.QuotedEntries | unleash-yggdrasil/src/strategy_upgrade.rs:205-216 | each comma-separated entry becomes one quoted entry whose content is the trimmed entry, without escaping |
| Upgrade.RemoteAddressRule | unleash-yggdrasil/src/strategy_upgrade.rs:205-220 | without `IPs` the rule is `false`; otherwise it is `remote_address contains_ip [..]` over the quoted, trimmed addresses |
| Upgrade.GradualRolloutRule | unleash-yggdrasil/src/strategy_upgrade.rs:222-244 | the session and user gradual rollouts are `false` unless both a parseable percentage and a group id are given |
| Upgrade.HostnameRule | unleash-yggdrasil/src/strategy_upgrade.rs:246-261 | a missing `hostNames` is read as the empty text, giving `hostname in [""]` |
| Upgrade.RandomRule | unleash-yggdrasil/src/strategy_upgrade.rs:263-270 | without a parseable percentage the rule is `false`; otherwise it is `random < N` |
| Upgrade.StrategyRule | unleash-yggdrasil/src/strategy_upgrade.rs:101-131 | each of the seven built-in names gives the rule of its own upgrader, `default` gives `true`, and any other name the `external_value["customStrategyN"]` lookup of its ordinal |
| Upgrade.UpgradeStrategy | unleash-yggdrasil/src/strategy_upgrade.rs:117-164 | a missing segment turns the whole strategy into `false`; with no constraints the strategy rule stands alone; otherwise it becomes `(rule and (constraints))` |
| Upgrade.CustomsOfPrefix | unleash-yggdrasil/src/strategy_upgrade.rs:41-48 | the custom strategies of a prefix of the list are a prefix of the list's custom strategies |
| Upgrade.OrdinalStep | unleash-yggdrasil/src/strategy_upgrade.rs:41-48 | the counter moves by one exactly at a custom strategy |
| Upgrade.OrdinalIsRank | unleash-yggdrasil/src/strategy_upgrade.rs:41-48 | built-in strategies never advance the counter, and a custom strategy at any position is the k-th custom strategy of the list, where k is the number in its `customStrategyk` lookup |
| Upgrade.CustomCounter | unleash-yggdrasil/src/strategy_upgrade.rs:41-48 | the running counter holds, at each position, the number of custom strategies up to and including that position |
| Upgrade.RuleList | unleash-yggdrasil/src/strategy_upgrade.rs:42-50 | there is one rule per strategy, in declaration order, each rendered with its own ordinal |
| Upgrade.Upgrade | unleash-yggdrasil/src/strategy_upgrade.rs:37-53 | no strategies give `true`; otherwise the strategy rules are joined with ` or ` in declaration order |
| Upgrade.WithVariants | unleash-yggdrasil/src/strategy_upgrade.rs:63 | a strategy is selected exactly when it is in the list and declares variants, and nothing is dropped exactly when every strategy declares variants |
| Upgrade.WithVariantsAppend | unleash-yggdrasil/src/strategy_upgrade.rs:61-63 | the selection keeps declaration order: selecting from two lists side by side is selecting from each, one after the other |
| Upgrade.WithVariantsSubset | unleash-yggdrasil/src/strategy_upgrade.rs:55-86 | the selected strategies still meet the upgrade precondition, so every one of them can be rendered |
| Upgrade.BuildVariantRules | unleash-yggdrasil/src/strategy_upgrade.rs:55-86 | there is one rule per variant-bearing strategy, and custom ordinals count custom strategies among those strategies only; stickiness defaults to `default` and the group to the toggle name |
| CustomResults.ResultIndex | javascript-engine/src/strategies.ts:52 | only a text starting with `customStrategy` reads back as a position |
| CustomResults.ResultNameRoundTrip | javascript-engine/src/strategies.ts:52 | the result key of a position reads back as that position, so no two positions share a key |
| CustomResults.ResultNamesDistinct | javascript-engine/src/strategies.ts:52 | two positions have the same result key exactly when they are the same position |
| CustomResults.ExternalValueReadsResult | unleash-yggdrasil/src/strategy_upgrade.rs:131 | the rule text for the custom strategy with ordinal k reads the result key a resolver gives position k - 1 |
| CustomResults.ResultKeysExact | javascript-engine/src/strategies.ts:113-118 | a position's key is among the first n keys exactly when the position is below n |
| CustomResults.ResultsOf | javascript-engine/src/strategies.ts:113-118 | the results object holds exactly the first n result keys, each mapped to the result of its position |
| CustomResults.NumberedPairsAreResults | javascript-engine/src/strategies.ts:113-118 | building a map from pairs that each carry their own position's key gives the results object of their values |
| CustomResults.Select | javascript-engine/src/strategies.ts:43-46 | the selection keeps exactly the declarations whose name passes the test, and is never longer than the input |
| CustomResults.Foreign | python-engine/yggdrasil_engine/custom_strategy.py:48-52 | exactly the strategies whose name is not a known built-in are kept |
| CustomResults.RegisteredForeign | javascript-engine/src/strategies.ts:43-46 | exactly the strategies that are not built in and have a registered implementation are kept |
| CustomResults.AllRegisteredSelectsForeign | javascript-engine/src/strategies.ts:43-46 | when every foreign strategy is registered, dropping the unregistered ones removes nothing |
| CustomResults.CustomsAreForeign | unleash-yggdrasil/src/strategy_upgrade.rs:100-114 | the strategies the upgrader numbers as custom are exactly the ones foreign to its eight built-in names, in the same order |
| CustomResults.OrdinalIsForeignPosition | unleash-yggdrasil/src/strategy_upgrade.rs:41-48 | numbering the foreign strategies consecutively from 1 gives every custom strategy the ordinal the upgrader gives it, and its rule text reads that result key |
| CustomResults.RegisteredOrdinal | javascript-engine/src/strategies.ts:43-53 | the same agreement holds for a resolver that also drops unregistered strategies, when every custom strategy is registered |
| CustomResults.KeysOfExact | javascript-engine/src/strategies.ts:101-104 | every key of a list of pairs comes from one of its pairs |
| CustomResults.LastWins | javascript-engine/src/strategies.ts:101-104 | a map built from pairs in order has exactly the pairs' keys, and each key holds the value of its last pair |
| CustomResults.LastWinsValueFromPair | javascript-engine/src/strategies.ts:101-104 | every value of such a map is the value of some pair with that key |
| CustomResults.LastWinsOfListing | javascript-engine/src/strategies.ts:113-118 | rebuilding a map from a listing of its keys, each once, with their values gives the map back |
| CustomResults.FirstWins | java-engine/src/main/java/io/getunleash/engine/CustomStrategiesEvaluator.java:42 | a map built with the keep-the-first merge has exactly the pairs' keys, and each key holds the value of its first pair |
| CustomResults.DistinctKeysAgree | java-engine/src/main/java/io/getunleash/engine/CustomStrategiesEvaluator.java:42 | with no repeated key, keeping the first and keeping the last give the same map |
| CustomResults.Unique | dotnet-engine/Yggdrasil.Engine/Strategies.cs:57 | a collector that rejects repeated keys succeeds exactly when no key repeats, and then gives the same map as keeping the last |
| CustomResults.StoreEach | python-engine/yggdrasil_engine/custom_strategy.py:58-73 | the registration loop fails exactly when some entry is invalid; names not being registered keep their old implementation, and no other name appears |
| CustomResults.StoreEachKeepsValidPrefix | python-engine/yggdrasil_engine/custom_strategy.py:58-73 | every entry before the first invalid one is stored even when the loop fails |
| CustomResults.StoreEachKeepsEarlier | python-engine/yggdrasil_engine/custom_strategy.py:58-73 | a name that was registered before stays registered, whether or not the loop fails |
| CustomResults.StoreEachStoresAll | python-engine/yggdrasil_engine/custom_strategy.py:58-73 | when every entry is valid and the names are distinct, the loop succeeds and stores every entry under its own name |
| FragmentOps.Invert | unleash-yggdrasil/src/strategy_parsing.rs:82-90 | the outcome is negated exactly when the constraint is inverted |
| FragmentOps.AnyMatch | unleash-yggdrasil/src/strategy_parsing.rs:566-568 | the walk finds a match exactly when some list item matches |
| FragmentOps.LowerAll | unleash-yggdrasil/src/strategy_parsing.rs:556 | every list item is lower-cased, in place and in order |
| FragmentOps.StringFragmentHolds | unleash-yggdrasil/src/strategy_parsing.rs:545-575 | an absent context value is false; otherwise the constraint holds exactly when some item matches the value, both lower-cased first when case is ignored |
| FragmentOps.StringListHolds | unleash-yggdrasil/src/strategy_parsing.rs:477-493 | `in` holds exactly when the value is present and listed; `not_in` holds exactly when it is absent or not listed |
| FragmentOps.CompareOrFalse | unleash-yggdrasil/src/strategy_parsing.rs:268-294 | the constraint holds exactly when the context value is present, parses, and the comparison with the literal holds |
| Fragments.Resolve | unleash-yggdrasil/src/strategy_parsing.rs:120-166 | `user_id`, `app_name`, `environment`, `session_id`, `remote_address` and `current_time` read the context field of the same name; a property accessor yields a value exactly when the context has properties holding that name, and then the stored value; `random` always yields a decimal number below 99 that parses back to the drawn value |
| Fragments.Coalesce | unleash-yggdrasil/src/strategy_parsing.rs:137-150 | the stickiness chain yields nothing exactly when every accessor yields nothing; otherwise it yields the value of the first accessor that yields one |
| Fragments.RolloutHolds | unleash-yggdrasil/src/strategy_parsing.rs:358-400 | a rollout is false when no stickiness value resolves; otherwise it holds exactly when the hash of `group:value` (group id, else toggle name) succeeds and its bucket in 1..100 is at most the percentage |
| Fragments.ExternalHolds | unleash-yggdrasil/src/strategy_parsing.rs:498-509 | an external value holds exactly when the results map exists, holds the key, and stores `true` under it |
| Fragments.HostnameHolds | unleash-yggdrasil/src/strategy_parsing.rs:417-429 | a hostname constraint holds exactly when the host name is known and equals some target, both lower-cased |
| Fragments.StringLiteral | unleash-yggdrasil/src/strategy_parsing.rs:255-261 | a literal shorter than two characters decodes to the empty text; otherwise the quotes are dropped, the inside is kept as it is when it holds no `\"`, and decoding never lengthens it and shortens it only by producing a quote |
| Fragments.LiteralDecodesUpgraderQuoting | unleash-yggdrasil/src/strategy_parsing.rs:255-261 | a value quoted by the upgrader decodes back to itself |
| Fragments.InversionNegates | unleash-yggdrasil/src/strategy_parsing.rs:576-603 | every constraint kind honours `!`: the inverted constraint is the negation of the plain one in every environment |
| Fragments.ConnectivesAreBoolean | unleash-yggdrasil/src/strategy_parsing.rs:605-628 | `and` and `or` are Boolean conjunction and disjunction of their sides |
| Fragments.EmptyListIgnoresContext | unleash-yggdrasil/src/strategy_parsing.rs:455-458 | an empty list holds for `not_in` and fails for `in`, whatever the context |
| Fragments.AbsentValue | unleash-yggdrasil/src/strategy_parsing.rs:447-493 | with no context value, a string list is false for `in` and true for `not_in`, and the numeric, date, semver, numeric-list, IP and string-fragment constraints are false |
| FragmentsLegacy.LegacyLiteral | sdk-core/src/strategy_parsing.rs:187-193 | a literal of two or more characters is its first character, the result and its last character; nothing is unescaped |
| FragmentsLegacy.LegacyResolve | sdk-core/src/strategy_parsing.rs:79-114 | `user_id`, `app_name`, `environment`, `session_id` and `remote_address` read the context field of the same name; a property accessor yields a value exactly when the context's properties hold that name, and then the stored value; `random` yields the drawn number in decimal |
| FragmentsLegacy.LegacyRolloutHolds | sdk-core/src/strategy_parsing.rs:266-326 | an explicit stickiness that resolves to nothing is false; without one the user id, then the session id is hashed with group id `""` by default, and with neither the random bucket is compared instead |
| FragmentsLegacy.NumericInversion | sdk-core/src/strategy_parsing.rs:195-218 | a numeric constraint with no context value is false even under `!`; with one, it is the comparison negated exactly when inverted |
| FragmentsLegacy.InversionIgnored | sdk-core/src/strategy_parsing.rs:423-446 | every constraint other than numeric and default-strategy ignores a leading `!` |
| FragmentsLegacy.DefaultLiteral | sdk-core/src/strategy_parsing.rs:390-394 | a default-strategy constraint is its literal, negated exactly when inverted |
| FragmentsLegacy.LegacyConnectives | sdk-core/src/strategy_parsing.rs:447-463 | `and` and `or` are Boolean conjunction and disjunction |
| FragmentsPrototype.NewProtoContext | sdk-core/src/strategy_parser.rs:21-33 | a new context keeps the given user id and properties, with empty application name and environment |
| FragmentsPrototype.ProtoResolve | sdk-core/src/strategy_parser.rs:62-92 | a property accessor yields the stored property, and the `user_id`, `app_name` and `environment` accessors the context field of the same name |
| FragmentsPrototype.ProtoRolloutHolds | sdk-core/src/strategy_parser.rs:162-203 | the rollout holds exactly when the hash of `group:value` succeeds and its bucket modulo 100 is at most the percentage, with stickiness and group both defaulting to `""` |
| FragmentsPrototype.ListComparatorDiscarded | sdk-core/src/strategy_parser.rs:204-220 | `in` and `not_in` give the same outcome: membership of the context number in the list |
| FragmentsPrototype.ProtoConnectives | sdk-core/src/strategy_parser.rs:244-260 | `and` and `or` are Boolean conjunction and disjunction |
| RuleParser.NewRuleContext | rule-parser/src/lib.rs:22-29 | a new context keeps the given user id and properties, with an empty environment |
| RuleParser.RuleLeafHolds | rule-parser/src/lib.rs:146-251 | numeric and semver constraints hold exactly when the user id parses and the comparison holds; a rollout holds exactly when the hash of `group:stickiness` succeeds and its bucket modulo 100 is at most the percentage |
| RuleParser.OrActsAsAnd | rule-parser/src/lib.rs:74-84 | `or` is evaluated as conjunction, exactly like `and` |
| UpgradeLegacy.LegacyContextName | sdk-core/src/strategy_upgrade.rs:172-182 | the five well-known context names map to their rule names (there is no `currentTime` here); any other name becomes a `context["name"]` reference |
| UpgradeLegacy.QuotePlain | sdk-core/src/strategy_upgrade.rs:146-162 | each value is wrapped in quotes without escaping, so stripping the quotes gives the value back |
| UpgradeLegacy.LegacyConstraint | sdk-core/src/strategy_upgrade.rs:146-162 | a constraint renders exactly as `<context> in [<values>]` or `<context> not_in [<values>]`, with the mapped context name and the values each wrapped in quotes without escaping, joined with `, `; absent values give `[]` |
| UpgradeLegacy.LegacyConstraints | sdk-core/src/strategy_upgrade.rs:130-144 | an absent and an empty constraint list both give no clause; otherwise the rendered constraints joined with ` and ` |
| UpgradeLegacy.LegacyFlexibleRollout | sdk-core/src/strategy_upgrade.rs:47-69 | without a rollout parameter the rule is `false`; otherwise exactly the raw rollout text and `%`, then ` sticky on C` exactly for a stickiness other than `default`, then ` with group_id of "G"` exactly when a group id `G` is given |
| UpgradeLegacy.RolloutRule | sdk-core/src/strategy_upgrade.rs:47-69 | from the three parameter values: no rollout gives `false`; otherwise exactly the rollout and `%`, the stickiness clause for a stickiness other than `default`, and the group clause when a group id is given |
| UpgradeLegacy.StickyRollout | sdk-core/src/strategy_upgrade.rs:53-59 | the rollout and `%` always lead; `sticky on` and the context name follow exactly for a stickiness other than `default` |
| UpgradeLegacy.LegacyStrategyRule | sdk-core/src/strategy_upgrade.rs:28-37 | each known name gives its own upgrader's rule (gradual rollouts on `user_id` or `session_id`, and `remote_address in [..]` over the trimmed, quoted addresses); every other name, custom strategies included, gives `true`; a missing parameter gives the empty text rather than `false` |
| UpgradeLegacy.LegacyGradual | sdk-core/src/strategy_upgrade.rs:95-121 | the two gradual rollouts are empty unless both the percentage and the group id are given |
| UpgradeLegacy.LegacyUpgradeStrategy | sdk-core/src/strategy_upgrade.rs:28-45 | a strategy without constraint clause is its rule alone; otherwise `(rule and (constraints))` |
| UpgradeLegacy.LegacyUpgrade | sdk-core/src/strategy_upgrade.rs:3-13 | no strategies give `true`; otherwise the strategies' rules in order, joined with ` or ` |
| UpgradeLegacy.LegacyUpgradeAppend | sdk-core/src/strategy_upgrade.rs:3-13 | upgrading two non-empty strategy lists one after the other is upgrading each and joining the two rules with ` or ` |
| UpgradeLegacy.CustomStrategyIsTrue | sdk-core/src/strategy_upgrade.rs:28-37 | an unconstrained custom strategy is always on in this upgrader |
| CoreState.CoreParam | sdk-core/src/strategy_upgrade.rs:19-26 | a parameter is present exactly when the strategy has parameters holding the key, and then it is the stored value |
| CoreEngine.StringParam | sdk-core/src/strategy.rs:18-23 | a present key gives its text and a missing one the empty text |
| CoreEngine.IntParam | sdk-core/src/strategy.rs:25-30 | a missing key and a value that is not a `u32` both read as 0; otherwise the parsed value |
| CoreEngine.IntParamReadsPrinted | sdk-core/src/strategy.rs:25-30 | a number written into a parameter is read back as that number |
| CoreEngine.Percentage | sdk-core/src/strategy.rs:59-110 | the rollout percentage is 0 without a parameter map, and the integer parameter otherwise |
| CoreEngine.GroupParam | sdk-core/src/strategy.rs:59-98 | the rollout group is the empty text without a parameter map, and the text parameter otherwise |
| CoreEngine.ParseIds | sdk-core/src/strategy.rs:40-44 | the ids are read exactly when every entry reads as a `u32`, one id per entry in order |
| CoreEngine.UserIds | sdk-core/src/strategy.rs:36-52 | a missing `userIds` and any entry that is not a `u32` both give no ids; otherwise the ids of the comma-separated entries |
| CoreEngine.UserIdsOfPrinted | sdk-core/src/strategy.rs:36-52 | ids written as the comma-joined list the server sends are read back as the same ids, in order |
| CoreEngine.ParsedNets | sdk-core/src/strategy.rs:129-136 | the result holds exactly the networks that some trimmed entry parses to; entries that do not parse are dropped |
| CoreEngine.RemoteNets | sdk-core/src/strategy.rs:123-143 | a missing `IPs` parameter lists no network; otherwise the networks parsed from its comma-separated entries |
| CoreEngine.SingleListedAddress | sdk-core/src/strategy.rs:123-143 | an `IPs` parameter with one address lists exactly that address under a parser that keeps every entry |
| CoreEngine.AnyContains | sdk-core/src/strategy.rs:193-197 | the loop finds a network exactly when some listed network holds the address |
| CoreEngine.RolloutHit | sdk-core/src/strategy.rs:161-182 | a missing id or a failing hash gives false; otherwise the id is in exactly when its bucket modulo 100 is at most the percentage |
| CoreEngine.RolloutMonotone | sdk-core/src/strategy.rs:161-182 | raising the percentage never takes an id out of a gradual rollout |
| CoreEngine.RolloutBounds | sdk-core/src/strategy.rs:161-182 | at 99 percent every id whose hash succeeds is in, and the ids in bucket 0 are in at any percentage |
| CoreEngine.StrategyEnabled | sdk-core/src/strategy.rs:151-213 | each built-in strategy as the code evaluates it: listed user id, rollout by user or session, random draw, and, through the early `return true` inside the `remoteAddress` loop, a listed network holding the caller's address; unknown names are on |
| CoreEngine.PercentageMonotone | sdk-core/src/strategy.rs:161-188 | raising the `percentage` parameter of any gradual rollout never turns a caller away, whatever the other parameters and the context |
| CoreEngine.ListedAddressEnabled | sdk-core/src/strategy.rs:123-197 | a caller is let in by `remoteAddress` whenever some trimmed comma-separated entry of `IPs` parses as a network holding its address |
| CoreEngine.TakeState | sdk-core/src/lib.rs:54-56 | the new state replaces whatever was loaded before |
| CoreEngine.FindToggle | sdk-core/src/lib.rs:29 | the result is the first toggle with the name, and there is none exactly when no toggle has it |
| CoreEngine.AnyEnabled | sdk-core/src/lib.rs:37-41 | the walk succeeds exactly when some strategy from the given position on is enabled |
| CoreEngine.IsEnabled | sdk-core/src/lib.rs:26-52 | no state means off; otherwise the toggle is on exactly when the first toggle of that name exists and is active |
| CoreEngine.TakeStateForgetsPrevious | sdk-core/src/lib.rs:54-56 | two engines handed the same state answer alike, whatever they held before |
| CoreEngine.LaterDuplicateIgnored | sdk-core/src/lib.rs:29 | a later toggle whose name is already present is never consulted |
| CoreEngine.FindPrefix | sdk-core/src/lib.rs:29 | appending toggles after a match does not move the first match |
| CoreEngine.DisabledIsOff | sdk-core/src/lib.rs:32-34 | a disabled toggle is off whatever its strategies say |
| YggdrasilEngine.Enrich | unleash-yggdrasil/src/lib.rs:101 | the context a rule runs against carries the toggle's name and the caller's ids and properties, and no external results |
| YggdrasilEngine.SegmentPairs | unleash-yggdrasil/src/lib.rs:37 | one `(id, segment)` pair per segment, in document order |
| YggdrasilEngine.SegmentMap | unleash-yggdrasil/src/lib.rs:31-41 | no segments give an empty map; otherwise the map holds exactly the segment ids, each mapped to the last segment with that id |
| YggdrasilEngine.CompileToggle | unleash-yggdrasil/src/lib.rs:48-56 | a compiled toggle keeps the toggle's name, enabled flag and variants, and its rule is the compiled upgrade of its strategies |
| YggdrasilEngine.CompiledPairs | unleash-yggdrasil/src/lib.rs:46-56 | one `(name, compiled toggle)` pair per toggle, in document order |
| YggdrasilEngine.CompileState | unleash-yggdrasil/src/lib.rs:43-60 | the compiled state has an entry for exactly the names some toggle carries, and each holds the compilation of the last toggle with that name |
| YggdrasilEngine.TakeState | unleash-yggdrasil/src/lib.rs:165-167 | the compiled document replaces any earlier state |
| YggdrasilEngine.GetToggle | unleash-yggdrasil/src/lib.rs:92-97 | a toggle is found exactly when there is a compiled state holding the name, and it is the stored toggle |
| YggdrasilEngine.Enabled | unleash-yggdrasil/src/lib.rs:99-106 | a toggle is enabled exactly when it exists, is switched on, and its rule holds on the context carrying its name |
| YggdrasilEngine.IsEnabled | unleash-yggdrasil/src/lib.rs:108-116 | no state or an unknown name means off, and an enabled answer implies the toggle is switched on |
| YggdrasilEngine.EnabledAfterTakeState | unleash-yggdrasil/src/lib.rs:43-60 | after taking a state, a name answers as the last toggle with that name: switched on and its own compiled upgrade holding |
| YggdrasilEngine.UnknownAfterTakeState | unleash-yggdrasil/src/lib.rs:108-116 | a name no toggle of the document carries is off after taking it |
| YggdrasilEngine.RunningMonotone | unleash-yggdrasil/src/lib.rs:147-149 | the running sum of weights never decreases along the variants |
| YggdrasilEngine.VariantOverride | unleash-yggdrasil/src/lib.rs:204-225 | the result is the first variant overriding for the user, and there is none exactly when no variant does |
| YggdrasilEngine.OnlyUserIdOverrides | unleash-yggdrasil/src/lib.rs:211-220 | an override on any context name other than `userId` never applies |
| YggdrasilEngine.CustomStickiness | unleash-yggdrasil/src/lib.rs:173-202 | no variants or a first variant without stickiness ask for none; otherwise the first variant's stickiness is read from the context, and a missing value is the error |
| YggdrasilEngine.Seed | unleash-yggdrasil/src/lib.rs:134-140 | the hash seed is the custom stickiness value, else the user id, else the session id |
| YggdrasilEngine.SelectFrom | unleash-yggdrasil/src/lib.rs:146-155 | the loop picks the first variant whose running weight strictly exceeds the target, and none when no running weight does |
| YggdrasilEngine.SelectAbove | unleash-yggdrasil/src/lib.rs:146-155 | the same over all variants |
| YggdrasilEngine.SelectionInterval | unleash-yggdrasil/src/lib.rs:146-155 | the chosen variant is the one whose weight interval holds the target |
| YggdrasilEngine.SelectsIffBelowTotal | unleash-yggdrasil/src/lib.rs:146-156 | some variant is chosen exactly when the target is below the total weight |
| YggdrasilEngine.GetVariant | unleash-yggdrasil/src/lib.rs:118-163 | an unknown, disabled or variant-less toggle gives the default variant; an override for the user wins; any other answer is an enabled variant of the toggle; the unseeded target is a draw in 0..98; `get_variant` is defined only when the weight sum fits a `u32` and, with a seed, the total is non-zero and the hash succeeds |
| YggdrasilEngine.MissingStickinessGivesDefault | unleash-yggdrasil/src/lib.rs:141 | a custom stickiness the context lacks gives the default variant even for an enabled toggle |
| YggdrasilEngine.DefaultStickinessIsAProperty | unleash-yggdrasil/src/lib.rs:184-190 | the stickiness `default` is looked up as a context property, so without such a property nothing is found |
| YggdrasilEngine.SeededSelection | unleash-yggdrasil/src/lib.rs:132-156 | with a seed, the toggle yields a variant exactly when the hashed target is below the total weight, and then the variant whose interval holds it |
| YggdrasilEngine.UnseededSelection | unleash-yggdrasil/src/lib.rs:134-156 | without a custom stickiness value, user id or session id, the toggle yields a variant exactly when the number drawn from 0..98 is below the total weight, and then the variant whose interval holds it; the corrected selection answers the same on this path |
| YggdrasilEngine.HashedTarget | unleash-yggdrasil/src/strategy_parsing.rs:38-46 | the hashed target of a seeded caller is a bucket in 1..total weight |
| YggdrasilEngine.TopBucketGivesDefault | unleash-yggdrasil/src/lib.rs:146-156 | as written, a caller hashed to the top bucket (target equal to the total weight) of an enabled toggle gets the default variant |
| YggdrasilEngine.SingleUnitVariantNeverChosen | unleash-yggdrasil/src/lib.rs:146-156 | as written, an enabled toggle whose only variant has weight 1 never gives that variant to a seeded caller |
| YggdrasilEngine.GetVariantIntended | unleash-yggdrasil/src/lib.rs:146-156 | the corrected selection compares the 1-based hashed target with `>=`; off the hashed path it answers exactly as written |
| YggdrasilEngine.IntendedSeededAlwaysSelects | unleash-yggdrasil/src/lib.rs:146-156 | with the corrected comparison every seeded caller of an enabled toggle with variants gets the variant whose interval `(before, after]` holds the hashed target |
| WasmEngine.NewEngine | yggdrasil-wasm/src/lib.rs:31-36 | a new engine has nothing compiled and no grammars |
| WasmEngine.GrammarPairs | yggdrasil-wasm/src/lib.rs:285-294 | one `(name, upgraded rule text)` pair per toggle, in document order |
| WasmEngine.ComputeGrammars | yggdrasil-wasm/src/lib.rs:282-294 | the grammars hold exactly the names some toggle carries, each mapped to the upgraded rule text of the last toggle with that name |
| WasmEngine.LoadClientFeatures | yggdrasil-wasm/src/lib.rs:92-104 | an unparseable document is reported with its message and changes nothing; otherwise the compiled state and the grammars are both replaced and the compiler's warnings returned |
| WasmEngine.ToggleGrammar | yggdrasil-wasm/src/lib.rs:58-61 | a grammar is returned exactly when one is stored under the name, and it is the stored one |
| WasmEngine.NoStrategiesReadsTrue | yggdrasil-wasm/src/lib.rs:282-294 | after loading, a toggle without strategies reads back the grammar `true` when no later toggle has its name |
| WasmEngine.ApplyGrammar | yggdrasil-wasm/src/lib.rs:118-130 | a grammar that does not compile is reported first, an unknown toggle second; the update succeeds exactly when both checks pass, and then only that toggle's rule and grammar change; the set of toggles never changes |
| WasmEngine.ApplyEach | yggdrasil-wasm/src/lib.rs:69-80 | the updates succeed exactly when none of them is refused, and the set of toggles never changes |
| WasmEngine.SetGrammars | yggdrasil-wasm/src/lib.rs:69-80 | an undecodable payload is an error that changes nothing; otherwise the updates are applied in iteration order |
| WasmEngine.ApplyEachStopsAtFirstRefusal | yggdrasil-wasm/src/lib.rs:74-77 | the loop stops at the first refused update, keeping the updates before it applied and reporting that update's error |
| WasmEngine.GetSeed | yggdrasil-wasm/src/lib.rs:308-327 | with no stickiness or `default`, the seed is the user id, else the session id; otherwise the named context field or property |
| WasmEngine.SelectFrom | yggdrasil-wasm/src/lib.rs:259-265 | the loop picks the first variant whose running weight reaches the target, and none when no running weight does |
| WasmEngine.SelectsIffWithinTotal | yggdrasil-wasm/src/lib.rs:259-268 | the loop finds a variant exactly when the list is non-empty and the target is at most the total weight; otherwise the last variant is the fallback |
| WasmEngine.SelectionInterval | yggdrasil-wasm/src/lib.rs:259-265 | a found variant's weight interval holds the target |
| WasmEngine.ResolveVariant | yggdrasil-wasm/src/lib.rs:234-269 | no variants give none; an override for the user wins; the engine traps exactly when, with no override, the total weight overflows 32 bits or is 0 while there is a seed to hash |
| WasmEngine.SeededTargetIsSelected | yggdrasil-wasm/src/lib.rs:252-265 | with a positive total weight that fits in 32 bits, the hashed target always selects a variant inside the list, so the last-variant fallback is not used |
| WasmEngine.CheckVariant | yggdrasil-wasm/src/lib.rs:200-232 | a resolved variant is always reported enabled |
| WasmEngine.DependencySatisfied | yggdrasil-wasm/src/lib.rs:166-198 | a missing parent, or a parent with dependencies of its own, is unsatisfied; a satisfied dependency has a parent whose enabled state equals the expected one, `true` by default |
| WasmEngine.ParentsSatisfied | yggdrasil-wasm/src/lib.rs:160-164 | all parents are satisfied exactly when every dependency from the given position on is satisfied |
| WasmEngine.ToggleEnabled | yggdrasil-wasm/src/lib.rs:160-164 | a toggle is enabled exactly when it is switched on, every parent dependency is satisfied and its rule holds |
| WasmEngine.ParseContext | yggdrasil-wasm/src/lib.rs:272-280 | blank context text is read as `{}`; a parse error is reported with the `Invalid context JSON:` prefix |
| WasmEngine.Evaluate | yggdrasil-wasm/src/lib.rs:132-158 | an unknown toggle is an error before the context is read; a successful answer is enabled exactly when the toggle is, its variant carries the same state, and a disabled toggle reports the default variant |
| WasmEngine.EvaluateIn | yggdrasil-wasm/src/lib.rs:142-157 | a failed context read is passed on as the error; a successful answer is enabled exactly when the toggle evaluates as enabled, its variant carries that state, and a disabled toggle reports the default variant |
| WasmEngine.NeverHoldingGrammarDisables | yggdrasil-wasm/src/lib.rs:118-130 | replacing a toggle's grammar by one that never holds switches it off for every context |
| WasmEngine.UnsatisfiedDependencyDisables | yggdrasil-wasm/src/lib.rs:166-198 | a dependency on a missing parent, or on a parent with dependencies, keeps the child off |
| WasmEngine.BlankContextIsEmptyObject | yggdrasil-wasm/src/lib.rs:272-280 | evaluating with blank context text is the same as evaluating with `{}` |
| WasmEngine.BlankParsesAsEmptyObject | yggdrasil-wasm/src/lib.rs:272-280 | blank context text is read exactly as `{}` is |
| WasmEnvelope.WasmTakeState | yggdrasilwasm/src/lib.rs:39-70 | a state that does not parse leaves the engine as it was and answers `Error` with the parse message; a parsed state is applied, and the answer is `Ok` exactly when there were no warnings, otherwise `Error` with the partial-update text; never `NotFound` |
| WasmEnvelope.ArgumentError | yggdrasilwasm/src/lib.rs:73-90 | there is an error message exactly when reading the arguments fails; an unreadable context is reported before unreadable strategy results, each with its own prefix |
| WasmEnvelope.WasmCheckEnabled | yggdrasilwasm/src/lib.rs:72-111 | the answer is `Error` exactly when the arguments cannot be read, and otherwise `Ok` carrying the engine's answer (none for an unknown toggle); never `NotFound` |
| WasmEnvelope.WasmCheckVariant | yggdrasilwasm/src/lib.rs:113-155 | `Error` exactly when the arguments cannot be read; otherwise `Ok` with the engine's variant, if any, carrying the toggle's state from the same context |
| WasmEnvelope.WasmGetMetrics | yggdrasilwasm/src/lib.rs:157-169 | metrics are returned bare when there are any; otherwise a `NotFound` envelope with the no-metrics message |
| WasmEnvelope.WasmCount | yggdrasilwasm/src/lib.rs:171-195 | the count is recorded and the envelope is always `Ok` |
| WasmEnvelope.WasmEnvelopesDecode | yggdrasilwasm/src/lib.rs:72-195 | a binding never reads a `checkEnabled` answer as missing, and always reads a count as success |
| PureWasm.PackRoundTrip | pure-wasm/src/serialisation.rs:36-38 | the host recovers exactly the pointer and length the guest packed, and every packed value is the packing of what the host reads from it |
| PureWasm.JavaInt | java-engine/src/main/java/io/getunleash/engine/WasmInterface.java:229-230 | the Java `int` cast lies in the signed 32-bit range and is non-negative exactly when the top bit is clear |
| PureWasm.JavaIntsAreValues | java-engine/src/main/java/io/getunleash/engine/WasmInterface.java:229-230 | below 2^31 the host's ints are the pointer and length themselves |
| PureWasm.BuildResponse | pure-wasm/src/serialisation.rs:25-33 | the builder is left holding exactly the reply that was copied out |
| PureWasm.NoLeftoverLeaks | pure-wasm/src/serialisation.rs:25-33 | the builder is reset first, so whatever an earlier reply left in it, the reply is exactly the new table |
| PureWasm.WriteKeepsLeftover | pure-wasm/src/serialisation.rs:28-30 | writing into a builder that still holds a reply would put that reply in front of the new bytes |
| PureWasm.RepliesIndependent | pure-wasm/src/serialisation.rs:25-33 | in a run of calls sharing the thread's builder, every reply is exactly its own input's table |
| PureWasm.BoolTable | pure-wasm/src/serialisation.rs:45-72 | the enabled field is set exactly for a successful answer with a value, and the error field exactly for an error |
| PureWasm.BoolTableRoundTrip | pure-wasm/src/serialisation.rs:45-72 | the answer can be read back from its table |
| PureWasm.VariantTable | pure-wasm/src/serialisation.rs:73-116 | no variant gives the empty table, an error the empty table with its message, and a variant a table with its name and payload |
| PureWasm.VariantTableRoundTrip | pure-wasm/src/serialisation.rs:73-116 | the variant answer can be read back from its table |
| PureWasm.BucketTable | pure-wasm/src/serialisation.rs:117-164 | no metrics give an empty bucket; otherwise the bucket keeps the toggles and the start and stop times |
| PureWasm.FeatureDefsTable | pure-wasm/src/serialisation.rs:165-199 | one item per toggle definition, in order, keeping its name, project, state and type |
| PureWasm.FeatureDefsRoundTrip | pure-wasm/src/serialisation.rs:165-199 | the definitions can be read back from the table, in order |
| PureWasm.Capacity | pure-wasm/src/logging.rs:25 | one byte of the buffer is kept for the terminator |
| PureWasm.WriteStr | pure-wasm/src/logging.rs:23-30 | as much of the text as fits before the reserved byte is copied at the position reached, and nothing else in the buffer changes |
| PureWasm.Finalize | pure-wasm/src/logging.rs:34-39 | a NUL is written at the position reached when it lies in the buffer, nothing else changes, and the position is returned |
| PureWasm.WasmLog | pure-wasm/src/logging.rs:11-45 | the buffer holds the message truncated to the buffer less one byte, followed by a NUL, with nothing after it touched, and the count is the number of message bytes kept |
| FfiEnvelope.ErrorText | yggdrasilffi/src/lib.rs:70-83 | an invalid-JSON error prints its prefix followed by serde's message, a partial update its prefix followed by the warnings; no error prints as empty text |
| FfiEnvelope.ErrorTextInjective | yggdrasilffi/src/lib.rs:70-83 | two invalid-JSON errors that print the same are the same error, so the message is recoverable from the text |
| FfiEnvelope.Discriminant | yggdrasilffi/src/lib.rs:34-38 | every status code has one of the discriminants -2, -1 and 1 |
| FfiEnvelope.FromDiscriminant | yggdrasilffi/src/lib.rs:34-38 | a number names a status code exactly when it is -2, -1 or 1 |
| FfiEnvelope.DiscriminantRoundTrip | yggdrasilffi/src/lib.rs:34-38 | the discriminants identify the codes: no two codes share one |
| FfiEnvelope.ParseStatusName | yggdrasilffi/src/lib.rs:33-38 | a status name is read only when it is exactly a code's name |
| FfiEnvelope.StatusNameRoundTrip | yggdrasilffi/src/lib.rs:33-38 | reading back the name serde writes for a code gives the code |
| FfiEnvelope.StatusName | yggdrasilffi/src/lib.rs:33-38 | the names `Error` and `NotFound` are written for exactly those codes, and no name is empty |
| FfiEnvelope.ToWire | yggdrasilffi/src/lib.rs:110-114 | the wire form carries the status as its name, and the value and message unchanged |
| FfiEnvelope.FromResult | yggdrasilffi/src/lib.rs:40-60 | a present value is `Ok`, an absent one `NotFound`, an error `Error`; only `Ok` carries a value and only `Error` a message |
| FfiEnvelope.EnvelopeRoundTrip | yggdrasilffi/src/lib.rs:40-60 | decoding the envelope gives back the result it was built from, with the error replaced by its printed text |
| FfiEnvelope.GetStr | yggdrasilffi/src/lib.rs:97-103 | a null pointer is the null error, invalid UTF-8 the UTF-8 error, and otherwise the text |
| FfiEnvelope.GetJson | yggdrasilffi/src/lib.rs:105-108 | the text is read first and its error kept; otherwise the parse result, with serde's message on failure |
| FfiEnvelope.GetEngine | yggdrasilffi/src/lib.rs:116-126 | the engine is found exactly when the pointer is not null, and a null pointer is the null error |
| FfiEnvelope.CheckArguments | yggdrasilffi/src/lib.rs:209-242 | the arguments are checked in the order engine, toggle name, context, strategy results; the first failure is reported, and all four read means success with their values |
| FfiEnvelope.CheckEnabled | yggdrasilffi/src/lib.rs:209-242 | a null engine or toggle is an `Error` with the null message; with readable arguments, an unknown toggle is `NotFound` and a known one `Ok` with its flag |
| FfiEnvelope.CheckVariant | yggdrasilffi/src/lib.rs:244-274 | no variant is `NotFound`; a variant is `Ok` and carries whether the toggle is enabled, false for an unknown toggle |
| FfiEnvelope.TakeState | yggdrasilffi/src/lib.rs:177-207 | a null engine is an error; a document that does not parse is an error that leaves the engine alone; an applied update answers `Ok` exactly when there were no warnings, and otherwise `Error` naming them; never `NotFound` |
| FfiEnvelope.CountToggleFlagIsParity | yggdrasilffi/src/lib.rs:331 | only the lowest bit of the byte decides the flag |
| FfiEnvelope.CountToggle | yggdrasilffi/src/lib.rs:323-357 | the count is recorded exactly when the engine and the name can be read, with the parity of the byte as the flag, and the answer is then `Ok`; otherwise `Error` |
| FfiEnvelope.FreeNullable | yggdrasilffi/src/lib.rs:159-164 | a null pointer releases nothing, and anything else is released exactly once |
| LowLevelMessage.LowString | yggdrasilffi/src/low_level_api.rs:69-76 | offset 0 is absent; otherwise the bytes up to the first NUL, decoded lossily |
| LowLevelMessage.LowPairs | yggdrasilffi/src/low_level_api.rs:104-108 | one `(key, flag)` pair per pair of table slots, in the order the loop visits them |
| LowLevelMessage.LowUnpack | yggdrasilffi/src/low_level_api.rs:57-125 | a buffer shorter than the header is the invalid-format error; otherwise properties and current time are always absent, the toggle name is read from its offset, and the custom results are absent exactly when their count is 0 |
| LowLevelMessage.LowCustomsLastWins | yggdrasilffi/src/low_level_api.rs:97-111 | the custom results hold exactly the keys of the table's pairs, each mapped to the flag of its last pair |
| LowLevelMessage.QuickCheck | yggdrasilffi/src/low_level_api.rs:127-160 | a null engine is the null error, a null or empty message the UTF-8 error, a short one the invalid-format error; otherwise 1 or 0 for a known toggle and 2 for an unknown one; 3 exactly when there is an error |
| WireBytes.U32Bytes | yggdrasilffi/src/packed_message_api.rs:100-105 | a `u32` is encoded as four bytes |
| WireBytes.ReadU32Bytes | yggdrasilffi/src/packed_message_api.rs:100-105 | four bytes that encode a number read back as that number |
| WireBytes.Words | yggdrasilffi/src/packed_message_api.rs:15-28 | a list of words takes four bytes per word |
| WireBytes.WordAt | yggdrasilffi/src/packed_message_api.rs:15-28 | each word of the list sits, encoded, at four times its position |
| WireBytes.ReadPlacedWord | yggdrasilffi/src/packed_message_api.rs:100-112 | a word of a list placed in a buffer reads back from its offset |
| WireBytes.NulIndex | yggdrasilffi/src/packed_message_api.rs:83 | the end of a string is the first NUL at or after its start |
| WireBytes.GetString | yggdrasilffi/src/packed_message_api.rs:78-85 | offset 0 is absent, never the empty string; any other offset yields the NUL-free bytes from there up to the first NUL |
| WireBytes.GetPlacedString | yggdrasilffi/src/packed_message_api.rs:78-85 | a NUL-free string placed with a terminating NUL is read back whole |
| WireBytes.Heap | yggdrasilffi/src/packed_message_api.rs:78-85 | the string area is as long as the strings plus one terminating NUL each |
| WireBytes.HeapString | yggdrasilffi/src/packed_message_api.rs:78-85 | every string of such a layout reads back from its own offset |
| PackedMessage.MetricCode | yggdrasilffi/src/packed_message_api.rs:31-37 | the metric request is stored as one of the bytes 0, 1 and 2 |
| PackedMessage.MetricOf | yggdrasilffi/src/packed_message_api.rs:31-37 | reading a metric byte back gives the request it encodes |
| PackedMessage.PropEntries | yggdrasilffi/src/packed_message_api.rs:94-121 | the properties table as read: key and value of each of its entries, in order |
| PackedMessage.CustomEntries | yggdrasilffi/src/packed_message_api.rs:124-142 | the custom-result table as read: the key of each entry and, exactly when the key is present, its flag |
| PackedMessage.Unpack | yggdrasilffi/src/packed_message_api.rs:70-163 | a buffer shorter than the header is the invalid-format error; otherwise the properties and custom results are absent exactly when their counts are 0, and the toggle name is the NUL-free string at its offset |
| PackedMessage.Slots | yggdrasilffi/src/packed_message_api.rs:15-28 | the message's strings: eight header strings, then key and value of each property, then the key of each custom result |
| PackedMessage.PropWords | yggdrasilffi/src/packed_message_api.rs:98-112 | the properties table holds, for each entry, the offsets of its key and its value |
| PackedMessage.CustomTableAt | yggdrasilffi/src/packed_message_api.rs:10 | each custom-result entry takes five bytes, at five times its position |
| PackedMessage.CustomWords | yggdrasilffi/src/packed_message_api.rs:128-139 | the custom-result table holds, for each result, the offset of its key and its flag |
| PackedMessage.Pack | yggdrasilffi/src/packed_message_api.rs:15-28 | a message laid out as the decoder expects it has the size the layout adds up to |
| PackedMessage.PackLaid | yggdrasilffi/src/packed_message_api.rs:15-28 | header, properties table, custom-result table and strings sit where the header's offsets say |
| PackedMessage.HeaderLayout | yggdrasilffi/src/packed_message_api.rs:15-28 | an absent header string has offset 0 and a present one the address of its own string |
| PackedMessage.PropsReadBack | yggdrasilffi/src/packed_message_api.rs:94-121 | the properties table of a packed message reads back entry by entry |
| PackedMessage.CustomsReadBack | yggdrasilffi/src/packed_message_api.rs:124-142 | the custom-result table of a packed message reads back entry by entry |
| PackedMessage.ReadsAsUnpacks | yggdrasilffi/src/packed_message_api.rs:70-163 | any buffer that reads like a packed message decodes to the message written |
| PackedMessage.PackDecodable | yggdrasilffi/src/packed_message_api.rs:70-163 | a packed message never makes the decoder panic |
| PackedMessage.UnpackPack | yggdrasilffi/src/packed_message_api.rs:70-163 | decoding a packed message recovers every present field, keeps absent fields absent (never empty), and turns the two tables into maps where the last entry for a key wins, absent when empty |
| PackedOneShot.Flag | yggdrasilffi/src/packed_message_api.rs:261-262 | a Boolean is sent as the byte 1 for true and 0 for false |
| PackedOneShot.ReadCall | yggdrasilffi/src/packed_message_api.rs:319-331 | a null engine, and a null or empty message, are the null error; a short message is the invalid-format error; otherwise the call proceeds with the decoded message |
| PackedOneShot.ToggleMetrics | yggdrasilffi/src/packed_message_api.rs:336-349 | `Always` counts even an unknown toggle, as disabled; `IfExists` counts only a known one; the third request never counts |
| PackedOneShot.CountedVariant | yggdrasilffi/src/packed_message_api.rs:226-236 | the variant counted is the chosen variant's name, else the message's default variant name, else `disabled` |
| PackedOneShot.PolicyCountsOnce | yggdrasilffi/src/packed_message_api.rs:336-349 | a call counts a toggle at most once, the no-metrics request never counts, and `Always` always counts |
| PackedOneShot.EnabledStatus | yggdrasilffi/src/packed_message_api.rs:354-370 | the value byte of an answer is at most 2 |
| PackedOneShot.EnabledStatusRoundTrip | yggdrasilffi/src/packed_message_api.rs:354-370 | the value byte carries the engine's answer without loss, an unknown toggle included |
| PackedOneShot.OneShotIsEnabled | yggdrasilffi/src/packed_message_api.rs:313-371 | an error answers 3 with the error and records nothing; otherwise the value byte is the engine's answer, the impression flag the engine's, and the toggle counted as the request says |
| PackedOneShot.OneShotIsEnabledPacked | yggdrasilffi/src/packed_message_api.rs:313-371 | a message packed from given fields is answered with what the engine says about exactly those fields |
| PackedOneShot.VariantMetrics | yggdrasilffi/src/packed_message_api.rs:226-241 | a variant call on a known toggle counts the variant first, then the toggle unless the request says never |
| PackedOneShot.OneShotGetVariant | yggdrasilffi/src/packed_message_api.rs:194-288 | an error answers with only its message and records nothing; an unknown toggle answers all-zero and counts as the request says; otherwise the engine's variant is reported, with payload type and value present together |
| PackedOneShot.CountedIsAnswered | yggdrasilffi/src/packed_message_api.rs:226-236 | whenever a variant is answered, it is the variant that was counted |
| PackedOneShot.FreeEnabledResponse | yggdrasilffi/src/packed_message_api.rs:386-397 | a null response is left alone; otherwise the error string is released once and nulled, and the value and impression bytes are untouched |
| PackedOneShot.FreeVariantResponse | yggdrasilffi/src/packed_message_api.rs:418-444 | each non-null string is released once and its pointer nulled; the flags are untouched |
| PackedOneShot.FreeTwiceReleasesOnce | yggdrasilffi/src/packed_message_api.rs:418-444 | freeing twice releases every string exactly once: the second call releases nothing |
| PackedOneShot.VariantResponseOwnership | yggdrasilffi/src/packed_message_api.rs:245-287 | a fresh variant response owns its error string on failure, and on success the name exactly when a variant was chosen and both payload strings exactly when it has a payload |
| DotnetBinding.ErrorRaised | dotnet-engine/Yggdrasil.Engine/FFIReader.cs:33 | the exception message is `Error: ` followed by the engine's error message, nothing when it is null |
| DotnetBinding.ReadResponse | dotnet-engine/Yggdrasil.Engine/FFIReader.cs:87-112 | a null pointer throws and touches nothing; otherwise the reply is copied, released exactly once after copying even when deserializing throws, and a JSON `null` reads as no value |
| DotnetBinding.ReadValue | dotnet-engine/Yggdrasil.Engine/FFIReader.cs:22-64 | a null pointer is a null value with nothing released; an `Error` status throws the engine's message after the reply is released; any other status gives the value |
| DotnetBinding.CheckResponse | dotnet-engine/Yggdrasil.Engine/FFIReader.cs:73-85 | a null pointer throws; otherwise the reply is released once and the call throws exactly when the status is `Error` |
| DotnetBinding.ReadValueAgreesWithEngine | dotnet-engine/Yggdrasil.Engine/FFIReader.cs:22-64 | whatever the engine computed, the reader returns its value, or throws with the engine's printed error, and releases the reply exactly once |
| DotnetBinding.EngineCall | dotnet-engine/Yggdrasil.Engine/YggdrasilEngine.cs:65-138 | a null pointer gives the call's fallback with nothing released; otherwise the reply is copied, released at once and only then decoded; an `Error` status throws |
| DotnetBinding.IsEnabled | dotnet-engine/Yggdrasil.Engine/YggdrasilEngine.cs:65-90 | the engine is asked about the given toggle with no custom results; a null reply reads as disabled |
| DotnetBinding.GetVariant | dotnet-engine/Yggdrasil.Engine/YggdrasilEngine.cs:92-115 | the engine is asked about the given toggle with no custom results; a null reply reads as no variant |
| DotnetBinding.TakeState | dotnet-engine/Yggdrasil.Engine/YggdrasilEngine.cs:43-63 | a null reply returns silently; an `Error` status, a partial update included, throws; the reply is released once |
| DotnetBinding.NullPolicyOnlyDiffers | dotnet-engine/Yggdrasil.Engine/YggdrasilEngine.cs:65-115 | `IsEnabled` and the other calls read every reply the same way and differ only on a null pointer |
| DotnetBinding.IsEnabledAgreesWithEngine | dotnet-engine/Yggdrasil.Engine/YggdrasilEngine.cs:65-90 | a known toggle's flag, null for an unknown one, the engine's error as an exception; the reply is released before it is decoded |
| DotnetStrategies.NewCustomStrategies | dotnet-engine/Yggdrasil.Engine/Strategies.cs:13-21 | a new resolver keeps the known list it is given, with nothing registered and no mapping |
| DotnetStrategies.NewMappedStrategy | dotnet-engine/Yggdrasil.Engine/Types.cs:160-166 | the strategy at position `index` gets the result name the engine reads back as that position |
| DotnetStrategies.NewMappedFeature | dotnet-engine/Yggdrasil.Engine/Types.cs:148-152 | a mapped toggle keeps the toggle's name and the given strategies |
| DotnetStrategies.Kept | dotnet-engine/Yggdrasil.Engine/Strategies.cs:23-37 | the strategies kept are exactly the custom ones (not in the known list, none when the list is null) that are registered |
| DotnetStrategies.MapCustomStrategies | dotnet-engine/Yggdrasil.Engine/Strategies.cs:28-45 | a null list maps to nothing; otherwise the kept strategies, numbered from 0 in order, missing parameters read as an empty dictionary |
| DotnetStrategies.NullKnownMapsNothing | dotnet-engine/Yggdrasil.Engine/Strategies.cs:25 | with a null known list no strategy counts as custom, whatever is registered |
| DotnetStrategies.MappedListsAreNumbered | dotnet-engine/Yggdrasil.Engine/Strategies.cs:38-43 | a mapped list's result names are its positions, in order |
| DotnetStrategies.MapAll | dotnet-engine/Yggdrasil.Engine/Strategies.cs:50-51 | every toggle is paired with its own name and its mapped strategies |
| DotnetStrategies.MapFeatures | dotnet-engine/Yggdrasil.Engine/Strategies.cs:47-53 | no toggle list clears the mapping; a repeated toggle name throws and changes nothing; otherwise every toggle is mapped under its name |
| CustomResults.NamedPairs | dotnet-engine/Yggdrasil.Engine/Strategies.cs:57 | each registered strategy is filed under its own name |
| DotnetStrategies.RegisterCustomStrategies | dotnet-engine/Yggdrasil.Engine/Strategies.cs:55-58 | a repeated name throws and changes nothing; otherwise every strategy is registered under its name and the mapping is kept |
| DotnetStrategies.GetCustomStrategyPayload | dotnet-engine/Yggdrasil.Engine/Strategies.cs:60-74 | `{}` for a toggle without a mapping; otherwise each mapped strategy's verdict under its result name |
| DotnetStrategies.MappingAgreesWithUpgrade | dotnet-engine/Yggdrasil.Engine/Strategies.cs:28-45 | with the built-in names as known list and every custom strategy registered, each custom strategy sits at the position the engine's rule text reads |
| DotnetStrategies.PayloadEqualsIsValueEquality | dotnet-engine/Yggdrasil.Engine/Types.cs:61-69 | payloads are equal exactly when type and value are, symmetrically, and never equal to null |
| GoBinding.GoRead | go-engine/unleash_engine.go:21-25 | the value the engine wrote is the value unmarshalled |
| GoBinding.CheckTrace | go-engine/unleash_engine.go:45-57 | a check call frees the toggle name, context and results strings and the reply once each; the second results string exists only in `IsEnabled` and is never freed |
| GoBinding.DeferredReleases | go-engine/unleash_engine.go:48-55 | the deferred calls release the reply first, then the three strings the deferred function names |
| GoBinding.ReleasesCounted | go-engine/unleash_engine.go:48-55 | a call whose releases are all deferred releases each of its four buffers exactly once |
| GoBinding.DecodedFlag | go-engine/unleash_engine.go:59-65 | the answer is true exactly when the reply unmarshals with the value true |
| GoBinding.IsEnabled | go-engine/unleash_engine.go:36-66 | a context that does not marshal ends the process with the toggle-name string unfreed; otherwise the envelope's value, false when absent or unreadable, whatever the status; the inline results string leaks |
| GoBinding.IsEnabledIgnoresStatus | go-engine/unleash_engine.go:59-65 | a known toggle reports its flag; a missing toggle and an engine error both report false |
| GoBinding.GetVariant | go-engine/unleash_engine.go:80-112 | a context that does not marshal returns nil with the toggle-name string unfreed; otherwise the envelope's value, nil when absent or unreadable, whatever the status |
| GoBinding.GetVariantAgreesWithEngine | go-engine/unleash_engine.go:104-111 | a known toggle's variant; nil both for a missing toggle and for an engine error |
| GoBinding.TakeState | go-engine/unleash_engine.go:32-34 | the state string is passed on and never freed; the reply is neither read nor released |
| JavaCustom.NewResolver | java-engine/src/main/java/io/getunleash/engine/CustomStrategies.java:26-30 | two implementations with one name throw; otherwise each is registered under its name and nothing is mapped |
| JavaCustom.DistinctRegisters | java-engine/src/main/java/io/getunleash/engine/CustomStrategies.java:29 | with distinct names, the last-wins registry registers every implementation under its name |
| JavaCustom.GetFeatureStrategies | java-engine/src/main/java/io/getunleash/engine/CustomStrategies.java:56-71 | only strategies with a registered implementation are kept, numbered from 1 in declaration order, each with its implementation |
| JavaCustom.TakeState | java-engine/src/main/java/io/getunleash/engine/CustomStrategies.java:32-54 | nothing changes with nothing registered, no text, an unreadable text or a document without features; otherwise every toggle is mapped to its kept strategies |
| JavaCustom.Verdicts | java-engine/src/main/java/io/getunleash/engine/CustomStrategies.java:86-91 | every mapped strategy's verdict in order, or an exception as soon as one implementation throws |
| JavaCustom.Eval | java-engine/src/main/java/io/getunleash/engine/CustomStrategies.java:73-100 | `{}` for an unmapped toggle; an exception when an implementation throws; otherwise the written result names and verdicts, `{}` when writing fails |
| JavaCustom.NoBuiltinRegistered | java-engine/src/main/java/io/getunleash/engine/CustomStrategies.java:60-61 | when no registered name is built in, keeping the registered strategies is keeping the registered custom ones |
| JavaCustom.MappingAgreesWithUpgrade | java-engine/src/main/java/io/getunleash/engine/CustomStrategies.java:56-71 | when every custom strategy is registered, each one's verdict is reported under the key the engine's rule text reads for it |
| JavaCustom.UnregisteredShiftsNumbering | java-engine/src/main/java/io/getunleash/engine/CustomStrategies.java:61-64 | an unregistered strategy before a registered one shifts the registered one's number down, away from the key the rule text reads |
| JavaCustom.TakeStateKeepsNumbering | java-engine/src/main/java/io/getunleash/engine/CustomStrategies.java:32-54 | after reading a state every mapped list is still numbered by position |
| JavaFeatures.CollectFeatures | java-engine/src/main/java/io/getunleash/engine/CustomStrategiesEvaluator.java:59-61 | every feature is mapped under its name; a null strategy list or a repeated name throws, naming the feature |
| JavaFeatures.DistinctFeaturesCollect | java-engine/src/main/java/io/getunleash/engine/CustomStrategiesEvaluator.java:59-61 | distinct names with present strategy lists are always collected in full |
| JavaEvaluator.NewEvaluator | java-engine/src/main/java/io/getunleash/engine/CustomStrategiesEvaluator.java:34-44 | of several implementations with one name the first is kept; built-ins and fallback are kept and nothing is mapped |
| JavaEvaluator.Choose | java-engine/src/main/java/io/getunleash/engine/CustomStrategiesEvaluator.java:77-79 | a registered name runs its implementation; any other runs the always-false stand-in |
| JavaEvaluator.GetFeatureStrategies | java-engine/src/main/java/io/getunleash/engine/CustomStrategiesEvaluator.java:70-91 | the strategies that are not built in, numbered from 1 in order, registered or not, then the fallback with the next number |
| JavaEvaluator.LoadStrategiesFor | java-engine/src/main/java/io/getunleash/engine/CustomStrategiesEvaluator.java:46-68 | nothing changes with nothing to run or no text, nor when the text cannot be read or has no features; otherwise every toggle is mapped to its strategies |
| JavaEvaluator.TryIsEnabled | java-engine/src/main/java/io/getunleash/engine/CustomStrategiesEvaluator.java:110-119 | the stand-in says false; an implementation's verdict is true only when it returns true, an exception reading as false |
| JavaEvaluator.Verdicts | java-engine/src/main/java/io/getunleash/engine/CustomStrategiesEvaluator.java:100-105 | every mapped strategy's verdict, in order |
| JavaEvaluator.Eval | java-engine/src/main/java/io/getunleash/engine/CustomStrategiesEvaluator.java:93-108 | the empty map for a toggle with nothing mapped; otherwise each result name with its verdict |
| JavaEvaluator.EngineEvaluatorAsWritten | java-engine/src/main/java/io/getunleash/engine/UnleashEngine.java:207-215 | the engine's evaluator has an empty built-in set and registers every strategy it is given |
| JavaEvaluator.EngineEvaluator | java-engine/src/main/java/io/getunleash/engine/UnleashEngine.java:207-215 | the corrected evaluator has the engine's built-in names as its built-in set |
| JavaEvaluator.EvalAgreesWithUpgrade | java-engine/src/main/java/io/getunleash/engine/CustomStrategiesEvaluator.java:70-91 | with the built-in names as the built-in set, each custom strategy's verdict is reported under the key the engine's rule text reads for it |
| JavaEvaluator.EmptyBuiltinsNumberEveryStrategy | java-engine/src/main/java/io/getunleash/engine/CustomStrategiesEvaluator.java:73-82 | with an empty built-in set every declared strategy takes a number, built-in ones included |
| JavaEvaluator.EmptyBuiltinsMisnumber | java-engine/src/main/java/io/getunleash/engine/UnleashEngine.java:207-215 | with `default` before a registered custom strategy, the rule text reads the custom verdict under `customStrategy1`, but that key holds the always-false verdict of `default` |
| JavaEvaluator.LoadStrategiesForKeepsNumbering | java-engine/src/main/java/io/getunleash/engine/CustomStrategiesEvaluator.java:46-68 | after reading a state every mapped list is still numbered by position |
| JavaResponses.FindName | java-engine/src/main/java/io/getunleash/engine/StatusCode.java:15-19 | a match found is equal to the name ignoring case; when none is found no remaining constant matches |
| JavaResponses.FromName | java-engine/src/main/java/io/getunleash/engine/StatusCode.java:14-21 | the constant whose name equals the argument ignoring case, or an exception naming the unknown status exactly when no constant matches |
| JavaResponses.NamesDistinctIgnoringCase | java-engine/src/main/java/io/getunleash/engine/StatusCode.java:4-6 | no two status names are equal ignoring case, so a match is unique |
| JavaResponses.FromNameRoundTrip | java-engine/src/main/java/io/getunleash/engine/StatusCode.java:14-21 | every constant is found by its own name, spelled in any case |
| JavaResponses.FromNameReadsEngineStatus | java-engine/src/main/java/io/getunleash/engine/StatusCode.java:4-6 | every status name the engine writes is read as its constant |
| JavaResponses.FromEngine | java-engine/src/main/java/io/getunleash/engine/StatusCode.java:4-6 | each engine status has the constant whose name the engine writes |
| JavaResponses.IsEnabled | java-engine/src/main/java/io/getunleash/engine/IsEnabledResponse.java:13-15 | true only for a valid response, and then exactly when the value is true |
| JavaResponses.GetName | java-engine/src/main/java/io/getunleash/engine/VariantResponse.java:17-19 | the name of the carried variant, which must not be null |
| JavaResponses.GetPayload | java-engine/src/main/java/io/getunleash/engine/VariantResponse.java:21-27 | null for an invalid response; otherwise the variant's payload |
| JavaResponses.VariantIsEnabled | java-engine/src/main/java/io/getunleash/engine/VariantResponse.java:29-35 | false for an invalid response; otherwise the variant's own flag |
| JavaResponses.JacksonStatus | java-engine/src/main/java/io/getunleash/engine/YggResponse.java:11-12 | the `status_code` property is read by Jackson's default enum reader, since `StatusCode` declares no creator of its own: a text decodes exactly when it is a constant's identifier `OK`, `NOT_FOUND` or `ERROR`, case included |
| JavaResponses.ReadReply | java-engine/src/main/java/io/getunleash/engine/IsEnabledResponse.java:8-11 | the engine's envelope reads as a response exactly when its status decodes that way, and then keeps its value and message |
| JavaResponses.EngineRepliesUnreadable | java-engine/src/main/java/io/getunleash/engine/YggResponse.java:11-12 | as written, no reply the engine sends can be read: its status is `Ok`, `NotFound` or `Error`, never a constant's identifier |
| JavaResponses.FromWire | java-engine/src/main/java/io/getunleash/engine/StatusCode.java:14-21 | the envelope read with `fromName` deciding the status, as a creator annotation on `fromName` would have Jackson do: value and message kept, the status set exactly when `fromName` matches it ignoring case |
| JavaResponses.IsEnabledAgreesWithEngine | java-engine/src/main/java/io/getunleash/engine/IsEnabledResponse.java:13-15 | read through `fromName`, `isEnabled` is true exactly when the engine found the toggle enabled; a missing toggle and an engine error read as false |
| JavaResponses.VariantAgreesWithEngine | java-engine/src/main/java/io/getunleash/engine/VariantResponse.java:21-35 | read through `fromName`, a found variant gives its payload and flag; a missing toggle or an engine error gives no payload and false |
| JavaWasm.ReplyRegion | java-engine/src/main/java/io/getunleash/engine/WasmInterface.java:229-230 | pointer and length are each read as a signed 32-bit `int` |
| JavaWasm.ReplyRegionInvertsPacking | java-engine/src/main/java/io/getunleash/engine/WasmInterface.java:229-230 | the host reads back the region the guest packed while neither half reaches 2^31 |
| JavaWasm.DerefWasmPointer | java-engine/src/main/java/io/getunleash/engine/WasmInterface.java:213-240 | the region is decoded and only then the reply buffer is released, once; a decoder that throws leaves the buffer held |
| JavaWasm.CheckTrace | java-engine/src/main/java/io/getunleash/engine/WasmInterface.java:151-174 | a call that decodes releases the reply and then the context, once each; one whose decoder throws releases neither |
| JavaWasm.InterfaceCheck | java-engine/src/main/java/io/getunleash/engine/WasmInterface.java:151-174 | the decoded reply is returned, with the buffers released as in a check call |
| JavaWasm.InterfaceTakeState | java-engine/src/main/java/io/getunleash/engine/WasmInterface.java:126-136 | the message is written, the guest called, and the message released once after the call |
| JavaWasm.GetState | java-engine/src/main/java/io/getunleash/engine/WasmInterface.java:139-148 | a null pointer gives the empty state; any other the C string at it |
| JavaWasm.EmptyStateHasNoFeatures | java-engine/src/main/java/io/getunleash/engine/WasmInterface.java:142-145 | the fallback state is the version 2 document with no features |
| JavaWasm.RuntimeHostname | java-engine/src/main/java/io/getunleash/engine/UnleashEngine.java:62-72 | the system property, else the looked-up host name, else `undefined`; never null |
| JavaWasm.BuildProperties | java-engine/src/main/java/io/getunleash/engine/UnleashEngine.java:74-87 | exactly the properties with a non-null value are sent |
| JavaWasm.FlagTextRoundTrip | java-engine/src/main/java/io/getunleash/engine/UnleashEngine.java:98 | a result sent as text reads back as the same Boolean |
| JavaWasm.BuildCustomResults | java-engine/src/main/java/io/getunleash/engine/UnleashEngine.java:89-103 | exactly the custom results that are not null are sent, each as `true` or `false` |
| JavaWasm.BuildMessage | java-engine/src/main/java/io/getunleash/engine/UnleashEngine.java:105-167 | fields the context leaves null are unset; the toggle name, the host name and the current time (the context's or now) are always set; the two lists are attached only when not empty |
| JavaWasm.NonEmptyIffSomeValue | java-engine/src/main/java/io/getunleash/engine/UnleashEngine.java:157-159 | the properties are attached exactly when some property has a value |
| JavaWasm.NonEmptyIffSomeResult | java-engine/src/main/java/io/getunleash/engine/UnleashEngine.java:160-162 | the custom results are attached exactly when some result is not null |
| JavaWasm.MessageKeepsContext | java-engine/src/main/java/io/getunleash/engine/UnleashEngine.java:105-167 | the message carries the caller's context with the current time filled in and the null-valued properties dropped |
| JavaWasm.EngineCall | java-engine/src/main/java/io/getunleash/engine/UnleashEngine.java:358-371 | the reply is decoded, released, and then the message is released, once each; a decoder that throws releases neither |
| JavaWasm.IsEnabled | java-engine/src/main/java/io/getunleash/engine/UnleashEngine.java:265-281 | the flag when the reply carries one, null otherwise; an error in the reply is not looked at |
| JavaWasm.IsEnabledSwallowsErrors | java-engine/src/main/java/io/getunleash/engine/UnleashEngine.java:277-280 | a known toggle's flag; null both for an unknown toggle and for an engine error |
| JavaWasm.GetVariant | java-engine/src/main/java/io/getunleash/engine/UnleashEngine.java:291-317 | null unless the reply names a variant; then its name, flags and payload, the payload only when present |
| JavaWasm.GetVariantSwallowsErrors | java-engine/src/main/java/io/getunleash/engine/UnleashEngine.java:302-316 | the engine's variant, and null both for no variant and for an engine error |
| JavaWasm.EngineTakeState | java-engine/src/main/java/io/getunleash/engine/UnleashEngine.java:230-245 | the message is released once after the reply string is read; the reply's buffer is never handed back |
| JavaWasm.BuildContext | java-engine/src/main/java/io/getunleash/engine/WasmEngine.java:46-73 | the prototype sends the toggle name, every property, and always the same user id |
| JavaWasm.BuildContextIgnoresUser | java-engine/src/main/java/io/getunleash/engine/WasmEngine.java:61 | two calls send the same user whatever their properties, and the same message exactly when their properties agree |
| JavaWasm.ProtoCheckEnabled | java-engine/src/main/java/io/getunleash/engine/WasmEngine.java:131-162 | the prototype decodes, releases the message and then the reply, once each, and answers the flag, false when unset |
| JavaWasm.ProtoCheckEnabledAgreesWithEngine | java-engine/src/main/java/io/getunleash/engine/WasmEngine.java:157-161 | the prototype answers true exactly for a toggle the engine found enabled |
| JsInterop.ThrownText | javascript-engine/src/wasm-interop.ts:14 | the error message thrown is the engine's when it is not empty, `Unknown error` otherwise; never empty |
| JsInterop.ReadResponse | javascript-engine/src/wasm-interop.ts:10-18 | an `Error` status throws with that message; any other status, a missing one included, gives the value |
| JsInterop.CheckResponse | javascript-engine/src/wasm-interop.ts:20-24 | throws exactly when reading the value would, with the same message |
| JsInterop.ReadResponseAgreesWithEngine | javascript-engine/src/wasm-interop.ts:10-18 | the engine's value, nothing for a missing toggle, and the engine's printed error thrown; `Unknown error` never replaces it |
| JsEngine.NewEngine | javascript-engine/src/index.ts:25-36 | the known list is the engine's built-in names, empty when none is sent; an error reply throws; the given strategies are registered |
| JsEngine.TakeState | javascript-engine/src/index.ts:38-43 | a rejected state throws and leaves the resolver as it was; otherwise the resolver maps exactly the toggles of the state |
| JsEngine.IsEnabled | javascript-engine/src/index.ts:45-58 | true exactly when the engine answers true for the resolver's payload; an error reply throws |
| JsEngine.GetVariant | javascript-engine/src/index.ts:60-78 | the engine's variant when it returns one; otherwise the disabled variant carrying whether the toggle is enabled; either call may throw |
| JsEngine.ListKnownFeatures | javascript-engine/src/index.ts:95-98 | the engine's list, empty when it sends none; an error reply throws |
| JsEngine.IsEnabledAgreesWithEngine | javascript-engine/src/index.ts:45-58 | the engine's verdict, false for a missing toggle, and the engine's error text thrown |
| JsEngine.MissingToggleGetsDisabledVariant | javascript-engine/src/index.ts:72-77 | a toggle the engine does not know gives the disabled variant, not enabled |
| JsStrategies.NewStrategies | javascript-engine/src/strategies.ts:28-30 | a new resolver keeps the known list, with nothing registered or mapped |
| JsStrategies.MapCustomStrategies | javascript-engine/src/strategies.ts:36-60 | no list maps to nothing; otherwise the registered foreign strategies numbered from 1 in order, each with its parameters (`{}` when absent) and its current implementation |
| JsStrategies.MapAll | javascript-engine/src/strategies.ts:71-73 | every toggle is paired with its name and its mapped strategies |
| JsStrategies.MapAllWellNumbered | javascript-engine/src/strategies.ts:47-52 | every list of a full-state mapping reports each position under its own key |
| JsStrategies.InsertById | javascript-engine/src/strategies.ts:79 | inserting keeps every event, adding exactly the new one |
| JsStrategies.SortEvents | javascript-engine/src/strategies.ts:79 | the events sorted by ascending id, a permutation of the input |
| JsStrategies.ApplyEvent | javascript-engine/src/strategies.ts:80-97 | hydration and feature-updated map the toggles they carry, feature-removed unmaps one, and every other toggle keeps its mapping |
| JsStrategies.UntouchedKeepsMapping | javascript-engine/src/strategies.ts:77-98 | a toggle no event names keeps its mapping, or its absence |
| JsStrategies.MapFeatures | javascript-engine/src/strategies.ts:69-99 | a full state maps exactly its toggles; a delta applies its events on the current mapping; any other message changes nothing |
| JsStrategies.FullStateForgetsPrevious | javascript-engine/src/strategies.ts:70-75 | a full state does not depend on what was mapped before |
| JsStrategies.FullStateMapsLast | javascript-engine/src/strategies.ts:71-73 | for a full state each toggle is mapped as its last declaration says |
| JsStrategies.EventsKeepNumbering | javascript-engine/src/strategies.ts:77-98 | however the events run, every list keeps reporting each position under its own key |
| JsStrategies.MapFeaturesKeepsNumbering | javascript-engine/src/strategies.ts:69-99 | after any state every list reports each position under its own key |
| JsStrategies.RegisterCustomStrategies | javascript-engine/src/strategies.ts:101-105 | the registry is replaced, a later strategy of the same name winning; the mapping is kept |
| JsStrategies.RunAll | javascript-engine/src/strategies.ts:114-117 | each mapped strategy's result name with its implementation run on its own parameters |
| JsStrategies.CustomStrategyPayload | javascript-engine/src/strategies.ts:107-121 | `{}` for an unmapped toggle; otherwise exactly the keys `customStrategy1` to `customStrategyN`, each with its strategy's verdict |
| JsStrategies.MappingAgreesWithUpgrade | javascript-engine/src/strategies.ts:36-60 | with the built-in names as known list and every foreign strategy registered, each custom strategy sits at the position the engine's rule text reads |
| JsStrategies.PayloadAgreesWithUpgrade | javascript-engine/src/strategies.ts:107-121 | once a toggle is mapped, its payload reports each custom strategy's verdict under the key the rule text reads |
| JsStrategies.UnregisteredShiftsNumbering | javascript-engine/src/strategies.ts:44-46 | an unregistered foreign strategy before a registered one moves the registered one to `customStrategy1`, while the rule text reads `customStrategy2` |
| PythonBinding.PyStatusOf | python-engine/yggdrasil_engine/engine.py:29-32 | a status name is accepted exactly when it is one the engine writes |
| PythonBinding.FromJson | python-engine/yggdrasil_engine/engine.py:86-102 | a missing or unknown status raises; otherwise the status, the error message, and the value converted for the requested type, absent exactly when it was absent |
| PythonBinding.Materialize | python-engine/yggdrasil_engine/engine.py:169-175 | the reply is released exactly once and last, after anything decoded, whether loading, building or the caller's block raised |
| PythonBinding.BlockTrace | python-engine/yggdrasil_engine/engine.py:171-175 | the caller's block runs before the reply is released, and raises exactly when it raises |
| PythonBinding.UnbuiltTrace | python-engine/yggdrasil_engine/engine.py:169-175 | when no response is built the reply is still released once and last, nothing is decoded, and an exception is thrown exactly when loading or building raised |
| PythonBinding.RaiseOnError | python-engine/yggdrasil_engine/engine.py:207-210 | an `Error` status raises with the error message; any other gives the value |
| PythonBinding.IsEnabled | python-engine/yggdrasil_engine/engine.py:193-210 | the reply is released exactly once |
| PythonBinding.IsEnabledAgreesWithEngine | python-engine/yggdrasil_engine/engine.py:193-210 | the engine's flag, nothing for an unknown toggle, and the engine's error raised; the reply released once in every case |
| PythonBinding.VariantFromDict | python-engine/yggdrasil_engine/engine.py:46-53 | an absent name reads as empty, absent flags as false, and the payload is kept |
| PythonBinding.VariantDictRoundTrip | python-engine/yggdrasil_engine/engine.py:46-53 | a dictionary carrying every key reads back as the variant it came from |
| PythonBinding.GetVariant | python-engine/yggdrasil_engine/engine.py:212-229 | a found variant is read from its dictionary, a missing toggle gives nothing; the reply is released once |
| PythonBinding.FeatureFromDict | python-engine/yggdrasil_engine/engine.py:62-68 | absent name and project read as empty; the type is kept |
| PythonBinding.LoadFeatureDefs | python-engine/yggdrasil_engine/engine.py:71-72 | one definition per dictionary, in order |
| PythonBinding.TakeState | python-engine/yggdrasil_engine/engine.py:177-186 | the reply is released once and its status is never looked at: an empty reply returns nothing even for an error |
| PythonBinding.TakeStateIgnoresErrors | python-engine/yggdrasil_engine/engine.py:180-186 | an error from the engine's state update does not reach the caller |
| PythonBinding.CountCall | python-engine/yggdrasil_engine/engine.py:234-244 | the reply is released at once without being read |
| PythonCustom.Put | python-engine/yggdrasil_engine/custom_strategy.py:24 | assigning a key sets it, keeps every other key, and adds a position only for a new key |
| PythonCustom.Pop | python-engine/yggdrasil_engine/custom_strategy.py:26 | popping a key removes it and keeps every other key |
| PythonCustom.FromFeatures | python-engine/yggdrasil_engine/custom_strategy.py:28 | each name maps to the last feature of that name |
| PythonCustom.DictValues | python-engine/yggdrasil_engine/custom_strategy.py:29 | the features in dictionary order |
| PythonCustom.ApplyEvent | python-engine/yggdrasil_engine/custom_strategy.py:21-28 | an update sets its feature, a removal drops one, a hydration replaces everything, and other events change nothing |
| PythonCustom.UntouchedAfterHydration | python-engine/yggdrasil_engine/custom_strategy.py:21-28 | a name no later event mentions keeps what it had |
| PythonCustom.GetFeaturesJson | python-engine/yggdrasil_engine/custom_strategy.py:16-29 | a `features` list is returned as it stands; events give the features they leave, with distinct names; anything else gives nothing |
| PythonCustom.DistinctNames | python-engine/yggdrasil_engine/custom_strategy.py:20-29 | features replayed from events have distinct names |
| PythonCustom.NameEach | python-engine/yggdrasil_engine/custom_strategy.py:44-46 | the inner loop stores an entry for the toggle exactly when it has a strategy that is not standard, touching no other toggle |
| PythonCustom.StoreAllIsCustomDefinitions | python-engine/yggdrasil_engine/custom_strategy.py:42-54 | the name stored first is always overwritten: the loop leaves exactly each toggle's non-empty list of non-standard strategies |
| PythonCustom.StateFeatures | python-engine/yggdrasil_engine/custom_strategy.py:40-44 | the toggles of a state that can be read, lists some, and gives each toggle its strategies |
| PythonCustom.UpdateStrategiesWith | python-engine/yggdrasil_engine/custom_strategy.py:38-56 | the definitions become each toggle's non-standard strategies; an unreadable state raises and leaves the handler as it was |
| PythonCustom.UpdateStrategiesAsWritten | python-engine/yggdrasil_engine/custom_strategy.py:5-13 | the standard names are the seven listed, without `applicationHostname` |
| PythonCustom.UpdateStrategies | python-engine/yggdrasil_engine/custom_strategy.py:38-56 | the corrected handler uses the engine's built-in names as the standard ones |
| PythonCustom.Register | python-engine/yggdrasil_engine/custom_strategy.py:58-73 | each valid strategy is stored in turn; the first invalid one raises, keeping the ones stored before it |
| PythonCustom.Verdicts | python-engine/yggdrasil_engine/custom_strategy.py:79-89 | every stored strategy's verdict, or a raise as soon as one `apply` raises |
| PythonCustom.Evaluate | python-engine/yggdrasil_engine/custom_strategy.py:75-91 | `{}` for a toggle with no stored strategies; otherwise each verdict under `customStrategy<n>` from 1 |
| PythonCustom.EvaluateAgreesWithUpgrade | python-engine/yggdrasil_engine/custom_strategy.py:75-91 | with the built-in names as standard, a custom strategy's verdict is reported under the key the rule text reads for it |
| PythonCustom.HostnameShiftsNumbering | python-engine/yggdrasil_engine/custom_strategy.py:5-13 | as written, `applicationHostname` first and a custom strategy second puts the custom verdict under `customStrategy2` while the rule text reads `customStrategy1` |
| RubyCustom.Hydrated | ruby-engine/lib/custom_strategy.rb:71-72 | exactly the features the hydration events carry, in event order |
| RubyCustom.Updated | ruby-engine/lib/custom_strategy.rb:74-75 | exactly the features the update events carry, in event order |
| RubyCustom.ExtractFeatures | ruby-engine/lib/custom_strategy.rb:65-81 | a `features` list as it stands; for events, the hydrated features and then the updated ones; nothing for anything else |
| RubyCustom.RemovalIsIgnored | ruby-engine/lib/custom_strategy.rb:68-78 | a removal event changes nothing that is read |
| RubyCustom.UpdateOutranksLaterHydration | ruby-engine/lib/custom_strategy.rb:68-78 | an update is read after every hydration: a toggle updated and then hydrated again keeps the update's custom strategies |
| RubyCustom.StateFeatures | ruby-engine/lib/custom_strategy.rb:19-25 | the toggles of a state that can be read and gives each toggle its strategies |
| RubyCustom.UpdateStrategiesWith | ruby-engine/lib/custom_strategy.rb:17-37 | the definitions become each toggle's non-empty list of non-standard strategies; an unreadable state raises and leaves the handler as it was |
| RubyCustom.UpdateStrategiesAsWritten | ruby-engine/lib/custom_strategy.rb:1-9 | the standard names are the seven listed, without `applicationHostname` |
| RubyCustom.UpdateStrategies | ruby-engine/lib/custom_strategy.rb:17-37 | the corrected handler uses the engine's built-in names as the standard ones |
| RubyCustom.NamedEntries | ruby-engine/lib/custom_strategy.rb:43 | each object is stored under the name it reports |
| RubyCustom.Register | ruby-engine/lib/custom_strategy.rb:39-48 | each valid object is stored under its name, a later one winning; the first invalid one raises, keeping the ones stored before it |
| RubyCustom.NamesAreReported | ruby-engine/lib/custom_strategy.rb:41-43 | every stored name is one an object reports |
| RubyCustom.Verdicts | ruby-engine/lib/custom_strategy.rb:53-58 | every stored strategy's verdict, or a raise as soon as one raises |
| RubyCustom.Evaluate | ruby-engine/lib/custom_strategy.rb:50-61 | `{}` for a toggle with no stored strategies; otherwise each verdict under `customStrategy<n>` from 1, an unregistered one false |
| RubyCustom.EvaluateAgreesWithUpgrade | ruby-engine/lib/custom_strategy.rb:50-61 | with the built-in names as standard, a custom strategy's verdict is reported under the key the rule text reads for it |
| RubyCustom.HostnameShiftsNumbering | ruby-engine/lib/custom_strategy.rb:1-9 | as written, `applicationHostname` first and a custom strategy second puts the custom verdict under `customStrategy2` while the rule text reads `customStrategy1` |
| RubyEngine.EnabledValue | ruby-engine/lib/yggdrasil_engine.rb:103-106 | an `Error` status raises with the message, `NotFound` gives nil, and any other status whether the value is literally true |
| RubyEngine.Enabled | ruby-engine/lib/yggdrasil_engine.rb:94-107 | the reply is copied, released once, and only then parsed |
| RubyEngine.EnabledAgreesWithEngine | ruby-engine/lib/yggdrasil_engine.rb:94-107 | a known toggle's flag, nil for an unknown one, the engine's error raised |
| RubyEngine.StringKeys | ruby-engine/lib/yggdrasil_engine.rb:37 | every symbol key becomes its text with the same value, and nothing else is added |
| RubyEngine.PayloadKeysRoundTrip | ruby-engine/lib/yggdrasil_engine.rb:37 | turning the keys back to strings undoes the parser's symbolizing |
| RubyEngine.ToVariant | ruby-engine/lib/yggdrasil_engine.rb:36-44 | name and flags are kept, and the payload is present exactly when it was, with string keys |
| RubyEngine.GetVariant | ruby-engine/lib/yggdrasil_engine.rb:79-92 | the reply is released before parsing; an `Ok` reply gives the converted variant and any other status nil |
| RubyEngine.GetVariantSwallowsErrors | ruby-engine/lib/yggdrasil_engine.rb:88-91 | an engine error never reaches the caller of `get_variant` |
| RubyEngine.ParseThenRelease | ruby-engine/lib/yggdrasil_engine.rb:119-124 | the reply is parsed before it is released, so one that does not parse raises with the reply still held; the status is not looked at |
| RubyEngine.CountCall | ruby-engine/lib/yggdrasil_engine.rb:59-60 | the count calls return nothing usable, so the engine's reply is never released |
| RubyLegacyEngine.LegacyFlag | ruby-engine/lib/unleash_engine.rb:82-84 | an `Error` status raises, `NotFound` gives nil, and the answer is true exactly for `Enabled` |
| RubyLegacyEngine.LegacyEnabled | ruby-engine/lib/unleash_engine.rb:76-85 | the reply pointer is dropped after reading, never released |
| RubyLegacyEngine.LegacyReadsCurrentEnvelope | ruby-engine/lib/unleash_engine.rb:82-84 | against the current envelope every known toggle reads as disabled; missing toggles and errors still read as nil and as an exception |
| RubyLegacyEngine.LegacyGetVariant | ruby-engine/lib/unleash_engine.rb:63-74 | the reply is parsed before it is released, so one that does not parse raises with it held; only `Enabled` gives the raw variant |
| RubyLegacyEngine.VariantNew | ruby-engine/lib/unleash_engine.rb:25-29 | an absent name is `disabled`, an empty one is kept, an absent flag is false, and the payload is kept |
| RubyLegacyEngine.VariantNewRoundTrip | ruby-engine/lib/unleash_engine.rb:25-29 | a variant's own attributes build that variant again, and no attributes build the disabled variant |
| ImpactMetrics.WrapI64 | unleash-yggdrasil/src/impact_metrics/counter.rs:38 | an addition wraps around 64-bit two's complement, and a value already in range is unchanged |
| ImpactMetrics.WrapTwice | unleash-yggdrasil/src/impact_metrics/counter.rs:38 | adding in two wrapped steps is adding once and wrapping |
| ImpactMetrics.SortedKeysSpec | unleash-yggdrasil/src/impact_metrics/types.rs:92-93 | the sorted keys are exactly the label names, in strictly increasing order |
| ImpactMetrics.LabelKey | unleash-yggdrasil/src/impact_metrics/types.rs:87-101 | no labels, or an empty label map, give the empty key |
| ImpactMetrics.ParsePair | unleash-yggdrasil/src/impact_metrics/types.rs:110-114 | a part without `=` gives nothing; otherwise it splits at its first `=` into a key without `=` and the rest |
| ImpactMetrics.ParsedPairs | unleash-yggdrasil/src/impact_metrics/types.rs:108-115 | exactly the parts holding a `=`, in order |
| ImpactMetrics.ParseLabelKey | unleash-yggdrasil/src/impact_metrics/types.rs:103-117 | the empty key gives no labels |
| ImpactMetrics.ParseLabelKeyMembers | unleash-yggdrasil/src/impact_metrics/types.rs:103-117 | a label is parsed exactly for a comma-separated part with a `=` after its name, and its value is what follows that `=` in such a part |
| ImpactMetrics.ParsePairText | unleash-yggdrasil/src/impact_metrics/types.rs:96 | a pair text whose key has no `=` parses back into its key and value |
| ImpactMetrics.LabelKeyRoundTrip | unleash-yggdrasil/src/impact_metrics/types.rs:87-117 | parsing a label key gives back the labels it was made from, when no name or value holds a comma and no name a `=` |
| ImpactMetrics.LabelKeyCanonical | unleash-yggdrasil/src/impact_metrics/types.rs:87-101 | a key made from such labels is the key of the labels it parses to, so equal label sets share one key |
| ImpactMetrics.NewOptions | unleash-yggdrasil/src/impact_metrics/types.rs:22-28 | the options keep name and help, with no label names |
| ImpactMetrics.NewCounter | unleash-yggdrasil/src/impact_metrics/counter.rs:14-19 | a new counter keeps its options and holds no values |
| ImpactMetrics.IncInternal | unleash-yggdrasil/src/impact_metrics/counter.rs:33-39 | the value is added, wrapping, under the labels' key, starting from 0 for a new key; every other key is unchanged |
| ImpactMetrics.Inc | unleash-yggdrasil/src/impact_metrics/counter.rs:21-23 | one more under the empty key |
| ImpactMetrics.IncBy | unleash-yggdrasil/src/impact_metrics/counter.rs:25-27 | the value is added under the empty key |
| ImpactMetrics.IncWithLabels | unleash-yggdrasil/src/impact_metrics/counter.rs:29-31 | the value is added under the labels' key, empty labels meaning the empty key; every other key is unchanged |
| ImpactMetrics.IncrementsAccumulate | unleash-yggdrasil/src/impact_metrics/registry.rs:95-111 | increments under the same labels accumulate, 3 and then 2 giving 5 |
| ImpactMetrics.IncKeepsCanonical | unleash-yggdrasil/src/impact_metrics/counter.rs:33-39 | increments with labels the format can carry keep every stored key canonical |
| ImpactMetrics.NonZeroKeys | unleash-yggdrasil/src/impact_metrics/counter.rs:44-50 | exactly the keys whose value is not 0, in iteration order, without repeats |
| ImpactMetrics.SamplesOf | unleash-yggdrasil/src/impact_metrics/counter.rs:48 | one sample per key, with the key's parsed labels and its value |
| ImpactMetrics.Collect | unleash-yggdrasil/src/impact_metrics/counter.rs:41-59 | one sample per non-zero value with its key's labels, or the single zero sample when there is none; the counter is emptied, and name and help are carried over |
| ImpactMetrics.RestoreSamplesKeyed | unleash-yggdrasil/src/impact_metrics/registry.rs:51-53 | restoring samples is incrementing under their label keys |
| ImpactMetrics.RestoreInserts | unleash-yggdrasil/src/impact_metrics/registry.rs:51-53 | restoring entries of distinct new keys stores exactly their values and leaves the other keys alone |
| ImpactMetrics.BatchRestoresListing | unleash-yggdrasil/src/impact_metrics/registry.rs:51-53 | restoring the samples of canonical keys increments under those very keys |
| ImpactMetrics.RestoreListing | unleash-yggdrasil/src/impact_metrics/registry.rs:51-53 | restoring distinct keys into an empty counter stores exactly those keys with their values |
| ImpactMetrics.CollectRestoreCollect | unleash-yggdrasil/src/impact_metrics/registry.rs:167-188 | collecting, restoring the batch into the emptied counter and collecting again gives the same batch |
| ImpactMetrics.RestoredCollects | unleash-yggdrasil/src/impact_metrics/counter.rs:41-59 | a counter holding exactly some non-zero values collects them back in the listed order |
| MetricsRegistry.DefineCounter | unleash-yggdrasil/src/impact_metrics/registry.rs:26-32 | the name is then registered; an existing counter is kept as it is, and a new one is created from the options' name and help only, with no label names |
| MetricsRegistry.GetCounter | unleash-yggdrasil/src/impact_metrics/registry.rs:34-36 | the counter registered under the name, or nothing exactly when there is none |
| MetricsRegistry.DefinedCounterIsFound | unleash-yggdrasil/src/impact_metrics/registry.rs:26-36 | a name is found exactly once it was defined, and nothing is found in a new registry |
| MetricsRegistry.CollectAll | unleash-yggdrasil/src/impact_metrics/registry.rs:40-45 | one collected metric per counter in iteration order, each counter emptied as its own collect says |
| MetricsRegistry.RestoreMetric | unleash-yggdrasil/src/impact_metrics/registry.rs:49-54 | a counter metric's samples are added to the counter of its name, defined when missing; other metrics are ignored |
| MetricsRegistry.Restore | unleash-yggdrasil/src/impact_metrics/registry.rs:47-56 | every counter stays registered, and a batch without counter metrics changes nothing |
| MetricsRegistry.CollectSingle | unleash-yggdrasil/src/impact_metrics/registry.rs:80-92 | a registry holding one counter collects exactly that counter |
| MetricsRegistry.CollectAgainIsZero | unleash-yggdrasil/src/impact_metrics/registry.rs:149-165 | collecting again right after a collect gives only the zero sample |
| MetricsRegistry.RestoreSingle | unleash-yggdrasil/src/impact_metrics/registry.rs:47-56 | restoring a counter metric into a registry with a counter of its name adds its samples to that counter |
| MetricsRegistry.RegistryRestoreRoundTrip | unleash-yggdrasil/src/impact_metrics/registry.rs:167-188 | collect, collect again (only the zero sample), restore the first batch, and the next collect gives the first batch back |
| CamelSnake.Piece | java-engine/src/main/java/io/getunleash/engine/CamelToSnakeMapper.java:17-21 | an upper-case letter becomes `_` and a lower-case letter; any other character stays as it is |
| CamelSnake.SnakeSnoc | java-engine/src/main/java/io/getunleash/engine/CamelToSnakeMapper.java:16-22 | appending a character to the name appends what that character becomes |
| CamelSnake.SnakeAppend | java-engine/src/main/java/io/getunleash/engine/CamelToSnakeMapper.java:16-22 | the mapping works character by character, so it distributes over concatenation |
| CamelSnake.ConvertToSnake | java-engine/src/main/java/io/getunleash/engine/CamelToSnakeMapper.java:13-25 | the builder loop produces the character-wise mapping, one character longer per upper-case letter, with no upper-case letter left |
| CamelSnake.SnakeLength | java-engine/src/main/java/io/getunleash/engine/CamelToSnakeMapper.java:13-25 | the symbol name is as long as the method name plus its number of upper-case letters |
| CamelSnake.SnakeNoUpper | java-engine/src/main/java/io/getunleash/engine/CamelToSnakeMapper.java:13-25 | the symbol name holds no upper-case letter |
| CamelSnake.SnakeKeepsLowerNames | java-engine/src/main/java/io/getunleash/engine/CamelToSnakeMapper.java:13-25 | a name without upper-case letters maps to itself |
| CamelSnake.CamelInvertsSnake | java-engine/src/main/java/io/getunleash/engine/CamelToSnakeMapper.java:13-25 | a method name without `_` is recovered from its symbol name, so distinct such names map to distinct symbols |
| CamelSnake.CapitalisedWord | java-engine/src/main/java/io/getunleash/engine/CamelToSnakeMapper.java:17-18 | a capitalised word maps to `_`, its initial in lower case, and the rest unchanged |
| CamelSnake.WordAt | java-engine/src/main/java/io/getunleash/engine/CamelToSnakeMapper.java:17-18 | a capitalised word inside a name maps to `_`, its initial in lower case, and the rest unchanged |
| CamelSnake.FiveWords | java-engine/src/main/java/io/getunleash/engine/CamelToSnakeMapper.java:16-22 | five words side by side map to their images side by side |
| CamelSnake.DocumentedExamples | java-engine/src/test/java/io/getunleash/engine/CamelToSnakeMapperTest.java:9-18 | `single` maps to itself and `somethingWithASingleCharacter` maps to `something_with_a_single_character` |
| UiParsing.ObjectGuard | yggdrasil-ui/src/App.tsx:35 | the guard `!v \|\| typeof v !== 'object'` lets through exactly objects and arrays |
| UiParsing.Keep | yggdrasil-ui/src/App.tsx:34-45 | `flatMap` with steps of at most one element keeps exactly the entries whose step gives a value, never more entries than it was given |
| UiParsing.KeepAppend | yggdrasil-ui/src/App.tsx:34-45 | the kept entries of two lists side by side are those of each, in order |
| UiParsing.KeepAll | yggdrasil-ui/src/App.tsx:34-45 | when every entry is kept, the result holds the entries' images index by index |
| UiParsing.WarningOf | yggdrasil-ui/src/App.tsx:35-44 | an entry gives a warning exactly when it is an object or array with string `toggle_name` and `message`, and the warning carries those two strings |
| UiParsing.ParseWarnings | yggdrasil-ui/src/App.tsx:29-46 | no warnings for a value that is not an array; otherwise exactly the well-formed entries, never more than there were |
| UiParsing.WarningsRoundTrip | yggdrasil-ui/src/App.tsx:29-46 | every warning in the engine's warning list is read back, in order |
| UiParsing.WarningsConcatenate | yggdrasil-ui/src/App.tsx:29-46 | the warnings of two lists side by side are those of each, in order |
| UiParsing.NullishToNull | yggdrasil-ui/src/App.tsx:68 | a missing or null feature type becomes null; any other value is kept |
| UiParsing.ToggleOf | yggdrasil-ui/src/App.tsx:54-70 | an entry gives a toggle exactly when it is an object or array with string `name` and `project` and boolean `enabled`; the toggle carries those values and never an undefined feature type |
| UiParsing.ParseToggles | yggdrasil-ui/src/App.tsx:48-72 | no toggles for a value that is not an array; otherwise exactly the well-formed entries, never more than there were |
| UiParsing.FeatureTypeNeverUndefined | yggdrasil-ui/src/App.tsx:68 | no parsed toggle has an undefined feature type |
| UiParsing.TogglesRoundTrip | yggdrasil-ui/src/App.tsx:48-72 | every toggle the engine lists is read back, in order, when its feature type is a value or null |
| UiParsing.FeatureEnabledOf | yggdrasil-ui/src/App.tsx:85-90 | the camel-case `featureEnabled` when boolean, else the snake-case `feature_enabled` when boolean, else nothing |
| UiParsing.ParseEvaluation | yggdrasil-ui/src/App.tsx:74-105 | a result exactly when the value is an object with a boolean `enabled` and an object variant with a string name, a boolean enabled flag and a boolean feature flag under either spelling; the result carries those values and the payload |
| UiParsing.EvaluationRoundTrip | yggdrasil-ui/src/App.tsx:74-105 | an evaluation reads back whichever spelling carries the feature flag |
| UiParsing.CamelCaseFlagWins | yggdrasil-ui/src/App.tsx:85-90 | with both spellings present, the camel-case one decides |
| UiParsing.MissingFlagRejects | yggdrasil-ui/src/App.tsx:92-94 | without a boolean feature flag under either spelling there is no evaluation |
| UiParsing.EnsureRecordOfStrings | yggdrasil-ui/src/App.tsx:107-112 | true exactly for a non-null object or array all of whose entry values are strings |
| UiParsing.RecordRoundTrip | yggdrasil-ui/src/App.tsx:107-112 | a grammar map passes the check, and its entries read back as the map |
| UiParsing.StringArrayPasses | yggdrasil-ui/src/App.tsx:107-112 | an array of strings passes too, because arrays are objects to `typeof` |

## Left out

- Rule-text parsing: the pest grammars and the precedence-climbing configuration live in a library. Text to fragment tree is a partial function parameter; the fragment trees and their evaluation are modelled.
- Hashing and randomness: `normalized_hash` (murmur3) is a parameter with its stated range, and random stickiness and random rollout are drawn values passed in.
- YggdrasilEngine.GetVariant: `get_variant` calls `normalized_hash` with three arguments while its definition takes a fourth, the hash seed; the model takes that seed as a parameter (`VariantHash.seed`) instead of fixing a value.
- Floating point and library comparisons: the `f64` numeric comparisons (with the `f64::EPSILON` equality), RFC 3339 date comparison, Semantic Versioning 2.0.0 precedence (section 11), IP and CIDR containment (RFC 4632, section 3.1) and hostname lookup are parameters, not definitions.
- In the impact-metrics sources, `impact_metrics/counter.rs` defines `Counter::new(opts)` while `registry.rs` builds `CounterImpl::new(name, help)`, so this snapshot is between edits. The model takes the counter arithmetic from `counter.rs`, the label keys and options from `types.rs`, and the registry's construction (name and help only) from `registry.rs`.
- Fragments.Resolve: the source draws a fresh number from 0..98 every time a `random` accessor runs (strategy_parsing.rs:131-133); the model draws one per evaluation (`Env.random`), so a rule such as `random < 50 and !(random < 50)`, or the `random < 30 or random < 50` the upgrader emits for two `gradualRolloutRandom` strategies, sees the same number at every accessor. Threading a stream of draws through the evaluation would make every rule's meaning depend on evaluation order, which the model leaves out.
- In the older `sdk-core` evaluator, the source draws a fresh random number each time a `random` accessor or an unsticky rollout runs; the model draws one of each per evaluation, so two such rules in one evaluation see the same number.
- `impact_metrics/gauge.rs` and `impact_metrics/histogram.rs` are built on `f64`, and `impact_metrics/mod.rs` only declares traits.
- Concurrency: `DashMap`, atomics, engine locks, lock-poisoning recovery and thread-local builders keep only their sequential meaning. Hash-map iteration order is an explicit order parameter, and so is the order of the grammars that `set_grammars` receives.
- `registry.rs` and its tests use names that do not match `counter.rs` (`CounterImpl`, `zero_with_value`). The registry's meaning follows `counter.rs`.
- FFI and loader plumbing: raw pointers, `CString` ownership, `Arc`/`Mutex`, JNA, ctypes, cgo, `DllImport` and library extraction are not modelled. A foreign buffer is a value plus a release step in a trace. JNA platform selection is not modelled.
- The FlatBuffers encoding: generated `messaging` code is not available. Messages are records with optional fields.
- UI rendering and I/O: React components and `fetch` in `App.tsx` are not modelled; only its four response checks are.
- Simple accessors that only hand back stored state (`listToggles`, `getGrammars`, `toggle_definitions`) are not modelled.
- Build, packaging, benchmarks and test harnesses are not modelled. Tests appear only as scenarios proved as lemmas.
- `yggdrasilffi/src/lib.rs` declares no `InvalidMessageFormat` error, yet `low_level_api.rs` and `packed_message_api.rs` use it. The model includes it, and the envelope's error text is defined for the other variants only.
- `quick_check` reports a null or empty message as a UTF-8 error; the model follows the code.
- Java `YggResponse` tests `StatusCode.Ok`, while the enum constant is `OK`. The model reads it as `OK`.
- Java `takeState` never frees the string the engine returns. The model records that as an unreleased buffer in its trace rather than claiming a fix.
- Go `IsEnabled` exits the process through `log.Fatalf` when marshalling fails. The model makes that an explicit terminal outcome.
- `javascript-engine/src/index.ts` imports its envelope reader from `./utils`, while the reader is in `wasm-interop.ts`. The model uses the reader in `wasm-interop.ts`.
- Ruby: the count calls are attached as returning nothing, so their replies are never read or freed. The model follows that.
- The wasm engine's total variant weight overflowing 32 bits is a panic, and the model makes it an error outcome.
- Common.ToLower: folds ASCII `A`-`Z` only, while Rust's `to_lowercase` follows the Unicode case tables (so `É` is not folded here); Unicode case tables are not available.
- FragmentOps.LowerAll: inherits the ASCII-only folding of Common.ToLower, so case-insensitive string operators agree with the source only on ASCII text.
- FragmentOps.StringFragmentHolds: its case-insensitive branch compares ASCII-folded text; values differing only in non-ASCII case are treated as different.
- Fragments.HostnameHolds: compares hostnames after ASCII-only folding, not Unicode `to_lowercase`.
- JavaResponses.EqualsIgnoreCase: folds ASCII letters only, while Java's `equalsIgnoreCase` also folds other Unicode letters.
- JavaResponses.FindName: matches a status name through the ASCII-only EqualsIgnoreCase.
- JavaResponses.FromName: inherits the ASCII-only folding of FindName.
- JavaResponses.ReadReply: Jackson's other ways of reading an enum (ordinals, case-insensitive options) are not modelled; only a name equal to a constant identifier reads.
- Fragments.StringLiteral: a hand-written literal holding `\"` is characterised only by its length bound and by each removed character producing a quote, and literals written by the upgrader by the round trip with its quoting; the full unescaping of `\"` is not restated.
- Panics and undefined behaviour are preconditions or definedness predicates rather than outcomes: Upgrade.Upgradable (a missing single value is unwrapped), CoreEngine.Panics, YggdrasilEngine.Compiles, YggdrasilEngine.VariantComputable (sum overflow, `% 0`, unwrapped hash), PackedMessage.Decodable, PackedOneShot.VariantCallDefined, PackedOneShot.Writable, LowLevelMessage.LowDecodable, FragmentsLegacy.LeafDefined, FragmentsLegacy.Defined, FragmentsPrototype.ProtoLeafDefined, JavaWasm.BuildContext (a null property value throws), JavaResponses.GetName and JavaResponses.GetPayload (a null value is dereferenced) and WasmEngine.LoadClientFeatures (through WasmEngine.Upgradable). Inputs outside these conditions, which abort the source, are not modelled.
- CamelSnake.ConvertToSnake: `Character.isUpperCase` and `toLowerCase` are modelled on ASCII letters only, because Unicode case tables are not available.
- CamelSnake.DocumentedExamples: covers two of the three parameter rows of the mapper's test (`single` and `somethingWithASingleCharacter`).
- JavaScript numbers are modelled as integers; NaN and fractional values are not modelled.
- ImpactMetrics.LabelKey: its own contract states only the empty case. The sort-and-join meaning is stated by ImpactMetrics.SortedKeysSpec, ImpactMetrics.LabelKeyRoundTrip and ImpactMetrics.LabelKeyCanonical.
- ImpactMetrics.ParseLabelKey: its own contract states only the empty key. Which labels are parsed, and with which values, is stated by ImpactMetrics.ParseLabelKeyMembers.

## Findings

| source | as written | input that shows it | evidently intended | confidence | as-written member | corrected member |
|---|---|---|---|---|---|---|
| java-engine/src/main/java/io/getunleash/engine/YggResponse.java:11-12 | `status_code` is bound to `StatusCode` without a creator, so Jackson's default enum reader accepts only the identifiers `OK`, `NOT_FOUND` and `ERROR`, while the engine writes `Ok`, `NotFound` and `Error` | the reply `{"status_code":"Ok","value":true,"error_message":null}` fails to read instead of giving an enabled response | the status is read through `StatusCode.fromName`, which exists for these very names | low (Jackson's enum reader is library behaviour, and the engine's JNA calls do not read these classes in this snapshot), not executed | JavaResponses.ReadReply, JavaResponses.EngineRepliesUnreadable | JavaResponses.FromWire, JavaResponses.IsEnabledAgreesWithEngine |
| unleash-yggdrasil/src/lib.rs:146-156 | the hashed target is a bucket in 1..total (`normalized_hash` adds 1) but a variant is chosen only when the running weight strictly exceeds it, so the top bucket selects no variant and the first variant loses one unit of weight | an enabled toggle whose only variant has weight 1 and a caller with a user id: the target is always 1, which is not below 1, so the caller gets the disabled default variant | a variant is chosen once the running weight reaches the 1-based target (`>=`), so every seeded caller of an enabled toggle gets a variant | medium (`lib.rs` calls `normalized_hash` with one argument fewer than it declares, so this snapshot is between edits), not executed | YggdrasilEngine.TopBucketGivesDefault, YggdrasilEngine.SingleUnitVariantNeverChosen | YggdrasilEngine.GetVariantIntended, YggdrasilEngine.IntendedSeededAlwaysSelects |
| java-engine/src/main/java/io/getunleash/engine/UnleashEngine.java:207-215 | the engine builds its custom-strategy evaluator with an empty built-in set, so built-in strategies are numbered as custom ones too | a toggle with `default` followed by a registered custom strategy: the custom result is sent as `customStrategy2` while the engine's rule reads `customStrategy1` | built-in names are skipped, as the evaluator's own filter does, so numbering agrees with the rule upgrader | low (the engine's `takeState` never loads strategies into the evaluator), not executed | JavaEvaluator.EngineEvaluatorAsWritten, JavaEvaluator.EmptyBuiltinsMisnumber | JavaEvaluator.EngineEvaluator, JavaEvaluator.EvalAgreesWithUpgrade |
| python-engine/yggdrasil_engine/custom_strategy.py:5-13 | the standard strategy list omits `applicationHostname`, which the engine knows | a toggle with `applicationHostname` followed by a registered custom strategy: the custom result is sent as `customStrategy2` while the engine's rule reads `customStrategy1` | the list holds every built-in strategy, so numbering agrees with the rule upgrader | medium, not executed | PythonCustom.UpdateStrategiesAsWritten, PythonCustom.HostnameShiftsNumbering | PythonCustom.UpdateStrategies, PythonCustom.EvaluateAgreesWithUpgrade |
| ruby-engine/lib/custom_strategy.rb:1-9 | the standard strategy list omits `applicationHostname`, which the engine knows | a toggle with `applicationHostname` followed by a registered custom strategy: the custom result is sent as `customStrategy2` while the engine's rule reads `customStrategy1` | the list holds every built-in strategy, so numbering agrees with the rule upgrader | medium, not executed | RubyCustom.UpdateStrategiesAsWritten, RubyCustom.HostnameShiftsNumbering | RubyCustom.UpdateStrategies, RubyCustom.EvaluateAgreesWithUpgrade |

=== FILE: camel_snake.dfy ===
/** `java-engine/.../CamelToSnakeMapper.java`: the JNA function mapper that
    turns a Java method name such as `takeState` into the exported symbol
    name `take_state`. */
module CamelSnake {
  import opened Common

  /** `Character.isUpperCase`, on the ASCII letters. */
  predicate IsUpper(ch: char) {
    'A' <= ch <= 'Z'
  }

  predicate IsLower(ch: char) {
    'a' <= ch <= 'z'
  }

  function UpperChar(ch: char): char {
    if IsLower(ch) then (ch as int - 32) as char else ch
  }

  /** What one input character becomes: `_` and the lower-case letter for an
      upper-case one, the character itself otherwise. */
  function Piece(ch: char): (p: string)
    ensures IsUpper(ch) ==> p == ['_', LowerChar(ch)] && IsLower(p[1])
    ensures !IsUpper(ch) ==> p == [ch]
  {
    if IsUpper(ch) then ['_', LowerChar(ch)] else [ch]
  }

  /** The pieces of the characters, in order. */
  function Snake(s: string): string {
    if |s| == 0 then "" else Piece(s[0]) + Snake(s[1..])
  }

  function UpperCount(s: string): nat {
    if |s| == 0 then 0 else (if IsUpper(s[0]) then 1 else 0) + UpperCount(s[1..])
  }

  /** Appending a character appends its piece. */
  lemma {:induction false} SnakeSnoc(s: string, ch: char)
    ensures Snake(s + [ch]) == Snake(s) + Piece(ch)
  {
    if |s| > 0 {
      assert (s + [ch])[1..] == s[1..] + [ch];
      SnakeSnoc(s[1..], ch);
    } else {
      assert s + [ch] == [ch];
    }
  }

  /** The mapping works character by character: it distributes over
      concatenation. */
  lemma {:induction false} SnakeAppend(a: string, b: string)
    ensures Snake(a + b) == Snake(a) + Snake(b)
  {
    if |a| > 0 {
      assert (a + b)[1..] == a[1..] + b;
      SnakeAppend(a[1..], b);
    } else {
      assert a + b == b;
    }
  }

  /** `convertToSnake`: the builder loop over the characters. */
  method ConvertToSnake(inputName: string) returns (snakeCaseName: string)
    ensures snakeCaseName == Snake(inputName)
    ensures |snakeCaseName| == |inputName| + UpperCount(inputName)
    ensures forall i :: 0 <= i < |snakeCaseName| ==> !IsUpper(snakeCaseName[i])
  {
    snakeCaseName := "";
    var i := 0;
    while i < |inputName|
      invariant 0 <= i <= |inputName|
      invariant snakeCaseName == Snake(inputName[..i])
    {
      var c := inputName[i];
      assert inputName[..i + 1] == inputName[..i] + [c];
      SnakeSnoc(inputName[..i], c);
      if IsUpper(c) {
        snakeCaseName := snakeCaseName + ['_'] + [LowerChar(c)];
      } else {
        snakeCaseName := snakeCaseName + [c];
      }
      i := i + 1;
    }
    assert inputName[..i] == inputName;
    SnakeLength(inputName);
    SnakeNoUpper(inputName);
  }

  /** Every upper-case character adds one character, the `_`. */
  lemma {:induction false} SnakeLength(s: string)
    ensures |Snake(s)| == |s| + UpperCount(s)
  {
    if |s| > 0 {
      SnakeLength(s[1..]);
    }
  }

  /** The result holds no upper-case letter. */
  lemma {:induction false} SnakeNoUpper(s: string)
    ensures forall i :: 0 <= i < |Snake(s)| ==> !IsUpper(Snake(s)[i])
  {
    if |s| > 0 {
      SnakeNoUpper(s[1..]);
      var p := Piece(s[0]);
      forall i | 0 <= i < |Snake(s)|
        ensures !IsUpper(Snake(s)[i])
      {
        if i >= |p| {
          assert Snake(s)[i] == Snake(s[1..])[i - |p|];
        }
      }
    }
  }

  /** A name without upper-case letters is returned unchanged. */
  lemma {:induction false} SnakeKeepsLowerNames(s: string)
    requires forall i :: 0 <= i < |s| ==> !IsUpper(s[i])
    ensures Snake(s) == s
  {
    if |s| > 0 {
      SnakeKeepsLowerNames(s[1..]);
      assert s == [s[0]] + s[1..];
    }
  }

  /** The reverse mapping: `_` before a lower-case letter becomes that
      letter in upper case. */
  function Camel(t: string): string
    decreases |t|
  {
    if |t| == 0 then ""
    else if |t| >= 2 && t[0] == '_' && IsLower(t[1]) then [UpperChar(t[1])] + Camel(t[2..])
    else [t[0]] + Camel(t[1..])
  }

  /** A name without `_` is recovered from its snake-case symbol name. */
  lemma {:induction false} CamelInvertsSnake(s: string)
    requires '_' !in s
    ensures Camel(Snake(s)) == s
  {
    if |s| > 0 {
      CamelInvertsSnake(s[1..]);
      var t := Snake(s);
      assert s == [s[0]] + s[1..];
      if IsUpper(s[0]) {
        assert t == ['_', LowerChar(s[0])] + Snake(s[1..]);
        assert t[2..] == Snake(s[1..]);
      } else {
        assert t == [s[0]] + Snake(s[1..]);
        assert t[1..] == Snake(s[1..]);
      }
    }
  }

  /** One capitalised word: `_`, its initial in lower case, the rest as is. */
  lemma CapitalisedWord(first: char, rest: string)
    requires IsUpper(first)
    requires forall i :: 0 <= i < |rest| ==> !IsUpper(rest[i])
    ensures Snake([first] + rest) == ['_', LowerChar(first)] + rest
  {
    assert ([first] + rest)[1..] == rest;
    SnakeKeepsLowerNames(rest);
  }

  /** The capitalised word at `input[from..to]` maps to `expected`. */
  lemma WordAt(input: string, from: nat, to: nat, expected: string)
    requires from < to <= |input| && IsUpper(input[from])
    requires forall i :: from < i < to ==> !IsUpper(input[i])
    requires expected == ['_', LowerChar(input[from])] + input[from + 1..to]
    ensures Snake(input[from..to]) == expected
  {
    var w := input[from..to];
    assert w == [input[from]] + input[from + 1..to];
    CapitalisedWord(input[from], input[from + 1..to]);
  }

  /** Five words map to the concatenation of what each maps to. */
  lemma FiveWords(a: string, b: string, c: string, d: string, e: string)
    ensures Snake(a + (b + (c + (d + e)))) == Snake(a) + (Snake(b) + (Snake(c) + (Snake(d) + Snake(e))))
  {
    SnakeAppend(d, e);
    SnakeAppend(c, d + e);
    SnakeAppend(b, c + (d + e));
    SnakeAppend(a, b + (c + (d + e)));
  }

  /** The documented name splits into a lower-case word and four
      capitalised ones. */
  lemma ExampleSplit(input: string)
    requires input == "somethingWithASingleCharacter"
    ensures input == input[..9] + (input[9..13] + (input[13..14] + (input[14..20] + input[20..29])))
  {
  }

  lemma ExampleResult(input: string, expected: string)
    requires input == "somethingWithASingleCharacter"
    requires expected == "something_with_a_single_character"
    ensures expected == input[..9] + ("_with" + ("_a" + ("_single" + "_character")))
  {
  }

  lemma ExampleLowerWord(input: string)
    requires input == "somethingWithASingleCharacter"
    ensures Snake(input[..9]) == input[..9]
  {
    SnakeKeepsLowerNames(input[..9]);
  }

  lemma ExampleShortWords(input: string)
    requires input == "somethingWithASingleCharacter"
    ensures Snake(input[9..13]) == "_with" && Snake(input[13..14]) == "_a"
  {
    assert input[9] == 'W' && input[10..13] == "ith";
    WordAt(input, 9, 13, "_with");
    assert input[13] == 'A' && input[14..14] == "";
    WordAt(input, 13, 14, "_a");
  }

  lemma ExampleSingle(input: string)
    requires input == "somethingWithASingleCharacter"
    ensures Snake(input[14..20]) == "_single"
  {
    assert input[14] == 'S' && input[15..20] == "ingle";
    WordAt(input, 14, 20, "_single");
  }

  lemma ExampleCharacter(input: string)
    requires input == "somethingWithASingleCharacter"
    ensures Snake(input[20..29]) == "_character"
  {
    assert input[20] == 'C' && input[21..29] == "haracter";
    WordAt(input, 20, 29, "_character");
  }

  /** The mapper's documented examples: a name without capitals stays as it
      is, and each capital starts a new `_` word. */
  lemma DocumentedExamples(single: string, input: string, expected: string)
    requires single == "single"
    requires input == "somethingWithASingleCharacter"
    requires expected == "something_with_a_single_character"
    ensures Snake(single) == single
    ensures Snake(input) == expected
  {
    SnakeKeepsLowerNames(single);
    ExampleSplit(input);
    ExampleResult(input, expected);
    ExampleLowerWord(input);
    ExampleShortWords(input);
    ExampleSingle(input);
    ExampleCharacter(input);
    FiveWords(input[..9], input[9..13], input[13..14], input[14..20], input[20..29]);
  }
}

=== FILE: common.dfy ===
/** Shared vocabulary of the model: optional values, machine integers, and the
    handful of string operations the engine and its bindings are built from
    (Rust's `split`, `trim`, `join`, `parse::<usize>()`, `replace`, `starts_with`,
    `ends_with`, `contains`, and the "drop first and last character" idiom used
    for quoted rule literals). */
module Common {

  datatype Option<+T> = None | Some(value: T) {
    /** The carried value, or `default` when there is none (Rust's `unwrap_or`). */
    function GetOr(default: T): T {
      match this
      case Some(v) => v
      case None => default
    }
  }

  const U32_LIMIT: int := 0x1_0000_0000
  const U64_LIMIT: int := 0x1_0000_0000_0000_0000

  type u8 = n: int | 0 <= n < 0x100
  type u32 = n: int | 0 <= n < 0x1_0000_0000
  type u64 = n: int | 0 <= n < 0x1_0000_0000_0000_0000

  /** A number drawn by `rand::thread_rng().gen_range(0..99)`: 0 to 98. */
  type Draw = n: nat | n < 99

  /** `needle` occurs in `s` starting at index `k`. */
  predicate OccursAt(s: string, needle: string, k: int) {
    0 <= k <= |s| - |needle| && s[k..k + |needle|] == needle
  }

  /** The position of the first element satisfying `p` (Rust's `position`,
      the first hit of a `for` loop that returns early). */
  function FirstWhere<T>(xs: seq<T>, p: T -> bool): (r: Option<nat>)
    ensures r.Some? ==> r.value < |xs| && p(xs[r.value])
    ensures r.Some? ==> forall j :: 0 <= j < r.value ==> !p(xs[j])
    ensures r.None? ==> forall j :: 0 <= j < |xs| ==> !p(xs[j])
  {
    if |xs| == 0 then None
    else if p(xs[0]) then Some(0)
    else
      match FirstWhere(xs[1..], p)
      case None => None
      case Some(k) => Some(k + 1)
  }

  /** `xs.iter().filter_map(f)`: the values `f` gives, in order, skipping
      the elements it maps to nothing. */
  function FilterMap<T, U>(xs: seq<T>, f: T -> Option<U>): (r: seq<U>)
    ensures |r| <= |xs|
    ensures forall x :: x in r ==> exists i :: 0 <= i < |xs| && f(xs[i]) == Some(x)
    ensures forall i :: 0 <= i < |xs| && f(xs[i]).Some? ==> f(xs[i]).value in r
  {
    if |xs| == 0 then []
    else
      var rest := FilterMap(xs[1..], f);
      assert forall i :: 1 <= i < |xs| ==> xs[i] == xs[1..][i - 1];
      match f(xs[0])
      case Some(y) => [y] + rest
      case None => rest
  }

  /** `xs.iter().map(f).collect::<Option<Vec<_>>>()`: every value `f` gives,
      or nothing as soon as one element maps to nothing. */
  function MapAll<T, U>(xs: seq<T>, f: T -> Option<U>): (r: Option<seq<U>>)
    ensures r.Some? <==> forall i :: 0 <= i < |xs| ==> f(xs[i]).Some?
    ensures r.Some? ==> |r.value| == |xs|
    ensures r.Some? ==> forall i :: 0 <= i < |xs| ==> r.value[i] == f(xs[i]).value
  {
    if |xs| == 0 then Some([])
    else
      var first := f(xs[0]);
      var rest := MapAll(xs[1..], f);
      assert forall i :: 1 <= i < |xs| ==> xs[i] == xs[1..][i - 1];
      if first.None? || rest.None? then None else Some([first.value] + rest.value)
  }

  /** `xs.iter().map(f)`: one image per element, in order. */
  function MapSeq<T, U>(f: T -> U, xs: seq<T>): (r: seq<U>)
    ensures |r| == |xs|
    ensures forall i :: 0 <= i < |xs| ==> r[i] == f(xs[i])
  {
    seq(|xs|, i requires 0 <= i < |xs| => f(xs[i]))
  }

  /** Concatenation is associative. */
  lemma ConcatAssoc<T>(x: seq<T>, y: seq<T>, z: seq<T>)
    ensures x + (y + z) == (x + y) + z
  {
  }

  /** Mapping two lists side by side is mapping each, one after the other. */
  lemma MapSeqAppend<T, U>(f: T -> U, a: seq<T>, b: seq<T>)
    ensures MapSeq(f, a + b) == MapSeq(f, a) + MapSeq(f, b)
  {
    var ab := a + b;
    forall i | 0 <= i < |ab|
      ensures MapSeq(f, ab)[i] == (MapSeq(f, a) + MapSeq(f, b))[i]
    {
      if i < |a| {
        assert ab[i] == a[i];
      } else {
        assert ab[i] == b[i - |a|];
      }
    }
  }

  // ---------------------------------------------------------------------------
  // Joining and splitting
  // ---------------------------------------------------------------------------

  /** `parts.join(sep)`. */
  function Join(sep: string, parts: seq<string>): string
    decreases |parts|
  {
    if |parts| == 0 then ""
    else if |parts| == 1 then parts[0]
    else parts[0] + sep + Join(sep, parts[1..])
  }

  /** Joining two non-empty lists side by side puts one separator between
      the two joins. */
  lemma {:induction false} JoinAppend(sep: string, xs: seq<string>, ys: seq<string>)
    requires |xs| > 0 && |ys| > 0
    ensures Join(sep, xs + ys) == Join(sep, xs) + sep + Join(sep, ys)
  {
    var zs := xs + ys;
    assert zs[0] == xs[0];
    if |xs| == 1 {
      assert zs[1..] == ys;
    } else {
      assert zs[1..] == xs[1..] + ys;
      JoinAppend(sep, xs[1..], ys);
    }
  }

  /** Position of the first `c` in `s`. */
  function IndexOf(s: string, c: char): (i: nat)
    requires c in s
    ensures i < |s| && s[i] == c
    ensures c !in s[..i]
  {
    if s[0] == c then 0 else 1 + IndexOf(s[1..], c)
  }

  /** `s.split(c)`: always at least one part; no part holds the separator, and
      joining the parts back with the separator gives the input again. */
  function Split(s: string, c: char): (parts: seq<string>)
    ensures |parts| >= 1
    ensures forall i :: 0 <= i < |parts| ==> c !in parts[i]
    ensures Join([c], parts) == s
    decreases |s|
  {
    if c !in s then [s]
    else
      var i := IndexOf(s, c);
      var rest := Split(s[i + 1..], c);
      var parts := [s[..i]] + rest;
      assert parts[1..] == rest;
      assert s == s[..i] + [c] + s[i + 1..];
      parts
  }

  /** The first `c` in `p + [c] + q` is the one right after `p`, when `p` has none. */
  lemma IndexAfterPrefix(p: string, c: char, q: string)
    requires c !in p
    ensures c in p + [c] + q && IndexOf(p + [c] + q, c) == |p|
  {
    if |p| > 0 {
      assert (p + [c] + q)[1..] == p[1..] + [c] + q;
      IndexAfterPrefix(p[1..], c, q);
    }
  }

  /** Splitting undoes joining when no part holds the separator. */
  lemma {:induction false} SplitJoin(c: char, parts: seq<string>)
    requires |parts| >= 1
    requires forall i :: 0 <= i < |parts| ==> c !in parts[i]
    ensures Split(Join([c], parts), c) == parts
    decreases |parts|
  {
    if |parts| == 1 {
      assert Join([c], parts) == parts[0];
    } else {
      var s := Join([c], parts);
      var rest := Join([c], parts[1..]);
      assert s == parts[0] + [c] + rest;
      IndexAfterPrefix(parts[0], c, rest);
      var i := |parts[0]|;
      assert s[..i] == parts[0];
      assert s[i + 1..] == rest;
      SplitJoin(c, parts[1..]);
      assert Split(s, c) == [parts[0]] + Split(rest, c);
      assert [parts[0]] + parts[1..] == parts;
    }
  }

  // ---------------------------------------------------------------------------
  // Whitespace trimming (Rust's `str::trim`, Unicode White_Space)
  // ---------------------------------------------------------------------------

  /** The Unicode White_Space property, which Rust's `trim` strips. */
  predicate IsWhitespace(ch: char) {
    var n := ch as int;
    (0x09 <= n <= 0x0D) || n == 0x20 || n == 0x85 || n == 0xA0 || n == 0x1680
    || (0x2000 <= n <= 0x200A) || n == 0x2028 || n == 0x2029 || n == 0x202F
    || n == 0x205F || n == 0x3000
  }

  function TrimStart(s: string): (r: string)
    ensures |r| <= |s| && r == s[|s| - |r|..]
    ensures forall i :: 0 <= i < |s| - |r| ==> IsWhitespace(s[i])
    ensures |r| > 0 ==> !IsWhitespace(r[0])
  {
    if |s| > 0 && IsWhitespace(s[0]) then TrimStart(s[1..]) else s
  }

  function TrimEnd(s: string): (r: string)
    ensures |r| <= |s| && r == s[..|r|]
    ensures forall i :: |r| <= i < |s| ==> IsWhitespace(s[i])
    ensures |r| > 0 ==> !IsWhitespace(r[|r| - 1])
  {
    if |s| > 0 && IsWhitespace(s[|s| - 1]) then TrimEnd(s[..|s| - 1]) else s
  }

  /** Every character of `s` from `lo` up to `hi` is whitespace. */
  predicate BlankBetween(s: string, lo: nat, hi: nat)
    requires lo <= hi <= |s|
  {
    forall k :: lo <= k < hi ==> IsWhitespace(s[k])
  }

  /** `r` sits at position `i` of `s`, with only whitespace before and after it. */
  predicate TrimmedAt(s: string, r: string, i: int) {
    0 <= i && i + |r| <= |s| && r == s[i..i + |r|] && BlankBetween(s, 0, i) && BlankBetween(s, i + |r|, |s|)
  }

  /** `s.trim()`: `s` with exactly its leading and trailing whitespace
      removed. What is removed is whitespace, and what is kept neither starts
      nor ends with whitespace. */
  function Trim(s: string): (r: string)
    ensures |r| <= |s|
    ensures exists k :: OccursAt(s, r, k)
    ensures exists i :: TrimmedAt(s, r, i)
    ensures |r| > 0 ==> !IsWhitespace(r[0]) && !IsWhitespace(r[|r| - 1])
  {
    var t := TrimStart(s);
    var r := TrimEnd(t);
    TrimAt(s, t, r, |s| - |t|);
    r
  }

  /** Where `Trim` finds its result: `t` is what follows the leading
      whitespace and `r` what precedes the trailing whitespace of `t`. */
  lemma TrimAt(s: string, t: string, r: string, i: nat)
    requires i + |t| == |s| && t == s[i..] && |r| <= |t| && r == t[..|r|]
    requires forall k :: 0 <= k < i ==> IsWhitespace(s[k])
    requires forall k :: |r| <= k < |t| ==> IsWhitespace(t[k])
    ensures TrimmedAt(s, r, i) && OccursAt(s, r, i)
  {
    TrimAtPiece(s, t, r, i);
    TrimAtTail(s, t, r, i);
  }

  /** The kept text is the front of what follows the leading whitespace. */
  lemma TrimAtPiece(s: string, t: string, r: string, i: nat)
    requires i + |t| == |s| && t == s[i..] && |r| <= |t| && r == t[..|r|]
    ensures i + |r| <= |s| && s[i..i + |r|] == r
  {
    assert s[i..i + |r|] == s[i..][..|r|];
  }

  /** What `TrimEnd` dropped is whitespace at the end of `s` too. */
  lemma TrimAtTail(s: string, t: string, r: string, i: nat)
    requires i + |t| == |s| && t == s[i..] && |r| <= |t|
    requires forall k :: |r| <= k < |t| ==> IsWhitespace(t[k])
    ensures BlankBetween(s, i + |r|, |s|)
  {
    forall k | i + |r| <= k < |s|
      ensures IsWhitespace(s[k])
    {
      assert s[k] == t[k - i];
    }
  }

  /** Trimming is determined by where the first and last non-whitespace
      characters are: any cut that removes only whitespace at both ends and
      keeps non-whitespace at both ends of what remains is the trimmed text. */
  lemma TrimUnique(s: string, i: nat, j: nat)
    requires i <= j <= |s| && BlankBetween(s, 0, i) && BlankBetween(s, j, |s|)
    requires i < j ==> !IsWhitespace(s[i]) && !IsWhitespace(s[j - 1])
    ensures Trim(s) == s[i..j]
  {
    var r := Trim(s);
    var a :| TrimmedAt(s, r, a);
    CutUnique(s, r, a, i, j);
  }

  /** Two cuts of `s` with only whitespace outside them and non-whitespace
      at their ends are the same cut. */
  lemma CutUnique(s: string, r: string, a: nat, i: nat, j: nat)
    requires TrimmedAt(s, r, a) && (|r| > 0 ==> !IsWhitespace(r[0]) && !IsWhitespace(r[|r| - 1]))
    requires i <= j <= |s| && BlankBetween(s, 0, i) && BlankBetween(s, j, |s|)
    requires i < j ==> !IsWhitespace(s[i]) && !IsWhitespace(s[j - 1])
    ensures r == s[i..j]
  {
    if |r| > 0 {
      assert s[a] == r[0] && s[a + |r| - 1] == r[|r| - 1];
    }
  }

  /** Trimming twice is trimming once. */
  lemma TrimIdempotent(s: string)
    ensures Trim(Trim(s)) == Trim(s)
  {
    var r := Trim(s);
    TrimUnique(r, 0, |r|);
  }

  /** Text made only of whitespace trims to nothing. */
  lemma {:induction false} BlankTrimsEmpty(s: string)
    requires forall k :: 0 <= k < |s| ==> IsWhitespace(s[k])
    ensures Trim(s) == ""
  {
    if |s| > 0 {
      BlankTrimsEmpty(s[1..]);
    }
  }

  // ---------------------------------------------------------------------------
  // Unsigned decimal numbers
  // ---------------------------------------------------------------------------

  predicate IsDigit(ch: char) {
    '0' <= ch <= '9'
  }

  predicate AllDigits(s: string) {
    forall i :: 0 <= i < |s| ==> IsDigit(s[i])
  }

  /** The value of a string of decimal digits, most significant first. */
  function DigitsValue(s: string): nat
    requires AllDigits(s)
  {
    if |s| == 0 then 0
    else DigitsValue(s[..|s| - 1]) * 10 + (s[|s| - 1] as int - '0' as int)
  }

  /** Rust's `str::parse` for an unsigned integer type whose values are below
      `bound`: an optional single `+`, then one or more ASCII digits; a `-`,
      any other character, an empty digit string or an overflow is an error. */
  function ParseUnsigned(s: string, bound: nat): (r: Option<nat>)
    ensures r.Some? ==> r.value < bound
    ensures r.Some? ==> exists i :: 0 <= i < |s| && IsDigit(s[i])
    ensures |s| > 0 && !IsDigit(s[0]) && s[0] != '+' ==> r.None?
    ensures |s| > 0 && AllDigits(s) ==> r == if DigitsValue(s) < bound then Some(DigitsValue(s)) else None
    ensures |s| > 0 && s[0] == '+' ==>
              (r.Some? <==> |s| > 1 && AllDigits(s[1..]) && DigitsValue(s[1..]) < bound)
    ensures |s| > 0 && s[0] == '+' && r.Some? ==> r.value == DigitsValue(s[1..])
  {
    var digits := if |s| > 0 && s[0] == '+' then s[1..] else s;
    if |digits| > 0 && AllDigits(digits) && DigitsValue(digits) < bound then
      assert IsDigit(s[|s| - 1]);
      Some(DigitsValue(digits))
    else None
  }

  function DigitChar(d: nat): (c: char)
    requires d < 10
    ensures IsDigit(c) && c as int - '0' as int == d
  {
    ('0' as int + d) as char
  }

  /** Rust's `Display` of an unsigned integer: shortest decimal, no sign. */
  function NatToString(n: nat): (s: string)
    ensures |s| > 0 && AllDigits(s)
    ensures DigitsValue(s) == n
  {
    if n < 10 then [DigitChar(n)]
    else
      var s := NatToString(n / 10) + [DigitChar(n % 10)];
      assert s[..|s| - 1] == NatToString(n / 10);
      s
  }

  /** Printing and parsing back agree: the number printed into rule text is
      the number a parser of the same width reads. */
  lemma ParsePrinted(n: nat, bound: nat)
    requires n < bound
    ensures ParseUnsigned(NatToString(n), bound) == Some(n)
  {
    var s := NatToString(n);
    assert IsDigit(s[0]);
  }

  /** `n` zeros. */
  function Zeros(n: nat): (z: string)
    ensures |z| == n && AllDigits(z)
    ensures DigitsValue(z) == 0
  {
    if n == 0 then [] else
      var z := Zeros(n - 1) + ['0'];
      assert z[..|z| - 1] == Zeros(n - 1);
      z
  }

  /** Digits written after other digits add their own value to the value of
      the front shifted by their length. */
  lemma {:induction false} DigitsValueAppend(front: string, back: string)
    requires AllDigits(front) && AllDigits(back)
    ensures AllDigits(front + back)
    ensures DigitsValue(front + back) == DigitsValue(front) * Pow10(|back|) + DigitsValue(back)
    decreases |back|
  {
    var s := front + back;
    assert AllDigits(s);
    if |back| > 0 {
      var init := back[..|back| - 1];
      assert s[..|s| - 1] == front + init;
      DigitsValueAppend(front, init);
      var d := back[|back| - 1] as int - '0' as int;
      assert DigitsValue(s) == DigitsValue(front + init) * 10 + d;
      assert DigitsValue(back) == DigitsValue(init) * 10 + d;
      ShiftStep(DigitsValue(front), Pow10(|init|), DigitsValue(init), d);
    } else {
      assert s == front;
    }
  }

  /** The arithmetic of one more digit: `(f·p + i)·10 + d = f·(p·10) + (i·10 + d)`. */
  lemma ShiftStep(f: int, p: int, i: int, d: int)
    ensures (f * p + i) * 10 + d == f * (p * 10) + (i * 10 + d)
  {
    assert (f * p + i) * 10 == f * p * 10 + i * 10;
    assert f * p * 10 == f * (p * 10);
  }

  function Pow10(n: nat): (p: nat)
    ensures p >= 1
  {
    if n == 0 then 1 else 10 * Pow10(n - 1)
  }

  /** Leading zeros and a leading `+` do not change the number read: every
      zero-padded decimal numeral, signed or not, of a value below the bound
      reads as that value, and one of a value at or above it is rejected. */
  lemma {:induction false} PaddedNumeral(n: nat, zeros: nat, plus: bool, bound: nat)
    ensures var text := (if plus then "+" else "") + Zeros(zeros) + NatToString(n);
            ParseUnsigned(text, bound) == if n < bound then Some(n) else None
  {
    var digits := Zeros(zeros) + NatToString(n);
    DigitsValueAppend(Zeros(zeros), NatToString(n));
    assert |digits| > 0 && AllDigits(digits) && DigitsValue(digits) == n;
    if plus {
      var text := "+" + digits;
      assert text == "+" + Zeros(zeros) + NatToString(n);
      assert text[0] == '+' && text[1..] == digits;
      assert ParseUnsigned(text, bound) == if n < bound then Some(n) else None;
    } else {
      assert "" + Zeros(zeros) + NatToString(n) == digits;
    }
  }

  // ---------------------------------------------------------------------------
  // Prefix, suffix, substring and ASCII case
  // ---------------------------------------------------------------------------

  predicate StartsWith(s: string, prefix: string) {
    |prefix| <= |s| && s[..|prefix|] == prefix
  }

  predicate EndsWith(s: string, suffix: string) {
    |suffix| <= |s| && s[|s| - |suffix|..] == suffix
  }

  /** Appending keeps the prefix. */
  lemma StartsWithAppend(a: string, b: string)
    ensures StartsWith(a + b, a)
  {
    assert (a + b)[..|a|] == a;
  }

  /** Appending keeps any prefix the text already had. */
  lemma StartsWithAppendKeeps(a: string, b: string, prefix: string)
    requires StartsWith(a, prefix)
    ensures StartsWith(a + b, prefix)
  {
    assert (a + b)[..|prefix|] == a[..|prefix|];
  }

  /** Prepending keeps the suffix. */
  lemma EndsWithPrepend(a: string, b: string)
    ensures EndsWith(a + b, b)
  {
    assert (a + b)[|a + b| - |b|..] == b;
  }

  /** `s.contains(needle)`: the needle starts at some position of `s`. */
  predicate Contains(s: string, needle: string)
    decreases |s|
  {
    StartsWith(s, needle) || (|s| > 0 && Contains(s[1..], needle))
  }

  /** `Contains` means an occurrence at an explicit index. */
  lemma {:induction false} ContainsAt(s: string, needle: string)
    ensures Contains(s, needle) <==> exists k :: OccursAt(s, needle, k)
    decreases |s|
  {
    if StartsWith(s, needle) {
      assert OccursAt(s, needle, 0);
    }
    if |s| > 0 {
      ContainsAt(s[1..], needle);
      if Contains(s[1..], needle) {
        var k :| OccursAt(s[1..], needle, k);
        assert OccursAt(s, needle, k + 1);
      }
      if exists k :: OccursAt(s, needle, k) {
        var k :| OccursAt(s, needle, k);
        if k > 0 {
          assert OccursAt(s[1..], needle, k - 1);
        }
      }
    }
  }

  function LowerChar(ch: char): char {
    if 'A' <= ch <= 'Z' then (ch as int + 32) as char else ch
  }

  /** Lower-casing (ASCII letters only; see the README). */
  function ToLower(s: string): (r: string)
    ensures |r| == |s|
    ensures forall i :: 0 <= i < |s| ==> r[i] == LowerChar(s[i])
  {
    seq(|s|, i requires 0 <= i < |s| => LowerChar(s[i]))
  }

  // ---------------------------------------------------------------------------
  // Quoting of rule-text string literals
  // ---------------------------------------------------------------------------

  /** `s.replace('"', "\\\"")`: every double quote gains a backslash. */
  function EscapeQuotes(s: string): (r: string)
    ensures |r| >= |s|
    ensures |r| > 0 ==> r[0] != '"'
  {
    if |s| == 0 then ""
    else if s[0] == '"' then ['\\', '"'] + EscapeQuotes(s[1..])
    else [s[0]] + EscapeQuotes(s[1..])
  }

  /** No backslash in `s` is followed by a quote: there is nothing to unescape. */
  predicate NoEscapedQuote(s: string) {
    forall i :: 0 <= i < |s| - 1 ==> !(s[i] == '\\' && s[i + 1] == '"')
  }

  /** `s.replace("\\\"", "\"")`: every backslash-quote pair, scanning left to
      right without overlap, becomes a bare quote. */
  function UnescapeQuotes(s: string): (r: string)
    ensures |r| <= |s|
    ensures NoEscapedQuote(s) ==> r == s
    ensures |r| < |s| ==> '"' in r
  {
    if |s| >= 2 && s[0] == '\\' && s[1] == '"' then ['"'] + UnescapeQuotes(s[2..])
    else if |s| == 0 then ""
    else [s[0]] + UnescapeQuotes(s[1..])
  }

  /** Unescaping inverts escaping for every string. */
  lemma {:induction false} UnescapeEscape(s: string)
    ensures UnescapeQuotes(EscapeQuotes(s)) == s
  {
    if |s| > 0 {
      UnescapeEscape(s[1..]);
      var e := EscapeQuotes(s[1..]);
      if s[0] == '"' {
        assert (['\\', '"'] + e)[2..] == e;
      } else {
        assert ([s[0]] + e)[1..] == e;
      }
    }
  }

  /** Drops the first and the last character (the quotes of a rule literal);
      strings of fewer than two characters become empty. */
  function StripEnds(s: string): (r: string)
    ensures |s| >= 2 ==> |r| == |s| - 2 && [s[0]] + r + [s[|s| - 1]] == s
    ensures |s| < 2 ==> r == ""
  {
    if |s| >= 2 then s[1..|s| - 1] else ""
  }

  /** `"` + v + `"` with escaped quotes, the literal the upgrader emits. */
  function QuoteEscaped(v: string): string {
    ['"'] + EscapeQuotes(v) + ['"']
  }

  /** The upgrader's quoting followed by the evaluator's literal decoding
      (strip the quotes, then unescape) gives back the original value. */
  lemma QuotedLiteralRoundTrip(v: string)
    ensures UnescapeQuotes(StripEnds(QuoteEscaped(v))) == v
  {
    var q := QuoteEscaped(v);
    assert StripEnds(q) == EscapeQuotes(v);
    UnescapeEscape(v);
  }

  // ---------------------------------------------------------------------------
  // Murmur3-based bucketing
  // ---------------------------------------------------------------------------

  /** murmur3_32 over the UTF-8 bytes of a key with a seed; `None` stands for
      the `io::Error` the hashing reader may report. The hash itself is a
      parameter of the model. */
  type Murmur = (string, u32) -> Option<u32>

  /** The key every variant of `normalized_hash` hashes: `"{group}:{id}"`. */
  function HashKey(group: string, id: string): string {
    group + ":" + id
  }

  /** `murmur3(group:id, seed) % modulus + 1`: a bucket in 1..modulus. */
  function NormalizedHash(murmur: Murmur, group: string, id: string, modulus: u32, seed: u32): (r: Option<nat>)
    requires modulus > 0
    ensures r.Some? <==> murmur(HashKey(group, id), seed).Some?
    ensures r.Some? ==> 1 <= r.value <= modulus
  {
    match murmur(HashKey(group, id), seed)
    case Some(h) => Some(h % modulus + 1)
    case None => None
  }

  /** `murmur3(group:id, 0) % modulus`: a bucket in 0..modulus-1 (the older
      engines and the rule-parser prototype). */
  function RemainderHash(murmur: Murmur, group: string, id: string, modulus: u32): (r: Option<nat>)
    requires modulus > 0
    ensures r.Some? <==> murmur(HashKey(group, id), 0).Some?
    ensures r.Some? ==> r.value < modulus
  {
    match murmur(HashKey(group, id), 0)
    case Some(h) => Some(h % modulus)
    case None => None
  }
}

=== FILE: core_engine.dfy ===
/** The older `sdk-core` engine: its built-in strategies read their
    parameters and the context directly, and the engine answers `is_enabled`
    from the last state it was handed. Hashing, the random draw and IP
    address parsing are parameters of the model. */
module CoreEngine {
  import opened Common
  import opened CoreState

  // ---------------------------------------------------------------------------
  // Strategy parameters
  // ---------------------------------------------------------------------------

  /** `get_string_param`: the stored text, or `""` when the key is missing. */
  function StringParam(parameters: map<string, string>, key: string): (r: string)
    ensures key in parameters ==> r == parameters[key]
    ensures key !in parameters ==> r == ""
  {
    if key in parameters then parameters[key] else ""
  }

  /** `get_int_param`: the value read as a `u32`; a missing key or a value
      that is not a `u32` both read as 0. */
  function IntParam(parameters: map<string, string>, key: string): (r: u32)
    ensures key !in parameters ==> r == 0
    ensures key in parameters && ParseUnsigned(parameters[key], U32_LIMIT).None? ==> r == 0
    ensures key in parameters && ParseUnsigned(parameters[key], U32_LIMIT).Some? ==>
              r == ParseUnsigned(parameters[key], U32_LIMIT).value
  {
    if key in parameters then ParseUnsigned(parameters[key], U32_LIMIT).GetOr(0) else 0
  }

  /** A number written into a parameter is the number read back from it. */
  lemma IntParamReadsPrinted(parameters: map<string, string>, key: string, n: u32)
    ensures IntParam(parameters[key := NatToString(n)], key) == n
  {
    ParsePrinted(n, U32_LIMIT);
  }

  /** The percentage of the gradual rollouts: 0 without a parameter map. */
  function Percentage(parameters: Option<map<string, string>>): (r: u32)
    ensures parameters.None? ==> r == 0
    ensures parameters.Some? ==> r == IntParam(parameters.value, "percentage")
  {
    match parameters
    case Some(m) => IntParam(m, "percentage")
    case None => 0
  }

  /** The group a gradual rollout hashes under: `""` without a parameter map. */
  function GroupParam(parameters: Option<map<string, string>>, key: string): (r: string)
    ensures parameters.None? ==> r == ""
    ensures parameters.Some? ==> r == StringParam(parameters.value, key)
  {
    match parameters
    case Some(m) => StringParam(m, key)
    case None => ""
  }

  // ---------------------------------------------------------------------------
  // userIds: all-or-nothing
  // ---------------------------------------------------------------------------

  /** One entry of `userIds`: trimmed, then read as a `u32`. */
  function ReadId(entry: string): Option<u32> {
    match ParseUnsigned(Trim(entry), U32_LIMIT)
    case Some(n) => Some(n)
    case None => None
  }

  /** Every entry read with `ReadId`; one entry that is not a `u32` makes the
      whole collection fail. */
  function ParseIds(entries: seq<string>): (r: Option<seq<u32>>)
    ensures r.Some? <==> forall i :: 0 <= i < |entries| ==> ReadId(entries[i]).Some?
    ensures r.Some? ==> |r.value| == |entries|
    ensures r.Some? ==> forall i :: 0 <= i < |entries| ==> r.value[i] == ReadId(entries[i]).value
  {
    MapAll(entries, ReadId)
  }

  /** `UserWithIdParams::from`: the comma-separated `userIds` parameter, or
      no ids at all when the parameter is missing or any entry is not a `u32`. */
  function UserIds(parameters: Option<map<string, string>>): (r: seq<u32>)
    ensures parameters.None? || "userIds" !in parameters.value ==> r == []
    ensures parameters.Some? && "userIds" in parameters.value ==>
              var entries := Split(parameters.value["userIds"], ',');
              (ParseIds(entries).None? ==> r == []) &&
              (ParseIds(entries).Some? ==> r == ParseIds(entries).value)
  {
    match parameters
    case None => []
    case Some(m) =>
      if "userIds" in m then ParseIds(Split(m["userIds"], ',')).GetOr([]) else []
  }

  /** The decimal text of each id. */
  function Printed(ids: seq<u32>): (r: seq<string>)
    ensures |r| == |ids|
    ensures forall i :: 0 <= i < |ids| ==> r[i] == NatToString(ids[i])
  {
    if |ids| == 0 then [] else [NatToString(ids[0])] + Printed(ids[1..])
  }

  /** A string of digits has no surrounding whitespace to trim. */
  lemma TrimDigits(s: string)
    requires |s| > 0 && AllDigits(s)
    ensures Trim(s) == s
  {
    assert !IsWhitespace(s[0]) && !IsWhitespace(s[|s| - 1]);
  }

  /** Writing ids as the comma-joined list the server sends and reading the
      parameter back gives the same ids, in the same order. */
  lemma UserIdsOfPrinted(ids: seq<u32>)
    requires |ids| >= 1
    ensures UserIds(Some(map["userIds" := Join(",", Printed(ids))])) == ids
  {
    var parts := Printed(ids);
    forall i | 0 <= i < |parts|
      ensures ',' !in parts[i]
      ensures ReadId(parts[i]) == Some(ids[i])
    {
      assert forall k :: 0 <= k < |parts[i]| ==> IsDigit(parts[i][k]);
      TrimDigits(parts[i]);
      ParsePrinted(ids[i], U32_LIMIT);
    }
    SplitJoin(',', parts);
    assert [','] == ",";
    var r := ParseIds(parts);
    assert r.Some?;
    assert r.value == ids;
  }

  // ---------------------------------------------------------------------------
  // remoteAddress parameters
  // ---------------------------------------------------------------------------

  /** The trimmed entries that parse as an address or a network, in order;
      the rest are dropped silently. */
  function ParsedNets<N>(entries: seq<string>, parse: string -> Option<N>): (r: seq<N>)
    ensures |r| <= |entries|
    ensures forall x :: x in r ==> exists i :: 0 <= i < |entries| && parse(Trim(entries[i])) == Some(x)
    ensures forall i :: 0 <= i < |entries| && parse(Trim(entries[i])).Some? ==> parse(Trim(entries[i])).value in r
  {
    FilterMap(entries, (entry: string) => parse(Trim(entry)))
  }

  /** `RemoteAddressParams::from`: the networks listed in the `IPs` parameter. */
  function RemoteNets<N>(parameters: Option<map<string, string>>, parse: string -> Option<N>): (r: seq<N>)
    ensures parameters.None? || "IPs" !in parameters.value ==> r == []
    ensures parameters.Some? && "IPs" in parameters.value ==>
              r == ParsedNets(Split(parameters.value["IPs"], ','), parse)
  {
    match parameters
    case None => []
    case Some(m) => if "IPs" in m then ParsedNets(Split(m["IPs"], ','), parse) else []
  }

  /** The loop over the listed networks: true at the first one holding the address. */
  function AnyContains<N>(nets: seq<N>, contains: (N, string) -> bool, address: string): (r: bool)
    ensures r <==> exists i :: 0 <= i < |nets| && contains(nets[i], address)
  {
    if |nets| == 0 then false
    else if contains(nets[0], address) then true
    else
      assert forall i :: 1 <= i < |nets| ==> nets[i] == nets[1..][i - 1];
      AnyContains(nets[1..], contains, address)
  }

  // ---------------------------------------------------------------------------
  // Strategy evaluation
  // ---------------------------------------------------------------------------

  /** A draw of `gen_range(0..100)`. */
  type Percent = n: int | 0 <= n < 100

  /** What the strategies need from outside: the murmur3 hash, the random
      draw made for the strategy at each position of a toggle, the parsing of
      an IP address or network, and network containment. */
  datatype Env<!N> = Env(
    murmur: Murmur,
    roll: nat -> Percent,
    parseNet: string -> Option<N>,
    contains: (N, string) -> bool)

  /** `userWithId` parses the user id with `expect`: a user id that is not a
      `u32` aborts the evaluation. */
  predicate Panics(s: CoreStrategy, ctx: InnerContext) {
    s.name == "userWithId" && ctx.userId.Some? && ParseUnsigned(ctx.userId.value, U32_LIMIT).None?
  }

  /** A gradual rollout: no id, or a failing hash, gives false; otherwise
      the rollout holds iff the id's bucket `murmur3("group:id") % 100` is at
      most the percentage. */
  function RolloutHit(percentage: u32, group: string, id: Option<string>, murmur: Murmur): (r: bool)
    ensures id.None? ==> !r
    ensures id.Some? ==>
              (r <==> RemainderHash(murmur, group, id.value, 100).Some?
                      && percentage >= RemainderHash(murmur, group, id.value, 100).value)
  {
    match id
    case None => false
    case Some(v) =>
      match RemainderHash(murmur, group, v, 100)
      case Some(bucket) => percentage >= bucket
      case None => false
  }

  /** Raising the percentage never takes an id out of a rollout. */
  lemma RolloutMonotone(p: u32, q: u32, group: string, id: Option<string>, murmur: Murmur)
    requires p <= q && RolloutHit(p, group, id, murmur)
    ensures RolloutHit(q, group, id, murmur)
  {
  }

  /** At 99 percent or more every id whose hash succeeds is in the rollout,
      and at 0 percent the ids in bucket 0 still are. */
  lemma RolloutBounds(p: u32, group: string, id: string, murmur: Murmur)
    requires murmur(HashKey(group, id), 0).Some?
    ensures p >= 99 ==> RolloutHit(p, group, Some(id), murmur)
    ensures RemainderHash(murmur, group, id, 100) == Some(0) ==> RolloutHit(p, group, Some(id), murmur)
  {
  }

  /** `Strategy::is_enabled`. The `remoteAddress` arm returns true from
      inside its loop as soon as a listed network contains the caller's
      address, and false otherwise. `roll` is
      the random draw for `gradualRolloutRandom`. Unknown names are enabled. */
  function StrategyEnabled<N>(s: CoreStrategy, ctx: InnerContext, env: Env<N>, roll: Percent): (r: bool)
    requires !Panics(s, ctx)
    ensures s.name == "userWithId" ==>
              (r <==> ctx.userId.Some? && ParseUnsigned(ctx.userId.value, U32_LIMIT).value in UserIds(s.parameters))
    ensures s.name == "gradualRolloutUserId" ==>
              r == RolloutHit(Percentage(s.parameters), GroupParam(s.parameters, "groupId"), ctx.userId, env.murmur)
    ensures s.name == "gradualRolloutSessionId" ==>
              r == RolloutHit(Percentage(s.parameters), GroupParam(s.parameters, "sessionId"), ctx.sessionId, env.murmur)
    ensures s.name == "gradualRolloutRandom" ==> (r <==> Percentage(s.parameters) >= roll)
    ensures s.name == "remoteAddress" ==>
              (r <==> ctx.remoteAddress.Some? &&
                      exists i :: 0 <= i < |RemoteNets(s.parameters, env.parseNet)| &&
                                  env.contains(RemoteNets(s.parameters, env.parseNet)[i], ctx.remoteAddress.value))
    ensures s.name !in KNOWN_STRATEGIES ==> r
  {
    if s.name == "userWithId" then
      match ctx.userId
      case None => false
      case Some(u) => ParseUnsigned(u, U32_LIMIT).value in UserIds(s.parameters)
    else if s.name == "gradualRolloutUserId" then
      RolloutHit(Percentage(s.parameters), GroupParam(s.parameters, "groupId"), ctx.userId, env.murmur)
    else if s.name == "gradualRolloutSessionId" then
      RolloutHit(Percentage(s.parameters), GroupParam(s.parameters, "sessionId"), ctx.sessionId, env.murmur)
    else if s.name == "gradualRolloutRandom" then
      Percentage(s.parameters) >= roll
    else if s.name == "remoteAddress" then
      match ctx.remoteAddress
      case None => false
      case Some(address) => AnyContains(RemoteNets(s.parameters, env.parseNet), env.contains, address)
    else true
  }

  /** The strategy names `Strategy::is_enabled` recognises. */
  const KNOWN_STRATEGIES: set<string> :=
    {"userWithId", "gradualRolloutUserId", "gradualRolloutSessionId", "gradualRolloutRandom", "remoteAddress"}

  /** Raising the `percentage` parameter of a gradual rollout never takes a
      caller out of it: every other parameter reads as before. */
  lemma {:induction false} PercentageMonotone<N>(s: CoreStrategy, ctx: InnerContext, env: Env<N>, roll: Percent, q: u32)
    requires s.name in {"gradualRolloutUserId", "gradualRolloutSessionId", "gradualRolloutRandom"}
    requires s.parameters.Some? && Percentage(s.parameters) <= q
    requires StrategyEnabled(s, ctx, env, roll)
    ensures StrategyEnabled(s.(parameters := Some(s.parameters.value["percentage" := NatToString(q)])), ctx, env, roll)
  {
    var m := s.parameters.value;
    var raised := Some(m["percentage" := NatToString(q)]);
    IntParamReadsPrinted(m, "percentage", q);
    assert Percentage(raised) == q;
    assert GroupParam(raised, "groupId") == GroupParam(s.parameters, "groupId");
    assert GroupParam(raised, "sessionId") == GroupParam(s.parameters, "sessionId");
    if s.name == "gradualRolloutUserId" {
      RolloutMonotone(Percentage(s.parameters), q, GroupParam(s.parameters, "groupId"), ctx.userId, env.murmur);
    } else if s.name == "gradualRolloutSessionId" {
      RolloutMonotone(Percentage(s.parameters), q, GroupParam(s.parameters, "sessionId"), ctx.sessionId, env.murmur);
    }
  }

  /** A caller is let in by `remoteAddress` as soon as one comma-separated
      entry of `IPs`, trimmed, parses as a network holding its address. */
  lemma {:induction false} ListedAddressEnabled<N>(s: CoreStrategy, ctx: InnerContext, env: Env<N>, roll: Percent, i: nat)
    requires s.name == "remoteAddress" && ctx.remoteAddress.Some?
    requires s.parameters.Some? && "IPs" in s.parameters.value
    requires i < |Split(s.parameters.value["IPs"], ',')|
    requires var net := env.parseNet(Trim(Split(s.parameters.value["IPs"], ',')[i]));
             net.Some? && env.contains(net.value, ctx.remoteAddress.value)
    ensures StrategyEnabled(s, ctx, env, roll)
  {
    var entries := Split(s.parameters.value["IPs"], ',');
    var net := env.parseNet(Trim(entries[i])).value;
    var nets := RemoteNets(s.parameters, env.parseNet);
    assert net in nets;
    var k :| 0 <= k < |nets| && nets[k] == net;
    assert env.contains(nets[k], ctx.remoteAddress.value);
  }

  /** The `IPs` parameter "10.0.0.1" lists one network under a parser that
      keeps every entry as it is. */
  lemma SingleListedAddress(parse: string -> Option<string>)
    requires forall t :: parse(t) == Some(t)
    ensures RemoteNets(Some(map["IPs" := "10.0.0.1"]), parse) == ["10.0.0.1"]
  {
    var text := "10.0.0.1";
    SingleAddressText(text);
    SingleParsedNet(text, parse);
  }

  /** "10.0.0.1" holds no comma and no surrounding blanks. */
  lemma SingleAddressText(text: string)
    requires text == "10.0.0.1"
    ensures Split(text, ',') == [text] && Trim(text) == text
  {
    assert Split(text, ',') == [text] by {
      assert ',' !in text;
    }
    assert !IsWhitespace(text[0]) && !IsWhitespace(text[|text| - 1]);
  }

  /** One entry that needs no trimming and parses gives one network. */
  lemma SingleParsedNet<N>(text: string, parse: string -> Option<N>)
    requires Trim(text) == text && parse(text).Some?
    ensures ParsedNets([text], parse) == [parse(text).value]
  {
    var r := ParsedNets([text], parse);
    assert parse(Trim([text][0])).value in r;
    assert |r| <= 1;
  }

  // ---------------------------------------------------------------------------
  // The engine
  // ---------------------------------------------------------------------------

  /** `EngineState`: no state until the first `take_state`. */
  datatype CoreEngine = CoreEngine(toggles: Option<CoreState>)

  const NEW_ENGINE: CoreEngine := CoreEngine(None)

  /** `take_state`: the new state replaces whatever was loaded before. */
  function TakeState(e: CoreEngine, state: CoreState): (r: CoreEngine)
    ensures r.toggles == Some(state)
  {
    CoreEngine(Some(state))
  }

  /** `i` is the first toggle called `name`. */
  predicate FirstNamed(features: seq<CoreToggle>, name: string, i: int) {
    0 <= i < |features| && features[i].name == name &&
    forall j :: 0 <= j < i ==> features[j].name != name
  }

  /** `iter().find`: the position of the first toggle called `name`. */
  function FindToggle(features: seq<CoreToggle>, name: string): (r: Option<nat>)
    ensures r.Some? ==> FirstNamed(features, name, r.value)
    ensures r.None? ==> forall j :: 0 <= j < |features| ==> features[j].name != name
  {
    if |features| == 0 then None
    else if features[0].name == name then Some(0)
    else
      match FindToggle(features[1..], name)
      case None => None
      case Some(k) => Some(k + 1)
  }

  /** `iter().any` stops at the first enabled strategy, so only the
      strategies up to that one must not panic. */
  predicate EvaluableFrom<N>(ss: seq<CoreStrategy>, ctx: InnerContext, env: Env<N>, i: nat)
    requires i <= |ss|
    decreases |ss| - i
  {
    i == |ss| ||
    (!Panics(ss[i], ctx) &&
     (StrategyEnabled(ss[i], ctx, env, env.roll(i)) || EvaluableFrom(ss, ctx, env, i + 1)))
  }

  /** The strategy at position `j` is evaluated without aborting and holds. */
  predicate Fires<N>(ss: seq<CoreStrategy>, ctx: InnerContext, env: Env<N>, j: int) {
    0 <= j < |ss| && !Panics(ss[j], ctx) && StrategyEnabled(ss[j], ctx, env, env.roll(j))
  }

  /** `iter().any(|s| s.is_enabled(ctx))` from position `i` on. */
  function AnyEnabled<N>(ss: seq<CoreStrategy>, ctx: InnerContext, env: Env<N>, i: nat): (r: bool)
    requires i <= |ss| && EvaluableFrom(ss, ctx, env, i)
    ensures r <==> exists j :: i <= j < |ss| && Fires(ss, ctx, env, j)
    decreases |ss| - i
  {
    if i == |ss| then false
    else if StrategyEnabled(ss[i], ctx, env, env.roll(i)) then
      assert Fires(ss, ctx, env, i);
      true
    else
      assert !Fires(ss, ctx, env, i);
      assert EvaluableFrom(ss, ctx, env, i + 1);
      var rest := AnyEnabled(ss, ctx, env, i + 1);
      assert rest <==> exists j :: i <= j < |ss| && Fires(ss, ctx, env, j) by {
        assert forall j :: i <= j < |ss| && Fires(ss, ctx, env, j) ==> i + 1 <= j;
      }
      rest
  }

  /** A toggle answers: enabled, and with no strategies or an enabled one. */
  predicate Active<N>(t: CoreToggle, ctx: InnerContext, env: Env<N>) {
    t.enabled && (|t.strategies| == 0 || exists j :: 0 <= j < |t.strategies| && Fires(t.strategies, ctx, env, j))
  }

  /** The evaluation of `name` does not abort. */
  predicate CanEvaluate<N>(e: CoreEngine, name: string, ctx: InnerContext, env: Env<N>) {
    e.toggles.Some? ==>
      match FindToggle(e.toggles.value.features, name)
      case None => true
      case Some(i) =>
        var t := e.toggles.value.features[i];
        t.enabled && |t.strategies| > 0 ==> EvaluableFrom(t.strategies, ctx, env, 0)
  }

  /** `EngineState::is_enabled`: false with no state or no toggle of that
      name; otherwise whether the first toggle of that name is active. */
  function IsEnabled<N>(e: CoreEngine, name: string, ctx: InnerContext, env: Env<N>): (r: bool)
    requires CanEvaluate(e, name, ctx, env)
    ensures e.toggles.None? ==> !r
    ensures r <==> e.toggles.Some? &&
                   exists i :: FirstNamed(e.toggles.value.features, name, i) &&
                               Active(e.toggles.value.features[i], ctx, env)
  {
    match e.toggles
    case None => false
    case Some(state) =>
      match FindToggle(state.features, name)
      case None => false
      case Some(i) =>
        var t := state.features[i];
        if !t.enabled then false
        else if |t.strategies| > 0 then AnyEnabled(t.strategies, ctx, env, 0)
        else true
  }

  /** Only the last state taken matters: two engines given the same state
      answer alike, whatever they held before. */
  lemma TakeStateForgetsPrevious<N>(e1: CoreEngine, e2: CoreEngine, state: CoreState,
                                    name: string, ctx: InnerContext, env: Env<N>)
    requires CanEvaluate(TakeState(e1, state), name, ctx, env)
    ensures CanEvaluate(TakeState(e2, state), name, ctx, env)
    ensures IsEnabled(TakeState(e1, state), name, ctx, env) == IsEnabled(TakeState(e2, state), name, ctx, env)
  {
  }

  /** A later toggle with a name already present is never consulted. */
  lemma {:induction false} LaterDuplicateIgnored<N>(features: seq<CoreToggle>, t: CoreToggle,
                                                    ctx: InnerContext, env: Env<N>)
    requires exists i :: 0 <= i < |features| && features[i].name == t.name
    requires CanEvaluate(CoreEngine(Some(CoreState(features))), t.name, ctx, env)
    ensures CanEvaluate(CoreEngine(Some(CoreState(features + [t]))), t.name, ctx, env)
    ensures IsEnabled(CoreEngine(Some(CoreState(features + [t]))), t.name, ctx, env)
            == IsEnabled(CoreEngine(Some(CoreState(features))), t.name, ctx, env)
  {
    FindPrefix(features, [t], t.name);
  }

  /** Extending the list after a match does not move the first match. */
  lemma {:induction false} FindPrefix(features: seq<CoreToggle>, more: seq<CoreToggle>, name: string)
    requires FindToggle(features, name).Some?
    ensures FindToggle(features + more, name) == FindToggle(features, name)
  {
    if features[0].name != name {
      assert (features + more)[1..] == features[1..] + more;
      FindPrefix(features[1..], more, name);
    }
  }

  /** A disabled toggle is off whatever its strategies say. */
  lemma DisabledIsOff<N>(features: seq<CoreToggle>, name: string, ctx: InnerContext, env: Env<N>)
    requires FindToggle(features, name).Some? && !features[FindToggle(features, name).value].enabled
    ensures CanEvaluate(CoreEngine(Some(CoreState(features))), name, ctx, env)
    ensures !IsEnabled(CoreEngine(Some(CoreState(features))), name, ctx, env)
  {
  }
}

=== FILE: core_state.dfy ===
/** The state document of the older `sdk-core` engine: toggles with
    strategies whose constraints know only the `IN` and `NOT_IN` operators,
    and the evaluation context of that engine. */
module CoreState {
  import opened Common

  datatype CoreOperator = In | NotIn

  datatype CoreConstraint = CoreConstraint(
    contextName: string,
    values: Option<seq<string>>,
    value: Option<string>,
    operator: CoreOperator)

  datatype CoreStrategy = CoreStrategy(
    name: string,
    parameters: Option<map<string, string>>,
    constraints: Option<seq<CoreConstraint>>)

  datatype CoreToggle = CoreToggle(name: string, enabled: bool, strategies: seq<CoreStrategy>)

  datatype CoreState = CoreState(features: seq<CoreToggle>)

  /** The context `sdk-core`'s engine evaluates against. */
  datatype InnerContext = InnerContext(
    userId: Option<string>,
    sessionId: Option<string>,
    remoteAddress: Option<string>,
    properties: Option<map<string, string>>)

  /** `get_param`: a parameter of the strategy, if the map and key exist. */
  function CoreParam(s: CoreStrategy, key: string): (r: Option<string>)
    ensures r.Some? <==> s.parameters.Some? && key in s.parameters.value
    ensures r.Some? ==> r.value == s.parameters.value[key]
  {
    match s.parameters
    case Some(m) => if key in m then Some(m[key]) else None
    case None => None
  }
}

=== FILE: custom_results.dfy ===
/** What every binding-side custom-strategy resolver shares: the declared
    strategies it reads from the features document, the result keys
    `customStrategy1`, `customStrategy2`, ... it reports under, the order-
    preserving selection of strategies it numbers, and the three ways a
    name-keyed registry can treat a repeated name. The engine's rule text
    refers to the same keys (`Upgrade.ExternalValue`), which is what ties the
    resolvers to the upgrader. */
module CustomResults {
  import opened Common
  import opened Features
  import Upgrade

  // ---------------------------------------------------------------------------
  // Result keys
  // ---------------------------------------------------------------------------

  const RESULT_PREFIX: string := "customStrategy"

  /** The key of the strategy at position `index` (from 0) of a numbered
      list. */
  function ResultName(index: nat): string {
    RESULT_PREFIX + NatToString(index + 1)
  }

  /** Reads a result key back to its position. */
  function ResultIndex(key: string): (r: Option<nat>)
    ensures r.Some? ==> StartsWith(key, RESULT_PREFIX)
  {
    if StartsWith(key, RESULT_PREFIX) && |key| > |RESULT_PREFIX| then
      var digits := key[|RESULT_PREFIX|..];
      if AllDigits(digits) && DigitsValue(digits) >= 1 then Some(DigitsValue(digits) - 1) else None
    else None
  }

  lemma ResultNameRoundTrip(index: nat)
    ensures ResultIndex(ResultName(index)) == Some(index)
  {
    var key := ResultName(index);
    assert key[..|RESULT_PREFIX|] == RESULT_PREFIX;
    assert key[|RESULT_PREFIX|..] == NatToString(index + 1);
  }

  /** Different positions report under different keys. */
  lemma ResultNamesDistinct(i: nat, j: nat)
    ensures ResultName(i) == ResultName(j) <==> i == j
  {
    if ResultName(i) == ResultName(j) {
      ResultNameRoundTrip(i);
      ResultNameRoundTrip(j);
    }
  }

  /** The rule text the upgrader writes for the custom strategy with ordinal
      `k` reads the result key of position `k - 1`. */
  lemma ExternalValueReadsResult(k: nat)
    requires k >= 1
    ensures Upgrade.ExternalValue(k) == "external_value[\"" + ResultName(k - 1) + "\"]"
  {
  }

  /** The keys of the first `n` positions. */
  function ResultKeys(n: nat): (keys: set<string>)
    ensures forall i :: 0 <= i < n ==> ResultName(i) in keys
  {
    if n == 0 then {} else ResultKeys(n - 1) + {ResultName(n - 1)}
  }

  /** A position's key is among the first `n` keys exactly when the position
      is below `n`. */
  lemma {:induction false} ResultKeysExact(n: nat, i: nat)
    ensures ResultName(i) in ResultKeys(n) <==> i < n
  {
    if n > 0 {
      ResultKeysExact(n - 1, i);
      ResultNamesDistinct(i, n - 1);
    }
  }

  /** The results object sent to the engine: position `i` of `values` under
      `ResultName(i)`, and no other key. */
  function ResultsOf(values: seq<bool>): (m: map<string, bool>)
    ensures m.Keys == ResultKeys(|values|)
    ensures forall i :: 0 <= i < |values| ==> m[ResultName(i)] == values[i]
  {
    if |values| == 0 then map[]
    else
      var n := |values| - 1;
      var front := ResultsOf(values[..n]);
      forall i | 0 <= i < n ensures ResultName(i) != ResultName(n) {
        ResultNamesDistinct(i, n);
      }
      front[ResultName(n) := values[n]]
  }

  /** The values of a list of pairs. */
  function Values(pairs: seq<(string, bool)>): (vs: seq<bool>)
    ensures |vs| == |pairs|
    ensures forall k :: 0 <= k < |pairs| ==> vs[k] == pairs[k].1
  {
    seq(|pairs|, k requires 0 <= k < |pairs| => pairs[k].1)
  }

  /** Pairs that carry each position's own key, built into a map in order
      (`Object.fromEntries`, a hash built by assignment), give the results
      object of their values. */
  lemma {:induction false} NumberedPairsAreResults(pairs: seq<(string, bool)>)
    requires forall k :: 0 <= k < |pairs| ==> pairs[k].0 == ResultName(k)
    ensures LastWins(pairs) == ResultsOf(Values(pairs))
  {
    if |pairs| > 0 {
      var n := |pairs| - 1;
      NumberedPairsAreResults(pairs[..n]);
      assert Values(pairs[..n]) == Values(pairs)[..n];
      assert pairs[n].0 == ResultName(n);
    }
  }

  // ---------------------------------------------------------------------------
  // Declared strategies
  // ---------------------------------------------------------------------------

  /** A strategy as a resolver reads it: the name and the parameters, which
      may be missing. */
  datatype StrategyDecl = StrategyDecl(name: string, parameters: Option<map<string, string>>)

  /** A toggle as a resolver reads it; the strategy list may be missing. */
  datatype FeatureDecl = FeatureDecl(name: string, strategies: Option<seq<StrategyDecl>>)

  function DeclOf(s: Strategy): StrategyDecl {
    StrategyDecl(s.name, s.parameters)
  }

  function Decls(ss: seq<Strategy>): (ds: seq<StrategyDecl>)
    ensures |ds| == |ss|
    ensures forall i :: 0 <= i < |ss| ==> ds[i] == DeclOf(ss[i])
  {
    seq(|ss|, i requires 0 <= i < |ss| => DeclOf(ss[i]))
  }

  /** The declarations whose name passes `keep`, in declaration order. */
  function Select(ds: seq<StrategyDecl>, keep: string -> bool): (r: seq<StrategyDecl>)
    ensures |r| <= |ds|
    ensures forall d :: d in r <==> d in ds && keep(d.name)
  {
    if |ds| == 0 then []
    else
      var front := Select(ds[..|ds| - 1], keep);
      assert forall d :: d in ds <==> d in ds[..|ds| - 1] || d == ds[|ds| - 1];
      front + (if keep(ds[|ds| - 1].name) then [ds[|ds| - 1]] else [])
  }

  /** The strategies whose name is not in `known`. */
  function Foreign(ds: seq<StrategyDecl>, known: seq<string>): (r: seq<StrategyDecl>)
    ensures forall d :: d in r <==> d in ds && d.name !in known
  {
    Select(ds, n => n !in known)
  }

  /** The strategies that are foreign and have an implementation. */
  function RegisteredForeign<V>(ds: seq<StrategyDecl>, known: seq<string>, registered: map<string, V>): (r: seq<StrategyDecl>)
    ensures forall d :: d in r <==> d in ds && d.name !in known && d.name in registered
  {
    Select(ds, n => n !in known && n in registered)
  }

  /** When every foreign strategy has an implementation, filtering on
      registration removes nothing. */
  lemma {:induction false} AllRegisteredSelectsForeign<V>(ds: seq<StrategyDecl>, known: seq<string>, registered: map<string, V>)
    requires forall i :: 0 <= i < |ds| && ds[i].name !in known ==> ds[i].name in registered
    ensures RegisteredForeign(ds, known, registered) == Foreign(ds, known)
  {
    if |ds| > 0 {
      AllRegisteredSelectsForeign(ds[..|ds| - 1], known, registered);
    }
  }

  /** The upgrader's custom strategies are the foreign ones with respect to
      its eight built-in names. */
  lemma {:induction false} CustomsAreForeign(ss: seq<Strategy>)
    ensures Decls(Upgrade.Customs(ss)) == Foreign(Decls(ss), Upgrade.BUILT_IN_NAMES)
  {
    if |ss| > 0 {
      var n := |ss| - 1;
      CustomsAreForeign(ss[..n]);
      assert Decls(ss)[..n] == Decls(ss[..n]);
      assert Upgrade.IsCustom(ss[n]) <==> ss[n].name !in Upgrade.BUILT_IN_NAMES;
      var tail := if Upgrade.IsCustom(ss[n]) then [ss[n]] else [];
      assert Decls(Upgrade.Customs(ss[..n]) + tail) == Decls(Upgrade.Customs(ss[..n])) + Decls(tail);
    }
  }

  /** The agreement behind every resolver: numbering the foreign strategies
      consecutively, with the upgrader's built-in names as the known list,
      gives each custom strategy the key the upgrader's rule text reads. */
  lemma OrdinalIsForeignPosition(ss: seq<Strategy>, i: nat)
    requires i < |ss| && Upgrade.IsCustom(ss[i])
    ensures var k := Upgrade.Ordinal(ss, i);
            var foreign := Foreign(Decls(ss), Upgrade.BUILT_IN_NAMES);
            1 <= k <= |foreign| && foreign[k - 1] == DeclOf(ss[i])
            && Upgrade.StrategyRule(ss[i], k) == "external_value[\"" + ResultName(k - 1) + "\"]"
  {
    Upgrade.OrdinalIsRank(ss, i);
    CustomsAreForeign(ss);
    ExternalValueReadsResult(Upgrade.Ordinal(ss, i));
  }

  /** The same agreement for a resolver that also drops unregistered
      strategies, when every custom strategy is registered. */
  lemma RegisteredOrdinal<V>(ss: seq<Strategy>, i: nat, registered: map<string, V>)
    requires forall j :: 0 <= j < |ss| && Upgrade.IsCustom(ss[j]) ==> ss[j].name in registered
    requires i < |ss| && Upgrade.IsCustom(ss[i])
    ensures var k := Upgrade.Ordinal(ss, i);
            var selected := RegisteredForeign(Decls(ss), Upgrade.BUILT_IN_NAMES, registered);
            1 <= k <= |selected| && selected[k - 1] == DeclOf(ss[i])
            && Upgrade.StrategyRule(ss[i], k) == "external_value[\"" + ResultName(k - 1) + "\"]"
  {
    var ds := Decls(ss);
    forall j | 0 <= j < |ds| && ds[j].name !in Upgrade.BUILT_IN_NAMES ensures ds[j].name in registered {
      assert Upgrade.IsCustom(ss[j]);
    }
    AllRegisteredSelectsForeign(ds, Upgrade.BUILT_IN_NAMES, registered);
    OrdinalIsForeignPosition(ss, i);
  }

  // ---------------------------------------------------------------------------
  // Name-keyed registries
  // ---------------------------------------------------------------------------

  /** A strategy object a binding registers: its name and which object it
      is (`IStrategy` in .NET and Java, `Strategy` in JavaScript). */
  datatype Impl = Impl(name: string, id: nat)

  /** Each strategy object under its own name, in the order given. */
  function NamedPairs(impls: seq<Impl>): (pairs: seq<(string, Impl)>)
    ensures |pairs| == |impls|
    ensures forall i :: 0 <= i < |impls| ==> pairs[i] == (impls[i].name, impls[i])
  {
    seq(|impls|, i requires 0 <= i < |impls| => (impls[i].name, impls[i]))
  }

  /** The keys that occur in a list of pairs. */
  function KeysOf<K(==), V>(pairs: seq<(K, V)>): (keys: set<K>)
    ensures forall i :: 0 <= i < |pairs| ==> pairs[i].0 in keys
  {
    if |pairs| == 0 then {} else KeysOf(pairs[..|pairs| - 1]) + {pairs[|pairs| - 1].0}
  }

  /** Every key of the set comes from some pair. */
  lemma {:induction false} KeysOfExact<K, V>(pairs: seq<(K, V)>, k: K)
    requires k in KeysOf(pairs)
    ensures exists i :: 0 <= i < |pairs| && pairs[i].0 == k
  {
    var n := |pairs| - 1;
    if k != pairs[n].0 {
      KeysOfExact(pairs[..n], k);
      var i :| 0 <= i < n && pairs[..n][i].0 == k;
      assert pairs[i].0 == k;
    }
  }

  /** No pair after position `i` repeats its key. */
  predicate LastOfKey<K(==), V>(pairs: seq<(K, V)>, i: nat)
    requires i < |pairs|
  {
    forall j :: i < j < |pairs| ==> pairs[j].0 != pairs[i].0
  }

  /** No pair before position `i` repeats its key. */
  predicate FirstOfKey<V>(pairs: seq<(string, V)>, i: nat)
    requires i < |pairs|
  {
    forall j :: 0 <= j < i ==> pairs[j].0 != pairs[i].0
  }

  /** Being first of its key survives dropping the last pair. */
  lemma FirstOfKeyFront<V>(pairs: seq<(string, V)>)
    requires |pairs| > 0
    ensures forall i :: 0 <= i < |pairs| - 1 && FirstOfKey(pairs, i) ==> FirstOfKey(pairs[..|pairs| - 1], i)
  {
  }

  predicate DistinctKeys<V>(pairs: seq<(string, V)>) {
    forall i, j :: 0 <= i < j < |pairs| ==> pairs[i].0 != pairs[j].0
  }

  /** A map built from pairs in order where a repeated key overwrites: the
      last pair with a key wins (`new Map(entries)`, a Python or Ruby hash
      assignment loop). */
  function LastWins<K(==), V>(pairs: seq<(K, V)>): (m: map<K, V>)
    ensures m.Keys == KeysOf(pairs)
    ensures forall i :: 0 <= i < |pairs| && LastOfKey(pairs, i) ==> m[pairs[i].0] == pairs[i].1
  {
    if |pairs| == 0 then map[]
    else
      var n := |pairs| - 1;
      var front := LastWins(pairs[..n]);
      forall i | 0 <= i < n && LastOfKey(pairs, i)
        ensures LastOfKey(pairs[..n], i) && pairs[i].0 != pairs[n].0
      {
      }
      front[pairs[n].0 := pairs[n].1]
  }

  /** Every value of the map is the value of a pair with its key. */
  lemma {:induction false} LastWinsValueFromPair<K, V>(pairs: seq<(K, V)>, k: K)
    requires k in LastWins(pairs)
    ensures exists i :: 0 <= i < |pairs| && pairs[i] == (k, LastWins(pairs)[k])
  {
    var n := |pairs| - 1;
    if k != pairs[n].0 {
      LastWinsValueFromPair(pairs[..n], k);
      var i :| 0 <= i < n && pairs[..n][i] == (k, LastWins(pairs[..n])[k]);
      assert pairs[i] == pairs[..n][i];
    }
  }

  /** The pairs of a listing of a map's keys, each once, with their values. */
  ghost predicate ListingPairs<V>(ks: seq<string>, m: map<string, V>, pairs: seq<(string, V)>) {
    |pairs| == |ks| &&
    (forall i :: 0 <= i < |ks| ==> ks[i] in m && pairs[i] == (ks[i], m[ks[i]])) &&
    (forall i, j :: 0 <= i < j < |ks| ==> ks[i] != ks[j]) &&
    (forall k :: k in m ==> k in ks)
  }

  lemma ListingValues<V>(ks: seq<string>, m: map<string, V>, pairs: seq<(string, V)>)
    requires ListingPairs(ks, m, pairs)
    ensures forall k :: k in m ==> k in LastWins(pairs) && LastWins(pairs)[k] == m[k]
  {
    var w := LastWins(pairs);
    forall k | k in m
      ensures k in w && w[k] == m[k]
    {
      var i :| 0 <= i < |ks| && ks[i] == k;
      assert pairs[i].0 == k;
      assert LastOfKey(pairs, i);
    }
  }

  lemma ListingKeys<V>(ks: seq<string>, m: map<string, V>, pairs: seq<(string, V)>)
    requires ListingPairs(ks, m, pairs)
    ensures forall k :: k in LastWins(pairs) ==> k in m
  {
    forall k | k in LastWins(pairs)
      ensures k in m
    {
      KeysOfExact(pairs, k);
    }
  }

  /** A map rebuilt from a listing of its keys, each once, with their values. */
  lemma LastWinsOfListing<V>(ks: seq<string>, m: map<string, V>, pairs: seq<(string, V)>)
    requires ListingPairs(ks, m, pairs)
    ensures LastWins(pairs) == m
  {
    ListingValues(ks, m, pairs);
    ListingKeys(ks, m, pairs);
    assert LastWins(pairs).Keys == m.Keys;
  }

  /** A map built from pairs where a repeated key is dropped: the first pair
      with a key wins (`toMap` with the merge `(a, b) -> a`). */
  function FirstWins<V>(pairs: seq<(string, V)>): (m: map<string, V>)
    ensures m.Keys == KeysOf(pairs)
    ensures forall i :: 0 <= i < |pairs| && FirstOfKey(pairs, i) ==> m[pairs[i].0] == pairs[i].1
  {
    if |pairs| == 0 then map[]
    else
      var n := |pairs| - 1;
      var front := FirstWins(pairs[..n]);
      FirstOfKeyFront(pairs);
      if pairs[n].0 in front then
        KeysOfExact(pairs[..n], pairs[n].0);
        front
      else front[pairs[n].0 := pairs[n].1]
  }

  /** With no repeated key the policies agree. */
  lemma {:induction false} DistinctKeysAgree<V>(pairs: seq<(string, V)>)
    requires DistinctKeys(pairs)
    ensures LastWins(pairs) == FirstWins(pairs)
  {
    if |pairs| > 0 {
      var n := |pairs| - 1;
      DistinctKeysAgree(pairs[..n]);
      if pairs[n].0 in FirstWins(pairs[..n]) {
        KeysOfExact(pairs[..n], pairs[n].0);
        assert false;
      }
    }
  }

  /** A collector that throws on a repeated key (`ToDictionary`, `toMap`
      without a merge function): the map, or the repeated key. */
  function Unique<V>(pairs: seq<(string, V)>): (r: Option<map<string, V>>)
    ensures r.Some? <==> DistinctKeys(pairs)
    ensures r.Some? ==> r.value == LastWins(pairs)
  {
    if DistinctKeys(pairs) then Some(LastWins(pairs)) else None
  }

  // ---------------------------------------------------------------------------
  // Registration loops and stored definitions
  // ---------------------------------------------------------------------------

  /** Storing entries in turn over existing ones, as a registration loop
      does: each entry that passes `valid` is stored, the first one that does
      not stops the loop with an error (the result's second half), and the
      entries before it stay stored. */
  function StoreEach<V>(impls: map<string, V>, entries: seq<(string, V)>, valid: V -> bool): (r: (map<string, V>, bool))
    ensures r.1 <==> exists i :: 0 <= i < |entries| && !valid(entries[i].1)
    ensures forall n :: n in impls && n !in Names(entries) ==> n in r.0 && r.0[n] == impls[n]
    ensures forall n :: n in r.0 ==> n in impls || n in Names(entries)
    decreases |entries|
  {
    if |entries| == 0 then (impls, false)
    else if !valid(entries[0].1) then (impls, true)
    else
      var r := StoreEach(impls[entries[0].0 := entries[0].1], entries[1..], valid);
      assert forall i :: 1 <= i < |entries| ==> entries[i] == entries[1..][i - 1];
      assert Names(entries) == {entries[0].0} + Names(entries[1..]);
      r
  }

  /** The names of a list of entries. */
  function Names<V>(entries: seq<(string, V)>): set<string> {
    set i | 0 <= i < |entries| :: entries[i].0
  }

  /** Every entry before the first invalid one is stored. */
  lemma {:induction false} StoreEachKeepsValidPrefix<V>(impls: map<string, V>, entries: seq<(string, V)>, valid: V -> bool, i: nat)
    requires i < |entries| && forall j :: 0 <= j <= i ==> valid(entries[j].1)
    ensures entries[i].0 in StoreEach(impls, entries, valid).0
    decreases |entries|
  {
    var rest := entries[1..];
    assert forall j :: 1 <= j < |entries| ==> entries[j] == rest[j - 1];
    if i > 0 {
      StoreEachKeepsValidPrefix(impls[entries[0].0 := entries[0].1], rest, valid, i - 1);
    } else {
      assert entries[0].0 in impls[entries[0].0 := entries[0].1];
      if entries[0].0 in Names(rest) {
        var j :| 0 <= j < |rest| && rest[j].0 == entries[0].0;
        StoreEachKeepsEarlier(impls[entries[0].0 := entries[0].1], rest, valid, j);
      }
    }
  }

  /** A name present before registering stays present. */
  lemma {:induction false} StoreEachKeepsEarlier<V>(impls: map<string, V>, entries: seq<(string, V)>, valid: V -> bool, j: nat)
    requires j < |entries| && entries[j].0 in impls
    ensures entries[j].0 in StoreEach(impls, entries, valid).0
    decreases |entries|
  {
    if |entries| > 0 && valid(entries[0].1) {
      var rest := entries[1..];
      assert forall k :: 1 <= k < |entries| ==> entries[k] == rest[k - 1];
      if j > 0 {
        StoreEachKeepsEarlier(impls[entries[0].0 := entries[0].1], rest, valid, j - 1);
      } else if entries[0].0 in Names(rest) {
        var k :| 0 <= k < |rest| && rest[k].0 == entries[0].0;
        StoreEachKeepsEarlier(impls[entries[0].0 := entries[0].1], rest, valid, k);
      }
    }
  }

  /** Entries that all pass are all stored, each under its own name, when
      the names are distinct (as a dictionary's or a name-keyed list's are). */
  lemma {:induction false} StoreEachStoresAll<V>(impls: map<string, V>, entries: seq<(string, V)>, valid: V -> bool)
    requires DistinctKeys(entries)
    requires forall i :: 0 <= i < |entries| ==> valid(entries[i].1)
    ensures var r := StoreEach(impls, entries, valid);
            !r.1 && forall i :: 0 <= i < |entries| ==> entries[i].0 in r.0 && r.0[entries[i].0] == entries[i].1
    decreases |entries|
  {
    if |entries| > 0 {
      StoreEachStoresAll(impls[entries[0].0 := entries[0].1], entries[1..], valid);
      var r := StoreEach(impls, entries, valid);
      assert r == StoreEach(impls[entries[0].0 := entries[0].1], entries[1..], valid);
      assert forall i :: 1 <= i < |entries| ==> entries[i] == entries[1..][i - 1];
      assert entries[0].0 !in Names(entries[1..]) by {
        assert forall i :: 0 <= i < |entries[1..]| ==> entries[1..][i].0 != entries[0].0;
      }
    }
  }

  /** The definitions a state leaves: each toggle with a non-standard strategy maps to those
      strategies in order, the last such toggle of a name winning. */
  function CustomDefinitions(fs: seq<FeatureDecl>, standard: seq<string>): map<string, seq<StrategyDecl>>
    requires forall i :: 0 <= i < |fs| ==> fs[i].strategies.Some?
  {
    if |fs| == 0 then map[]
    else
      var n := |fs| - 1;
      var front := CustomDefinitions(fs[..n], standard);
      var kept := Foreign(fs[n].strategies.value, standard);
      if kept != [] then front[fs[n].name := kept] else front
  }

}

=== FILE: dotnet_binding.dfy ===
/** The .NET binding's reading of engine replies: the generic readers of
    `dotnet-engine/Yggdrasil.Engine/FFIReader.cs` and the per-call handling
    of `dotnet-engine/Yggdrasil.Engine/YggdrasilEngine.cs`. A reply is a
    pointer to JSON text; `System.Text.Json` is the parameter outcome
    `JsonRead`: an envelope, the JSON literal `null`, or an exception. */
module DotnetBinding {
  import opened Common
  import opened Features
  import opened FfiEnvelope
  import opened ReleaseLedger

  /** What `JsonSerializer.Deserialize` makes of the reply text. */
  datatype JsonRead<W> = Read(value: W) | JsonNull | Unreadable(message: string)

  /** The pointer the engine returned: null, or a string and its reading. */
  datatype Reply<W> = NullReply | ReplyText(read: JsonRead<W>)

  const NULL_POINTER_TEXT: string := "Error: unexpected null pointer"
  const ERROR_STATUS: string := "Error"

  /** `$"Error: {ErrorMessage}"`, where a null message prints as nothing. */
  function ErrorRaised(message: Option<string>): (text: string)
    ensures StartsWith(text, "Error: ") && text[7..] == message.GetOr("")
  {
    var t := "Error: " + message.GetOr("");
    assert t[..7] == "Error: ";
    t
  }

  // ---------------------------------------------------------------------------
  // FFIReader
  // ---------------------------------------------------------------------------

  /** `ReadResponse`: a null pointer throws before anything is touched;
      otherwise the text is copied and deserialized, and the `finally` block
      releases the reply whether or not deserializing throws. */
  function ReadResponse<T>(reply: Reply<WireResponse<T>>): (c: HostCall<Option<WireResponse<T>>>)
    ensures reply.NullReply? ==> c == HostCall(Raised(NULL_POINTER_TEXT), [])
    ensures reply.ReplyText? ==> ReleasedOnce(c.trace, Reply) && Precedes(c.trace, Copied, Released(Reply))
    ensures reply.ReplyText? ==> (c.result.Raised? <==> reply.read.Unreadable?)
    ensures c.result.Raised? && reply.ReplyText? ==> c.result.message == reply.read.message && Precedes(c.trace, Released(Reply), Threw)
    ensures reply.ReplyText? && reply.read.Read? ==> c.result == Returned(Some(reply.read.value))
    ensures reply.ReplyText? && reply.read.JsonNull? ==> c.result == Returned(None)
  {
    match reply
    case NullReply => HostCall(Raised(NULL_POINTER_TEXT), [])
    case ReplyText(read) =>
      var decoded := [Copied, Decoded, Released(Reply)];
      PrecedesAt(decoded, Copied, Released(Reply), 0, 2);
      ReleasedOnceAt(decoded, Reply, 2);
      match read
      case Read(w) => HostCall(Returned(Some(w)), decoded)
      case JsonNull => HostCall(Returned(None), decoded)
      case Unreadable(m) =>
        var t := [Copied, Released(Reply), Threw];
        PrecedesAt(t, Copied, Released(Reply), 0, 1);
        PrecedesAt(t, Released(Reply), Threw, 1, 2);
        ReleasedOnceAt(t, Reply, 1);
        HostCall(Raised(m), t)
  }

  /** `ReadPrimitive` and `ReadComplex`, which differ only in the C# type
      constraint on the value: a null pointer is a null value and nothing is
      released; an `Error` status throws once the reply is released;
      otherwise the value, which is null for `NotFound`. */
  function ReadValue<T>(reply: Reply<WireResponse<T>>): (c: HostCall<Option<T>>)
    ensures reply.NullReply? ==> c == HostCall(Returned(None), [])
    ensures reply.ReplyText? ==> ReleasedOnce(c.trace, Reply)
    ensures c.result.Raised? ==> Precedes(c.trace, Released(Reply), Threw)
    ensures reply.ReplyText? && reply.read.Read? ==>
              var w := reply.read.value;
              (w.statusCode == ERROR_STATUS ==> c.result == Raised(ErrorRaised(w.errorMessage)))
              && (w.statusCode != ERROR_STATUS ==> c.result == Returned(w.value))
  {
    if reply.NullReply? then HostCall(Returned(None), [])
    else
      var r := ReadResponse(reply);
      match r.result
      case Returned(Some(w)) =>
        if w.statusCode == ERROR_STATUS then
          PrecedesLast(r.trace, Released(Reply), Threw);
          HostCall(Raised(ErrorRaised(w.errorMessage)), r.trace + [Threw])
        else HostCall(Returned(w.value), r.trace)
      case Returned(None) => HostCall(Returned(None), r.trace)
      case Raised(m) => HostCall(Raised(m), r.trace)
      case Exited => HostCall(Exited, r.trace)
  }

  /** `CheckResponse`: like the readers but a null pointer throws, and only
      the status is looked at. */
  function CheckResponse<T>(reply: Reply<WireResponse<T>>): (c: HostCall<()>)
    ensures reply.NullReply? ==> c == HostCall(Raised(NULL_POINTER_TEXT), [])
    ensures reply.ReplyText? ==> ReleasedOnce(c.trace, Reply)
    ensures c.result.Raised? && reply.ReplyText? ==> Precedes(c.trace, Released(Reply), Threw)
    ensures reply.ReplyText? && reply.read.Read? ==>
              (c.result.Raised? <==> reply.read.value.statusCode == ERROR_STATUS)
  {
    var r := ReadResponse(reply);
    match r.result
    case Returned(Some(w)) =>
      if w.statusCode == ERROR_STATUS then
        PrecedesLast(r.trace, Released(Reply), Threw);
        HostCall(Raised(ErrorRaised(w.errorMessage)), r.trace + [Threw])
      else HostCall(Returned(()), r.trace)
    case Returned(None) => HostCall(Returned(()), r.trace)
    case Raised(m) => HostCall(Raised(m), r.trace)
    case Exited => HostCall(Exited, r.trace)
  }

  /** End to end: whatever result the engine computed, the reader hands the
      caller its value, null for a missing toggle, or an exception carrying
      the engine's printed error; the reply is released exactly once. */
  lemma ReadValueAgreesWithEngine<T>(result: Outcome<Option<T>>, debug: DebugFormat)
    requires result.Failure? ==> !result.error.InvalidMessageFormat?
    ensures var c := ReadValue(ReplyText(Read(ToWire(FromResult(result, debug)))));
            ReleasedOnce(c.trace, Reply)
            && (result.Success? ==> c.result == Returned(result.value))
            && (result.Failure? ==> c.result == Raised("Error: " + ErrorText(result.error, debug)))
  {
    StatusNameRoundTrip(FromResult(result, debug).statusCode);
  }

  // ---------------------------------------------------------------------------
  // YggdrasilEngine
  // ---------------------------------------------------------------------------

  /** The shared shape of `TakeState`, `IsEnabled`, `GetVariant` and
      `GetMetrics`: a null pointer gives the call's own fallback and nothing
      is released; otherwise the text is copied, the reply released at once,
      and only then deserialized; an `Error` status throws. */
  function EngineCall<T>(reply: Reply<WireResponse<T>>, onNull: Option<T>): (c: HostCall<Option<T>>)
    ensures reply.NullReply? ==> c == HostCall(Returned(onNull), [])
    ensures reply.ReplyText? ==> ReleasedOnce(c.trace, Reply) && |c.trace| >= 2 && c.trace[0] == Copied && c.trace[1] == Released(Reply)
    ensures Decoded in c.trace ==> Precedes(c.trace, Released(Reply), Decoded)
    ensures c.result.Raised? ==> Precedes(c.trace, Released(Reply), Threw)
    ensures reply.ReplyText? && reply.read.Read? ==>
              var w := reply.read.value;
              (w.statusCode == ERROR_STATUS ==> c.result == Raised(ErrorRaised(w.errorMessage)))
              && (w.statusCode != ERROR_STATUS ==> c.result == Returned(w.value))
    ensures reply.ReplyText? && reply.read.JsonNull? ==> c.result == Returned(None)
  {
    match reply
    case NullReply => HostCall(Returned(onNull), [])
    case ReplyText(read) =>
      var decoded := [Copied, Released(Reply), Decoded];
      PrecedesAt(decoded, Released(Reply), Decoded, 1, 2);
      ReleasedOnceAt(decoded, Reply, 1);
      match read
      case Unreadable(m) =>
        var t := [Copied, Released(Reply), Threw];
        PrecedesAt(t, Released(Reply), Threw, 1, 2);
        ReleasedOnceAt(t, Reply, 1);
        HostCall(Raised(m), t)
      case JsonNull => HostCall(Returned(None), decoded)
      case Read(w) =>
        if w.statusCode == ERROR_STATUS then
          var t := [Copied, Released(Reply), Decoded, Threw];
          PrecedesAt(t, Released(Reply), Decoded, 1, 2);
          PrecedesAt(t, Released(Reply), Threw, 1, 3);
          ReleasedOnceAt(t, Reply, 1);
          HostCall(Raised(ErrorRaised(w.errorMessage)), t)
        else HostCall(Returned(w.value), decoded)
  }

  /** The custom-strategy results `IsEnabled` and `GetVariant` send: always
      the empty JSON object. */
  const NO_CUSTOM_RESULTS: string := "{}"

  /** The arguments passed to `check_enabled` / `check_variant`. */
  datatype CheckRequest = CheckRequest(toggleName: string, contextJson: string, customResults: string)

  /** `IsEnabled`: a null reply reads as disabled. */
  function IsEnabled(toggleName: string, contextJson: string, reply: Reply<WireResponse<bool>>)
    : (r: (CheckRequest, HostCall<Option<bool>>))
    ensures r.0.toggleName == toggleName && r.0.customResults == NO_CUSTOM_RESULTS
    ensures reply.NullReply? ==> r.1.result == Returned(Some(false))
    ensures reply.ReplyText? ==> ReleasedOnce(r.1.trace, Reply)
  {
    (CheckRequest(toggleName, contextJson, NO_CUSTOM_RESULTS), EngineCall(reply, Some(false)))
  }

  /** `GetVariant` (and `GetMetrics`): a null reply reads as no value. */
  function GetVariant(toggleName: string, contextJson: string, reply: Reply<WireResponse<ExtendedVariantDef>>)
    : (r: (CheckRequest, HostCall<Option<ExtendedVariantDef>>))
    ensures r.0.toggleName == toggleName && r.0.customResults == NO_CUSTOM_RESULTS
    ensures reply.NullReply? ==> r.1.result == Returned(None)
    ensures reply.ReplyText? ==> ReleasedOnce(r.1.trace, Reply)
  {
    (CheckRequest(toggleName, contextJson, NO_CUSTOM_RESULTS), EngineCall(reply, None))
  }

  /** `TakeState`: a null reply returns silently; an `Error` status, a
      partial update included, throws. */
  function TakeState(reply: Reply<WireResponse<()>>): (c: HostCall<()>)
    ensures reply.NullReply? ==> c == HostCall(Returned(()), [])
    ensures reply.ReplyText? && reply.read.Read? ==>
              (c.result.Raised? <==> reply.read.value.statusCode == ERROR_STATUS)
    ensures reply.ReplyText? ==> ReleasedOnce(c.trace, Reply)
  {
    var r := EngineCall(reply, None);
    match r.result
    case Returned(_) => HostCall(Returned(()), r.trace)
    case Raised(m) => HostCall(Raised(m), r.trace)
    case Exited => HostCall(Exited, r.trace)
  }

  /** The four calls disagree only on a null pointer: `IsEnabled` says
      false, the others say nothing; on any reply they read the same. */
  lemma NullPolicyOnlyDiffers(reply: Reply<WireResponse<bool>>, toggle: string, ctx: string)
    ensures reply.ReplyText? ==> IsEnabled(toggle, ctx, reply).1 == EngineCall(reply, None)
    ensures reply.NullReply? ==> IsEnabled(toggle, ctx, reply).1.result != EngineCall(reply, None).result
  {
  }

  /** End to end for `IsEnabled`: a known toggle's flag, null for an unknown
      one, the engine's error as an exception; the reply is released before
      it is decoded. */
  lemma IsEnabledAgreesWithEngine(result: Outcome<Option<bool>>, debug: DebugFormat, toggle: string, ctx: string)
    requires result.Failure? ==> !result.error.InvalidMessageFormat?
    ensures var c := IsEnabled(toggle, ctx, ReplyText(Read(ToWire(FromResult(result, debug))))).1;
            Precedes(c.trace, Released(Reply), Decoded)
            && (result.Success? ==> c.result == Returned(result.value))
            && (result.Failure? ==> c.result == Raised("Error: " + ErrorText(result.error, debug)))
  {
    StatusNameRoundTrip(FromResult(result, debug).statusCode);
  }
}

=== FILE: dotnet_strategies.dfy ===
/** The .NET resolver of custom strategies
    (`dotnet-engine/Yggdrasil.Engine/Strategies.cs`) and the records it
    builds (`Types.cs`). The known list may be `null`, the mapping may be
    `null`, and `ToDictionary` throws on a repeated key, which is modelled as
    no result. JSON reading and writing are parameters. */
module DotnetStrategies {
  import opened Common
  import opened Features
  import opened CustomResults
  import Upgrade

  /** `MappedStrategy`: the result name comes from the position. */
  datatype MappedStrategy = MappedStrategy(resultName: string, strategyName: string, parameters: map<string, string>, strategy: Impl)

  /** `MappedFeature`. */
  datatype MappedFeature = MappedFeature(name: string, strategies: seq<MappedStrategy>)

  datatype CustomStrategies = CustomStrategies(
    knownStrategies: Option<seq<string>>,
    strategies: map<string, Impl>,
    mappedFeatures: Option<map<string, MappedFeature>>)

  /** The constructor: nothing registered and no mapping yet. */
  function NewCustomStrategies(known: Option<seq<string>>): (cs: CustomStrategies)
    ensures cs.knownStrategies == known && cs.strategies == map[] && cs.mappedFeatures.None?
  {
    CustomStrategies(known, map[], None)
  }

  /** `new MappedStrategy(index, ...)`. */
  function NewMappedStrategy(index: nat, name: string, parameters: map<string, string>, strategy: Impl): (m: MappedStrategy)
    ensures m.resultName == ResultName(index) && ResultIndex(m.resultName) == Some(index)
    ensures m.strategyName == name && m.parameters == parameters && m.strategy == strategy
  {
    ResultNameRoundTrip(index);
    MappedStrategy(ResultName(index), name, parameters, strategy)
  }

  /** `MappedStrategy.IsEnabled`: its own strategy on its own parameters;
      `run` stands for `IStrategy.IsEnabled` with the caller's context. */
  function MappedIsEnabled(m: MappedStrategy, run: (Impl, map<string, string>) -> bool): bool {
    run(m.strategy, m.parameters)
  }

  /** `new MappedFeature(feature, strategies)`: keeps the feature's name. */
  function NewMappedFeature(feature: FeatureDecl, strategies: seq<MappedStrategy>): (f: MappedFeature)
    ensures f.name == feature.name && f.strategies == strategies
  {
    MappedFeature(feature.name, strategies)
  }

  /** `IsCustomStrategy`: with no known list nothing is custom; otherwise a
      name is custom when the list lacks it. */
  predicate IsCustomStrategy(known: Option<seq<string>>, name: string) {
    match known
    case None => false
    case Some(names) => name !in names
  }

  /** The strategies `MapCustomStrategies` keeps: custom, then registered. */
  function Kept(cs: CustomStrategies, ds: seq<StrategyDecl>): (r: seq<StrategyDecl>)
    ensures forall d :: d in r <==> d in ds && IsCustomStrategy(cs.knownStrategies, d.name) && d.name in cs.strategies
  {
    match cs.knownStrategies
    case None => []
    case Some(names) => RegisteredForeign(ds, names, cs.strategies)
  }

  /** `MapCustomStrategies`: `null` gives an empty list; otherwise the kept
      strategies numbered from 0, with missing parameters read as an empty
      dictionary. */
  function MapCustomStrategies(cs: CustomStrategies, strategies: Option<seq<StrategyDecl>>): (r: seq<MappedStrategy>)
    ensures strategies.None? ==> r == []
    ensures strategies.Some? ==>
              var kept := Kept(cs, strategies.value);
              |r| == |kept|
              && forall k :: 0 <= k < |r| ==>
                   kept[k].name in cs.strategies
                   && r[k] == NewMappedStrategy(k, kept[k].name, kept[k].parameters.GetOr(map[]), cs.strategies[kept[k].name])
  {
    match strategies
    case None => []
    case Some(ds) =>
      var kept := Kept(cs, ds);
      seq(|kept|, k requires 0 <= k < |kept| =>
            assert kept[k] in kept;
            NewMappedStrategy(k, kept[k].name, kept[k].parameters.GetOr(map[]), cs.strategies[kept[k].name]))
  }

  /** With no known list no toggle maps a strategy, whatever is registered. */
  lemma NullKnownMapsNothing(cs: CustomStrategies, ds: seq<StrategyDecl>)
    requires cs.knownStrategies.None?
    ensures MapCustomStrategies(cs, Some(ds)) == []
  {
  }

  /** Every list the resolver maps reports position `k` under `ResultName(k)`. */
  predicate WellNumbered(ms: seq<MappedStrategy>) {
    forall k :: 0 <= k < |ms| ==> ms[k].resultName == ResultName(k)
  }

  lemma MappedListsAreNumbered(cs: CustomStrategies, strategies: Option<seq<StrategyDecl>>)
    ensures WellNumbered(MapCustomStrategies(cs, strategies))
  {
  }

  /** Each toggle paired with its mapping. */
  function MapAll(cs: CustomStrategies, fs: seq<FeatureDecl>): (pairs: seq<(string, MappedFeature)>)
    ensures |pairs| == |fs|
    ensures forall i :: 0 <= i < |fs| ==> pairs[i] == (fs[i].name, NewMappedFeature(fs[i], MapCustomStrategies(cs, fs[i].strategies)))
  {
    seq(|fs|, i requires 0 <= i < |fs| => (fs[i].name, NewMappedFeature(fs[i], MapCustomStrategies(cs, fs[i].strategies))))
  }

  /** `MapFeatures`, given the document's `Features` (`None` when the
      document or its list is `null`): no list clears the mapping; a list
      with a repeated toggle name throws and leaves the mapping as it was;
      otherwise the mapping is replaced. */
  function MapFeatures(cs: CustomStrategies, features: Option<seq<FeatureDecl>>): (r: Option<CustomStrategies>)
    ensures features.None? ==> r == Some(cs.(mappedFeatures := None))
    ensures features.Some? ==> (r.None? <==> !DistinctKeys(MapAll(cs, features.value)))
    ensures r.Some? ==> r.value.knownStrategies == cs.knownStrategies && r.value.strategies == cs.strategies
    ensures r.Some? && features.Some? ==>
              var fs := features.value;
              r.value.mappedFeatures.Some?
              && (forall i :: 0 <= i < |fs| ==> fs[i].name in r.value.mappedFeatures.value)
              && forall i :: 0 <= i < |fs| ==>
                   r.value.mappedFeatures.value[fs[i].name].strategies == MapCustomStrategies(cs, fs[i].strategies)
  {
    match features
    case None => Some(cs.(mappedFeatures := None))
    case Some(fs) =>
      var pairs := MapAll(cs, fs);
      match Unique(pairs)
      case None => None
      case Some(m) =>
        forall i | 0 <= i < |fs| ensures LastOfKey(pairs, i) {
        }
        Some(cs.(mappedFeatures := Some(m)))
  }

  /** `RegisterCustomStrategies`: a repeated name throws and changes
      nothing; otherwise the registry is replaced, and existing mappings keep
      the strategies they captured. */
  function RegisterCustomStrategies(cs: CustomStrategies, impls: seq<Impl>): (r: Option<CustomStrategies>)
    ensures r.None? <==> exists i, j :: 0 <= i < j < |impls| && impls[i].name == impls[j].name
    ensures r.Some? ==> r.value.knownStrategies == cs.knownStrategies && r.value.mappedFeatures == cs.mappedFeatures
    ensures r.Some? ==> forall i :: 0 <= i < |impls| ==> impls[i].name in r.value.strategies && r.value.strategies[impls[i].name] == impls[i]
  {
    var pairs := NamedPairs(impls);
    match Unique(pairs)
    case None =>
      var i, j :| 0 <= i < j < |pairs| && pairs[i].0 == pairs[j].0;
      assert impls[i].name == impls[j].name;
      None
    case Some(m) =>
      assert forall i, j :: 0 <= i < j < |impls| ==> pairs[i].0 != pairs[j].0;
      forall i | 0 <= i < |impls| ensures LastOfKey(pairs, i) {
      }
      Some(cs.(strategies := m))
  }

  const EMPTY_PAYLOAD: string := "{}"

  /** `GetCustomStrategyPayload`: `"{}"` for a toggle that is not mapped
      (or when nothing is); otherwise the serialized dictionary of result
      names to verdicts, which throws on a repeated result name. */
  function GetCustomStrategyPayload(cs: CustomStrategies, toggleName: string, run: (Impl, map<string, string>) -> bool,
                                    serialize: map<string, bool> -> string): (r: Option<string>)
    ensures cs.mappedFeatures.None? || toggleName !in cs.mappedFeatures.value ==> r == Some(EMPTY_PAYLOAD)
    ensures cs.mappedFeatures.Some? && toggleName in cs.mappedFeatures.value
            && WellNumbered(cs.mappedFeatures.value[toggleName].strategies) ==>
              var ms := cs.mappedFeatures.value[toggleName].strategies;
              r == Some(serialize(ResultsOf(seq(|ms|, k requires 0 <= k < |ms| => MappedIsEnabled(ms[k], run)))))
  {
    if cs.mappedFeatures.None? || toggleName !in cs.mappedFeatures.value then Some(EMPTY_PAYLOAD)
    else
      var ms := cs.mappedFeatures.value[toggleName].strategies;
      var pairs := MappedPairs(ms, run);
      if WellNumbered(ms) then
        WellNumberedPayload(ms, run);
        Some(serialize(LastWins(pairs)))
      else
        match Unique(pairs)
        case None => None
        case Some(m) => Some(serialize(m))
  }

  /** Each mapped strategy's result name with its verdict, in order. */
  function MappedPairs(ms: seq<MappedStrategy>, run: (Impl, map<string, string>) -> bool): seq<(string, bool)> {
    seq(|ms|, k requires 0 <= k < |ms| => (ms[k].resultName, MappedIsEnabled(ms[k], run)))
  }

  /** Numbered by position, the pairs build the results object of the
      verdicts. */
  lemma WellNumberedPayload(ms: seq<MappedStrategy>, run: (Impl, map<string, string>) -> bool)
    requires WellNumbered(ms)
    ensures LastWins(MappedPairs(ms, run)) == ResultsOf(seq(|ms|, k requires 0 <= k < |ms| => MappedIsEnabled(ms[k], run)))
  {
    var pairs := MappedPairs(ms, run);
    NumberedPairsAreResults(pairs);
    assert Values(pairs) == seq(|ms|, k requires 0 <= k < |ms| => MappedIsEnabled(ms[k], run));
  }

  /** With the upgrader's built-in names as the known list and every custom
      strategy registered, the mapping holds each custom strategy at the
      position the upgrader's rule text reads. */
  lemma MappingAgreesWithUpgrade(cs: CustomStrategies, ss: seq<Strategy>, i: nat)
    requires cs.knownStrategies == Some(Upgrade.BUILT_IN_NAMES)
    requires forall j :: 0 <= j < |ss| && Upgrade.IsCustom(ss[j]) ==> ss[j].name in cs.strategies
    requires i < |ss| && Upgrade.IsCustom(ss[i])
    ensures var ms := MapCustomStrategies(cs, Some(Decls(ss)));
            var k := Upgrade.Ordinal(ss, i);
            1 <= k <= |ms| && ss[i].name in cs.strategies
            && ms[k - 1].strategyName == ss[i].name
            && ms[k - 1].strategy == cs.strategies[ss[i].name]
            && ms[k - 1].parameters == ss[i].parameters.GetOr(map[])
            && ms[k - 1].resultName == ResultName(k - 1)
            && Upgrade.StrategyRule(ss[i], k) == "external_value[\"" + ResultName(k - 1) + "\"]"
  {
    RegisteredOrdinal(ss, i, cs.strategies);
  }

  /** `Payload`: `Type` and `Value` may be `null`. */
  datatype DPayload = DPayload(payloadType: Option<string>, value: Option<string>)

  /** `Payload.Equals`: `null` is unequal; otherwise both fields compare with
      `object.Equals`, under which two `null`s are equal. */
  predicate PayloadEquals(p: DPayload, obj: Option<DPayload>) {
    obj.Some? && obj.value.payloadType == p.payloadType && obj.value.value == p.value
  }

  /** Equality of payloads is equality of their contents. */
  lemma PayloadEqualsIsValueEquality(p: DPayload, q: DPayload)
    ensures PayloadEquals(p, Some(q)) <==> p == q
    ensures PayloadEquals(p, Some(q)) <==> PayloadEquals(q, Some(p))
    ensures !PayloadEquals(p, None)
  {
  }

  /** `Variant`. */
  datatype DVariant = DVariant(name: string, payload: Option<DPayload>, enabled: bool, featureEnabled: bool)

  const DISABLED_VARIANT: DVariant := DVariant("disabled", None, false, false)
}

=== FILE: features.dfy ===
/** The client-features document the server sends and every engine and binding
    consumes: toggles, their strategies, constraints, segments, variants and
    parent dependencies. Only the fields some modelled operation reads are kept;
    JSON and FlatBuffers encodings are abstracted to these records. */
module Features {
  import opened Common

  datatype Operator =
    | NotIn | In
    | StrEndsWith | StrStartsWith | StrContains
    | NumEq | NumGt | NumGte | NumLt | NumLte
    | DateAfter | DateBefore
    | SemverEq | SemverGt | SemverLt
    | Unknown(text: string)

  datatype Constraint = Constraint(
    contextName: string,
    operator: Operator,
    caseInsensitive: bool,
    inverted: bool,
    values: Option<seq<string>>,
    value: Option<string>)

  datatype Segment = Segment(id: int, constraints: seq<Constraint>)

  datatype Payload = Payload(payloadType: string, value: string)

  /** A variant as an engine resolves it: `VariantDef`. */
  datatype VariantDef = VariantDef(name: string, payload: Option<Payload>, enabled: bool)

  /** `VariantDef::default()`: the variant every engine answers when no
      variant applies. */
  const DEFAULT_VARIANT: VariantDef := VariantDef("disabled", None, false)

  /** `ExtendedVariantDef`: the resolved variant plus whether the toggle is enabled. */
  datatype ExtendedVariantDef = ExtendedVariantDef(name: string, payload: Option<Payload>, enabled: bool, featureEnabled: bool)

  /** `to_enriched_response`: the variant together with the toggle's state. */
  function ToEnriched(v: VariantDef, featureEnabled: bool): (x: ExtendedVariantDef)
    ensures x.name == v.name && x.payload == v.payload && x.enabled == v.enabled
    ensures x.featureEnabled == featureEnabled
  {
    ExtendedVariantDef(v.name, v.payload, v.enabled, featureEnabled)
  }

  /** A variant attached to a strategy (strategy variants). */
  datatype StrategyVariant = StrategyVariant(name: string, weight: int, payload: Option<Payload>, stickiness: Option<string>)

  datatype Strategy = Strategy(
    name: string,
    segments: Option<seq<int>>,
    constraints: Option<seq<Constraint>>,
    parameters: Option<map<string, string>>,
    variants: Option<seq<StrategyVariant>>)

  /** A variant override: the variant is forced for the listed context values. */
  datatype Override = Override(contextName: string, values: seq<string>)

  /** A toggle-level variant. */
  datatype Variant = Variant(
    name: string,
    weight: int,
    stickiness: Option<string>,
    payload: Option<Payload>,
    overrides: Option<seq<Override>>)

  /** A parent dependency: `enabled` defaults to true when absent. */
  datatype Dependency = Dependency(feature: string, enabled: Option<bool>, variants: Option<seq<string>>)

  datatype ClientFeature = ClientFeature(
    name: string,
    featureType: Option<string>,
    enabled: bool,
    strategies: Option<seq<Strategy>>,
    variants: Option<seq<Variant>>,
    dependencies: Option<seq<Dependency>>)

  /** `ClientFeatures`: the toggles and the shared segments. */
  datatype ClientFeatures = ClientFeatures(features: seq<ClientFeature>, segments: Option<seq<Segment>>)

  /** The value stored under `key` in an optional parameter map. */
  function Param(parameters: Option<map<string, string>>, key: string): (r: Option<string>)
    ensures r.Some? <==> parameters.Some? && key in parameters.value
    ensures r.Some? ==> r.value == parameters.value[key]
  {
    match parameters
    case Some(m) => if key in m then Some(m[key]) else None
    case None => None
  }
}

=== FILE: ffi_envelope.dfy ===
/** The JSON response envelope of the C ABI in `yggdrasilffi/src/lib.rs`:
    every entry point computes a `Result<Option<T>, FFIError>` and hands the
    caller `{status_code, value, error_message}`. The JSON text itself (serde)
    is not modelled; `Response` is the value that text carries, and
    `WireResponse` is that value as a binding reads it back, with the status
    as the variant name serde writes. */
module FfiEnvelope {
  import opened Common
  import opened Features

  /** `EvalWarning` of the engine: a toggle whose rule could not be compiled. */
  datatype EvalWarning = EvalWarning(toggleName: string, message: string)

  /** `FFIError`. `InvalidMessageFormat` is raised by the packed-message
      decoders; the enum shown in `lib.rs` lacks it, so it has no text here. */
  datatype FfiError =
    | Utf8Error
    | NullError
    | InvalidJson(message: string)
    | PartialUpdate(warnings: seq<EvalWarning>)
    | InvalidMessageFormat

  /** `Result<T, FFIError>`. */
  datatype Outcome<T> = Success(value: T) | Failure(error: FfiError)

  const UTF8_ERROR_TEXT: string :=
    "Detected a non UTF-8 string in the input, this is a serious issue and you should report this as a bug."
  const NULL_ERROR_TEXT: string :=
    "Null error detected, this is a serious issue and you should report this as a bug."
  const INVALID_JSON_PREFIX: string := "Failed to parse JSON: "
  const PARTIAL_UPDATE_PREFIX: string :=
    "Engine state was updated but warnings were reported, this may result in some flags evaluating in unexpected ways, please report this: "

  /** How the warnings are printed with `{:?}` (Rust's `Debug`). */
  type DebugFormat = seq<EvalWarning> -> string

  /** `impl Display for FFIError`. */
  function ErrorText(e: FfiError, debug: DebugFormat): (text: string)
    requires !e.InvalidMessageFormat?
    ensures e.InvalidJson? ==> StartsWith(text, INVALID_JSON_PREFIX) && text[|INVALID_JSON_PREFIX|..] == e.message
    ensures e.PartialUpdate? ==> StartsWith(text, PARTIAL_UPDATE_PREFIX)
                                 && text[|PARTIAL_UPDATE_PREFIX|..] == debug(e.warnings)
    ensures |text| > 0
  {
    match e
    case Utf8Error => UTF8_ERROR_TEXT
    case NullError => NULL_ERROR_TEXT
    case InvalidJson(message) =>
      var t := INVALID_JSON_PREFIX + message;
      assert t[..|INVALID_JSON_PREFIX|] == INVALID_JSON_PREFIX;
      t
    case PartialUpdate(ws) =>
      var t := PARTIAL_UPDATE_PREFIX + debug(ws);
      assert t[..|PARTIAL_UPDATE_PREFIX|] == PARTIAL_UPDATE_PREFIX;
      t
  }

  /** Distinct invalid-JSON errors print differently: the parser's message is
      recoverable from the printed error. */
  lemma ErrorTextInjective(e1: FfiError, e2: FfiError, debug: DebugFormat)
    requires e1.InvalidJson? && e2.InvalidJson?
    requires ErrorText(e1, debug) == ErrorText(e2, debug)
    ensures e1 == e2
  {
    assert e1.message == ErrorText(e1, debug)[|INVALID_JSON_PREFIX|..];
  }

  /** `ResponseCode`. */
  datatype ResponseCode = Error | NotFound | Ok

  /** The explicit discriminants `Error = -2`, `NotFound = -1`, `Ok = 1`. */
  function Discriminant(c: ResponseCode): (d: int)
    ensures d in {-2, -1, 1}
  {
    match c
    case Error => -2
    case NotFound => -1
    case Ok => 1
  }

  /** The code with a given discriminant, if any. */
  function FromDiscriminant(d: int): (c: Option<ResponseCode>)
    ensures c.Some? <==> d in {-2, -1, 1}
  {
    if d == -2 then Some(Error)
    else if d == -1 then Some(NotFound)
    else if d == 1 then Some(Ok)
    else None
  }

  /** Discriminants identify the codes: no two share one. */
  lemma DiscriminantRoundTrip(c: ResponseCode, d: int)
    ensures FromDiscriminant(Discriminant(c)) == Some(c)
    ensures FromDiscriminant(d).Some? ==> Discriminant(FromDiscriminant(d).value) == d
  {
  }

  /** The status as serde writes it: the variant name, not the discriminant. */
  function StatusName(c: ResponseCode): (name: string)
    ensures |name| > 0
    ensures name == "Error" <==> c == Error
    ensures name == "NotFound" <==> c == NotFound
  {
    match c
    case Error => "Error"
    case NotFound => "NotFound"
    case Ok => "Ok"
  }

  /** serde's reading of a status name: exact, case-sensitive. */
  function ParseStatusName(name: string): (c: Option<ResponseCode>)
    ensures c.Some? ==> StatusName(c.value) == name
  {
    if name == "Error" then Some(Error)
    else if name == "NotFound" then Some(NotFound)
    else if name == "Ok" then Some(Ok)
    else None
  }

  lemma StatusNameRoundTrip(c: ResponseCode)
    ensures ParseStatusName(StatusName(c)) == Some(c)
  {
  }

  /** `Response<T>`. */
  datatype Response<T> = Response(statusCode: ResponseCode, value: Option<T>, errorMessage: Option<string>)

  /** The envelope as JSON carries it to a binding: the status is a string. */
  datatype WireResponse<T> = WireResponse(statusCode: string, value: Option<T>, errorMessage: Option<string>)

  function ToWire<T>(r: Response<T>): (w: WireResponse<T>)
    ensures ParseStatusName(w.statusCode) == Some(r.statusCode)
    ensures w.value == r.value && w.errorMessage == r.errorMessage
  {
    WireResponse(StatusName(r.statusCode), r.value, r.errorMessage)
  }

  /** `impl From<Result<Option<T>, FFIError>> for Response<T>`. */
  function FromResult<T>(result: Outcome<Option<T>>, debug: DebugFormat): (r: Response<T>)
    requires result.Failure? ==> !result.error.InvalidMessageFormat?
    ensures r.statusCode == Ok <==> result.Success? && result.value.Some?
    ensures r.statusCode == NotFound <==> result == Success(None)
    ensures r.statusCode == Error <==> result.Failure?
    ensures r.value.Some? <==> r.statusCode == Ok
    ensures r.errorMessage.Some? <==> r.statusCode == Error
  {
    match result
    case Success(Some(v)) => Response(Ok, Some(v), None)
    case Success(None) => Response(NotFound, None, None)
    case Failure(e) => Response(Error, None, Some(ErrorText(e, debug)))
  }

  /** What a binding recovers from an envelope: the value for `Ok`, nothing for
      `NotFound`, the message for `Error`; `None` for a status that is not one
      of the three names. */
  datatype Decoded<T> = Found(value: T) | Missing | Failed(message: string)

  function DecodeWire<T>(w: WireResponse<T>): (d: Option<Decoded<T>>)
  {
    match ParseStatusName(w.statusCode)
    case None => None
    case Some(Ok) => if w.value.Some? then Some(Found(w.value.value)) else None
    case Some(NotFound) => Some(Missing)
    case Some(Error) => Some(Failed(w.errorMessage.GetOr("")))
  }

  /** Decoding the envelope gives back the result it was built from, with the
      error replaced by its printed text. */
  lemma EnvelopeRoundTrip<T>(result: Outcome<Option<T>>, debug: DebugFormat)
    requires result.Failure? ==> !result.error.InvalidMessageFormat?
    ensures result.Success? && result.value.Some? ==>
              DecodeWire(ToWire(FromResult(result, debug))) == Some(Found(result.value.value))
    ensures result == Success(None) ==> DecodeWire(ToWire(FromResult(result, debug))) == Some(Missing)
    ensures result.Failure? ==>
              DecodeWire(ToWire(FromResult(result, debug))) == Some(Failed(ErrorText(result.error, debug)))
  {
    StatusNameRoundTrip(FromResult(result, debug).statusCode);
  }

  // ---------------------------------------------------------------------------
  // Pointer arguments
  // ---------------------------------------------------------------------------

  /** A C string argument: `None` is the null pointer, otherwise the bytes
      before its terminating NUL. */
  type CStr = Option<seq<u8>>

  /** UTF-8 validation of `CStr::to_str`, a library function. */
  type Utf8Decoder = seq<u8> -> Option<string>

  /** `get_str`: null is `NullError`, invalid UTF-8 is `Utf8Error`. */
  function GetStr(ptr: CStr, utf8: Utf8Decoder): (r: Outcome<string>)
    ensures ptr.None? ==> r == Failure(NullError)
    ensures ptr.Some? && utf8(ptr.value).None? ==> r == Failure(Utf8Error)
    ensures ptr.Some? && utf8(ptr.value).Some? ==> r == Success(utf8(ptr.value).value)
  {
    match ptr
    case None => Failure(NullError)
    case Some(bytes) =>
      match utf8(bytes)
      case None => Failure(Utf8Error)
      case Some(s) => Success(s)
  }

  /** `get_json`: the string, then serde; a parse failure is `InvalidJson`
      carrying serde's message. */
  function GetJson<T>(ptr: CStr, utf8: Utf8Decoder, parse: string -> Outcome<T>): (r: Outcome<T>)
    ensures GetStr(ptr, utf8).Failure? ==> r == Failure(GetStr(ptr, utf8).error)
    ensures GetStr(ptr, utf8).Success? ==> r == parse(GetStr(ptr, utf8).value)
  {
    match GetStr(ptr, utf8)
    case Failure(e) => Failure(e)
    case Success(s) => parse(s)
  }

  /** `get_engine`: a null engine is `NullError`. */
  function GetEngine<E>(ptr: Option<E>): (r: Outcome<E>)
    ensures r.Success? <==> ptr.Some?
    ensures r.Failure? ==> r.error == NullError
    ensures ptr.Some? ==> r == Success(ptr.value)
  {
    match ptr
    case None => Failure(NullError)
    case Some(e) => Success(e)
  }

  // ---------------------------------------------------------------------------
  // Entry points
  // ---------------------------------------------------------------------------

  /** What the engine answers for one enriched context: `None` for an unknown
      toggle. */
  datatype EngineAnswer = EngineAnswer(enabled: Option<bool>, variant: Option<VariantDef>)

  /** The arguments shared by `check_enabled` and `check_variant`, checked in
      the order the closure checks them: engine, toggle name, context,
      custom-strategy results. */
  function CheckArguments<E, C>(engine: Option<E>, toggle: CStr, context: CStr, results: CStr, utf8: Utf8Decoder,
                                parseContext: string -> Outcome<C>, parseResults: string -> Outcome<map<string, bool>>)
    : (r: Outcome<(E, string, C, map<string, bool>)>)
    ensures engine.None? ==> r == Failure(NullError)
    ensures engine.Some? && GetStr(toggle, utf8).Failure? ==> r == Failure(GetStr(toggle, utf8).error)
    ensures engine.Some? && GetStr(toggle, utf8).Success? && GetJson(context, utf8, parseContext).Failure? ==>
              r == Failure(GetJson(context, utf8, parseContext).error)
    ensures r.Success? <==> engine.Some? && GetStr(toggle, utf8).Success? && GetJson(context, utf8, parseContext).Success?
                            && GetJson(results, utf8, parseResults).Success?
    ensures r.Success? ==> r.value == (engine.value, GetStr(toggle, utf8).value, GetJson(context, utf8, parseContext).value,
                                       GetJson(results, utf8, parseResults).value)
  {
    match GetEngine(engine)
    case Failure(e) => Failure(e)
    case Success(eng) =>
      match GetStr(toggle, utf8)
      case Failure(e) => Failure(e)
      case Success(name) =>
        match GetJson(context, utf8, parseContext)
        case Failure(e) => Failure(e)
        case Success(ctx) =>
          match GetJson(results, utf8, parseResults)
          case Failure(e) => Failure(e)
          case Success(res) => Success((eng, name, ctx, res))
  }

  /** `check_enabled`: `Ok` with the flag for a known toggle, `NotFound` for an
      unknown one, `Error` when an argument is null or does not parse. */
  function CheckEnabled<E, C>(engine: Option<E>, toggle: CStr, context: CStr, results: CStr, utf8: Utf8Decoder,
                              parseContext: string -> Outcome<C>, parseResults: string -> Outcome<map<string, bool>>,
                              answer: (E, string, C, map<string, bool>) -> EngineAnswer, debug: DebugFormat)
    : (r: Response<bool>)
    requires CheckArguments(engine, toggle, context, results, utf8, parseContext, parseResults).Failure? ==>
               !CheckArguments(engine, toggle, context, results, utf8, parseContext, parseResults).error.InvalidMessageFormat?
    ensures engine.None? || toggle.None? ==> r.statusCode == Error && r.errorMessage == Some(NULL_ERROR_TEXT)
    ensures var args := CheckArguments(engine, toggle, context, results, utf8, parseContext, parseResults);
            args.Success? ==>
              var a := answer(args.value.0, args.value.1, args.value.2, args.value.3);
              (r.statusCode == NotFound <==> a.enabled.None?) && (a.enabled.Some? ==> r == Response(Ok, a.enabled, None))
  {
    var result := match CheckArguments(engine, toggle, context, results, utf8, parseContext, parseResults)
      case Failure(e) => Failure(e)
      case Success(args) => Success(answer(args.0, args.1, args.2, args.3).enabled);
    FromResult(result, debug)
  }

  /** `check_variant`: the engine's variant enriched with whether the toggle is
      enabled (`unwrap_or_default`, so false for an unknown toggle); no variant
      is `NotFound`. */
  function CheckVariant<E, C>(engine: Option<E>, toggle: CStr, context: CStr, results: CStr, utf8: Utf8Decoder,
                              parseContext: string -> Outcome<C>, parseResults: string -> Outcome<map<string, bool>>,
                              answer: (E, string, C, map<string, bool>) -> EngineAnswer, debug: DebugFormat)
    : (r: Response<ExtendedVariantDef>)
    requires CheckArguments(engine, toggle, context, results, utf8, parseContext, parseResults).Failure? ==>
               !CheckArguments(engine, toggle, context, results, utf8, parseContext, parseResults).error.InvalidMessageFormat?
    ensures engine.None? || toggle.None? ==> r.statusCode == Error && r.errorMessage == Some(NULL_ERROR_TEXT)
    ensures var args := CheckArguments(engine, toggle, context, results, utf8, parseContext, parseResults);
            args.Success? ==>
              var a := answer(args.value.0, args.value.1, args.value.2, args.value.3);
              (r.statusCode == NotFound <==> a.variant.None?)
              && (a.variant.Some? ==> r.statusCode == Ok && r.value.Some?
                                      && r.value.value.featureEnabled == (a.enabled == Some(true))
                                      && r.value.value.name == a.variant.value.name
                                      && r.value.value.payload == a.variant.value.payload
                                      && r.value.value.enabled == a.variant.value.enabled)
  {
    var result := match CheckArguments(engine, toggle, context, results, utf8, parseContext, parseResults)
      case Failure(e) => Failure(e)
      case Success(args) =>
        var a := answer(args.0, args.1, args.2, args.3);
        var toggleEnabled := a.enabled.GetOr(false);
        Success(match a.variant
          case Some(v) => Some(ToEnriched(v, toggleEnabled))
          case None => None);
    FromResult(result, debug)
  }

  /** `take_state`: engine, then JSON; warnings from the engine turn an applied
      update into `Error(PartialUpdate)`; otherwise `Ok` with a unit value. The
      engine's own update is the parameter `apply`, which returns the new state
      and the warnings. */
  function TakeState<S, U>(engine: Option<S>, json: CStr, utf8: Utf8Decoder, parse: string -> Outcome<U>,
                           apply: (S, U) -> (S, Option<seq<EvalWarning>>), debug: DebugFormat)
    : (r: (Option<S>, Response<()>))
    requires GetJson(json, utf8, parse).Failure? ==> !GetJson(json, utf8, parse).error.InvalidMessageFormat?
    ensures engine.None? ==> r.0 == None && r.1.statusCode == Error && r.1.errorMessage == Some(NULL_ERROR_TEXT)
    ensures engine.Some? && GetJson(json, utf8, parse).Failure? ==> r.0 == engine && r.1.statusCode == Error
    ensures engine.Some? && GetJson(json, utf8, parse).Success? ==>
              var applied := apply(engine.value, GetJson(json, utf8, parse).value);
              r.0 == Some(applied.0)
              && (r.1.statusCode == Ok <==> applied.1.None?)
              && (applied.1.Some? ==> r.1.errorMessage == Some(ErrorText(PartialUpdate(applied.1.value), debug)))
    ensures r.1.statusCode != NotFound
  {
    match GetEngine(engine)
    case Failure(e) => (engine, FromResult(Failure(e), debug))
    case Success(state) =>
      match GetJson(json, utf8, parse)
      case Failure(e) => (engine, FromResult(Failure(e), debug))
      case Success(update) =>
        var (next, warnings) := apply(state, update);
        var result: Outcome<Option<()>> := match warnings
          case Some(ws) => Failure(PartialUpdate(ws))
          case None => Success(Some(()));
        (Some(next), FromResult(result, debug))
  }

  /** `count_toggle`'s reading of its flag byte: `enabled & 1 == 1`, since
      other languages may set more bits than the lowest. */
  function CountToggleFlag(enabled: u8): (b: bool)
  {
    (enabled as bv8) & 1 == 1
  }

  /** The flag is the parity of the byte: only the lowest bit matters. */
  lemma {:induction false} CountToggleFlagIsParity(enabled: u8)
    ensures CountToggleFlag(enabled) <==> enabled % 2 == 1
  {
    var b := enabled as bv8;
    assert b & 1 == b % 2;
    assert (b % 2) as int == enabled % 2;
  }

  /** `count_toggle` / `count_variant`: after the engine and string checks the
      count is recorded and the envelope is `Ok`. The recorded count is
      returned; `None` when nothing was counted. */
  function CountToggle<E>(engine: Option<E>, toggle: CStr, enabled: u8, utf8: Utf8Decoder, debug: DebugFormat)
    : (r: (Option<(string, bool)>, Response<()>))
    ensures r.0.Some? <==> engine.Some? && GetStr(toggle, utf8).Success?
    ensures r.0.Some? ==> r.0.value == (GetStr(toggle, utf8).value, enabled % 2 == 1) && r.1.statusCode == Ok
    ensures r.0.None? ==> r.1.statusCode == Error
  {
    CountToggleFlagIsParity(enabled);
    var flag := CountToggleFlag(enabled);
    match GetEngine(engine)
    case Failure(e) => (None, FromResult(Failure(e), debug))
    case Success(_) =>
      match GetStr(toggle, utf8)
      case Failure(e) => (None, FromResult(Failure(e), debug))
      case Success(name) => (Some((name, flag)), FromResult(Success(Some(())), debug))
  }

  /** `free_engine` / `free_response`: the number of releases performed; a
      null pointer is a no-op. */
  function FreeNullable<T>(ptr: Option<T>): (releases: nat)
    ensures ptr.None? <==> releases == 0
    ensures releases <= 1
  {
    if ptr.Some? then 1 else 0
  }
}

=== FILE: fragment_ops.dfy ===
/** Vocabulary shared by the rule-fragment evaluators: the comparator kinds of
    the rule grammar, the string any-of test, and the library-backed
    comparisons (floating point, dates, semantic versions, IP ranges) that the
    model takes as parameters instead of defining. */
module FragmentOps {
  import opened Common

  /** `<`, `<=`, `==`, `>`, `>=` of a numeric, date or semver constraint. */
  datatype Ordinal = Lte | Lt | Gte | Gt | Eq

  /** `in` / `not_in` of a list constraint. */
  datatype ContentComparator = In | NotIn

  /** `starts_with_any`, `ends_with_any`, `contains_any`. */
  datatype StringComparator = StartsWithAny | EndsWithAny | ContainsAny

  /** A comparison the engines delegate to a library (`f64`, `chrono`,
      `semver`): the context value, the operator and the rule literal give
      `None` when the context value does not parse, and the outcome otherwise. */
  type Comparison = (string, Ordinal, string) -> Option<bool>

  /** Membership of a context value in a list of literals under a library
      parse (`f64` lists, IP networks): `None` when the value does not parse. */
  type Membership = (string, seq<string>) -> Option<bool>

  /** `invert(inverted)`: the outcome, negated iff the constraint carries `!`. */
  function Invert(b: bool, inverted: bool): (r: bool)
    ensures inverted ==> r == !b
    ensures !inverted ==> r == b
  {
    if inverted then !b else b
  }

  /** One item of a string any-of list against the context value. */
  predicate Matches(cmp: StringComparator, value: string, item: string) {
    match cmp
    case StartsWithAny => StartsWith(value, item)
    case EndsWithAny => EndsWith(value, item)
    case ContainsAny => Contains(value, item)
  }

  /** `list.iter().any(...)`, walked from the front as the iterator does. */
  function AnyMatch(cmp: StringComparator, value: string, list: seq<string>): (r: bool)
    ensures r <==> exists i :: 0 <= i < |list| && Matches(cmp, value, list[i])
  {
    if |list| == 0 then false
    else if Matches(cmp, value, list[0]) then true
    else
      var rest := AnyMatch(cmp, value, list[1..]);
      assert forall i :: 1 <= i < |list| ==> list[i] == list[1..][i - 1];
      rest
  }

  /** Every list item lower-cased, as the `_ignore_case` comparators do when
      the fragment is compiled. */
  function LowerAll(list: seq<string>): (r: seq<string>)
    ensures |r| == |list|
    ensures forall i :: 0 <= i < |list| ==> r[i] == ToLower(list[i])
  {
    seq(|list|, i requires 0 <= i < |list| => ToLower(list[i]))
  }

  /** The string-fragment constraint: an absent context value is false;
      otherwise some list item matches the value, both lower-cased first when
      the comparator ignores case. */
  function StringFragmentHolds(cmp: StringComparator, ignoreCase: bool, list: seq<string>, value: Option<string>): (r: bool)
    ensures value.None? ==> !r
    ensures value.Some? && !ignoreCase ==>
              (r <==> exists i :: 0 <= i < |list| && Matches(cmp, value.value, list[i]))
    ensures value.Some? && ignoreCase ==>
              (r <==> exists i :: 0 <= i < |list| && Matches(cmp, ToLower(value.value), ToLower(list[i])))
  {
    var items := if ignoreCase then LowerAll(list) else list;
    match value
    case None => false
    case Some(v) => AnyMatch(cmp, if ignoreCase then ToLower(v) else v, items)
  }

  /** A string `in`/`not_in` list: an absent value is outside every list, so
      `in` is false and `not_in` is true. */
  function StringListHolds(cmp: ContentComparator, values: set<string>, value: Option<string>): (r: bool)
    ensures cmp == In ==> (r <==> value.Some? && value.value in values)
    ensures cmp == NotIn ==> (r <==> value.None? || value.value !in values)
    ensures value.None? ==> (r <==> cmp == NotIn)
  {
    match cmp
    case In => value.Some? && value.value in values
    case NotIn => value.None? || value.value !in values
  }

  /** A comparison against a context value that may be absent or unparseable:
      both read as false. */
  function CompareOrFalse(compare: Comparison, value: Option<string>, op: Ordinal, literal: string): (r: bool)
    ensures r ==> value.Some? && compare(value.value, op, literal) == Some(true)
    ensures value.Some? && compare(value.value, op, literal) == Some(true) ==> r
  {
    match value
    case None => false
    case Some(v) => compare(v, op, literal).GetOr(false)
  }
}

=== FILE: fragments.dfy ===
/** The compiled rule fragments of `unleash-yggdrasil`
    (`unleash-yggdrasil/src/strategy_parsing.rs`): a rule is a tree of
    constraints joined by `and` / `or`, every constraint may carry a leading
    `!`, and the tree is evaluated against the enriched context of one
    evaluation. Parsing the rule text into the tree is not part of this model;
    `Fragment` is the tree the compiler produces. */
module Fragments {
  import opened Common
  import opened FragmentOps

  /** The context a compiled rule sees: the caller's context plus the toggle
      name and the custom-strategy results. */
  datatype EnrichedContext = EnrichedContext(
    userId: Option<string>,
    sessionId: Option<string>,
    environment: Option<string>,
    appName: Option<string>,
    remoteAddress: Option<string>,
    currentTime: Option<string>,
    properties: Option<map<string, string>>,
    toggleName: string,
    externalResults: Option<map<string, bool>>)

  /** What one evaluation may consult besides the context: the number drawn
      for `random` (0..98; one draw stands for every `random` accessor of the
      evaluation), the host name (`None` when it
      cannot be determined), the hash, and the library comparisons. */
  datatype Env = Env(
    context: EnrichedContext,
    random: Draw,
    hostname: Option<string>,
    murmur: Murmur,
    numeric: Comparison,
    date: Comparison,
    semver: Comparison,
    numericMember: Membership,
    ipMember: Membership)

  /** A context accessor of the rule grammar. */
  datatype ContextField =
    | UserId | AppName | Environment | SessionId | RemoteAddress | CurrentTime
    | RandomValue
    | Property(name: string)

  datatype Leaf =
    | NumericConstraint(field: ContextField, op: Ordinal, number: string)
    | DateConstraint(field: ContextField, op: Ordinal, date: string)
    | SemverConstraint(field: ContextField, op: Ordinal, version: string)
    | RolloutConstraint(percent: u8, stickiness: seq<ContextField>, groupId: Option<string>)
    | DefaultConstraint(enabled: bool)
    | StringFragmentConstraint(field: ContextField, comparator: StringComparator, ignoreCase: bool, list: seq<string>)
    | EmptyListConstraint(field: ContextField, content: ContentComparator)
    | NumericListConstraint(field: ContextField, content: ContentComparator, numbers: seq<string>)
    | StringListConstraint(field: ContextField, content: ContentComparator, strings: set<string>)
    | HostnameConstraint(hostnames: seq<string>)
    | ExternalValue(key: string)
    | IpConstraint(field: ContextField, ranges: seq<string>)

  datatype Fragment =
    | Constraint(inverted: bool, leaf: Leaf)
    | And(left: Fragment, right: Fragment)
    | Or(left: Fragment, right: Fragment)

  /** `context_value`: the value of one accessor; `random` yields the drawn
      number in decimal, and a property is absent when the map or key is. */
  function Resolve(field: ContextField, env: Env): (r: Option<string>)
    ensures field == UserId ==> r == env.context.userId
    ensures field == AppName ==> r == env.context.appName
    ensures field == Environment ==> r == env.context.environment
    ensures field == SessionId ==> r == env.context.sessionId
    ensures field == RemoteAddress ==> r == env.context.remoteAddress
    ensures field == CurrentTime ==> r == env.context.currentTime
    ensures field.Property? ==>
              (r.Some? <==> env.context.properties.Some? && field.name in env.context.properties.value)
    ensures field.Property? && r.Some? ==> r.value == env.context.properties.value[field.name]
    ensures field == RandomValue ==> r.Some? && ParseUnsigned(r.value, 99) == Some(env.random)
    ensures field == RandomValue ==> ParseUnsigned(r.value, U64_LIMIT) == Some(env.random)
  {
    match field
    case UserId => env.context.userId
    case AppName => env.context.appName
    case Environment => env.context.environment
    case SessionId => env.context.sessionId
    case RemoteAddress => env.context.remoteAddress
    case CurrentTime => env.context.currentTime
    case RandomValue =>
      ParsePrinted(env.random, 99);
      ParsePrinted(env.random, U64_LIMIT);
      Some(NatToString(env.random))
    case Property(name) =>
      match env.context.properties
      case Some(props) => if name in props then Some(props[name]) else None
      case None => None
  }

  /** `coalesce_context_property`: the first accessor that yields a value. */
  function Coalesce(fields: seq<ContextField>, env: Env): (r: Option<string>)
    ensures r.None? <==> forall i :: 0 <= i < |fields| ==> Resolve(fields[i], env).None?
    ensures r.Some? ==> exists i :: 0 <= i < |fields| && Resolve(fields[i], env) == r &&
                                    forall j :: 0 <= j < i ==> Resolve(fields[j], env).None?
  {
    if |fields| == 0 then None
    else
      var first := Resolve(fields[0], env);
      if first.Some? then
        assert Resolve(fields[0], env) == first;
        first
      else
        var rest := Coalesce(fields[1..], env);
        assert forall i :: 1 <= i < |fields| ==> fields[i] == fields[1..][i - 1];
        assert rest.Some? ==> exists i :: 0 <= i < |fields| && Resolve(fields[i], env) == rest &&
                                          forall j :: 0 <= j < i ==> Resolve(fields[j], env).None? by {
          if rest.Some? {
            var k :| 0 <= k < |fields[1..]| && Resolve(fields[1..][k], env) == rest &&
                     forall j :: 0 <= j < k ==> Resolve(fields[1..][j], env).None?;
            assert Resolve(fields[k + 1], env) == rest;
            assert forall j :: 0 <= j < k + 1 ==> Resolve(fields[j], env).None?;
          }
        }
        rest
  }

  /** `rollout_constraint`: no stickiness value means false; the group is the
      rule's group id, else the toggle name; the bucket is murmur3 of
      `group:value` with seed 0, in 1..100, and the constraint holds iff the
      bucket is at most the percentage; a hashing error means false. */
  function RolloutHolds(percent: u8, stickiness: seq<ContextField>, groupId: Option<string>, env: Env): (r: bool)
    ensures Coalesce(stickiness, env).None? ==> !r
    ensures r <==> Coalesce(stickiness, env).Some? &&
                   var h := NormalizedHash(env.murmur, groupId.GetOr(env.context.toggleName), Coalesce(stickiness, env).value, 100, 0);
                   h.Some? && h.value <= percent
  {
    match Coalesce(stickiness, env)
    case None => false
    case Some(value) =>
      var group := match groupId
        case Some(g) => g
        case None => env.context.toggleName;
      match NormalizedHash(env.murmur, group, value, 100, 0)
      case Some(h) => h <= percent
      case None => false
  }

  /** `external_value["key"]`: the stored result, false when the results map
      or the key is missing. */
  function ExternalHolds(key: string, results: Option<map<string, bool>>): (r: bool)
    ensures r <==> results.Some? && key in results.value && results.value[key]
  {
    match results
    case Some(m) => if key in m then m[key] else false
    case None => false
  }

  /** `hostname_constraint`: the lower-cased host name is one of the
      lower-cased targets; an undeterminable host name is false. */
  function HostnameHolds(targets: seq<string>, hostname: Option<string>): (r: bool)
    ensures r <==> hostname.Some? && exists i :: 0 <= i < |targets| && ToLower(targets[i]) == ToLower(hostname.value)
  {
    match hostname
    case Some(h) => ToLower(h) in LowerAll(targets)
    case None => false
  }

  /** `string`: a rule literal loses its surrounding quotes and every `\"`
      becomes `"`. The compiled leaves below hold literals already decoded. */
  function StringLiteral(raw: string): (r: string)
    ensures |r| <= |raw|
    ensures |raw| < 2 ==> r == ""
    ensures |raw| >= 2 && NoEscapedQuote(raw[1..|raw| - 1]) ==> r == raw[1..|raw| - 1]
    ensures |raw| >= 2 ==> |r| <= |raw| - 2 && (|r| < |raw| - 2 ==> '"' in r)
  {
    UnescapeQuotes(StripEnds(raw))
  }

  /** A value quoted by the upgrader decodes back to itself. */
  lemma LiteralDecodesUpgraderQuoting(v: string)
    ensures StringLiteral(QuoteEscaped(v)) == v
  {
    QuotedLiteralRoundTrip(v);
  }

  /** The outcome of one constraint before its `!` is applied. */
  function LeafHolds(leaf: Leaf, env: Env): bool {
    match leaf
    case NumericConstraint(field, op, number) => CompareOrFalse(env.numeric, Resolve(field, env), op, number)
    case DateConstraint(field, op, date) => CompareOrFalse(env.date, Resolve(field, env), op, date)
    case SemverConstraint(field, op, version) => CompareOrFalse(env.semver, Resolve(field, env), op, version)
    case RolloutConstraint(percent, stickiness, groupId) => RolloutHolds(percent, stickiness, groupId, env)
    case DefaultConstraint(enabled) => enabled
    case StringFragmentConstraint(field, cmp, ignoreCase, list) =>
      StringFragmentHolds(cmp, ignoreCase, list, Resolve(field, env))
    case EmptyListConstraint(_, content) => content == NotIn
    case NumericListConstraint(field, content, numbers) =>
      (match Resolve(field, env)
       case None => false
       case Some(v) =>
         match env.numericMember(v, numbers)
         case None => false
         case Some(member) => if content == In then member else !member)
    case StringListConstraint(field, content, strings) => StringListHolds(content, strings, Resolve(field, env))
    case HostnameConstraint(targets) => HostnameHolds(targets, env.hostname)
    case ExternalValue(key) => ExternalHolds(key, env.context.externalResults)
    case IpConstraint(field, ranges) =>
      (match Resolve(field, env)
       case None => false
       case Some(v) => env.ipMember(v, ranges).GetOr(false))
  }

  /** The compiled rule applied to one evaluation environment. */
  function Eval(f: Fragment, env: Env): bool {
    match f
    case Constraint(inverted, leaf) => Invert(LeafHolds(leaf, env), inverted)
    case And(l, r) => Eval(l, env) && Eval(r, env)
    case Or(l, r) => Eval(l, env) || Eval(r, env)
  }

  /** Every constraint kind honours `!`: the inverted constraint is the
      negation of the plain one on every environment. */
  lemma InversionNegates(leaf: Leaf, env: Env)
    ensures Eval(Constraint(true, leaf), env) == !Eval(Constraint(false, leaf), env)
  {
  }

  /** `and` / `or` are Boolean conjunction and disjunction of the two sides. */
  lemma ConnectivesAreBoolean(l: Fragment, r: Fragment, env: Env)
    ensures Eval(And(l, r), env) <==> Eval(l, env) && Eval(r, env)
    ensures Eval(Or(l, r), env) <==> Eval(l, env) || Eval(r, env)
  {
  }

  /** An empty list holds for `not_in` and fails for `in`, whatever the
      context and accessor. */
  lemma EmptyListIgnoresContext(field: ContextField, content: ContentComparator, env: Env)
    ensures Eval(Constraint(false, EmptyListConstraint(field, content)), env) <==> content == NotIn
  {
  }

  /** An absent context value: a string list is false for `in` and true for
      `not_in`, and a numeric, date, semver, numeric-list, IP or
      string-fragment constraint is false. */
  lemma AbsentValue(field: ContextField, env: Env, op: Ordinal, literal: string, list: seq<string>,
                    strings: set<string>, cmp: StringComparator, ignoreCase: bool, content: ContentComparator)
    requires Resolve(field, env).None?
    ensures !LeafHolds(StringListConstraint(field, In, strings), env)
    ensures LeafHolds(StringListConstraint(field, NotIn, strings), env)
    ensures !LeafHolds(NumericConstraint(field, op, literal), env)
    ensures !LeafHolds(DateConstraint(field, op, literal), env)
    ensures !LeafHolds(SemverConstraint(field, op, literal), env)
    ensures !LeafHolds(NumericListConstraint(field, content, list), env)
    ensures !LeafHolds(IpConstraint(field, list), env)
    ensures !LeafHolds(StringFragmentConstraint(field, cmp, ignoreCase, list), env)
  {
  }
}

=== FILE: fragments_legacy.dfy ===
/** The compiled rule fragments of the older `sdk-core` engine
    (`sdk-core/src/strategy_parsing.rs`). It differs from the newer evaluator
    in three ways the model keeps: only numeric and default-strategy
    constraints honour a leading `!`; a context value that does not parse
    (numeric, date, semver, numeric list) makes the engine panic, which is a
    precondition here; and a rollout without a stickiness parameter falls back
    to the user id, then the session id, then a random bucket, with group id
    `""` when none is given. */
module FragmentsLegacy {
  import opened Common
  import opened FragmentOps

  /** The context of the older engine: no current time, toggle name or
      custom-strategy results. */
  datatype LegacyContext = LegacyContext(
    userId: Option<string>,
    sessionId: Option<string>,
    environment: Option<string>,
    appName: Option<string>,
    remoteAddress: Option<string>,
    properties: Option<map<string, string>>)

  /** The context plus the two numbers an evaluation may draw from 0..98: one
      for the `random` accessor and one for a rollout with no stickiness
      value. */
  datatype LegacyEnv = LegacyEnv(
    context: LegacyContext,
    random: nat,
    rolloutRandom: nat,
    murmur: Murmur,
    numeric: Comparison,
    date: Comparison,
    semver: Comparison,
    numericMember: Membership)

  datatype LegacyField =
    | UserId | AppName | Environment | SessionId | RemoteAddress
    | RandomValue
    | Property(name: string)

  datatype LegacyLeaf =
    | NumericConstraint(field: LegacyField, op: Ordinal, number: string)
    | DateConstraint(field: LegacyField, op: Ordinal, date: string)
    | SemverConstraint(field: LegacyField, op: Ordinal, version: string)
    | RolloutConstraint(percent: u8, stickiness: Option<LegacyField>, groupId: Option<string>)
    | DefaultConstraint(enabled: bool)
    | StringFragmentConstraint(field: LegacyField, comparator: StringComparator, ignoreCase: bool, list: seq<string>)
    | EmptyListConstraint(field: LegacyField, content: ContentComparator)
    | NumericListConstraint(field: LegacyField, content: ContentComparator, numbers: seq<string>)
    | StringListConstraint(field: LegacyField, content: ContentComparator, strings: set<string>)

  datatype LegacyFragment =
    | Constraint(inverted: bool, leaf: LegacyLeaf)
    | And(left: LegacyFragment, right: LegacyFragment)
    | Or(left: LegacyFragment, right: LegacyFragment)

  /** `string`: a rule literal loses its first and last character; nothing is
      unescaped. */
  function LegacyLiteral(raw: string): (r: string)
    ensures |raw| >= 2 ==> [raw[0]] + r + [raw[|raw| - 1]] == raw
  {
    StripEnds(raw)
  }

  /** `context_value` of the older engine. */
  function LegacyResolve(field: LegacyField, env: LegacyEnv): (r: Option<string>)
    ensures field == UserId ==> r == env.context.userId
    ensures field == AppName ==> r == env.context.appName
    ensures field == Environment ==> r == env.context.environment
    ensures field == SessionId ==> r == env.context.sessionId
    ensures field == RemoteAddress ==> r == env.context.remoteAddress
    ensures field.Property? ==>
              (r.Some? <==> env.context.properties.Some? && field.name in env.context.properties.value)
    ensures field.Property? && r.Some? ==> r.value == env.context.properties.value[field.name]
    ensures field == RandomValue ==> r == Some(NatToString(env.random))
  {
    match field
    case UserId => env.context.userId
    case AppName => env.context.appName
    case Environment => env.context.environment
    case SessionId => env.context.sessionId
    case RemoteAddress => env.context.remoteAddress
    case RandomValue => Some(NatToString(env.random))
    case Property(name) =>
      match env.context.properties
      case Some(props) => if name in props then Some(props[name]) else None
      case None => None
  }

  /** A present context value that the library comparison cannot parse is
      where the older engine panics (`unwrap`). */
  predicate Parses(compare: Comparison, value: Option<string>, op: Ordinal, literal: string) {
    value.None? || compare(value.value, op, literal).Some?
  }

  /** The leaf does not panic on this environment. */
  predicate LeafDefined(leaf: LegacyLeaf, env: LegacyEnv) {
    match leaf
    case NumericConstraint(field, op, number) => Parses(env.numeric, LegacyResolve(field, env), op, number)
    case DateConstraint(field, op, date) => Parses(env.date, LegacyResolve(field, env), op, date)
    case SemverConstraint(field, op, version) => Parses(env.semver, LegacyResolve(field, env), op, version)
    case NumericListConstraint(field, _, numbers) =>
      LegacyResolve(field, env).None? || env.numericMember(LegacyResolve(field, env).value, numbers).Some?
    case _ => true
  }

  /** `rollout_constraint` of the older engine. An explicit stickiness that
      resolves to nothing is false; with no stickiness parameter the user id,
      then the session id is used, and with neither the random bucket is
      compared instead of a hash. The group id defaults to `""`; the bucket is
      murmur3 of `group:value` with seed 0, modulo 100. */
  function LegacyRolloutHolds(percent: u8, stickiness: Option<LegacyField>, groupId: Option<string>, env: LegacyEnv): (r: bool)
    ensures stickiness.Some? && LegacyResolve(stickiness.value, env).None? ==> !r
    ensures stickiness.None? && env.context.userId.None? && env.context.sessionId.None? ==>
              (r <==> env.rolloutRandom <= percent)
    ensures stickiness.None? && env.context.userId.Some? ==>
              (r <==> var h := RemainderHash(env.murmur, groupId.GetOr(""), env.context.userId.value, 100);
                      h.Some? && h.value <= percent)
    ensures stickiness.None? && env.context.userId.None? && env.context.sessionId.Some? ==>
              (r <==> var h := RemainderHash(env.murmur, groupId.GetOr(""), env.context.sessionId.value, 100);
                      h.Some? && h.value <= percent)
  {
    var value := match stickiness
      case Some(field) => LegacyResolve(field, env)
      case None => if env.context.userId.Some? then env.context.userId else env.context.sessionId;
    if stickiness.Some? && value.None? then false
    else
      var group := match groupId
        case Some(g) => g
        case None => "";
      var bucket := match value
        case Some(v) => RemainderHash(env.murmur, group, v, 100)
        case None => Some(env.rolloutRandom);
      match bucket
      case Some(h) => h <= percent
      case None => false
  }

  /** The outcome of one leaf, with the `!` applied only where the older
      engine passes it on (numeric and default-strategy constraints). */
  function LegacyLeafHolds(leaf: LegacyLeaf, inverted: bool, env: LegacyEnv): bool
    requires LeafDefined(leaf, env)
  {
    match leaf
    case NumericConstraint(field, op, number) =>
      (match LegacyResolve(field, env)
       case None => false
       case Some(v) => Invert(env.numeric(v, op, number).value, inverted))
    case DateConstraint(field, op, date) =>
      (match LegacyResolve(field, env)
       case None => false
       case Some(v) => env.date(v, op, date).value)
    case SemverConstraint(field, op, version) =>
      (match LegacyResolve(field, env)
       case None => false
       case Some(v) => env.semver(v, op, version).value)
    case RolloutConstraint(percent, stickiness, groupId) => LegacyRolloutHolds(percent, stickiness, groupId, env)
    case DefaultConstraint(enabled) => Invert(enabled, inverted)
    case StringFragmentConstraint(field, cmp, ignoreCase, list) =>
      StringFragmentHolds(cmp, ignoreCase, list, LegacyResolve(field, env))
    case EmptyListConstraint(_, content) => content == NotIn
    case NumericListConstraint(field, content, numbers) =>
      (match LegacyResolve(field, env)
       case None => false
       case Some(v) =>
         var member := env.numericMember(v, numbers).value;
         if content == In then member else !member)
    case StringListConstraint(field, content, strings) => StringListHolds(content, strings, LegacyResolve(field, env))
  }

  /** The rule does not panic: `and` evaluates its right side only when the
      left is true, `or` only when the left is false. */
  predicate Defined(f: LegacyFragment, env: LegacyEnv)
    decreases f, 0
  {
    match f
    case Constraint(_, leaf) => LeafDefined(leaf, env)
    case And(l, r) => Defined(l, env) && (LegacyEval(l, env) ==> Defined(r, env))
    case Or(l, r) => Defined(l, env) && (!LegacyEval(l, env) ==> Defined(r, env))
  }

  function LegacyEval(f: LegacyFragment, env: LegacyEnv): bool
    requires Defined(f, env)
    decreases f, 1
  {
    match f
    case Constraint(inverted, leaf) => LegacyLeafHolds(leaf, inverted, env)
    case And(l, r) => LegacyEval(l, env) && LegacyEval(r, env)
    case Or(l, r) => LegacyEval(l, env) || LegacyEval(r, env)
  }

  /** Numeric constraints: an absent context value is false even under `!`;
      a present one gives the comparison, negated iff inverted. */
  lemma NumericInversion(field: LegacyField, op: Ordinal, number: string, inverted: bool, env: LegacyEnv)
    requires Parses(env.numeric, LegacyResolve(field, env), op, number)
    ensures LegacyResolve(field, env).None? ==> !LegacyEval(Constraint(inverted, NumericConstraint(field, op, number)), env)
    ensures LegacyResolve(field, env).Some? ==>
              LegacyEval(Constraint(inverted, NumericConstraint(field, op, number)), env)
              == (env.numeric(LegacyResolve(field, env).value, op, number) == Some(!inverted))
  {
  }

  /** Every constraint other than numeric and default-strategy ignores `!`. */
  lemma InversionIgnored(leaf: LegacyLeaf, env: LegacyEnv)
    requires !leaf.NumericConstraint? && !leaf.DefaultConstraint?
    requires LeafDefined(leaf, env)
    ensures LegacyEval(Constraint(true, leaf), env) == LegacyEval(Constraint(false, leaf), env)
  {
  }

  /** A default-strategy constraint is its literal, negated iff inverted. */
  lemma DefaultLiteral(enabled: bool, inverted: bool, env: LegacyEnv)
    ensures LegacyEval(Constraint(inverted, DefaultConstraint(enabled)), env) == (enabled != inverted)
  {
  }

  /** `and` / `or` are Boolean conjunction and disjunction. */
  lemma LegacyConnectives(l: LegacyFragment, r: LegacyFragment, env: LegacyEnv)
    requires Defined(l, env) && Defined(r, env)
    ensures LegacyEval(And(l, r), env) <==> LegacyEval(l, env) && LegacyEval(r, env)
    ensures LegacyEval(Or(l, r), env) <==> LegacyEval(l, env) || LegacyEval(r, env)
  {
  }
}

=== FILE: fragments_prototype.dfy ===
/** The prototype evaluator of `sdk-core` (`sdk-core/src/strategy_parser.rs`):
    every context field is a plain string, constraints carry no inversion,
    the list constraint is numeric membership whatever its comparator, and
    a missing property or an unparseable value makes it panic, which is a
    precondition here. */
module FragmentsPrototype {
  import opened Common
  import opened FragmentOps

  /** `Context::new` sets the app name and the environment to `""`. */
  datatype ProtoContext = ProtoContext(userId: string, appName: string, environment: string, properties: map<string, string>)

  function NewProtoContext(userId: string, properties: map<string, string>): (c: ProtoContext)
    ensures c.userId == userId && c.properties == properties
    ensures c.appName == "" && c.environment == ""
  {
    ProtoContext(userId, "", "", properties)
  }

  datatype ProtoEnv = ProtoEnv(context: ProtoContext, murmur: Murmur, numeric: Comparison, semver: Comparison, numericMember: Membership)

  datatype ProtoField = UserId | AppName | Environment | Property(name: string)

  datatype ProtoLeaf =
    | NumericConstraint(field: ProtoField, op: Ordinal, number: string)
    | SemverConstraint(field: ProtoField, op: Ordinal, version: string)
    | RolloutConstraint(percent: u8, stickiness: Option<ProtoField>, groupId: Option<string>)
    | DefaultConstraint(enabled: bool)
    | ListConstraint(field: ProtoField, comparator: ContentComparator, numbers: seq<string>)

  datatype ProtoFragment =
    | Constraint(leaf: ProtoLeaf)
    | And(left: ProtoFragment, right: ProtoFragment)
    | Or(left: ProtoFragment, right: ProtoFragment)

  /** A property accessor needs its key in the map (`unwrap`). */
  predicate FieldDefined(field: ProtoField, env: ProtoEnv) {
    field.Property? ==> field.name in env.context.properties
  }

  function ProtoResolve(field: ProtoField, env: ProtoEnv): (r: string)
    requires FieldDefined(field, env)
    ensures field.Property? ==> r == env.context.properties[field.name]
    ensures field == UserId ==> r == env.context.userId
    ensures field == AppName ==> r == env.context.appName
    ensures field == Environment ==> r == env.context.environment
  {
    match field
    case UserId => env.context.userId
    case AppName => env.context.appName
    case Environment => env.context.environment
    case Property(name) => env.context.properties[name]
  }

  /** The leaf does not panic: its accessors resolve and the value parses. */
  predicate ProtoLeafDefined(leaf: ProtoLeaf, env: ProtoEnv) {
    match leaf
    case NumericConstraint(field, op, number) =>
      FieldDefined(field, env) && env.numeric(ProtoResolve(field, env), op, number).Some?
    case SemverConstraint(field, op, version) =>
      FieldDefined(field, env) && env.semver(ProtoResolve(field, env), op, version).Some?
    case RolloutConstraint(_, stickiness, _) => stickiness.Some? ==> FieldDefined(stickiness.value, env)
    case DefaultConstraint(_) => true
    case ListConstraint(field, _, numbers) =>
      FieldDefined(field, env) && env.numericMember(ProtoResolve(field, env), numbers).Some?
  }

  /** `rollout_constraint` of the prototype: stickiness and group id default
      to `""`; the bucket is murmur3 of `group:value` modulo 100 and the
      constraint holds iff it is at most the percentage; a hashing error is
      false. */
  function ProtoRolloutHolds(percent: u8, stickiness: Option<ProtoField>, groupId: Option<string>, env: ProtoEnv): (r: bool)
    requires stickiness.Some? ==> FieldDefined(stickiness.value, env)
    ensures r <==> var h := RemainderHash(env.murmur, groupId.GetOr(""),
                                          if stickiness.Some? then ProtoResolve(stickiness.value, env) else "", 100);
                   h.Some? && h.value <= percent
  {
    var value := match stickiness
      case Some(field) => ProtoResolve(field, env)
      case None => "";
    var group := match groupId
      case Some(g) => g
      case None => "";
    match RemainderHash(env.murmur, group, value, 100)
    case Some(h) => h <= percent
    case None => false
  }

  function ProtoLeafHolds(leaf: ProtoLeaf, env: ProtoEnv): bool
    requires ProtoLeafDefined(leaf, env)
  {
    match leaf
    case NumericConstraint(field, op, number) => env.numeric(ProtoResolve(field, env), op, number).value
    case SemverConstraint(field, op, version) => env.semver(ProtoResolve(field, env), op, version).value
    case RolloutConstraint(percent, stickiness, groupId) => ProtoRolloutHolds(percent, stickiness, groupId, env)
    case DefaultConstraint(enabled) => enabled
    case ListConstraint(field, _, numbers) => env.numericMember(ProtoResolve(field, env), numbers).value
  }

  predicate ProtoDefined(f: ProtoFragment, env: ProtoEnv)
    decreases f, 0
  {
    match f
    case Constraint(leaf) => ProtoLeafDefined(leaf, env)
    case And(l, r) => ProtoDefined(l, env) && (ProtoEval(l, env) ==> ProtoDefined(r, env))
    case Or(l, r) => ProtoDefined(l, env) && (!ProtoEval(l, env) ==> ProtoDefined(r, env))
  }

  function ProtoEval(f: ProtoFragment, env: ProtoEnv): bool
    requires ProtoDefined(f, env)
    decreases f, 1
  {
    match f
    case Constraint(leaf) => ProtoLeafHolds(leaf, env)
    case And(l, r) => ProtoEval(l, env) && ProtoEval(r, env)
    case Or(l, r) => ProtoEval(l, env) || ProtoEval(r, env)
  }

  /** The list constraint's comparator is discarded: `in` and `not_in` give
      the same outcome, membership of the context number. */
  lemma ListComparatorDiscarded(field: ProtoField, numbers: seq<string>, env: ProtoEnv)
    requires ProtoLeafDefined(ListConstraint(field, In, numbers), env)
    ensures ProtoLeafDefined(ListConstraint(field, NotIn, numbers), env)
    ensures ProtoEval(Constraint(ListConstraint(field, NotIn, numbers)), env)
            == ProtoEval(Constraint(ListConstraint(field, In, numbers)), env)
            == env.numericMember(ProtoResolve(field, env), numbers).value
  {
  }

  /** `and` / `or` are Boolean conjunction and disjunction. */
  lemma ProtoConnectives(l: ProtoFragment, r: ProtoFragment, env: ProtoEnv)
    requires ProtoDefined(l, env) && ProtoDefined(r, env)
    ensures ProtoEval(And(l, r), env) <==> ProtoEval(l, env) && ProtoEval(r, env)
    ensures ProtoEval(Or(l, r), env) <==> ProtoEval(l, env) || ProtoEval(r, env)
  {
  }
}

=== FILE: go_binding.dfy ===
/** The Go binding (`go-engine/unleash_engine.go`). Every argument is a C
    string the binding allocates with `C.CString` and, when it remembers to,
    frees in a deferred function; the reply is released by a deferred
    `free_response`. Marshalling the context and unmarshalling the reply
    are the parameter outcomes `Marshalled` and `GoDecode`. The C strings
    are numbered in the order the binding allocates them. */
module GoBinding {
  import opened Common
  import opened FfiEnvelope
  import opened ReleaseLedger

  const EMPTY_CUSTOM_STRATEGY_RESULTS: string := "{}"

  /** `json.Marshal(context)`: the JSON text, or a failure. */
  datatype Marshalled = Marshalled(json: string) | MarshalFailed(message: string)

  /** `response[T]` after `json.Unmarshal`: an absent key leaves the field at
      its zero value, so only the value's absence is kept apart. */
  datatype GoResponse<V> = GoResponse(statusCode: string, value: Option<V>, errorMessage: string)

  datatype GoDecode<V> = Unmarshalled(response: GoResponse<V>) | UnmarshalFailed(message: string)

  /** How `encoding/json` reads an envelope the engine wrote. */
  function GoRead<V>(w: WireResponse<V>): (d: GoDecode<V>)
    ensures d.Unmarshalled? && d.response.value == w.value
  {
    Unmarshalled(GoResponse(w.statusCode, w.value, w.errorMessage.GetOr("")))
  }

  /** The strings handed to `check_enabled` / `check_variant`. */
  datatype CheckArgs = CheckArgs(toggleName: string, contextJson: string, customResults: string)

  /** The steps of a check call once the context is marshalled: the toggle
      name, the context and a results string are allocated and, for
      `IsEnabled` only, a second results string created inline in the call;
      then the call, the copy and, if the reply unmarshals, the decode.
      Deferred calls run last-in first-out: the reply is released first,
      then the three strings the deferred function names. */
  function CheckTrace(inline: bool, decoded: bool): (t: seq<Event>)
    ensures FreesCheckBuffers(t)
    ensures Released(Argument(3)) !in t && (Allocated(Argument(3)) in t <==> inline)
    ensures Decoded in t <==> decoded
  {
    var prefix := CheckPrefix(inline, decoded);
    ReleasesCounted(prefix);
    prefix + DeferredReleases()
  }

  /** What a check call does before its deferred calls run. */
  function CheckPrefix(inline: bool, decoded: bool): (p: seq<Event>)
    ensures NoReleases(p) && Released(Argument(3)) !in p
    ensures Allocated(Argument(3)) in p <==> inline
    ensures Decoded in p <==> decoded
  {
    var allocations := if inline then [Allocated(Argument(0)), Allocated(Argument(1)), Allocated(Argument(2)), Allocated(Argument(3))]
                       else [Allocated(Argument(0)), Allocated(Argument(1)), Allocated(Argument(2))];
    allocations + (if decoded then [Called, Copied, Decoded] else [Called, Copied])
  }

  /** The reply and the three strings the deferred function names are each
      released once. */
  predicate FreesCheckBuffers(t: seq<Event>) {
    ReleasedOnce(t, Reply) && ReleasedOnce(t, Argument(0)) && ReleasedOnce(t, Argument(1)) && ReleasedOnce(t, Argument(2))
  }

  predicate NoReleases(p: seq<Event>) {
    forall i :: 0 <= i < |p| ==> !p[i].Released?
  }

  /** Deferred calls run last-in first-out: the reply is released first,
      then the three strings the deferred function names. */
  function DeferredReleases(): (d: seq<Event>)
    ensures Released(Argument(3)) !in d && Allocated(Argument(3)) !in d && Decoded !in d
  {
    [Released(Reply), Released(Argument(0)), Released(Argument(1)), Released(Argument(2))]
  }

  /** A prefix without releases followed by one release of each of the four
      buffers releases each of them once. */
  lemma ReleasesCounted(prefix: seq<Event>)
    requires NoReleases(prefix)
    ensures FreesCheckBuffers(prefix + DeferredReleases())
  {
    var d := DeferredReleases();
    assert d == [Released(Reply), Released(Argument(0)), Released(Argument(1)), Released(Argument(2))];
    forall b | b in {Reply, Argument(0), Argument(1), Argument(2)}
      ensures ReleasedOnce(prefix + d, b)
    {
      CountAppend(prefix, d, Released(b));
      assert Released(b) !in prefix;
      assert multiset(d)[Released(b)] == 1;
    }
  }

  /** `enabled.Value` after unmarshalling: false when the key is absent, and
      false when unmarshalling failed. */
  function DecodedFlag(reply: GoDecode<bool>): (b: bool)
    ensures b <==> reply.Unmarshalled? && reply.response.value == Some(true)
  {
    match reply
    case UnmarshalFailed(_) => false
    case Unmarshalled(response) => response.value.GetOr(false)
  }

  /** `IsEnabled`. A context that does not marshal ends the process in
      `log.Fatalf`. Otherwise the answer is the envelope's value, false when
      absent, whatever the status; a reply that does not unmarshal is false.
      The inline results string is never freed. */
  function IsEnabled(toggleName: string, context: Marshalled, reply: GoDecode<bool>): (r: (Option<CheckArgs>, HostCall<bool>))
    ensures context.MarshalFailed? ==> r.0.None? && r.1.result == Exited && Leaked(r.1.trace, Argument(0))
    ensures context.Marshalled? ==>
              r.0 == Some(CheckArgs(toggleName, context.json, EMPTY_CUSTOM_STRATEGY_RESULTS))
              && FreesCheckBuffers(r.1.trace)
              && Leaked(r.1.trace, Argument(3))
    ensures context.Marshalled? ==> r.1.result.Returned?
    ensures context.Marshalled? && reply.UnmarshalFailed? ==> !r.1.result.value
    ensures context.Marshalled? && reply.Unmarshalled? ==> (r.1.result.value <==> reply.response.value == Some(true))
  {
    match context
    case MarshalFailed(_) => (None, HostCall(Exited, [Allocated(Argument(0))]))
    case Marshalled(json) =>
      (Some(CheckArgs(toggleName, json, EMPTY_CUSTOM_STRATEGY_RESULTS)),
       HostCall(Returned(DecodedFlag(reply)), CheckTrace(true, reply.Unmarshalled?)))
  }

  /** End to end: `IsEnabled` reports a known toggle's flag and false both for
      a missing toggle and for an engine error, so the caller cannot tell
      those apart from a disabled toggle. */
  lemma IsEnabledIgnoresStatus(toggleName: string, json: string, result: Outcome<Option<bool>>, debug: DebugFormat)
    requires result.Failure? ==> !result.error.InvalidMessageFormat?
    ensures var c := IsEnabled(toggleName, Marshalled(json), GoRead(ToWire(FromResult(result, debug)))).1;
            (result.Success? && result.value.Some? ==> c.result == Returned(result.value.value))
            && (result == Success(None) ==> c.result == Returned(false))
            && (result.Failure? ==> c.result == Returned(false))
  {
  }

  /** `GetVariant`. A context that does not marshal returns `nil` with the
      toggle-name string already allocated and never freed. Otherwise the
      envelope's value, `nil` when absent or when the reply does not
      unmarshal; the status is not looked at. */
  function GetVariant<D>(toggleName: string, context: Marshalled, reply: GoDecode<D>): (r: (Option<CheckArgs>, HostCall<Option<D>>))
    ensures context.MarshalFailed? ==> r.0.None? && r.1.result == Returned(None) && Leaked(r.1.trace, Argument(0))
    ensures context.Marshalled? ==>
              r.0 == Some(CheckArgs(toggleName, context.json, EMPTY_CUSTOM_STRATEGY_RESULTS))
              && FreesCheckBuffers(r.1.trace)
              && Allocated(Argument(3)) !in r.1.trace
    ensures context.Marshalled? && reply.UnmarshalFailed? ==> r.1.result == Returned(None)
    ensures context.Marshalled? && reply.Unmarshalled? ==> r.1.result == Returned(reply.response.value)
  {
    match context
    case MarshalFailed(_) => (None, HostCall(Returned(None), [Allocated(Argument(0))]))
    case Marshalled(json) =>
      var result := if reply.Unmarshalled? then reply.response.value else None;
      (Some(CheckArgs(toggleName, json, EMPTY_CUSTOM_STRATEGY_RESULTS)),
       HostCall(Returned(result), CheckTrace(false, reply.Unmarshalled?)))
  }

  /** End to end: a known toggle's variant, and `nil` both for a missing
      toggle and for an engine error. */
  lemma GetVariantAgreesWithEngine<D>(toggleName: string, json: string, result: Outcome<Option<D>>, debug: DebugFormat)
    requires result.Failure? ==> !result.error.InvalidMessageFormat?
    ensures var c := GetVariant(toggleName, Marshalled(json), GoRead(ToWire(FromResult(result, debug)))).1;
            (result.Success? ==> c.result == Returned(result.value))
            && (result.Failure? ==> c.result == Returned(None))
  {
  }

  /** `TakeState`: the state string is allocated and never freed, and the
      reply is dropped without being read or released. */
  function TakeState(json: string): (r: (string, HostCall<()>))
    ensures r.0 == json
    ensures Leaked(r.1.trace, Argument(0)) && Leaked(r.1.trace, Reply) && Decoded !in r.1.trace
  {
    (json, HostCall(Returned(()), [Allocated(Argument(0)), Called]))
  }
}

=== FILE: impact_metrics.dfy ===
/** Impact metrics of `unleash-yggdrasil/src/impact_metrics`: the canonical
    label key under which a labelled value is stored, a counter that
    accumulates 64-bit values per label key and hands them over (and resets)
    on `collect`, and the in-memory registry of counters that can be
    collected and restored. Concurrent access to the maps and atomics is
    left out: every operation here is one sequential step. */
module ImpactMetrics {
  import opened Common
  import opened CustomResults

  // ---------------------------------------------------------------------------
  // 64-bit values
  // ---------------------------------------------------------------------------

  type i64 = x: int | -0x8000_0000_0000_0000 <= x < 0x8000_0000_0000_0000

  const I64_MODULUS: int := 0x1_0000_0000_0000_0000

  /** Two's-complement wrap-around, as `AtomicI64::fetch_add` does. */
  function WrapI64(x: int): (r: i64)
    ensures (r - x) % I64_MODULUS == 0
    ensures -0x8000_0000_0000_0000 <= x < 0x8000_0000_0000_0000 ==> r == x
  {
    (x + 0x8000_0000_0000_0000) % I64_MODULUS - 0x8000_0000_0000_0000
  }

  /** Adding in two wrapped steps is adding once and wrapping. */
  lemma WrapTwice(x: int, a: int, b: int)
    ensures WrapI64(WrapI64(x + a) + b) == WrapI64(x + a + b)
  {
    var y := x + a;
    var q := (y + 0x8000_0000_0000_0000) / 0x1_0000_0000_0000_0000;
    assert WrapI64(y) == y - q * 0x1_0000_0000_0000_0000;
    ShiftMod(y + b + 0x8000_0000_0000_0000, q);
  }

  /** Subtracting whole multiples of 2^64 keeps the remainder. */
  lemma ShiftMod(z: int, q: int)
    ensures (z - q * 0x1_0000_0000_0000_0000) % 0x1_0000_0000_0000_0000 == z % 0x1_0000_0000_0000_0000
  {
  }

  // ---------------------------------------------------------------------------
  // String order (Rust's `Ord` for `String`)
  // ---------------------------------------------------------------------------

  /** `a < b`: lexicographic by character, a proper prefix first. */
  predicate Below(a: string, b: string) {
    if |a| == 0 then |b| > 0
    else if |b| == 0 then false
    else if a[0] != b[0] then a[0] < b[0]
    else Below(a[1..], b[1..])
  }

  lemma {:induction false} BelowIrreflexive(a: string)
    ensures !Below(a, a)
  {
    if |a| > 0 {
      BelowIrreflexive(a[1..]);
    }
  }

  lemma {:induction false} BelowAsymmetric(a: string, b: string)
    requires Below(a, b)
    ensures !Below(b, a)
  {
    if |a| > 0 && a[0] == b[0] {
      BelowAsymmetric(a[1..], b[1..]);
    }
  }

  lemma {:induction false} BelowTransitive(a: string, b: string, c: string)
    requires Below(a, b) && Below(b, c)
    ensures Below(a, c)
  {
    if |a| > 0 && a[0] == b[0] && b[0] == c[0] {
      BelowTransitive(a[1..], b[1..], c[1..]);
    }
  }

  lemma {:induction false} BelowTotal(a: string, b: string)
    requires a != b
    ensures Below(a, b) || Below(b, a)
  {
    if |a| > 0 && |b| > 0 && a[0] == b[0] {
      assert a == [a[0]] + a[1..] && b == [b[0]] + b[1..];
      BelowTotal(a[1..], b[1..]);
    }
  }

  /** `k` is the smallest element of `s`. */
  predicate IsLeast(k: string, s: set<string>) {
    k in s && forall x :: x in s && x != k ==> Below(k, x)
  }

  lemma {:induction false} LeastExists(s: set<string>)
    requires s != {}
    ensures exists k :: IsLeast(k, s)
    decreases |s|
  {
    var x :| x in s;
    var rest := s - {x};
    if rest == {} {
      assert forall y :: y in s && y != x ==> y in rest;
      assert IsLeast(x, s);
    } else {
      LeastExists(rest);
      var m :| IsLeast(m, rest);
      BelowTotal(m, x);
      if Below(m, x) {
        assert IsLeast(m, s);
      } else {
        forall y | y in s && y != x
          ensures Below(x, y)
        {
          if y != m {
            BelowTransitive(x, m, y);
          }
        }
        assert IsLeast(x, s);
      }
    }
  }

  lemma LeastUnique(s: set<string>)
    ensures forall a, b :: IsLeast(a, s) && IsLeast(b, s) ==> a == b
  {
    forall a, b | IsLeast(a, s) && IsLeast(b, s)
      ensures a == b
    {
      if a != b {
        BelowAsymmetric(a, b);
      }
    }
  }

  /** The elements of a set in increasing order (`sort_by_key` on the keys). */
  function SortedKeys(s: set<string>): (ks: seq<string>)
    ensures |ks| == |s|
    decreases |s|
  {
    if s == {} then []
    else
      LeastExists(s);
      LeastUnique(s);
      var k :| IsLeast(k, s);
      [k] + SortedKeys(s - {k})
  }

  /** The sorted keys are the set's elements, in strictly increasing order. */
  lemma SortedKeysSpec(s: set<string>)
    ensures var ks := SortedKeys(s);
            (forall k :: k in s <==> k in ks) &&
            (forall i, j :: 0 <= i < j < |ks| ==> Below(ks[i], ks[j]))
  {
    SortedKeysMembers(s);
    SortedKeysOrdered(s);
  }

  /** The sorted keys hold exactly the set's elements. */
  lemma {:induction false} SortedKeysMembers(s: set<string>)
    ensures forall k :: k in s <==> k in SortedKeys(s)
    decreases |s|
  {
    if s != {} {
      var k := SortedKeysStep(s);
      SortedKeysMembers(s - {k});
    }
  }

  /** The sorted keys are in strictly increasing order. */
  lemma {:induction false} SortedKeysOrdered(s: set<string>)
    ensures forall i, j :: 0 <= i < j < |SortedKeys(s)| ==> Below(SortedKeys(s)[i], SortedKeys(s)[j])
    decreases |s|
  {
    if s != {} {
      var k := SortedKeysStep(s);
      var rest := SortedKeys(s - {k});
      var ks := SortedKeys(s);
      SortedKeysMembers(s - {k});
      SortedKeysOrdered(s - {k});
      forall i, j | 0 <= i < j < |ks|
        ensures Below(ks[i], ks[j])
      {
        assert ks[j] == rest[j - 1];
        if i > 0 {
          assert ks[i] == rest[i - 1];
        } else {
          assert ks[j] in s - {k};
        }
      }
    }
  }

  /** The first sorted key is the least element, followed by the sorted rest. */
  lemma SortedKeysStep(s: set<string>) returns (k: string)
    requires s != {}
    ensures IsLeast(k, s) && SortedKeys(s) == [k] + SortedKeys(s - {k})
  {
    LeastExists(s);
    LeastUnique(s);
    k :| IsLeast(k, s);
  }

  /** Sorted keys are distinct. */
  lemma SortedDistinct(ks: seq<string>)
    requires forall i, j :: 0 <= i < j < |ks| ==> Below(ks[i], ks[j])
    ensures forall i, j :: 0 <= i < j < |ks| ==> ks[i] != ks[j]
  {
    forall i, j | 0 <= i < j < |ks|
      ensures ks[i] != ks[j]
    {
      BelowIrreflexive(ks[i]);
    }
  }

  // ---------------------------------------------------------------------------
  // Label keys
  // ---------------------------------------------------------------------------

  /** `MetricLabels`. */
  type Labels = map<string, string>

  function PairText(k: string, v: string): string {
    k + "=" + v
  }

  /** The `k=v` texts of the labels, in increasing key order. */
  function LabelPairs(labels: Labels): (ps: seq<string>)
    ensures |ps| == |labels|
  {
    SortedKeysSpec(labels.Keys);
    var ks := SortedKeys(labels.Keys);
    seq(|ks|, i requires 0 <= i < |ks| => PairText(ks[i], labels[ks[i]]))
  }

  /** `get_label_key`: the empty text for no labels, otherwise the pairs
      sorted by key and joined with commas, so the key depends only on the
      label set and not on the map's iteration order. */
  function LabelKey(labels: Option<Labels>): (key: string)
    ensures labels.None? || |labels.value| == 0 ==> key == ""
  {
    match labels
    case None => ""
    case Some(m) => if |m| == 0 then "" else Join(",", LabelPairs(m))
  }

  /** One pair split at its first `=` (`splitn(2, '=')`); `None` without one. */
  function ParsePair(pair: string): (r: Option<(string, string)>)
    ensures r.None? <==> '=' !in pair
    ensures r.Some? ==> '=' !in r.value.0 && pair == PairText(r.value.0, r.value.1)
  {
    if '=' !in pair then None
    else
      var i := IndexOf(pair, '=');
      assert pair == pair[..i] + "=" + pair[i + 1..];
      Some((pair[..i], pair[i + 1..]))
  }

  /** `filter_map` of `ParsePair`: the parts with a `=`, in order. */
  function ParsedPairs(parts: seq<string>): (ps: seq<(string, string)>)
    ensures |ps| <= |parts|
    ensures forall p :: p in ps <==> exists i :: 0 <= i < |parts| && ParsePair(parts[i]) == Some(p)
  {
    if |parts| == 0 then []
    else
      var rest := ParsedPairs(parts[1..]);
      assert forall i :: 1 <= i < |parts| ==> parts[i] == parts[1..][i - 1];
      match ParsePair(parts[0])
      case Some(p) => [p] + rest
      case None => rest
  }

  /** `parse_label_key`: the empty key gives no labels; otherwise every
      comma-separated part with a `=` gives a label, a later part overwriting
      an earlier one with the same key. */
  function ParseLabelKey(key: string): (labels: Labels)
    ensures key == "" ==> labels == map[]
  {
    if key == "" then map[] else LastWins(ParsedPairs(Split(key, ',')))
  }

  /** A label is parsed exactly for a comma-separated part holding a `=`
      before which its name stands, and its value is what follows that `=`
      in one such part. */
  lemma ParseLabelKeyMembers(key: string, k: string)
    ensures k in ParseLabelKey(key) <==>
              key != "" && exists p :: p in Split(key, ',') && ParsePair(p).Some? && ParsePair(p).value.0 == k
    ensures k in ParseLabelKey(key) ==> exists p :: p in Split(key, ',') && ParsePair(p) == Some((k, ParseLabelKey(key)[k]))
  {
    if key != "" {
      var parts := Split(key, ',');
      var pairs := ParsedPairs(parts);
      if k in LastWins(pairs) {
        KeysOfExact(pairs, k);
        LastWinsValueFromPair(pairs, k);
        var i :| 0 <= i < |pairs| && pairs[i] == (k, LastWins(pairs)[k]);
        assert pairs[i] in pairs;
      }
      if exists p :: p in parts && ParsePair(p).Some? && ParsePair(p).value.0 == k {
        var p :| p in parts && ParsePair(p).Some? && ParsePair(p).value.0 == k;
        var i :| 0 <= i < |parts| && parts[i] == p;
        assert ParsePair(parts[i]) == Some(ParsePair(p).value);
        assert ParsePair(p).value in pairs;
        var j :| 0 <= j < |pairs| && pairs[j] == ParsePair(p).value;
        assert pairs[j].0 in KeysOf(pairs);
      }
    }
  }

  /** Labels the key format can carry: keys without `,` or `=`, values
      without `,`. */
  predicate SafeLabels(labels: Labels) {
    forall k :: k in labels ==> ',' !in k && '=' !in k && ',' !in labels[k]
  }

  /** A pair text with a key free of `=` parses back into its key and value. */
  lemma ParsePairText(k: string, v: string)
    requires '=' !in k
    ensures ParsePair(PairText(k, v)) == Some((k, v))
  {
    assert PairText(k, v) == k + ['='] + v;
    IndexAfterPrefix(k, '=', v);
    assert PairText(k, v)[..|k|] == k;
    assert PairText(k, v)[|k| + 1..] == v;
  }

  /** When every part has a `=`, `filter_map` keeps them all. */
  lemma {:induction false} ParsedPairsAll(parts: seq<string>)
    requires forall i :: 0 <= i < |parts| ==> '=' in parts[i]
    ensures |ParsedPairs(parts)| == |parts|
    ensures forall i :: 0 <= i < |parts| ==> ParsedPairs(parts)[i] == ParsePair(parts[i]).value
  {
    if |parts| > 0 {
      ParsedPairsAll(parts[1..]);
      assert ParsedPairs(parts) == [ParsePair(parts[0]).value] + ParsedPairs(parts[1..]);
    }
  }

  /** The pair texts of labels the format can carry hold no comma and parse
      back into their key and value. */
  lemma SafePairsParse(labels: Labels)
    requires SafeLabels(labels)
    ensures var ks := SortedKeys(labels.Keys);
            var ps := LabelPairs(labels);
            forall i :: 0 <= i < |ps| ==>
              ks[i] in labels && ',' !in ps[i] && '=' in ps[i] && ParsePair(ps[i]) == Some((ks[i], labels[ks[i]]))
  {
    var ks := SortedKeys(labels.Keys);
    var ps := LabelPairs(labels);
    SortedKeysSpec(labels.Keys);
    forall i | 0 <= i < |ps|
      ensures ks[i] in labels && ',' !in ps[i] && '=' in ps[i] && ParsePair(ps[i]) == Some((ks[i], labels[ks[i]]))
    {
      assert ks[i] in ks;
      var k, v := ks[i], labels[ks[i]];
      assert ps[i] == k + "=" + v;
      assert ps[i][|k|] == '=';
      assert forall j :: 0 <= j < |ps[i]| ==> ps[i][j] in k || ps[i][j] == '=' || ps[i][j] in v;
      ParsePairText(k, v);
    }
  }

  /** Parsing a key inverts making it, for labels the format can carry. */
  lemma LabelKeyRoundTrip(labels: Labels)
    requires SafeLabels(labels)
    ensures ParseLabelKey(LabelKey(Some(labels))) == labels
  {
    if |labels| == 0 {
      assert labels == map[];
    } else {
      var ks := SortedKeys(labels.Keys);
      var ps := LabelPairs(labels);
      var key := LabelKey(Some(labels));
      SortedKeysSpec(labels.Keys);
      SortedDistinct(ks);
      SafePairsParse(labels);
      SplitJoin(',', ps);
      assert Split(key, ',') == ps;
      assert key != "" by {
        assert Split("", ',') == [""];
        assert '=' in ps[0];
      }
      ParsedPairsAll(ps);
      LastWinsOfListing(ks, labels, ParsedPairs(ps));
    }
  }

  /** A key that `get_label_key` would produce again from its own parse. */
  predicate CanonicalKey(key: string) {
    LabelKey(Some(ParseLabelKey(key))) == key
  }

  /** Every key made from labels the format can carry is canonical. */
  lemma LabelKeyCanonical(labels: Option<Labels>)
    requires labels.Some? ==> SafeLabels(labels.value)
    ensures CanonicalKey(LabelKey(labels))
  {
    if labels.Some? {
      LabelKeyRoundTrip(labels.value);
    }
  }

  // ---------------------------------------------------------------------------
  // Metric records
  // ---------------------------------------------------------------------------

  datatype MetricType = Counter | Gauge | Histogram

  datatype MetricOptions = MetricOptions(name: string, help: string, labelNames: seq<string>)

  /** `MetricOptions::new`. */
  function NewOptions(name: string, help: string): (o: MetricOptions)
    ensures o.name == name && o.help == help && |o.labelNames| == 0
  {
    MetricOptions(name, help, [])
  }

  /** `NumericMetricSample`. */
  datatype Sample = Sample(labels: Labels, value: i64)

  /** `NumericMetricSample::zero`. */
  const ZERO_SAMPLE: Sample := Sample(map[], 0)

  datatype CollectedMetric = CollectedMetric(name: string, help: string, metricType: MetricType, samples: seq<Sample>)

  // ---------------------------------------------------------------------------
  // Counter
  // ---------------------------------------------------------------------------

  /** A counter: its options and the accumulated value under each label key. */
  datatype CounterState = CounterState(opts: MetricOptions, values: map<string, i64>)

  function NewCounter(opts: MetricOptions): (c: CounterState)
    ensures c.opts == opts && |c.values| == 0
  {
    CounterState(opts, map[])
  }

  /** The value stored under a key, 0 when there is none. */
  function Stored(values: map<string, i64>, key: string): int {
    if key in values then values[key] else 0
  }

  /** `inc_internal`: adds `value` (wrapping) under the key of the labels,
      starting from 0 for a new key; nothing else changes. */
  function IncInternal(c: CounterState, value: i64, labels: Option<Labels>): (r: CounterState)
    ensures r.opts == c.opts
    ensures r.values.Keys == c.values.Keys + {LabelKey(labels)}
    ensures LabelKey(labels) in r.values
    ensures r.values[LabelKey(labels)] == WrapI64(Stored(c.values, LabelKey(labels)) + value)
    ensures forall k :: k in c.values && k != LabelKey(labels) ==> r.values[k] == c.values[k]
  {
    IncKey(c, value, LabelKey(labels))
  }

  /** The `fetch_add` on the entry of a key, created at 0 when missing. */
  function IncKey(c: CounterState, value: i64, key: string): (r: CounterState)
    ensures r.opts == c.opts
    ensures r.values.Keys == c.values.Keys + {key}
    ensures key in r.values
    ensures r.values[key] == WrapI64(Stored(c.values, key) + value)
    ensures forall k :: k in c.values && k != key ==> r.values[k] == c.values[k]
  {
    c.(values := c.values[key := WrapI64(Stored(c.values, key) + value)])
  }

  /** `inc`: one more under the empty key. */
  function Inc(c: CounterState): (r: CounterState)
    ensures r.values.Keys == c.values.Keys + {""}
    ensures r.values[""] == WrapI64(Stored(c.values, "") + 1)
  {
    IncInternal(c, 1, None)
  }

  /** `inc_by`. */
  function IncBy(c: CounterState, value: i64): (r: CounterState)
    ensures r.values.Keys == c.values.Keys + {""}
    ensures r.values[""] == WrapI64(Stored(c.values, "") + value)
  {
    IncInternal(c, value, None)
  }

  /** `inc_with_labels`. */
  function IncWithLabels(c: CounterState, value: i64, labels: Labels): (r: CounterState)
    ensures |labels| == 0 ==> r == IncBy(c, value)
    ensures r.opts == c.opts
    ensures r.values.Keys == c.values.Keys + {LabelKey(Some(labels))}
    ensures LabelKey(Some(labels)) in r.values
    ensures r.values[LabelKey(Some(labels))] == WrapI64(Stored(c.values, LabelKey(Some(labels))) + value)
    ensures forall k :: k in c.values && k != LabelKey(Some(labels)) ==> r.values[k] == c.values[k]
  {
    IncInternal(c, value, Some(labels))
  }

  /** Increments under the same labels accumulate (3 and then 2 give 5),
      whatever order the labels were listed in. */
  lemma IncrementsAccumulate(c: CounterState, a: i64, b: i64, labels: Labels)
    ensures var key := LabelKey(Some(labels));
            IncWithLabels(IncWithLabels(c, a, labels), b, labels).values[key] ==
              WrapI64(Stored(c.values, key) + a + b)
  {
    var key := LabelKey(Some(labels));
    var c1 := IncWithLabels(c, a, labels);
    assert Stored(c1.values, key) == WrapI64(Stored(c.values, key) + a);
    WrapTwice(Stored(c.values, key), a, b);
  }

  /** Every stored key is canonical. */
  predicate Canonical(values: map<string, i64>) {
    forall k {:trigger CanonicalKey(k)} :: k in values ==> CanonicalKey(k)
  }

  /** Increments with labels the format can carry keep every key canonical. */
  lemma IncKeepsCanonical(c: CounterState, value: i64, labels: Option<Labels>)
    requires Canonical(c.values)
    requires labels.Some? ==> SafeLabels(labels.value)
    ensures Canonical(IncInternal(c, value, labels).values)
  {
    LabelKeyCanonical(labels);
  }

  /** `order` lists the keys of a map, each once (a map's iteration order). */
  predicate Lists(order: seq<string>, keys: set<string>) {
    (forall i, j :: 0 <= i < j < |order| ==> order[i] != order[j]) &&
    (forall k :: k in keys ==> k in order) &&
    (forall i :: 0 <= i < |order| ==> order[i] in keys)
  }

  /** The keys with a non-zero value, in iteration order. */
  function NonZeroKeys(values: map<string, i64>, order: seq<string>): (nz: seq<string>)
    requires forall i :: 0 <= i < |order| ==> order[i] in values
    ensures forall i :: 0 <= i < |nz| ==> nz[i] in values && values[nz[i]] != 0
    ensures forall k :: k in nz <==> k in order && values[k] != 0
    ensures (forall i, j :: 0 <= i < j < |order| ==> order[i] != order[j]) ==>
              forall i, j :: 0 <= i < j < |nz| ==> nz[i] != nz[j]
  {
    if |order| == 0 then []
    else
      var rest := NonZeroKeys(values, order[1..]);
      assert forall k :: k in order[1..] ==> k in order;
      assert forall k :: k in order ==> k == order[0] || k in order[1..];
      if values[order[0]] != 0 then [order[0]] + rest else rest
  }

  /** A sample per listed key: its parsed labels and its value. */
  function SamplesOf(ks: seq<string>, values: map<string, i64>): (ss: seq<Sample>)
    requires forall i :: 0 <= i < |ks| ==> ks[i] in values
    ensures |ss| == |ks|
    ensures forall i :: 0 <= i < |ks| ==> ss[i] == Sample(ParseLabelKey(ks[i]), values[ks[i]])
  {
    seq(|ks|, i requires 0 <= i < |ks| => Sample(ParseLabelKey(ks[i]), values[ks[i]]))
  }

  /** `collect`: one sample per label key whose accumulated value is not 0,
      with the key's labels, or the single zero sample when there is none;
      every value is reset and, being 0, removed; the name and help are
      carried over. */
  function Collect(c: CounterState, order: seq<string>): (r: (CounterState, CollectedMetric))
    requires Lists(order, c.values.Keys)
    ensures r.0.opts == c.opts && |r.0.values| == 0
    ensures r.1.name == c.opts.name && r.1.help == c.opts.help && r.1.metricType == Counter
    ensures r.1.samples == [ZERO_SAMPLE] <==> forall k :: k in c.values ==> c.values[k] == 0
    ensures (exists k :: k in c.values && c.values[k] != 0) ==>
              r.1.samples == SamplesOf(NonZeroKeys(c.values, order), c.values)
  {
    var nz := NonZeroKeys(c.values, order);
    var samples := if |nz| == 0 then [ZERO_SAMPLE] else SamplesOf(nz, c.values);
    assert samples == [ZERO_SAMPLE] ==> |nz| == 0 by {
      if |nz| > 0 {
        assert samples[0].value == c.values[nz[0]];
      }
    }
    (c.(values := map[]), CollectedMetric(c.opts.name, c.opts.help, Counter, samples))
  }

  /** The `inc_with_labels` calls of a restore, in order. */
  function RestoreSamples(c: CounterState, samples: seq<Sample>): (r: CounterState)
    ensures r.opts == c.opts
    ensures forall k :: k in c.values ==> k in r.values
    decreases |samples|
  {
    if |samples| == 0 then c
    else RestoreSamples(IncWithLabels(c, samples[0].value, samples[0].labels), samples[1..])
  }

  /** The key and value each sample is restored under. */
  function Keyed(ss: seq<Sample>): (entries: seq<(string, i64)>)
    ensures |entries| == |ss|
    ensures forall i :: 0 <= i < |ss| ==> entries[i] == (LabelKey(Some(ss[i].labels)), ss[i].value)
  {
    seq(|ss|, i requires 0 <= i < |ss| => (LabelKey(Some(ss[i].labels)), ss[i].value))
  }

  /** Increments by key, in order. */
  function RestoreKeyed(c: CounterState, entries: seq<(string, i64)>): (r: CounterState)
    decreases |entries|
  {
    if |entries| == 0 then c else RestoreKeyed(IncKey(c, entries[0].1, entries[0].0), entries[1..])
  }

  /** Restoring samples is incrementing under their label keys. */
  lemma {:induction false} RestoreSamplesKeyed(c: CounterState, ss: seq<Sample>)
    ensures RestoreSamples(c, ss) == RestoreKeyed(c, Keyed(ss))
    decreases |ss|
  {
    if |ss| > 0 {
      assert Keyed(ss)[1..] == Keyed(ss[1..]);
      RestoreSamplesKeyed(IncWithLabels(c, ss[0].value, ss[0].labels), ss[1..]);
    }
  }

  /** Some entry has key `k`. */
  predicate HasKey(entries: seq<(string, i64)>, k: string) {
    exists i :: 0 <= i < |entries| && entries[i].0 == k
  }

  /** Restoring entries of distinct keys that are not yet present stores
      exactly their values, leaving the other keys alone. */
  lemma {:induction false} RestoreInserts(c: CounterState, entries: seq<(string, i64)>)
    requires forall i :: 0 <= i < |entries| ==> entries[i].0 !in c.values
    requires forall i, j :: 0 <= i < j < |entries| ==> entries[i].0 != entries[j].0
    ensures var r := RestoreKeyed(c, entries).values;
            (forall k :: k in r <==> k in c.values || HasKey(entries, k)) &&
            (forall k :: k in c.values ==> r[k] == c.values[k]) &&
            (forall i :: 0 <= i < |entries| ==> r[entries[i].0] == entries[i].1)
    decreases |entries|
  {
    if |entries| > 0 {
      var next := IncKey(c, entries[0].1, entries[0].0);
      assert next.values == c.values[entries[0].0 := entries[0].1];
      var rest := entries[1..];
      assert forall i :: 0 <= i < |rest| ==> rest[i] == entries[i + 1];
      RestoreInserts(next, rest);
      forall k | HasKey(entries, k) && k != entries[0].0
        ensures HasKey(rest, k)
      {
        var i :| 0 <= i < |entries| && entries[i].0 == k;
        assert rest[i - 1].0 == k;
      }
    }
  }

  /** With every listed value non-zero, the non-zero keys are the listing. */
  lemma {:induction false} NonZeroKeysAll(values: map<string, i64>, order: seq<string>)
    requires forall i :: 0 <= i < |order| ==> order[i] in values && values[order[i]] != 0
    ensures NonZeroKeys(values, order) == order
  {
    if |order| > 0 {
      NonZeroKeysAll(values, order[1..]);
    }
  }

  /** Each listed key with its value. */
  function Listing(ks: seq<string>, values: map<string, i64>): (entries: seq<(string, i64)>)
    requires forall i :: 0 <= i < |ks| ==> ks[i] in values
    ensures |entries| == |ks|
    ensures forall i :: 0 <= i < |ks| ==> entries[i] == (ks[i], values[ks[i]])
  {
    seq(|ks|, i requires 0 <= i < |ks| => (ks[i], values[ks[i]]))
  }

  /** Restoring the samples of canonical keys increments under those very
      keys: the labels parsed from a stored key make the key again. */
  lemma BatchRestoresListing(c: CounterState, ks: seq<string>, start: CounterState)
    requires forall i :: 0 <= i < |ks| ==> ks[i] in c.values
    requires Canonical(c.values)
    ensures RestoreSamples(start, SamplesOf(ks, c.values)) == RestoreKeyed(start, Listing(ks, c.values))
  {
    var ss := SamplesOf(ks, c.values);
    RestoreSamplesKeyed(start, ss);
    forall i | 0 <= i < |ks|
      ensures Keyed(ss)[i] == Listing(ks, c.values)[i]
    {
      assert CanonicalKey(ks[i]);
    }
    assert Keyed(ss) == Listing(ks, c.values);
  }

  /** Restoring a listing of distinct keys into an empty counter stores
      exactly the listed keys with their values. */
  lemma RestoreListing(start: CounterState, ks: seq<string>, values: map<string, i64>)
    requires |start.values| == 0
    requires forall i :: 0 <= i < |ks| ==> ks[i] in values
    requires forall i, j :: 0 <= i < j < |ks| ==> ks[i] != ks[j]
    ensures var r := RestoreKeyed(start, Listing(ks, values)).values;
            (forall k :: k in r <==> k in ks) &&
            (forall k :: k in r ==> r[k] == values[k])
  {
    var entries := Listing(ks, values);
    RestoreInserts(start, entries);
    var r := RestoreKeyed(start, entries).values;
    forall k | k in r
      ensures k in ks && r[k] == values[k]
    {
      assert HasKey(entries, k);
      var i :| 0 <= i < |entries| && entries[i].0 == k;
    }
    forall k | k in ks
      ensures k in r
    {
      var i :| 0 <= i < |ks| && ks[i] == k;
      assert entries[i].0 == k;
    }
  }

  /** A batch restored into an emptied counter collects back to the same
      batch: collect, restore what was collected, collect again. */
  lemma CollectRestoreCollect(c: CounterState, order: seq<string>)
    requires Lists(order, c.values.Keys) && Canonical(c.values)
    requires exists k :: k in c.values && c.values[k] != 0
    ensures var (emptied, batch) := Collect(c, order);
            var restored := RestoreSamples(emptied, batch.samples);
            var nz := NonZeroKeys(c.values, order);
            Lists(nz, restored.values.Keys) && Collect(restored, nz).1 == batch
  {
    var (emptied, batch) := Collect(c, order);
    var nz := NonZeroKeys(c.values, order);
    BatchRestoresListing(c, nz, emptied);
    RestoreListing(emptied, nz, c.values);
    var restored := RestoreSamples(emptied, batch.samples);
    RestoredCollects(c, nz, restored);
  }

  /** A counter holding exactly the listed non-zero values of another
      collects them back, in the listed order. */
  lemma RestoredCollects(c: CounterState, nz: seq<string>, restored: CounterState)
    requires forall i :: 0 <= i < |nz| ==> nz[i] in c.values && c.values[nz[i]] != 0
    requires forall i, j :: 0 <= i < j < |nz| ==> nz[i] != nz[j]
    requires |nz| > 0 && restored.opts == c.opts
    requires forall k :: k in restored.values <==> k in nz
    requires forall k :: k in restored.values ==> restored.values[k] == c.values[k]
    ensures Lists(nz, restored.values.Keys)
    ensures Collect(restored, nz).1 == CollectedMetric(c.opts.name, c.opts.help, Counter, SamplesOf(nz, c.values))
  {
    assert Lists(nz, restored.values.Keys);
    NonZeroKeysAll(restored.values, nz);
    SamplesAgree(nz, restored.values, c.values);
    var r := Collect(restored, nz);
    assert nz[0] in restored.values && restored.values[nz[0]] != 0;
    assert r.1.samples == SamplesOf(nz, c.values);
  }

  /** Samples of keys whose values agree are the same. */
  lemma SamplesAgree(ks: seq<string>, a: map<string, i64>, b: map<string, i64>)
    requires forall i :: 0 <= i < |ks| ==> ks[i] in a && ks[i] in b && a[ks[i]] == b[ks[i]]
    ensures SamplesOf(ks, a) == SamplesOf(ks, b)
  {
    var sa := SamplesOf(ks, a);
    var sb := SamplesOf(ks, b);
    assert forall i :: 0 <= i < |ks| ==> sa[i] == sb[i];
  }
}

=== FILE: java_custom.dfy ===
/** The older Java resolver of custom strategies
    (`java-engine/src/main/java/io/getunleash/engine/CustomStrategies.java`).
    It has no built-in list: only strategies with a registered
    implementation are mapped and numbered, an unregistered one is skipped.
    Exceptions an implementation throws propagate; reading and writing JSON
    are parameters. */
module JavaCustom {
  import opened Common
  import opened Features
  import opened CustomResults
  import opened JavaFeatures
  import Upgrade

  datatype MappedStrategy = MappedStrategy(resultName: string, implementation: Impl, definition: StrategyDecl)

  datatype Resolver = Resolver(registered: map<string, Impl>, featureStrategies: map<string, seq<MappedStrategy>>)

  /** `EMPTY_STRATEGY_RESULTS`. */
  const EMPTY_STRATEGY_RESULTS: string := "{}"

  /** The constructor: `toMap` without a merge function throws when two
      implementations share a name; otherwise each is registered under its
      name and nothing is mapped yet. */
  function NewResolver(impls: seq<Impl>): (r: Option<Resolver>)
    ensures r.None? <==> exists i, j :: 0 <= i < j < |impls| && impls[i].name == impls[j].name
    ensures r.Some? ==> r.value.featureStrategies == map[] && Registers(r.value.registered, impls)
  {
    var pairs := NamedPairs(impls);
    match Unique(pairs)
    case None =>
      assert !DistinctKeys(pairs);
      var i, j :| 0 <= i < j < |pairs| && pairs[i].0 == pairs[j].0;
      None
    case Some(m) =>
      DistinctRegisters(impls);
      Some(Resolver(m, map[]))
  }

  /** `registered` holds exactly the given implementations, each under its
      own name. */
  predicate Registers(registered: map<string, Impl>, impls: seq<Impl>) {
    (forall n :: n in registered ==> exists i :: 0 <= i < |impls| && impls[i].name == n)
    && (forall i :: 0 <= i < |impls| ==> impls[i].name in registered && registered[impls[i].name] == impls[i])
  }

  lemma DistinctRegisters(impls: seq<Impl>)
    requires DistinctKeys(NamedPairs(impls))
    ensures Registers(LastWins(NamedPairs(impls)), impls)
  {
    var pairs := NamedPairs(impls);
    forall i | 0 <= i < |impls| ensures LastOfKey(pairs, i) {
      forall j | i < j < |pairs| ensures pairs[j].0 != pairs[i].0 {
        assert pairs[i].0 != pairs[j].0;
      }
    }
    forall n | n in LastWins(pairs) ensures exists i :: 0 <= i < |impls| && impls[i].name == n {
      KeysOfExact(pairs, n);
    }
  }

  predicate WellNumbered(ms: seq<MappedStrategy>) {
    forall k :: 0 <= k < |ms| ==> ms[k].resultName == ResultName(k)
  }

  /** `getFeatureStrategies`: the strategies with a registered
      implementation, numbered from 1 in order. */
  function GetFeatureStrategies(registered: map<string, Impl>, strategies: seq<StrategyDecl>): (ms: seq<MappedStrategy>)
    ensures WellNumbered(ms)
    ensures var selected := RegisteredForeign(strategies, [], registered);
            |ms| == |selected|
            && forall k :: 0 <= k < |selected| ==>
                 ms[k].definition == selected[k] && ms[k].implementation == registered[selected[k].name]
  {
    var selected := RegisteredForeign(strategies, [], registered);
    assert forall k :: 0 <= k < |selected| ==> selected[k] in selected;
    seq(|selected|, k requires 0 <= k < |selected| =>
      MappedStrategy(ResultName(k), registered[selected[k].name], selected[k]))
  }

  /** `takeState`, given how the text reads (`None` for a
      `JsonProcessingException`, `Some(None)` for a document without
      `features`): nothing happens with nothing registered or nothing to
      read, or when the text cannot be read; otherwise the mapping is
      replaced, unless an exception escapes. */
  function TakeState(rs: Resolver, toggles: Option<string>,
                     parse: string -> Option<Option<seq<FeatureDecl>>>): (r: Loaded<seq<MappedStrategy>>)
    ensures rs.registered == map[] || toggles.None? || toggles == Some("") ==> r == Mapped(rs.featureStrategies)
    ensures toggles.Some? && (parse(toggles.value).None? || parse(toggles.value) == Some(None)) ==>
              r == Mapped(rs.featureStrategies)
    ensures rs.registered != map[] && toggles.Some? && toggles != Some("")
            && parse(toggles.value).Some? && parse(toggles.value).value.Some? && r.Mapped? ==>
              var fs := parse(toggles.value).value.value;
              forall i :: 0 <= i < |fs| ==>
                fs[i].strategies.Some? && fs[i].name in r.featureStrategies
                && r.featureStrategies[fs[i].name] == GetFeatureStrategies(rs.registered, fs[i].strategies.value)
  {
    if rs.registered == map[] then Mapped(rs.featureStrategies)
    else if toggles.None? || toggles == Some("") then Mapped(rs.featureStrategies)
    else
      match parse(toggles.value)
      case None => Mapped(rs.featureStrategies)
      case Some(None) => Mapped(rs.featureStrategies)
      case Some(Some(fs)) => CollectFeatures(fs, map[], ds => GetFeatureStrategies(rs.registered, ds))
  }

  /** Every verdict of a list, in order, or `None` when some implementation
      throws (the exception leaves `eval`). `run` returns `None` for an
      exception. */
  function Verdicts(ms: seq<MappedStrategy>, run: (Impl, Option<map<string, string>>) -> Option<bool>): (vs: Option<seq<bool>>)
    ensures vs.None? <==> exists k :: 0 <= k < |ms| && run(ms[k].implementation, ms[k].definition.parameters).None?
    ensures vs.Some? ==> |vs.value| == |ms|
                         && forall k :: 0 <= k < |ms| ==>
                              run(ms[k].implementation, ms[k].definition.parameters) == Some(vs.value[k])
  {
    if |ms| == 0 then Some([])
    else
      var n := |ms| - 1;
      match Verdicts(ms[..n], run)
      case None => None
      case Some(front) =>
        match run(ms[n].implementation, ms[n].definition.parameters)
        case None => None
        case Some(b) => Some(front + [b])
  }

  /** `eval`: `{}` for a toggle with nothing mapped; otherwise the JSON of
      each result name with its verdict, `{}` when writing it fails, and
      `None` when an exception leaves it: an implementation throws, or two
      entries share a result name. `serialize` stands for
      `writeValueAsString` (`None` for a `JsonProcessingException`). */
  function Eval(rs: Resolver, name: string, run: (Impl, Option<map<string, string>>) -> Option<bool>,
                serialize: map<string, bool> -> Option<string>): (r: Option<string>)
    ensures name !in rs.featureStrategies ==> r == Some(EMPTY_STRATEGY_RESULTS)
    ensures name in rs.featureStrategies && Verdicts(rs.featureStrategies[name], run).None? ==> r.None?
    ensures name in rs.featureStrategies && WellNumbered(rs.featureStrategies[name]) ==>
              match Verdicts(rs.featureStrategies[name], run)
              case None => r.None?
              case Some(vs) => r == Some(serialize(ResultsOf(vs)).GetOr(EMPTY_STRATEGY_RESULTS))
  {
    if name !in rs.featureStrategies then Some(EMPTY_STRATEGY_RESULTS)
    else
      var ms := rs.featureStrategies[name];
      match Verdicts(ms, run)
      case None => None
      case Some(vs) =>
        var pairs := seq(|ms|, k requires 0 <= k < |ms| => (ms[k].resultName, vs[k]));
        if WellNumbered(ms) then
          NumberedPairsAreResults(pairs);
          assert Values(pairs) == vs;
          Some(serialize(LastWins(pairs)).GetOr(EMPTY_STRATEGY_RESULTS))
        else
          match Unique(pairs)
          case None => None
          case Some(results) => Some(serialize(results).GetOr(EMPTY_STRATEGY_RESULTS))
  }

  /** Without a built-in list, a registered name that is not built in is
      all that decides whether a strategy is kept. */
  lemma {:induction false} NoBuiltinRegistered(ds: seq<StrategyDecl>, registered: map<string, Impl>)
    requires forall n :: n in registered ==> n !in Upgrade.BUILT_IN_NAMES
    ensures RegisteredForeign(ds, [], registered) == RegisteredForeign(ds, Upgrade.BUILT_IN_NAMES, registered)
  {
    if |ds| > 0 {
      NoBuiltinRegistered(ds[..|ds| - 1], registered);
    }
  }

  /** When every custom strategy of a toggle is registered and no
      implementation carries a built-in name, each custom strategy's verdict
      is reported under the key the upgrader's rule text reads for it. */
  lemma MappingAgreesWithUpgrade(registered: map<string, Impl>, ss: seq<Strategy>, i: nat)
    requires forall n :: n in registered ==> n !in Upgrade.BUILT_IN_NAMES
    requires forall j :: 0 <= j < |ss| && Upgrade.IsCustom(ss[j]) ==> ss[j].name in registered
    requires i < |ss| && Upgrade.IsCustom(ss[i])
    ensures var ms := GetFeatureStrategies(registered, Decls(ss));
            var k := Upgrade.Ordinal(ss, i);
            1 <= k <= |ms| && ms[k - 1].resultName == ResultName(k - 1)
            && ms[k - 1].definition == DeclOf(ss[i])
            && ms[k - 1].implementation == registered[ss[i].name]
            && Upgrade.StrategyRule(ss[i], k) == "external_value[\"" + ResultName(k - 1) + "\"]"
  {
    NoBuiltinRegistered(Decls(ss), registered);
    RegisteredOrdinal(ss, i, registered);
  }

  /** An unregistered custom strategy is skipped, so the ones after it move
      down a number: with `a` unregistered before a registered `b`, `b`'s
      verdict goes to `customStrategy1` while the rule text reads `b` from
      `customStrategy2`. */
  lemma UnregisteredShiftsNumbering(b: Impl, a: string)
    requires a != b.name && a !in Upgrade.BUILT_IN_NAMES && b.name !in Upgrade.BUILT_IN_NAMES
    ensures var sa := Strategy(a, None, None, None, None);
            var sb := Strategy(b.name, None, None, None, None);
            var ms := GetFeatureStrategies(map[b.name := b], Decls([sa, sb]));
            Upgrade.Ordinal([sa, sb], 1) == 2
            && |ms| == 1 && ms[0].resultName == ResultName(0) && ms[0].implementation == b
  {
    var sa := Strategy(a, None, None, None, None);
    var sb := Strategy(b.name, None, None, None, None);
    Upgrade.OrdinalStep([sa, sb], 1);
    Upgrade.OrdinalStep([sa, sb], 0);
    assert [sa, sb][..1][..0] == [];
    var ds := Decls([sa, sb]);
    var registered := map[b.name := b];
    assert ds[..1][..0] == [] && ds[..1] == [DeclOf(sa)];
    assert RegisteredForeign(ds[..1][..0], [], registered) == [];
    assert a !in registered;
    assert RegisteredForeign(ds[..1], [], registered) == [];
    assert RegisteredForeign(ds, [], registered) == [DeclOf(sb)];
  }

  /** Every list a resolver holds is numbered consecutively, and reading a
      state keeps it so. */
  predicate AllWellNumbered(fm: map<string, seq<MappedStrategy>>) {
    forall t :: t in fm ==> WellNumbered(fm[t])
  }

  lemma TakeStateKeepsNumbering(rs: Resolver, toggles: Option<string>, parse: string -> Option<Option<seq<FeatureDecl>>>)
    requires AllWellNumbered(rs.featureStrategies)
    ensures var r := TakeState(rs, toggles, parse);
            r.Mapped? ==> AllWellNumbered(r.featureStrategies)
  {
    var r := TakeState(rs, toggles, parse);
    if r.Mapped? && r.featureStrategies != rs.featureStrategies {
      var fs := parse(toggles.value).value.value;
      forall t | t in r.featureStrategies ensures WellNumbered(r.featureStrategies[t]) {
        var i :| 0 <= i < |fs| && fs[i].name == t;
      }
    }
  }
}

=== FILE: java_evaluator.dfy ===
/** The Java engine's resolver of custom strategies
    (`java-engine/src/main/java/io/getunleash/engine/CustomStrategiesEvaluator.java`).
    Strategies whose name is not built in are numbered in declaration order,
    registered or not; an unregistered one answers false, and a fallback
    strategy, when given, takes the next number. JSON reading is a
    parameter; an exception an implementation throws is a `None` verdict. */
module JavaEvaluator {
  import opened Common
  import opened Features
  import opened CustomResults
  import Upgrade
  import opened JavaFeatures

  /** The implementation a mapped strategy runs: a registered one, or the
      always-false stand-in for an unregistered name. */
  datatype Chosen = Use(impl: Impl) | AlwaysFalse(strategyName: string)

  datatype MappedStrategy = MappedStrategy(resultName: string, implementation: Chosen, definition: StrategyDecl)

  datatype Evaluator = Evaluator(
    registered: map<string, Impl>,
    builtins: seq<string>,
    fallback: Option<Impl>,
    featureStrategies: map<string, seq<MappedStrategy>>)

  /** The constructor: of several implementations with one name the first
      is kept; nothing is mapped yet. */
  function NewEvaluator(impls: seq<Impl>, fallback: Option<Impl>, builtins: seq<string>): (ev: Evaluator)
    ensures ev.builtins == builtins && ev.fallback == fallback && ev.featureStrategies == map[]
    ensures forall i :: 0 <= i < |impls| ==> impls[i].name in ev.registered
    ensures forall i :: 0 <= i < |impls| && FirstOfKey(NamedPairs(impls), i) ==> ev.registered[impls[i].name] == impls[i]
  {
    Evaluator(FirstWins(NamedPairs(impls)), builtins, fallback, map[])
  }

  /** The fallback's own definition. */
  const FALLBACK_DEFINITION: StrategyDecl := StrategyDecl("fallback", Some(map[]))

  /** The implementation for a declared name. */
  function Choose(ev: Evaluator, name: string): (c: Chosen)
    ensures name in ev.registered ==> c == Use(ev.registered[name])
    ensures name !in ev.registered ==> c == AlwaysFalse(name)
  {
    if name in ev.registered then Use(ev.registered[name]) else AlwaysFalse(name)
  }

  /** The mapped strategies of one declared list, before the fallback. */
  function MapForeign(ev: Evaluator, foreign: seq<StrategyDecl>): (ms: seq<MappedStrategy>)
    ensures |ms| == |foreign|
    ensures forall k :: 0 <= k < |foreign| ==> ms[k] == MappedStrategy(ResultName(k), Choose(ev, foreign[k].name), foreign[k])
  {
    seq(|foreign|, k requires 0 <= k < |foreign| => MappedStrategy(ResultName(k), Choose(ev, foreign[k].name), foreign[k]))
  }

  predicate WellNumbered(ms: seq<MappedStrategy>) {
    forall k :: 0 <= k < |ms| ==> ms[k].resultName == ResultName(k)
  }

  /** `getFeatureStrategies`: the strategies that are not built in, numbered
      from 1 in order, then the fallback with the next number. The
      strategy list must not be `null` (the loop dereferences it). */
  function GetFeatureStrategies(ev: Evaluator, strategies: seq<StrategyDecl>): (ms: seq<MappedStrategy>)
    ensures WellNumbered(ms)
    ensures var foreign := Foreign(strategies, ev.builtins);
            |ms| == |foreign| + (if ev.fallback.Some? then 1 else 0)
            && (forall k :: 0 <= k < |foreign| ==>
                  ms[k].definition == foreign[k] && ms[k].implementation == Choose(ev, foreign[k].name))
            && (ev.fallback.Some? ==>
                  ms[|foreign|] == MappedStrategy(ResultName(|foreign|), Use(ev.fallback.value), FALLBACK_DEFINITION))
  {
    var foreign := Foreign(strategies, ev.builtins);
    var ms := MapForeign(ev, foreign);
    match ev.fallback
    case None => ms
    case Some(f) => ms + [MappedStrategy(ResultName(|foreign|), Use(f), FALLBACK_DEFINITION)]
  }

  /** `loadStrategiesFor`, given how the text reads (`None` for a
      `JsonProcessingException`, `Some(None)` for a document without
      `features`): nothing happens when there is nothing to run or nothing
      to read; an unreadable document keeps the previous mapping; otherwise
      the mapping is replaced, unless an exception escapes. */
  function LoadStrategiesFor(ev: Evaluator, toggles: Option<string>,
                             parse: string -> Option<Option<seq<FeatureDecl>>>): (r: Loaded<seq<MappedStrategy>>)
    ensures (ev.registered == map[] && ev.fallback.None?) || toggles.None? || toggles == Some("") ==>
              r == Mapped(ev.featureStrategies)
    ensures toggles.Some? && parse(toggles.value).None? ==> r == Mapped(ev.featureStrategies)
    ensures toggles.Some? && parse(toggles.value) == Some(None) ==> r == Mapped(ev.featureStrategies)
    ensures (ev.registered != map[] || ev.fallback.Some?) && toggles.Some? && toggles != Some("")
            && parse(toggles.value).Some? && parse(toggles.value).value.Some? && r.Mapped? ==>
              var fs := parse(toggles.value).value.value;
              forall i :: 0 <= i < |fs| ==>
                fs[i].strategies.Some? && fs[i].name in r.featureStrategies
                && r.featureStrategies[fs[i].name] == GetFeatureStrategies(ev, fs[i].strategies.value)
  {
    if ev.registered == map[] && ev.fallback.None? then Mapped(ev.featureStrategies)
    else if toggles.None? || toggles == Some("") then Mapped(ev.featureStrategies)
    else
      match parse(toggles.value)
      case None => Mapped(ev.featureStrategies)
      case Some(None) => Mapped(ev.featureStrategies)
      case Some(Some(fs)) => CollectFeatures(fs, map[], ds => GetFeatureStrategies(ev, ds))
  }

  /** The verdict of one mapped strategy: the always-false stand-in says
      false; a registered implementation runs on the declared parameters,
      and an exception it throws reads as false. `run` returns `None` for an
      exception. */
  function TryIsEnabled(m: MappedStrategy, run: (Impl, Option<map<string, string>>) -> Option<bool>): (b: bool)
    ensures m.implementation.AlwaysFalse? ==> !b
    ensures m.implementation.Use? ==> (b <==> run(m.implementation.impl, m.definition.parameters) == Some(true))
  {
    match m.implementation
    case AlwaysFalse(_) => false
    case Use(impl) => run(impl, m.definition.parameters).GetOr(false)
  }

  /** Every verdict of a list. */
  function Verdicts(ms: seq<MappedStrategy>, run: (Impl, Option<map<string, string>>) -> Option<bool>): (vs: seq<bool>)
    ensures |vs| == |ms|
    ensures forall k :: 0 <= k < |ms| ==> vs[k] == TryIsEnabled(ms[k], run)
  {
    seq(|ms|, k requires 0 <= k < |ms| => TryIsEnabled(ms[k], run))
  }

  /** `eval`: the empty map for a toggle with nothing mapped; otherwise each
      result name with its verdict, or `None` when two entries share a
      result name (`toMap` throws). */
  function Eval(ev: Evaluator, name: string, run: (Impl, Option<map<string, string>>) -> Option<bool>): (r: Option<map<string, bool>>)
    ensures name !in ev.featureStrategies || ev.featureStrategies[name] == [] ==> r == Some(map[])
    ensures name in ev.featureStrategies && WellNumbered(ev.featureStrategies[name]) ==>
              r == Some(ResultsOf(Verdicts(ev.featureStrategies[name], run)))
  {
    if name !in ev.featureStrategies || ev.featureStrategies[name] == [] then Some(map[])
    else
      var ms := ev.featureStrategies[name];
      var pairs := seq(|ms|, k requires 0 <= k < |ms| => (ms[k].resultName, TryIsEnabled(ms[k], run)));
      if WellNumbered(ms) then
        NumberedPairsAreResults(pairs);
        forall i, j | 0 <= i < j < |pairs| ensures pairs[i].0 != pairs[j].0 {
          ResultNamesDistinct(i, j);
        }
        assert Values(pairs) == Verdicts(ms, run);
        Some(LastWins(pairs))
      else Unique(pairs)
  }

  /** The evaluator `UnleashEngine`'s constructor builds, as written: the
      given strategies (none when the list is `null` or empty) with an empty
      built-in set. */
  function EngineEvaluatorAsWritten(impls: Option<seq<Impl>>, fallback: Option<Impl>): (ev: Evaluator)
    ensures ev.builtins == [] && ev.fallback == fallback && ev.featureStrategies == map[]
    ensures impls.None? || impls == Some([]) ==> ev.registered == map[]
    ensures impls.Some? ==> forall i :: 0 <= i < |impls.value| ==> impls.value[i].name in ev.registered
  {
    NewEvaluator(impls.GetOr([]), fallback, [])
  }

  /** The same constructor with the engine's built-in strategy names as the
      built-in set, so that only custom strategies take a number. */
  function EngineEvaluator(impls: Option<seq<Impl>>, fallback: Option<Impl>): (ev: Evaluator)
    ensures ev.builtins == Upgrade.BUILT_IN_NAMES && ev.fallback == fallback && ev.featureStrategies == map[]
    ensures impls.None? || impls == Some([]) ==> ev.registered == map[]
    ensures impls.Some? ==> forall i :: 0 <= i < |impls.value| ==> impls.value[i].name in ev.registered
  {
    NewEvaluator(impls.GetOr([]), fallback, Upgrade.BUILT_IN_NAMES)
  }

  /** With the upgrader's built-in names as the built-in set, every custom
      strategy's verdict is reported under the key the upgrader's rule text
      reads for it, registered or not. */
  lemma EvalAgreesWithUpgrade(ev: Evaluator, ss: seq<Strategy>, i: nat)
    requires ev.builtins == Upgrade.BUILT_IN_NAMES
    requires i < |ss| && Upgrade.IsCustom(ss[i])
    ensures var ms := GetFeatureStrategies(ev, Decls(ss));
            var k := Upgrade.Ordinal(ss, i);
            1 <= k <= |ms| && ms[k - 1].resultName == ResultName(k - 1)
            && ms[k - 1].definition == DeclOf(ss[i])
            && ms[k - 1].implementation == Choose(ev, ss[i].name)
            && Upgrade.StrategyRule(ss[i], k) == "external_value[\"" + ResultName(k - 1) + "\"]"
  {
    OrdinalIsForeignPosition(ss, i);
  }

  /** The engine builds its evaluator with an empty built-in set, so every
      declared strategy is numbered, built-in ones included. */
  lemma EmptyBuiltinsNumberEveryStrategy(ev: Evaluator, ds: seq<StrategyDecl>)
    requires ev.builtins == []
    ensures var ms := GetFeatureStrategies(ev, ds);
            |ms| >= |ds| && forall k :: 0 <= k < |ds| ==> ms[k].definition == ds[k] && ms[k].resultName == ResultName(k)
  {
    ForeignOfNothingKnown(ds);
  }

  /** With nothing known, every strategy is foreign. */
  lemma {:induction false} ForeignOfNothingKnown(ds: seq<StrategyDecl>)
    ensures Foreign(ds, []) == ds
  {
    if |ds| > 0 {
      ForeignOfNothingKnown(ds[..|ds| - 1]);
      assert ds == ds[..|ds| - 1] + [ds[|ds| - 1]];
    }
  }

  /** What the empty built-in set does to a toggle with the `default`
      strategy followed by a registered custom one: the rule text reads the
      custom verdict from `customStrategy1`, but the evaluator sends the
      always-false verdict of `default` there and the custom verdict under
      `customStrategy2`. */
  lemma EmptyBuiltinsMisnumber(impl: Impl, run: (Impl, Option<map<string, string>>) -> Option<bool>)
    requires run(impl, None) == Some(true)
    ensures var d := Strategy("default", None, None, None, None);
            var c := Strategy(impl.name, None, None, None, None);
            var ev := EngineEvaluatorAsWritten(Some([impl]), None);
            var ms := GetFeatureStrategies(ev, Decls([d, c]));
            impl.name !in Upgrade.BUILT_IN_NAMES && impl.name != "default" ==>
              Upgrade.Ordinal([d, c], 1) == 1
              && Upgrade.StrategyRule(c, 1) == "external_value[\"" + ResultName(0) + "\"]"
              && |ms| == 2
              && ms[0].resultName == ResultName(0) && !TryIsEnabled(ms[0], run)
              && ms[1].resultName == ResultName(1) && TryIsEnabled(ms[1], run)
  {
    var d := Strategy("default", None, None, None, None);
    var c := Strategy(impl.name, None, None, None, None);
    var ev := EngineEvaluatorAsWritten(Some([impl]), None);
    if impl.name !in Upgrade.BUILT_IN_NAMES && impl.name != "default" {
      EmptyBuiltinsNumberEveryStrategy(ev, Decls([d, c]));
      Upgrade.OrdinalStep([d, c], 1);
      Upgrade.OrdinalStep([d, c], 0);
      assert !Upgrade.IsCustom(d);
      assert [d, c][..1][..0] == [];
      assert Upgrade.IsCustom(c);
      ExternalValueReadsResult(1);
    }
  }

  /** Every list a resolver holds is numbered consecutively, and reading a
      state keeps it so. */
  predicate AllWellNumbered(fm: map<string, seq<MappedStrategy>>) {
    forall t :: t in fm ==> WellNumbered(fm[t])
  }

  lemma LoadStrategiesForKeepsNumbering(ev: Evaluator, toggles: Option<string>, parse: string -> Option<Option<seq<FeatureDecl>>>)
    requires AllWellNumbered(ev.featureStrategies)
    ensures var r := LoadStrategiesFor(ev, toggles, parse);
            r.Mapped? ==> AllWellNumbered(r.featureStrategies)
  {
    var r := LoadStrategiesFor(ev, toggles, parse);
    if r.Mapped? && r.featureStrategies != ev.featureStrategies {
      var fs := parse(toggles.value).value.value;
      forall t | t in r.featureStrategies ensures WellNumbered(r.featureStrategies[t]) {
        var i :| 0 <= i < |fs| && fs[i].name == t;
      }
    }
  }
}

=== FILE: java_features.dfy ===
/** What the two Java resolvers share when they read a state: collecting the
    features into a map keyed by toggle name with `Collectors.toMap`, which
    throws on a repeated key, while each feature's strategy list is mapped
    by a function that dereferences it. */
module JavaFeatures {
  import opened CustomResults

  /** How a collection ends: the new mapping, or the exception that escapes
      it. */
  datatype Loaded<M> =
    | Mapped(featureStrategies: map<string, M>)
    | NullStrategies(toggleName: string)
    | DuplicateToggle(toggleName: string)

  /** The features in order, each one's strategies mapped by `mapOne` (a
      `null` list throws) and then added under its name (a name already
      present throws). */
  function CollectFeatures<M>(fs: seq<FeatureDecl>, acc: map<string, M>, mapOne: seq<StrategyDecl> -> M): (r: Loaded<M>)
    ensures r.Mapped? ==>
              (forall i :: 0 <= i < |fs| ==>
                 fs[i].strategies.Some? && fs[i].name in r.featureStrategies && fs[i].name !in acc)
              && (forall i :: 0 <= i < |fs| ==> r.featureStrategies[fs[i].name] == mapOne(fs[i].strategies.value))
              && (forall t :: t in acc ==> t in r.featureStrategies && r.featureStrategies[t] == acc[t])
              && (forall t :: t in r.featureStrategies ==> t in acc || exists i :: 0 <= i < |fs| && fs[i].name == t)
    ensures r.NullStrategies? ==> exists i :: 0 <= i < |fs| && fs[i].strategies.None? && fs[i].name == r.toggleName
    ensures r.DuplicateToggle? ==>
              exists i :: 0 <= i < |fs| && fs[i].name == r.toggleName
                          && (fs[i].name in acc || exists j :: 0 <= j < i && fs[j].name == fs[i].name)
    decreases |fs|
  {
    if |fs| == 0 then Mapped(acc)
    else
      match fs[0].strategies
      case None => NullStrategies(fs[0].name)
      case Some(ds) =>
        if fs[0].name in acc then DuplicateToggle(fs[0].name)
        else
          var r := CollectFeatures(fs[1..], acc[fs[0].name := mapOne(ds)], mapOne);
          assert forall i :: 1 <= i < |fs| ==> fs[i] == fs[1..][i - 1];
          if r.DuplicateToggle? then
            DuplicateLifts(fs, acc, mapOne(ds), r.toggleName);
            r
          else r
  }

  /** A repeated name found after the first feature is a repeated name of
      the whole list. */
  lemma DuplicateLifts<M>(fs: seq<FeatureDecl>, acc: map<string, M>, first: M, name: string)
    requires |fs| > 0
    requires exists i :: 0 <= i < |fs[1..]| && fs[1..][i].name == name
                         && (fs[1..][i].name in acc[fs[0].name := first]
                             || exists j :: 0 <= j < i && fs[1..][j].name == fs[1..][i].name)
    ensures exists i :: 0 <= i < |fs| && fs[i].name == name
                        && (fs[i].name in acc || exists j :: 0 <= j < i && fs[j].name == fs[i].name)
  {
    var i :| 0 <= i < |fs[1..]| && fs[1..][i].name == name
             && (fs[1..][i].name in acc[fs[0].name := first]
                 || exists j :: 0 <= j < i && fs[1..][j].name == fs[1..][i].name);
    assert fs[i + 1].name == name;
    if fs[1..][i].name == fs[0].name {
      assert 0 < i + 1 && fs[0].name == fs[i + 1].name;
    } else if fs[1..][i].name !in acc {
      var j :| 0 <= j < i && fs[1..][j].name == fs[1..][i].name;
      assert fs[j + 1].name == fs[i + 1].name;
    }
  }

  /** A list whose names are distinct and whose strategy lists are all
      present is collected in full. */
  lemma {:induction false} DistinctFeaturesCollect<M>(fs: seq<FeatureDecl>, acc: map<string, M>, mapOne: seq<StrategyDecl> -> M)
    requires forall i :: 0 <= i < |fs| ==> fs[i].strategies.Some? && fs[i].name !in acc
    requires forall i, j :: 0 <= i < j < |fs| ==> fs[i].name != fs[j].name
    ensures CollectFeatures(fs, acc, mapOne).Mapped?
    decreases |fs|
  {
    if |fs| > 0 {
      assert forall i :: 1 <= i < |fs| ==> fs[i] == fs[1..][i - 1];
      DistinctFeaturesCollect(fs[1..], acc[fs[0].name := mapOne(fs[0].strategies.value)], mapOne);
    }
  }
}

=== FILE: java_responses.dfy ===
/** The Java engine's typed replies: `StatusCode.java`, `YggResponse.java`,
    `IsEnabledResponse.java` and `VariantResponse.java`. Java's `null` is
    `None`; a dereference of `null` is a precondition. */
module JavaResponses {
  import opened Common
  import opened Features
  import opened FfiEnvelope
  import opened ReleaseLedger

  /** `StatusCode`, in declaration order. */
  datatype StatusCode = OK | NOT_FOUND | ERROR

  const STATUS_VALUES: seq<StatusCode> := [OK, NOT_FOUND, ERROR]
  const UNKNOWN_STATUS_PREFIX: string := "Unknown status code: "

  /** The `name` each constant carries. */
  function Name(c: StatusCode): (name: string)
    ensures |name| > 0
  {
    match c
    case OK => "Ok"
    case NOT_FOUND => "NotFound"
    case ERROR => "Error"
  }

  /** `String.equalsIgnoreCase` on ASCII text; `null` equals nothing. */
  predicate EqualsIgnoreCase(s: string, other: Option<string>) {
    other.Some? && ToLower(s) == ToLower(other.value)
  }

  /** The first constant whose name matches, scanning `values` from `i`. */
  function FindName(name: Option<string>, i: nat): (r: Option<StatusCode>)
    requires i <= |STATUS_VALUES|
    ensures r.Some? ==> EqualsIgnoreCase(Name(r.value), name)
    ensures r.None? ==> forall j :: i <= j < |STATUS_VALUES| ==> !EqualsIgnoreCase(Name(STATUS_VALUES[j]), name)
    decreases |STATUS_VALUES| - i
  {
    if i == |STATUS_VALUES| then None
    else if EqualsIgnoreCase(Name(STATUS_VALUES[i]), name) then Some(STATUS_VALUES[i])
    else FindName(name, i + 1)
  }

  /** `StatusCode.fromName`: the constant whose name equals the argument
      ignoring case, or `IllegalArgumentException`. */
  function FromName(name: Option<string>): (r: HostResult<StatusCode>)
    ensures r.Returned? ==> EqualsIgnoreCase(Name(r.value), name)
    ensures r.Raised? <==> forall c :: !EqualsIgnoreCase(Name(c), name)
    ensures r.Raised? ==> r.message == UNKNOWN_STATUS_PREFIX + name.GetOr("null")
    ensures !r.Exited?
  {
    match FindName(name, 0)
    case Some(c) => Returned(c)
    case None =>
      assert forall c :: c == STATUS_VALUES[StatusIndex(c)];
      Raised(UNKNOWN_STATUS_PREFIX + name.GetOr("null"))
  }

  /** Where a constant sits in `values()`. */
  function StatusIndex(c: StatusCode): (i: nat)
    ensures i < |STATUS_VALUES| && STATUS_VALUES[i] == c
  {
    match c
    case OK => 0
    case NOT_FOUND => 1
    case ERROR => 2
  }

  /** No two names are equal ignoring case (their lengths differ), so a
      match is unique. */
  lemma NamesDistinctIgnoringCase(a: StatusCode, b: StatusCode)
    requires EqualsIgnoreCase(Name(a), Some(Name(b)))
    ensures a == b
  {
    assert |ToLower(Name(a))| == |Name(a)| && |ToLower(Name(b))| == |Name(b)|;
  }

  /** Every constant is found by its own name, in any case. */
  lemma FromNameRoundTrip(c: StatusCode, spelled: string)
    requires ToLower(spelled) == ToLower(Name(c))
    ensures FromName(Some(spelled)) == Returned(c)
  {
    var r := FromName(Some(spelled));
    if r.Raised? {
      assert EqualsIgnoreCase(Name(c), Some(spelled));
    } else {
      NamesDistinctIgnoringCase(r.value, c);
    }
  }

  /** `fromName` reads each status name the engine writes. */
  lemma FromNameReadsEngineStatus(code: ResponseCode)
    ensures FromName(Some(StatusName(code))) == Returned(FromEngine(code))
  {
    FromNameRoundTrip(FromEngine(code), StatusName(code));
  }

  /** The Java constant for each engine status. */
  function FromEngine(code: ResponseCode): (c: StatusCode)
    ensures Name(c) == StatusName(code)
  {
    match code
    case Ok => OK
    case NotFound => NOT_FOUND
    case Error => ERROR
  }

  /** `YggResponse<T>`, with each field possibly `null`. */
  datatype YggResponse<T> = YggResponse(statusCode: Option<StatusCode>, value: Option<T>, errorMessage: Option<string>)

  /** `isValid`: the status is `OK`. */
  predicate IsValid<T>(r: YggResponse<T>) {
    r.statusCode == Some(OK)
  }

  /** `IsEnabledResponse.isEnabled`: `OK` with the value `TRUE`; a `null`
      value, `NOT_FOUND` and `ERROR` all read as false. */
  function IsEnabled(r: YggResponse<bool>): (enabled: bool)
    ensures enabled ==> IsValid(r)
    ensures IsValid(r) ==> (enabled <==> r.value == Some(true))
  {
    r.statusCode == Some(OK) && r.value == Some(true)
  }

  /** `Payload`. */
  datatype JPayload = JPayload(payloadType: Option<string>, value: Option<string>)

  /** `VariantDef`: the boxed `enabled` flag may be `null`. */
  datatype JVariantDef = JVariantDef(name: Option<string>, payload: Option<JPayload>, enabled: Option<bool>)

  /** `VariantResponse.getName`: reads the value without a validity check,
      so the value must not be `null`. */
  function GetName(r: YggResponse<JVariantDef>): (name: Option<string>)
    requires r.value.Some?
    ensures name == r.value.value.name
  {
    r.value.value.name
  }

  /** `getPayload`: `null` unless the response is valid; a valid response
      must carry a value. */
  function GetPayload(r: YggResponse<JVariantDef>): (p: Option<JPayload>)
    requires IsValid(r) ==> r.value.Some?
    ensures !IsValid(r) ==> p.None?
    ensures IsValid(r) ==> p == r.value.value.payload
  {
    if r.statusCode == Some(OK) then r.value.value.payload else None
  }

  /** `VariantResponse.isEnabled`: false unless the response is valid, and
      then the value's own flag, which may be `null`. */
  function VariantIsEnabled(r: YggResponse<JVariantDef>): (enabled: Option<bool>)
    requires IsValid(r) ==> r.value.Some?
    ensures !IsValid(r) ==> enabled == Some(false)
    ensures IsValid(r) ==> enabled == r.value.value.enabled
  {
    if r.statusCode == Some(OK) then r.value.value.enabled else Some(false)
  }

  /** `Enum.name()`: the constant's own identifier. */
  function ConstantName(c: StatusCode): (name: string)
    ensures |name| > 0
  {
    match c
    case OK => "OK"
    case NOT_FOUND => "NOT_FOUND"
    case ERROR => "ERROR"
  }

  /** Jackson's default reading of an enum from a JSON string, which is what
      the `status_code` property of `YggResponse`, `IsEnabledResponse` and
      `VariantResponse` gets: `StatusCode` declares no `@JsonCreator`, so the
      text must be a constant's `name()` exactly, case included; anything
      else fails the whole read. */
  function JacksonStatus(text: string): (r: Option<StatusCode>)
    ensures r.Some? ==> ConstantName(r.value) == text
    ensures r.None? <==> forall c :: ConstantName(c) != text
  {
    if text == "OK" then Some(OK)
    else if text == "NOT_FOUND" then Some(NOT_FOUND)
    else if text == "ERROR" then Some(ERROR)
    else None
  }

  /** The engine's envelope read by the Jackson creator as written: no
      response at all when its status does not decode. */
  function ReadReply<T>(w: WireResponse<T>): (r: Option<YggResponse<T>>)
    ensures r.Some? <==> JacksonStatus(w.statusCode).Some?
    ensures r.Some? ==> r.value == YggResponse(JacksonStatus(w.statusCode), w.value, w.errorMessage)
  {
    match JacksonStatus(w.statusCode)
    case Some(c) => Some(YggResponse(Some(c), w.value, w.errorMessage))
    case None => None
  }

  /** No status name the engine writes is a constant's `name()`: every
      reply the engine sends fails to read as written, whatever its value. */
  lemma EngineRepliesUnreadable<T>(result: Outcome<Option<T>>, debug: DebugFormat)
    requires result.Failure? ==> !result.error.InvalidMessageFormat?
    ensures ReadReply(ToWire(FromResult(result, debug))).None?
  {
    var name := ToWire(FromResult(result, debug)).statusCode;
    assert name == StatusName(FromResult(result, debug).statusCode);
  }

  /** The engine's envelope read through `fromName`, as a `@JsonCreator` on
      `fromName` would make Jackson read it: an unknown status leaves the
      status `null`. */
  function FromWire<T>(w: WireResponse<T>): (r: YggResponse<T>)
    ensures r.value == w.value && r.errorMessage == w.errorMessage
    ensures r.statusCode.Some? <==> FromName(Some(w.statusCode)).Returned?
    ensures r.statusCode.Some? ==> EqualsIgnoreCase(Name(r.statusCode.value), Some(w.statusCode))
  {
    match FromName(Some(w.statusCode))
    case Returned(c) => YggResponse(Some(c), w.value, w.errorMessage)
    case _ => YggResponse(None, w.value, w.errorMessage)
  }

  /** End to end: `isEnabled` is true exactly when the engine found the
      toggle enabled; a missing toggle and an engine error read as false. */
  lemma IsEnabledAgreesWithEngine(result: Outcome<Option<bool>>, debug: DebugFormat)
    requires result.Failure? ==> !result.error.InvalidMessageFormat?
    ensures IsEnabled(FromWire(ToWire(FromResult(result, debug)))) <==> result == Success(Some(true))
  {
    FromNameReadsEngineStatus(FromResult(result, debug).statusCode);
  }

  /** End to end for variants: a found variant's payload and flag, and
      `null` / false for a missing toggle or an engine error. */
  lemma VariantAgreesWithEngine(result: Outcome<Option<JVariantDef>>, debug: DebugFormat)
    requires result.Failure? ==> !result.error.InvalidMessageFormat?
    ensures var r := FromWire(ToWire(FromResult(result, debug)));
            (IsValid(r) <==> result.Success? && result.value.Some?)
            && (IsValid(r) ==> r.value.Some?)
            && (result.Success? && result.value.Some? ==>
                  GetPayload(r) == result.value.value.payload && VariantIsEnabled(r) == result.value.value.enabled)
            && (result.Failure? || result == Success(None) ==> GetPayload(r).None? && VariantIsEnabled(r) == Some(false))
  {
    FromNameReadsEngineStatus(FromResult(result, debug).statusCode);
  }
}

=== FILE: java_wasm.dfy ===
/** The Java hosts of the WebAssembly engine: the shared interface
    `java-engine/.../WasmInterface.java`, the engine facade
    `java-engine/.../UnleashEngine.java` and the prototype
    `java-engine/.../WasmEngine.java`. Each call copies a message into guest
    memory, calls the guest, reads the reply from the pointer and length
    packed in one `long`, decodes it and hands buffers back. The decoder's
    outcome, the clock and the host name lookup are parameters; a FlatBuffers
    message is the record of the fields that were set. */
module JavaWasm {
  import opened Common
  import opened Features
  import opened FfiEnvelope
  import opened ReleaseLedger
  import opened PureWasm

  // ---------------------------------------------------------------------------
  // WasmInterface
  // ---------------------------------------------------------------------------

  /** The guest memory region a reply occupies, as the two Java `int`s. */
  datatype Region = Region(ptr: int, len: int)

  /** `ptr = (int) (packed & 0xFFFFFFFFL)`, `len = (int) (packed >>> 32)`. */
  function ReplyRegion(packed: bv64): (r: Region)
    ensures -0x8000_0000 <= r.ptr < 0x8000_0000 && -0x8000_0000 <= r.len < 0x8000_0000
  {
    var halves := UnpackReply(packed);
    Region(JavaInt(halves.0), JavaInt(halves.1))
  }

  /** The host reads back the region the guest packed, as long as neither
      half reaches 2^31 and so turns negative in a Java `int`. */
  lemma ReplyRegionInvertsPacking(ptr: bv32, len: bv32)
    requires ptr as int < 0x8000_0000 && len as int < 0x8000_0000
    ensures ReplyRegion(PackReply(ptr, len)) == Region(ptr as int, len as int)
  {
    JavaIntsAreValues(ptr, len);
  }

  /** `derefWasmPointer`: copy the region, decode it, and only then release
      the reply buffer. There is no `finally`: a decoder that throws leaves
      the buffer held. */
  function DerefWasmPointer<T>(packed: bv64, decoded: HostResult<T>): (r: (Region, HostCall<T>))
    ensures r.0 == ReplyRegion(packed)
    ensures r.1.result == decoded
    ensures decoded.Returned? ==> ReleasedOnce(r.1.trace, Reply) && Precedes(r.1.trace, Decoded, Released(Reply))
    ensures !decoded.Returned? ==> Released(Reply) !in r.1.trace
  {
    if decoded.Returned? then
      var trace := [Copied, Decoded, Released(Reply)];
      PrecedesAt(trace, Decoded, Released(Reply), 1, 2);
      (ReplyRegion(packed), HostCall(decoded, trace))
    else (ReplyRegion(packed), HostCall(decoded, [Copied, Threw]))
  }

  /** The steps of `checkEnabled` / `checkVariant`: allocate and write the
      context, call, dereference the reply, and release the context. A
      decoder that throws skips both releases. */
  function CheckTrace(decodes: bool): (t: seq<Event>)
    ensures decodes ==> ReleasedOnce(t, Input) && ReleasedOnce(t, Reply)
    ensures decodes ==> Precedes(t, Released(Reply), Released(Input)) && Precedes(t, Decoded, Released(Reply))
    ensures !decodes ==> Leaked(t, Input) && Leaked(t, Reply)
  {
    if decodes then DecodedCheckTrace() else ThrownCheckTrace()
  }

  function DecodedCheckTrace(): (t: seq<Event>)
    ensures ReleasedOnce(t, Input) && ReleasedOnce(t, Reply)
    ensures Precedes(t, Released(Reply), Released(Input)) && Precedes(t, Decoded, Released(Reply))
  {
    var t := [Allocated(Input), Written, Called, Copied, Decoded, Released(Reply), Released(Input)];
    PrecedesAt(t, Released(Reply), Released(Input), 5, 6);
    PrecedesAt(t, Decoded, Released(Reply), 4, 5);
    ReleasedOnceAt(t, Reply, 5);
    ReleasedOnceAt(t, Input, 6);
    t
  }

  function ThrownCheckTrace(): (t: seq<Event>)
    ensures Leaked(t, Input) && Leaked(t, Reply)
  {
    [Allocated(Input), Written, Called, Copied, Threw]
  }

  /** `checkEnabled` / `checkVariant` of the interface: the decoded table. */
  function InterfaceCheck<T>(packed: bv64, decoded: HostResult<T>): (c: HostCall<T>)
    ensures c.result == decoded
    ensures decoded.Returned? ==> ReleasedOnce(c.trace, Input) && ReleasedOnce(c.trace, Reply)
                                  && Precedes(c.trace, Released(Reply), Released(Input))
    ensures !decoded.Returned? ==> Leaked(c.trace, Input) && Leaked(c.trace, Reply)
  {
    HostCall(DerefWasmPointer(packed, decoded).1.result, CheckTrace(decoded.Returned?))
  }

  /** `takeState` of the interface: the message buffer is released once,
      after the call. */
  function InterfaceTakeState(): (t: seq<Event>)
    ensures ReleasedOnce(t, Input) && Precedes(t, Called, Released(Input))
    ensures Precedes(t, Written, Called)
  {
    var t := [Allocated(Input), Written, Called, Released(Input)];
    PrecedesAt(t, Called, Released(Input), 2, 3);
    PrecedesAt(t, Written, Called, 1, 2);
    ReleasedOnceAt(t, Input, 3);
    t
  }

  /** The state `getState` reports when the guest hands back a null
      pointer. */
  const EMPTY_STATE: string := "{\"version\":2,\"features\":[]}"

  /** `getState`: the C string at the returned pointer, or the empty state
      for a null pointer. */
  function GetState(ptr: int, cString: string): (s: string)
    ensures ptr == 0 ==> s == EMPTY_STATE
    ensures ptr != 0 ==> s == cString
  {
    if ptr == 0 then EMPTY_STATE else cString
  }

  /** The fallback names no toggles: it is the empty state of the current
      schema version. */
  lemma EmptyStateHasNoFeatures()
    ensures GetState(0, "") == EMPTY_STATE
    ensures StartsWith(EMPTY_STATE, "{\"version\":2,") && EndsWith(EMPTY_STATE, "\"features\":[]}")
  {
    assert EMPTY_STATE[..13] == "{\"version\":2,";
    assert EMPTY_STATE[|EMPTY_STATE| - 14..] == "\"features\":[]}";
  }

  // ---------------------------------------------------------------------------
  // UnleashEngine: the context message
  // ---------------------------------------------------------------------------

  /** `Context`: every field may be `null`; the properties map is walked in
      its own iteration order and its values may be `null`. */
  datatype JContext = JContext(
    userId: Option<string>,
    sessionId: Option<string>,
    appName: Option<string>,
    remoteAddress: Option<string>,
    currentTime: Option<string>,
    environment: Option<string>,
    properties: seq<(string, Option<string>)>)

  /** The `ContextMessage` table as built: unset fields are `None`. */
  datatype ContextMessage = ContextMessage(
    toggleName: string,
    userId: Option<string>,
    sessionId: Option<string>,
    appName: Option<string>,
    environment: Option<string>,
    remoteAddress: Option<string>,
    runtimeHostname: Option<string>,
    currentTime: Option<string>,
    properties: Option<seq<(string, string)>>,
    customStrategiesResults: Option<seq<(string, string)>>)

  /** The host name sources `getRuntimeHostname` tries: the `hostname`
      system property, then the local host lookup, which may fail. */
  datatype HostnameSources = HostnameSources(property: Option<string>, lookup: Option<string>)

  const UNDEFINED_HOSTNAME: string := "undefined"

  /** `getRuntimeHostname`: never `null`. */
  function RuntimeHostname(h: HostnameSources): (name: string)
    ensures h.property.Some? ==> name == h.property.value
    ensures h.property.None? && h.lookup.Some? ==> name == h.lookup.value
    ensures h.property.None? && h.lookup.None? ==> name == UNDEFINED_HOSTNAME
  {
    match h.property
    case Some(p) => p
    case None => h.lookup.GetOr(UNDEFINED_HOSTNAME)
  }

  /** `buildProperties`: the entries with a value, in iteration order. */
  function BuildProperties(properties: seq<(string, Option<string>)>): (es: seq<(string, string)>)
    ensures |es| <= |properties|
    ensures forall k, v :: (k, v) in es <==> (k, Some(v)) in properties
  {
    if |properties| == 0 then []
    else
      var rest := BuildProperties(properties[1..]);
      assert forall e :: e in properties <==> e == properties[0] || e in properties[1..];
      match properties[0].1
      case Some(v) => [(properties[0].0, v)] + rest
      case None => rest
  }

  /** `Boolean.toString`. */
  function FlagText(b: bool): string {
    if b then "true" else "false"
  }

  /** The inverse of `FlagText` on the two strings it writes. */
  function ParseFlag(s: string): (b: Option<bool>)
    ensures b.Some? <==> s == "true" || s == "false"
  {
    if s == "true" then Some(true) else if s == "false" then Some(false) else None
  }

  lemma FlagTextRoundTrip(b: bool)
    ensures ParseFlag(FlagText(b)) == Some(b)
  {
  }

  /** `buildCustomStrategyResults`: the entries with a result, in iteration
      order, each result written as `"true"` or `"false"`. */
  function BuildCustomResults(results: seq<(string, Option<bool>)>): (es: seq<(string, string)>)
    ensures |es| <= |results|
    ensures forall k, b :: (k, FlagText(b)) in es <==> (k, Some(b)) in results
    ensures forall e :: e in es ==> ParseFlag(e.1).Some?
  {
    if |results| == 0 then []
    else
      var rest := BuildCustomResults(results[1..]);
      assert forall e :: e in results <==> e == results[0] || e in results[1..];
      match results[0].1
      case Some(b) => [(results[0].0, FlagText(b))] + rest
      case None => rest
  }

  /** `buildMessage`. Fields the context leaves `null` are not set; the
      current time is the context's or `now`, and it, the toggle name and
      the runtime host name are always set; the two vectors are attached
      only when they are not empty. */
  function BuildMessage(toggleName: string, context: JContext, results: seq<(string, Option<bool>)>,
                        now: string, hostname: HostnameSources): (m: ContextMessage)
    ensures m.toggleName == toggleName
    ensures m.userId == context.userId && m.sessionId == context.sessionId && m.appName == context.appName
    ensures m.environment == context.environment && m.remoteAddress == context.remoteAddress
    ensures m.currentTime == Some(context.currentTime.GetOr(now))
    ensures m.runtimeHostname == Some(RuntimeHostname(hostname))
    ensures m.properties.Some? <==> exists i :: 0 <= i < |context.properties| && context.properties[i].1.Some?
    ensures m.customStrategiesResults.Some? <==> exists i :: 0 <= i < |results| && results[i].1.Some?
    ensures m.properties.Some? ==> m.properties.value == BuildProperties(context.properties)
    ensures m.customStrategiesResults.Some? ==> m.customStrategiesResults.value == BuildCustomResults(results)
  {
    var props := BuildProperties(context.properties);
    var customs := BuildCustomResults(results);
    NonEmptyIffSomeValue(context.properties);
    NonEmptyIffSomeResult(results);
    ContextMessage(
      toggleName,
      context.userId, context.sessionId, context.appName, context.environment, context.remoteAddress,
      Some(RuntimeHostname(hostname)),
      Some(context.currentTime.GetOr(now)),
      if |props| > 0 then Some(props) else None,
      if |customs| > 0 then Some(customs) else None)
  }

  lemma NonEmptyIffSomeValue(properties: seq<(string, Option<string>)>)
    ensures |BuildProperties(properties)| > 0 <==> exists i :: 0 <= i < |properties| && properties[i].1.Some?
  {
    var es := BuildProperties(properties);
    if i :| 0 <= i < |properties| && properties[i].1.Some? {
      assert (properties[i].0, properties[i].1.value) in es;
    }
    if |es| > 0 {
      assert (es[0].0, Some(es[0].1)) in properties;
    }
  }

  lemma NonEmptyIffSomeResult(results: seq<(string, Option<bool>)>)
    ensures |BuildCustomResults(results)| > 0 <==> exists i :: 0 <= i < |results| && results[i].1.Some?
  {
    var es := BuildCustomResults(results);
    if i :| 0 <= i < |results| && results[i].1.Some? {
      assert (results[i].0, FlagText(results[i].1.value)) in es;
    }
    if |es| > 0 {
      var b := ParseFlag(es[0].1).value;
      assert es[0] == (es[0].0, FlagText(b));
      assert (es[0].0, Some(b)) in results;
    }
  }

  /** What a reader of the message recovers of the caller's context. */
  function MessageContext(m: ContextMessage): JContext {
    JContext(m.userId, m.sessionId, m.appName, m.remoteAddress, m.currentTime, m.environment,
             seq(|m.properties.GetOr([])|, i requires 0 <= i < |m.properties.GetOr([])| =>
                   (m.properties.GetOr([])[i].0, Some(m.properties.GetOr([])[i].1))))
  }

  /** Reading the message back gives the caller's context with the current
      time filled in and the properties whose value is `null` dropped. */
  lemma MessageKeepsContext(toggleName: string, context: JContext, results: seq<(string, Option<bool>)>,
                            now: string, hostname: HostnameSources)
    ensures var back := MessageContext(BuildMessage(toggleName, context, results, now, hostname));
            back.(currentTime := context.currentTime, properties := context.properties) == context
            && back.currentTime == Some(context.currentTime.GetOr(now))
            && (forall k, v :: (k, Some(v)) in back.properties <==> (k, Some(v)) in context.properties)
            && (forall e :: e in back.properties ==> e.1.Some?)
  {
    var m := BuildMessage(toggleName, context, results, now, hostname);
    var back := MessageContext(m);
    var props := m.properties.GetOr([]);
    assert m.properties.None? ==> BuildProperties(context.properties) == [] by {
      NonEmptyIffSomeValue(context.properties);
    }
    assert props == BuildProperties(context.properties);
    forall k, v
      ensures (k, Some(v)) in back.properties <==> (k, v) in props
    {
      if (k, v) in props {
        var i :| 0 <= i < |props| && props[i] == (k, v);
        assert back.properties[i] == (k, Some(v));
      }
    }
  }

  // ---------------------------------------------------------------------------
  // UnleashEngine: calls
  // ---------------------------------------------------------------------------

  /** `callWasmFunctionWithResponse`: call, dereference (decode, release the
      reply), release the message, then read the guest's log buffer. */
  function EngineCall<T>(packed: bv64, decoded: HostResult<T>): (c: HostCall<T>)
    ensures c.result == decoded
    ensures decoded.Returned? ==> ReleasedOnce(c.trace, Input) && ReleasedOnce(c.trace, Reply)
                                  && Precedes(c.trace, Decoded, Released(Input))
    ensures !decoded.Returned? ==> Leaked(c.trace, Input) && Leaked(c.trace, Reply)
  {
    InterfaceCheck(packed, decoded)
  }

  /** `isEnabled`: the flag when the table has one, `null` otherwise; an
      error in the table is not looked at. */
  function IsEnabled(response: FlatResponse): (r: Option<bool>)
    ensures r.Some? <==> response.hasEnabled
    ensures r.Some? ==> r.value == response.enabled
  {
    if response.hasEnabled then Some(response.enabled) else None
  }

  /** End to end: the engine's flag for a known toggle, and `null` both for
      an unknown toggle and for an engine error, which never reaches the
      caller. */
  lemma IsEnabledSwallowsErrors(from: WasmResult<bool>)
    ensures from.WasmOk? ==> IsEnabled(BoolTable(from)) == from.value
    ensures from.WasmErr? ==> IsEnabled(BoolTable(from)) == None
  {
  }

  /** `getVariant`: `null` unless the table names a variant; the payload is
      copied only when present. */
  function GetVariant(v: FlatVariant): (r: Option<ExtendedVariantDef>)
    ensures r.Some? <==> v.name.Some?
    ensures r.Some? ==> r.value.name == v.name.value && r.value.payload == v.payload
                        && r.value.enabled == v.enabled && r.value.featureEnabled == v.featureEnabled
  {
    match v.name
    case Some(name) => Some(ExtendedVariantDef(name, v.payload, v.enabled, v.featureEnabled))
    case None => None
  }

  /** End to end: the engine's variant, and `null` both for no variant and
      for an engine error. */
  lemma GetVariantSwallowsErrors(from: WasmResult<ExtendedVariantDef>)
    ensures from.WasmOk? ==> GetVariant(VariantTable(from)) == from.value
    ensures from.WasmErr? ==> GetVariant(VariantTable(from)) == None
  {
  }

  /** `takeState` of the facade: the message is released once after the call
      and the returned C string is read; that string's buffer is not
      handed back. */
  function EngineTakeState(): (t: seq<Event>)
    ensures ReleasedOnce(t, Input) && Precedes(t, Copied, Released(Input))
    ensures Released(Reply) !in t
  {
    var t := [Allocated(Input), Written, Called, Copied, Released(Input)];
    PrecedesAt(t, Copied, Released(Input), 3, 4);
    ReleasedOnceAt(t, Input, 4);
    t
  }

  // ---------------------------------------------------------------------------
  // WasmEngine (prototype)
  // ---------------------------------------------------------------------------

  const PROTOTYPE_USER_ID: string := "some-user-called-greg"

  /** The prototype's `Context` table. */
  datatype ProtoMessage = ProtoMessage(toggleName: string, userId: string, properties: seq<(string, string)>)

  /** `buildContext`: every property (a `null` value would fail to
      serialize), the toggle name, and always the same user id. */
  function BuildContext(toggleName: string, properties: seq<(string, Option<string>)>): (m: ProtoMessage)
    requires forall i :: 0 <= i < |properties| ==> properties[i].1.Some?
    ensures m.toggleName == toggleName && m.userId == PROTOTYPE_USER_ID
    ensures |m.properties| == |properties|
    ensures forall i :: 0 <= i < |properties| ==> m.properties[i] == (properties[i].0, properties[i].1.value)
  {
    ProtoMessage(toggleName, PROTOTYPE_USER_ID,
                 seq(|properties|, i requires 0 <= i < |properties| => (properties[i].0, properties[i].1.value)))
  }

  /** The user id ignores the caller: two calls differing only in their
      properties send the same user. */
  lemma BuildContextIgnoresUser(toggleName: string, a: seq<(string, Option<string>)>, b: seq<(string, Option<string>)>)
    requires forall i :: 0 <= i < |a| ==> a[i].1.Some?
    requires forall i :: 0 <= i < |b| ==> b[i].1.Some?
    ensures BuildContext(toggleName, a).userId == BuildContext(toggleName, b).userId
    ensures BuildContext(toggleName, a) == BuildContext(toggleName, b) <==> a == b
  {
    var ma, mb := BuildContext(toggleName, a), BuildContext(toggleName, b);
    if ma == mb {
      assert |a| == |b|;
      forall i | 0 <= i < |a| ensures a[i] == b[i] {
        assert ma.properties[i] == mb.properties[i];
      }
    }
  }

  /** `checkEnabled` of the prototype: decode, then release the message and
      the reply, then read `enabled`, false when unset. */
  function ProtoCheckEnabled(packed: bv64, response: FlatResponse): (c: HostCall<bool>)
    ensures c.result == Returned(response.enabled)
    ensures ReleasedOnce(c.trace, Input) && ReleasedOnce(c.trace, Reply)
    ensures Precedes(c.trace, Decoded, Released(Input)) && Precedes(c.trace, Released(Input), Released(Reply))
  {
    HostCall(Returned(response.enabled), ProtoTrace())
  }

  /** The prototype hands the message back before the reply. */
  function ProtoTrace(): (t: seq<Event>)
    ensures ReleasedOnce(t, Input) && ReleasedOnce(t, Reply)
    ensures Precedes(t, Decoded, Released(Input)) && Precedes(t, Released(Input), Released(Reply))
  {
    var t := [Allocated(Input), Written, Called, Copied, Decoded, Released(Input), Released(Reply)];
    PrecedesAt(t, Decoded, Released(Input), 4, 5);
    PrecedesAt(t, Released(Input), Released(Reply), 5, 6);
    ReleasedOnceAt(t, Input, 5);
    ReleasedOnceAt(t, Reply, 6);
    t
  }

  /** End to end: the prototype answers true exactly for a toggle the
      engine found enabled. */
  lemma ProtoCheckEnabledAgreesWithEngine(packed: bv64, from: WasmResult<bool>)
    ensures ProtoCheckEnabled(packed, BoolTable(from)).result == Returned(true) <==> from == WasmOk(Some(true))
  {
  }
}

=== FILE: js_engine.dfy ===
/** The JavaScript `UnleashEngine` (`javascript-engine/src/index.ts`): the
    resolver of custom strategies in front of the WebAssembly engine. Each
    engine call is a parameter from the payload the resolver computed to the
    envelope the engine returns; `run` stands for running a registered
    strategy's `isEnabled` with the caller's context. */
module JsEngine {
  import opened Common
  import opened Features
  import opened FfiEnvelope
  import opened ReleaseLedger
  import opened JsInterop
  import opened JsStrategies
  import opened CustomResults

  /** `DISABLED_VARIANT`. */
  const DISABLED_VARIANT: ExtendedVariantDef := ExtendedVariantDef("disabled", None, false, false)

  datatype UnleashEngine = UnleashEngine(strategies: Strategies)

  /** The constructor: the known list is the engine's built-in strategy
      names, `[]` when the reply carries none; an `Error` reply throws; the
      given implementations are registered when there are any. */
  function NewEngine(builtIns: JsResponse<seq<string>>, impls: Option<seq<Impl>>): (r: HostResult<UnleashEngine>)
    ensures r.Raised? <==> builtIns.statusCode == Some(ERROR_STATUS)
    ensures !r.Exited?
    ensures r.Returned? ==> r.value.strategies.known == builtIns.value.GetOr([]) && r.value.strategies.mapped == map[]
    ensures r.Returned? && impls.None? ==> r.value.strategies.registered == map[]
    ensures r.Returned? && impls.Some? ==> forall i :: 0 <= i < |impls.value| ==> impls.value[i].name in r.value.strategies.registered
  {
    match ReadResponse(builtIns)
    case Raised(m) => Raised(m)
    case Exited => Exited
    case Returned(known) =>
      var st := NewStrategies(known.GetOr([]));
      match impls
      case None => Returned(UnleashEngine(st))
      case Some(given) => Returned(UnleashEngine(RegisterCustomStrategies(st, given)))
  }

  /** `takeState`: the engine's reply is checked first, so a rejected state
      leaves the resolver as it was; otherwise the resolver maps the same
      state. */
  function TakeState(engine: UnleashEngine, reply: JsResponse<()>, msg: StateMessage): (r: HostResult<UnleashEngine>)
    ensures r.Raised? <==> reply.statusCode == Some(ERROR_STATUS)
    ensures !r.Exited?
    ensures r.Returned? ==> r.value.strategies.known == engine.strategies.known
                            && r.value.strategies.registered == engine.strategies.registered
    ensures r.Returned? && msg.FullState? ==> r.value.strategies.mapped.Keys == Declared(msg.features)
  {
    match CheckResponse(reply)
    case Raised(m) => Raised(m)
    case _ => Returned(UnleashEngine(MapFeatures(engine.strategies, msg)))
  }

  /** The payload sent with a toggle's evaluation. */
  function Payload(engine: UnleashEngine, toggleName: string, run: (Impl, map<string, string>) -> bool): map<string, bool> {
    CustomStrategyPayload(engine.strategies, toggleName, run)
  }

  /** `isEnabled`: the engine's answer for the resolver's payload, with
      `undefined` read as false; an `Error` reply throws. */
  function IsEnabled(engine: UnleashEngine, toggleName: string, run: (Impl, map<string, string>) -> bool,
                     checkEnabled: map<string, bool> -> JsResponse<bool>): (r: HostResult<bool>)
    ensures var reply := checkEnabled(Payload(engine, toggleName, run));
            (r.Raised? <==> reply.statusCode == Some(ERROR_STATUS))
            && (r == Returned(true) <==> reply.statusCode != Some(ERROR_STATUS) && reply.value == Some(true))
    ensures !r.Exited?
  {
    match ReadResponse(checkEnabled(Payload(engine, toggleName, run)))
    case Raised(m) => Raised(m)
    case Exited => Exited
    case Returned(v) => Returned(v.GetOr(false))
  }

  /** `getVariant`: the engine's variant when it returns one; otherwise the
      disabled variant, carrying whether the toggle itself is enabled. Either
      engine call may throw. */
  function GetVariant(engine: UnleashEngine, toggleName: string, run: (Impl, map<string, string>) -> bool,
                      checkVariant: map<string, bool> -> JsResponse<ExtendedVariantDef>,
                      checkEnabled: map<string, bool> -> JsResponse<bool>): (r: HostResult<ExtendedVariantDef>)
    ensures var reply := checkVariant(Payload(engine, toggleName, run));
            (reply.statusCode != Some(ERROR_STATUS) && reply.value.Some? ==> r == Returned(reply.value.value))
            && (reply.statusCode == Some(ERROR_STATUS) ==> r.Raised?)
            && (reply.statusCode != Some(ERROR_STATUS) && reply.value.None? ==>
                  match IsEnabled(engine, toggleName, run, checkEnabled)
                  case Returned(b) => r == Returned(DISABLED_VARIANT.(featureEnabled := b))
                  case _ => r.Raised?)
    ensures !r.Exited?
  {
    match ReadResponse(checkVariant(Payload(engine, toggleName, run)))
    case Raised(m) => Raised(m)
    case Exited => Exited
    case Returned(Some(v)) => Returned(v)
    case Returned(None) =>
      match IsEnabled(engine, toggleName, run, checkEnabled)
      case Returned(b) => Returned(DISABLED_VARIANT.(featureEnabled := b))
      case Raised(m) => Raised(m)
      case Exited => Exited
  }

  /** `listKnownFeatures`: the engine's list, `[]` when it sends none. */
  function ListKnownFeatures<F>(reply: JsResponse<seq<F>>): (r: HostResult<seq<F>>)
    ensures r.Raised? <==> reply.statusCode == Some(ERROR_STATUS)
    ensures r.Returned? ==> r.value == reply.value.GetOr([])
    ensures !r.Exited?
  {
    match ReadResponse(reply)
    case Raised(m) => Raised(m)
    case Exited => Exited
    case Returned(v) => Returned(v.GetOr([]))
  }

  /** The engine's envelope for an evaluation outcome, as JavaScript sees it. */
  function Reply<V>(result: Outcome<Option<V>>, debug: DebugFormat): JsResponse<V>
    requires result.Failure? ==> !result.error.InvalidMessageFormat?
  {
    FromWire(ToWire(FromResult(result, debug)))
  }

  /** End to end: when the engine answers the resolver's payload with the
      envelope of `result`, `isEnabled` is the engine's verdict, false for a
      missing toggle, and the engine's error text thrown. */
  lemma IsEnabledAgreesWithEngine(engine: UnleashEngine, toggleName: string, run: (Impl, map<string, string>) -> bool,
                                  checkEnabled: map<string, bool> -> JsResponse<bool>,
                                  result: Outcome<Option<bool>>, debug: DebugFormat)
    requires result.Failure? ==> !result.error.InvalidMessageFormat?
    requires checkEnabled(Payload(engine, toggleName, run)) == Reply(result, debug)
    ensures var r := IsEnabled(engine, toggleName, run, checkEnabled);
            (result.Success? ==> r == Returned(result.value == Some(true)))
            && (result.Failure? ==> r == Raised(ErrorText(result.error, debug)))
  {
    ReadResponseAgreesWithEngine(result, debug);
    if result.Success? {
      assert ReadResponse(checkEnabled(Payload(engine, toggleName, run))) == Returned(result.value);
      assert result.value.GetOr(false) == (result.value == Some(true));
    }
  }

  /** End to end for variants: a toggle the engine does not know gives the
      disabled variant with `featureEnabled` false. */
  lemma MissingToggleGetsDisabledVariant(engine: UnleashEngine, toggleName: string, run: (Impl, map<string, string>) -> bool,
                                         debug: DebugFormat)
    ensures var r := GetVariant(engine, toggleName, run,
                                p => Reply(Success(None), debug), p => Reply(Success(None), debug));
            r == Returned(DISABLED_VARIANT)
  {
    ReadResponseAgreesWithEngine<bool>(Success(None), debug);
    ReadResponseAgreesWithEngine<ExtendedVariantDef>(Success(None), debug);
  }
}

=== FILE: js_interop.dfy ===
/** The JavaScript engine's reading of envelopes
    (`javascript-engine/src/wasm-interop.ts`). The envelope arrives as a
    plain object whose keys may each be missing. */
module JsInterop {
  import opened Common
  import opened FfiEnvelope
  import opened ReleaseLedger

  /** `EngineResponseWithValue<T>`: every key optional. */
  datatype JsResponse<V> = JsResponse(statusCode: Option<string>, errorMessage: Option<string>, value: Option<V>)

  const ERROR_STATUS: string := "Error"
  const UNKNOWN_ERROR: string := "Unknown error"

  /** `error_message || 'Unknown error'`: the empty string is falsy, so it is
      replaced like a missing message. */
  function ThrownText(message: Option<string>): (text: string)
    ensures |text| > 0
    ensures message.Some? && |message.value| > 0 ==> text == message.value
    ensures message.None? || message == Some("") ==> text == UNKNOWN_ERROR
  {
    match message
    case Some(m) => if |m| > 0 then m else UNKNOWN_ERROR
    case None => UNKNOWN_ERROR
  }

  /** `readResponse`: an `Error` status throws; any other status, a missing
      one included, gives the value, which is `undefined` for `NotFound`. */
  function ReadResponse<V>(response: JsResponse<V>): (r: HostResult<Option<V>>)
    ensures r.Raised? <==> response.statusCode == Some(ERROR_STATUS)
    ensures r.Raised? ==> r.message == ThrownText(response.errorMessage)
    ensures !r.Raised? ==> r == Returned(response.value)
  {
    if response.statusCode == Some(ERROR_STATUS) then Raised(ThrownText(response.errorMessage))
    else Returned(response.value)
  }

  /** `checkResponse`: throws exactly when `readResponse` would, and
      otherwise does nothing. */
  function CheckResponse<V>(response: JsResponse<V>): (r: HostResult<()>)
    ensures r.Raised? <==> ReadResponse(response).Raised?
    ensures r.Raised? ==> r.message == ReadResponse(response).message
    ensures !r.Exited?
  {
    if response.statusCode == Some(ERROR_STATUS) then Raised(ThrownText(response.errorMessage))
    else Returned(())
  }

  /** The envelope the engine wrote, as a JavaScript object. */
  function FromWire<V>(w: WireResponse<V>): JsResponse<V> {
    JsResponse(Some(w.statusCode), w.errorMessage, w.value)
  }

  /** End to end: the engine's value, `undefined` for a missing toggle, and
      the engine's printed error thrown; that message is never empty, so
      `Unknown error` never replaces it. */
  lemma ReadResponseAgreesWithEngine<V>(result: Outcome<Option<V>>, debug: DebugFormat)
    requires result.Failure? ==> !result.error.InvalidMessageFormat?
    ensures var r := ReadResponse(FromWire(ToWire(FromResult(result, debug))));
            (result.Success? ==> r == Returned(result.value))
            && (result.Failure? ==> r == Raised(ErrorText(result.error, debug)))
  {
    var w := ToWire(FromResult(result, debug));
    match result
    case Success(Some(v)) =>
      assert w.statusCode == "Ok";
    case Success(None) =>
      assert w.statusCode == "NotFound";
    case Failure(e) =>
      assert w.statusCode == "Error";
  }
}

=== FILE: js_strategies.dfy ===
/** The JavaScript resolver of custom strategies
    (`javascript-engine/src/strategies.ts`). It keeps the registered
    implementations by name and, per toggle, the list of strategies it will
    evaluate, numbered over the strategies that are both foreign (not in the
    engine's known list) and registered. A mapped strategy captures its
    implementation when the toggle is mapped. */
module JsStrategies {
  import opened Common
  import opened Features
  import opened CustomResults
  import Upgrade

  datatype MappedStrategy = MappedStrategy(resultName: string, strategyName: string, parameters: map<string, string>, impl: Impl)

  datatype Strategies = Strategies(known: seq<string>, registered: map<string, Impl>, mapped: map<string, seq<MappedStrategy>>)

  /** `new Strategies(knownStrategies)`. */
  function NewStrategies(known: seq<string>): (st: Strategies)
    ensures st.known == known && st.registered == map[] && st.mapped == map[]
  {
    Strategies(known, map[], map[])
  }

  /** The mapped list of a toggle reports position `k` under `ResultName(k)`. */
  predicate WellNumbered(ms: seq<MappedStrategy>) {
    forall k :: 0 <= k < |ms| ==> ms[k].resultName == ResultName(k)
  }

  predicate AllWellNumbered(mapped: map<string, seq<MappedStrategy>>) {
    forall t :: t in mapped ==> WellNumbered(mapped[t])
  }

  /** `mapCustomStrategies`: no list maps to no strategies; otherwise the
      registered foreign strategies, numbered from 1 in declaration order,
      each with its parameters (`{}` when absent) and the implementation
      registered now. */
  function MapCustomStrategies(known: seq<string>, registered: map<string, Impl>, strategies: Option<seq<StrategyDecl>>): (r: seq<MappedStrategy>)
    ensures WellNumbered(r)
    ensures strategies.None? ==> r == []
    ensures strategies.Some? ==>
              var selected := RegisteredForeign(strategies.value, known, registered);
              |r| == |selected|
              && forall k :: 0 <= k < |r| ==>
                   selected[k].name in registered
                   && r[k].strategyName == selected[k].name
                   && r[k].parameters == selected[k].parameters.GetOr(map[])
                   && r[k].impl == registered[selected[k].name]
  {
    match strategies
    case None => []
    case Some(ds) =>
      var selected := RegisteredForeign(ds, known, registered);
      seq(|selected|, k requires 0 <= k < |selected| =>
            assert selected[k] in selected;
            MappedStrategy(ResultName(k), selected[k].name, selected[k].parameters.GetOr(map[]), registered[selected[k].name]))
  }

  /** `mapFeature` applied to each toggle of a list. */
  function MapAll(known: seq<string>, registered: map<string, Impl>, fs: seq<FeatureDecl>): (pairs: seq<(string, seq<MappedStrategy>)>)
    ensures |pairs| == |fs|
    ensures forall i :: 0 <= i < |fs| ==> pairs[i] == (fs[i].name, MapCustomStrategies(known, registered, fs[i].strategies))
  {
    seq(|fs|, i requires 0 <= i < |fs| => (fs[i].name, MapCustomStrategies(known, registered, fs[i].strategies)))
  }

  /** Every list in a map built from well-numbered lists is well numbered. */
  lemma MapAllWellNumbered(known: seq<string>, registered: map<string, Impl>, fs: seq<FeatureDecl>)
    ensures AllWellNumbered(LastWins(MapAll(known, registered, fs)))
  {
    var pairs := MapAll(known, registered, fs);
    forall t | t in LastWins(pairs) ensures WellNumbered(LastWins(pairs)[t]) {
      LastWinsValueFromPair(pairs, t);
    }
  }

  /** A delta event, with the id it is ordered by. */
  datatype DeltaEvent =
    | Hydration(eventId: int, features: seq<FeatureDecl>)
    | FeatureUpdated(eventId: int, feature: FeatureDecl)
    | FeatureRemoved(eventId: int, featureName: string)

  /** What `mapFeatures` is handed: a full state, a delta, or an object with
      neither key. */
  datatype StateMessage = FullState(features: seq<FeatureDecl>) | DeltaState(events: seq<DeltaEvent>) | OtherMessage

  predicate SortedById(es: seq<DeltaEvent>) {
    forall i, j :: 0 <= i < j < |es| ==> es[i].eventId <= es[j].eventId
  }

  /** Inserts `e` before the first event with a larger id. */
  function InsertById(es: seq<DeltaEvent>, e: DeltaEvent): (r: seq<DeltaEvent>)
    ensures multiset(r) == multiset(es) + multiset{e}
  {
    if |es| == 0 then [e]
    else if es[0].eventId > e.eventId then [e] + es
    else
      assert es == [es[0]] + es[1..];
      [es[0]] + InsertById(es[1..], e)
  }

  lemma {:induction false} InsertKeepsSorted(es: seq<DeltaEvent>, e: DeltaEvent)
    requires SortedById(es)
    ensures SortedById(InsertById(es, e))
    ensures |es| > 0 ==> InsertById(es, e)[0] == es[0] || InsertById(es, e)[0] == e
  {
    if |es| > 0 {
      var first := if es[0].eventId > e.eventId then e else es[0];
      var rest := if es[0].eventId > e.eventId then es else InsertById(es[1..], e);
      if es[0].eventId <= e.eventId {
        InsertKeepsSorted(es[1..], e);
      }
      assert SortedById(rest) && |rest| > 0 && first.eventId <= rest[0].eventId;
      assert InsertById(es, e) == [first] + rest;
      PrependKeepsSorted(first, rest);
    }
  }

  lemma PrependKeepsSorted(first: DeltaEvent, rest: seq<DeltaEvent>)
    requires SortedById(rest) && |rest| > 0 && first.eventId <= rest[0].eventId
    ensures SortedById([first] + rest)
  {
    var r := [first] + rest;
    forall i, j | 0 <= i < j < |r| ensures r[i].eventId <= r[j].eventId {
      assert r[j] == rest[j - 1];
      if i > 0 {
        assert r[i] == rest[i - 1];
      } else {
        assert rest[0].eventId <= rest[j - 1].eventId;
      }
    }
  }

  /** `events.sort((a, b) => a.eventId - b.eventId)`: each event goes after
      the earlier ones with the same id, as `Array.prototype.sort` is
      stable. */
  function SortEvents(es: seq<DeltaEvent>): (r: seq<DeltaEvent>)
    ensures SortedById(r)
    ensures multiset(r) == multiset(es)
  {
    if |es| == 0 then []
    else
      var n := |es| - 1;
      assert es == es[..n] + [es[n]];
      InsertKeepsSorted(SortEvents(es[..n]), es[n]);
      InsertById(SortEvents(es[..n]), es[n])
  }

  /** The toggle names an event touches. */
  function Named(e: DeltaEvent): set<string> {
    match e
    case Hydration(_, fs) => set i | 0 <= i < |fs| :: fs[i].name
    case FeatureUpdated(_, f) => {f.name}
    case FeatureRemoved(_, name) => {name}
  }

  /** One event: hydration and feature-updated set entries, leaving the others
      in place; feature-removed deletes one. */
  function ApplyEvent(st: Strategies, e: DeltaEvent): (r: Strategies)
    ensures r.known == st.known && r.registered == st.registered
    ensures forall t :: t !in Named(e) ==> (t in r.mapped <==> t in st.mapped) && (t in st.mapped ==> r.mapped[t] == st.mapped[t])
    ensures e.FeatureRemoved? ==> e.featureName !in r.mapped
    ensures e.FeatureUpdated? ==>
              e.feature.name in r.mapped
              && r.mapped[e.feature.name] == MapCustomStrategies(st.known, st.registered, e.feature.strategies)
    ensures e.Hydration? ==> forall t :: t in Named(e) ==> t in r.mapped
  {
    match e
    case Hydration(_, fs) =>
      var pairs := MapAll(st.known, st.registered, fs);
      assert forall i :: 0 <= i < |fs| ==> pairs[i].0 == fs[i].name;
      assert LastWins(pairs).Keys == Named(e) by {
        forall t | t in LastWins(pairs) ensures t in Named(e) {
          KeysOfExact(pairs, t);
        }
      }
      st.(mapped := st.mapped + LastWins(pairs))
    case FeatureUpdated(_, f) => st.(mapped := st.mapped[f.name := MapCustomStrategies(st.known, st.registered, f.strategies)])
    case FeatureRemoved(_, name) => st.(mapped := st.mapped - {name})
  }

  function ApplyEvents(st: Strategies, es: seq<DeltaEvent>): (r: Strategies)
    ensures r.known == st.known && r.registered == st.registered
    decreases |es|
  {
    if |es| == 0 then st else ApplyEvents(ApplyEvent(st, es[0]), es[1..])
  }

  /** A toggle no event names keeps its mapping, or its absence. */
  lemma {:induction false} UntouchedKeepsMapping(st: Strategies, es: seq<DeltaEvent>, t: string)
    requires forall i :: 0 <= i < |es| ==> t !in Named(es[i])
    ensures t in ApplyEvents(st, es).mapped <==> t in st.mapped
    ensures t in st.mapped ==> ApplyEvents(st, es).mapped[t] == st.mapped[t]
    decreases |es|
  {
    if |es| > 0 {
      UntouchedKeepsMapping(ApplyEvent(st, es[0]), es[1..], t);
    }
  }

  /** The toggle names a full state declares. */
  function Declared(fs: seq<FeatureDecl>): set<string> {
    set i | 0 <= i < |fs| :: fs[i].name
  }

  /** `mapFeatures`: a full state replaces the whole mapping, later toggles of
      the same name winning; a delta applies its events in ascending id
      order on top of the current mapping; anything else changes nothing. */
  function MapFeatures(st: Strategies, msg: StateMessage): (r: Strategies)
    ensures r.known == st.known && r.registered == st.registered
    ensures msg.FullState? ==> r.mapped.Keys == Declared(msg.features)
    ensures msg.OtherMessage? ==> r == st
  {
    match msg
    case FullState(fs) =>
      var pairs := MapAll(st.known, st.registered, fs);
      assert forall i :: 0 <= i < |fs| ==> pairs[i].0 == fs[i].name;
      assert LastWins(pairs).Keys == Declared(fs) by {
        forall t | t in LastWins(pairs) ensures t in Declared(fs) {
          KeysOfExact(pairs, t);
        }
      }
      st.(mapped := LastWins(pairs))
    case DeltaState(es) => ApplyEvents(st, SortEvents(es))
    case OtherMessage => st
  }

  /** A full state does not depend on what was mapped before. */
  lemma FullStateForgetsPrevious(st: Strategies, previous: map<string, seq<MappedStrategy>>, fs: seq<FeatureDecl>)
    ensures MapFeatures(st, FullState(fs)) == MapFeatures(st.(mapped := previous), FullState(fs))
  {
  }

  /** For a full state, each toggle is mapped as the last toggle of its
      name declares it. */
  lemma FullStateMapsLast(st: Strategies, fs: seq<FeatureDecl>, i: nat)
    requires i < |fs|
    requires forall j :: i < j < |fs| ==> fs[j].name != fs[i].name
    ensures fs[i].name in MapFeatures(st, FullState(fs)).mapped
    ensures MapFeatures(st, FullState(fs)).mapped[fs[i].name] == MapCustomStrategies(st.known, st.registered, fs[i].strategies)
  {
    var pairs := MapAll(st.known, st.registered, fs);
    assert LastOfKey(pairs, i);
  }

  /** Every mapping the resolver makes reports its positions under their
      keys, whatever the events. */
  lemma {:induction false} EventsKeepNumbering(st: Strategies, es: seq<DeltaEvent>)
    requires AllWellNumbered(st.mapped)
    ensures AllWellNumbered(ApplyEvents(st, es).mapped)
    decreases |es|
  {
    if |es| > 0 {
      if es[0].Hydration? {
        MapAllWellNumbered(st.known, st.registered, es[0].features);
      }
      EventsKeepNumbering(ApplyEvent(st, es[0]), es[1..]);
    }
  }

  lemma MapFeaturesKeepsNumbering(st: Strategies, msg: StateMessage)
    requires AllWellNumbered(st.mapped)
    ensures AllWellNumbered(MapFeatures(st, msg).mapped)
  {
    match msg
    case FullState(fs) => MapAllWellNumbered(st.known, st.registered, fs);
    case DeltaState(es) => EventsKeepNumbering(st, SortEvents(es));
    case OtherMessage =>
  }

  /** `registerCustomStrategies`: the whole implementation map is replaced,
      a later object of the same name winning; what is already mapped keeps
      the implementations it captured. */
  function RegisterCustomStrategies(st: Strategies, impls: seq<Impl>): (r: Strategies)
    ensures r.known == st.known && r.mapped == st.mapped
    ensures forall i :: 0 <= i < |impls| ==> impls[i].name in r.registered
    ensures forall i :: 0 <= i < |impls| && LastOfKey(NamedPairs(impls), i) ==> r.registered[impls[i].name] == impls[i]
    ensures forall n :: n in r.registered ==> r.registered[n].name == n && r.registered[n] in impls
  {
    var pairs := NamedPairs(impls);
    forall n | n in LastWins(pairs) ensures LastWins(pairs)[n].name == n && LastWins(pairs)[n] in impls {
      LastWinsValueFromPair(pairs, n);
    }
    st.(registered := LastWins(pairs))
  }

  /** Each mapped strategy's result name with its implementation run on its
      own parameters; `run` stands for calling `isEnabled` with the caller's
      context. */
  function RunAll(ms: seq<MappedStrategy>, run: (Impl, map<string, string>) -> bool): (pairs: seq<(string, bool)>)
    ensures |pairs| == |ms|
    ensures forall k :: 0 <= k < |ms| ==> pairs[k] == (ms[k].resultName, run(ms[k].impl, ms[k].parameters))
  {
    seq(|ms|, k requires 0 <= k < |ms| => (ms[k].resultName, run(ms[k].impl, ms[k].parameters)))
  }

  /** `getCustomStrategyPayload`: `{}` for a toggle that is not mapped;
      otherwise the results object keyed by result name. For a list the
      resolver numbered, that is position `k` under `customStrategy{k+1}`
      and nothing else. */
  function CustomStrategyPayload(st: Strategies, toggleName: string, run: (Impl, map<string, string>) -> bool): (m: map<string, bool>)
    ensures toggleName !in st.mapped ==> m == map[]
    ensures toggleName in st.mapped && WellNumbered(st.mapped[toggleName]) ==>
              var ms := st.mapped[toggleName];
              m.Keys == ResultKeys(|ms|)
              && forall k :: 0 <= k < |ms| ==> m[ResultName(k)] == run(ms[k].impl, ms[k].parameters)
  {
    if toggleName !in st.mapped then map[]
    else
      var ms := st.mapped[toggleName];
      if WellNumbered(ms) then NumberedPairsAreResults(RunAll(ms, run)); LastWins(RunAll(ms, run))
      else LastWins(RunAll(ms, run))
  }

  /** With the upgrader's built-in names as the known list and every foreign
      strategy registered, the mapped list holds each custom strategy at the
      position its upgrader ordinal names, with its own implementation and
      parameters. */
  lemma MappingAgreesWithUpgrade(known: seq<string>, registered: map<string, Impl>, ss: seq<Strategy>, i: nat)
    requires known == Upgrade.BUILT_IN_NAMES
    requires forall j :: 0 <= j < |ss| && Upgrade.IsCustom(ss[j]) ==> ss[j].name in registered
    requires i < |ss| && Upgrade.IsCustom(ss[i])
    ensures var ms := MapCustomStrategies(known, registered, Some(Decls(ss)));
            var k := Upgrade.Ordinal(ss, i);
            1 <= k <= |ms| && ss[i].name in registered
            && ms[k - 1].strategyName == ss[i].name
            && ms[k - 1].impl == registered[ss[i].name]
            && ms[k - 1].parameters == ss[i].parameters.GetOr(map[])
            && Upgrade.StrategyRule(ss[i], k) == "external_value[\"" + ResultName(k - 1) + "\"]"
  {
    var ds := Decls(ss);
    forall j | 0 <= j < |ds| && ds[j].name !in known ensures ds[j].name in registered {
      assert Upgrade.IsCustom(ss[j]);
    }
    AllRegisteredSelectsForeign(ds, known, registered);
    OrdinalIsForeignPosition(ss, i);
  }

  /** End to end through the resolver: once a toggle is mapped, its payload
      reports each custom strategy under the key the upgrader's rule text
      reads for it, with that strategy's implementation run on its own
      parameters. */
  lemma PayloadAgreesWithUpgrade(st: Strategies, eventId: int, toggleName: string, ss: seq<Strategy>, i: nat, run: (Impl, map<string, string>) -> bool)
    requires st.known == Upgrade.BUILT_IN_NAMES
    requires forall j :: 0 <= j < |ss| && Upgrade.IsCustom(ss[j]) ==> ss[j].name in st.registered
    requires i < |ss| && Upgrade.IsCustom(ss[i])
    ensures var updated := ApplyEvent(st, FeatureUpdated(eventId, FeatureDecl(toggleName, Some(Decls(ss)))));
            var k := Upgrade.Ordinal(ss, i);
            ss[i].name in st.registered
            && ResultName(k - 1) in CustomStrategyPayload(updated, toggleName, run)
            && CustomStrategyPayload(updated, toggleName, run)[ResultName(k - 1)]
               == run(st.registered[ss[i].name], ss[i].parameters.GetOr(map[]))
            && Upgrade.StrategyRule(ss[i], k) == "external_value[\"" + ResultName(k - 1) + "\"]"
  {
    MappingAgreesWithUpgrade(st.known, st.registered, ss, i);
    var updated := ApplyEvent(st, FeatureUpdated(eventId, FeatureDecl(toggleName, Some(Decls(ss)))));
    var ms := MapCustomStrategies(st.known, st.registered, Some(Decls(ss)));
    assert updated.mapped[toggleName] == ms;
    var k := Upgrade.Ordinal(ss, i);
    ResultKeysExact(|ms|, k - 1);
    assert CustomStrategyPayload(updated, toggleName, run)[ResultName(k - 1)] == run(ms[k - 1].impl, ms[k - 1].parameters);
  }

  /** Without the registration condition the numbering parts ways with the
      upgrader: an unregistered foreign strategy before a registered one
      shifts the registered one to `customStrategy1`, while the rule text
      reads it as `customStrategy2`. */
  lemma UnregisteredShiftsNumbering()
    ensures var a := Strategy("a", None, None, None, None);
            var b := Strategy("b", None, None, None, None);
            var st := Strategies(Upgrade.BUILT_IN_NAMES, map["b" := Impl("b", 0)], map[]);
            var ms := MapCustomStrategies(st.known, st.registered, Some(Decls([a, b])));
            |ms| == 1 && ms[0].strategyName == "b" && ms[0].resultName == ResultName(0)
            && Upgrade.Ordinal([a, b], 1) == 2
  {
    var a := Strategy("a", None, None, None, None);
    var b := Strategy("b", None, None, None, None);
    assert Upgrade.IsCustom(a) && Upgrade.IsCustom(b);
    Upgrade.OrdinalStep([a, b], 1);
    Upgrade.OrdinalStep([a, b], 0);
    var ds := Decls([a, b]);
    assert ds[..1][..0] == [];
    assert ds[..1] == [DeclOf(a)];
  }
}

=== FILE: low_level.dfy ===
/** The older packed message of `yggdrasilffi/src/low_level_api.rs` and its
    entry point `quick_check`. The header is ten packed little-endian `u32`
    fields (40 bytes, no metric byte, no current time, no default variant);
    strings are NUL-terminated and decoded lossily as UTF-8 (the decoding is
    the parameter `lossy`). The properties table is never read: the code that
    would read it is commented out. The custom-result table is `count` `u32`
    slots read two at a time as (key offset, flag offset). */
module LowLevelMessage {
  import opened Common
  import opened WireBytes
  import opened FfiEnvelope

  /** `size_of::<MessageHeader>()` of the `#[repr(C, packed)]` header. */
  const LOW_HEADER_SIZE: nat := 40

  const LOW_TOGGLE_NAME: nat := 0
  const LOW_USER_ID: nat := 1
  const LOW_SESSION_ID: nat := 2
  const LOW_REMOTE_ADDRESS: nat := 3
  const LOW_ENVIRONMENT: nat := 4
  const LOW_APP_NAME: nat := 5
  const LOW_PROPERTIES_OFFSET: nat := 6
  const LOW_PROPERTIES_COUNT: nat := 7
  const LOW_CUSTOM_OFFSET: nat := 8
  const LOW_CUSTOM_COUNT: nat := 9

  /** `String::from_utf8_lossy`. */
  type Utf8Lossy = Bytes -> string

  function LowField(buf: Bytes, k: nat): u32
    requires k < 10 && |buf| >= LOW_HEADER_SIZE
  {
    ReadU32(buf, 4 * k)
  }

  /** Slot `s` of the `u32` table at `table` lies inside the buffer. */
  predicate SlotInside(buf: Bytes, table: nat, s: nat) {
    table + 4 * s + 4 <= |buf|
  }

  function TableSlot(buf: Bytes, table: nat, s: nat): u32
    requires SlotInside(buf, table, s)
  {
    ReadU32(buf, table + 4 * s)
  }

  /** Pair `j` of the custom table can be read: both slots lie in the buffer,
      the key offset is non-zero and NUL-terminated (`get_string(..).unwrap()`),
      and the flag offset indexes the buffer. */
  predicate PairDecodable(buf: Bytes, table: nat, j: nat) {
    SlotInside(buf, table, 2 * j) && SlotInside(buf, table, 2 * j + 1)
    && TableSlot(buf, table, 2 * j) != 0
    && StringReadable(buf, TableSlot(buf, table, 2 * j))
    && TableSlot(buf, table, 2 * j + 1) < |buf|
  }

  /** The buffer decodes without panicking: the toggle name is present, every
      header string is terminated, and the custom table holds whole pairs
      (an odd count reads one slot past the table). */
  predicate LowDecodable(buf: Bytes) {
    |buf| >= LOW_HEADER_SIZE
    && LowField(buf, LOW_TOGGLE_NAME) != 0
    && (forall k :: 0 <= k <= LOW_APP_NAME ==> StringReadable(buf, LowField(buf, k)))
    && LowField(buf, LOW_CUSTOM_COUNT) % 2 == 0
    && (forall j :: 0 <= j < LowField(buf, LOW_CUSTOM_COUNT) / 2 ==> PairDecodable(buf, LowField(buf, LOW_CUSTOM_OFFSET), j))
  }

  /** `get_string`: offset 0 is absent; otherwise the bytes up to the first
      NUL, decoded lossily. */
  function LowString(buf: Bytes, offset: nat, lossy: Utf8Lossy): (r: Option<string>)
    requires StringReadable(buf, offset)
    ensures r.None? <==> offset == 0
    ensures r.Some? ==> r.value == lossy(GetString(offset, buf).value)
  {
    match GetString(offset, buf)
    case None => None
    case Some(b) => Some(lossy(b))
  }

  function PairKey(buf: Bytes, table: nat, j: nat, lossy: Utf8Lossy): string
    requires PairDecodable(buf, table, j)
  {
    LowString(buf, TableSlot(buf, table, 2 * j), lossy).value
  }

  /** `buffer[flag offset] != 0`. */
  function PairFlag(buf: Bytes, table: nat, j: nat): bool
    requires PairDecodable(buf, table, j)
  {
    buf[TableSlot(buf, table, 2 * j + 1)] != 0
  }

  /** The pairs of the custom table in the order the loop visits them. */
  function LowPairs(buf: Bytes, table: nat, n: nat, lossy: Utf8Lossy): (es: seq<(Option<string>, Option<bool>)>)
    requires forall j :: 0 <= j < n ==> PairDecodable(buf, table, j)
    ensures |es| == n
    ensures forall j :: 0 <= j < n ==> es[j] == (Some(PairKey(buf, table, j, lossy)), Some(PairFlag(buf, table, j)))
  {
    seq(n, j requires 0 <= j < n && PairDecodable(buf, table, j) =>
      (Some(PairKey(buf, table, j, lossy)), Some(PairFlag(buf, table, j))))
  }

  datatype LowContext = LowContext(
    userId: Option<string>,
    sessionId: Option<string>,
    remoteAddress: Option<string>,
    environment: Option<string>,
    appName: Option<string>,
    currentTime: Option<string>,
    properties: Option<map<string, string>>)

  datatype LowMessage = LowMessage(toggleName: string, context: LowContext, customStrategyResults: Option<map<string, bool>>)

  /** `unpack_message` of the low-level API. */
  function LowUnpack(buf: Bytes, lossy: Utf8Lossy): (r: Outcome<LowMessage>)
    requires |buf| >= LOW_HEADER_SIZE ==> LowDecodable(buf)
    ensures r.Failure? <==> |buf| < LOW_HEADER_SIZE
    ensures r.Failure? ==> r.error == InvalidMessageFormat
    ensures r.Success? ==> r.value.context.properties.None? && r.value.context.currentTime.None?
    ensures r.Success? ==> r.value.toggleName == LowString(buf, LowField(buf, LOW_TOGGLE_NAME), lossy).value
    ensures r.Success? ==> (r.value.customStrategyResults.None? <==> LowField(buf, LOW_CUSTOM_COUNT) == 0)
  {
    if |buf| < LOW_HEADER_SIZE then Failure(InvalidMessageFormat)
    else
      var toggleName := LowString(buf, LowField(buf, LOW_TOGGLE_NAME), lossy).value;
      var count := LowField(buf, LOW_CUSTOM_COUNT);
      var customs := if count > 0 then Some(InsertPresent(LowPairs(buf, LowField(buf, LOW_CUSTOM_OFFSET), count / 2, lossy))) else None;
      var context := LowContext(
        LowString(buf, LowField(buf, LOW_USER_ID), lossy),
        LowString(buf, LowField(buf, LOW_SESSION_ID), lossy),
        LowString(buf, LowField(buf, LOW_REMOTE_ADDRESS), lossy),
        LowString(buf, LowField(buf, LOW_ENVIRONMENT), lossy),
        LowString(buf, LowField(buf, LOW_APP_NAME), lossy),
        None,
        None);
      Success(LowMessage(toggleName, context, customs))
  }

  /** The custom results are exactly the keys of the table's pairs, and each
      key maps to the flag of its last pair: a later duplicate overwrites an
      earlier one. */
  lemma {:induction false} LowCustomsLastWins(buf: Bytes, lossy: Utf8Lossy, k: string)
    requires LowDecodable(buf) && LowField(buf, LOW_CUSTOM_COUNT) > 0
    ensures var m := LowUnpack(buf, lossy).value.customStrategyResults.value;
            var table := LowField(buf, LOW_CUSTOM_OFFSET);
            var n := LowField(buf, LOW_CUSTOM_COUNT) / 2;
            (k in m <==> exists j :: 0 <= j < n && PairKey(buf, table, j, lossy) == k)
            && (k in m ==> exists j :: 0 <= j < n && PairKey(buf, table, j, lossy) == k && m[k] == PairFlag(buf, table, j)
                                       && forall j' :: j < j' < n ==> PairKey(buf, table, j', lossy) != k)
  {
    var table := LowField(buf, LOW_CUSTOM_OFFSET);
    var n := LowField(buf, LOW_CUSTOM_COUNT) / 2;
    var es := LowPairs(buf, table, n, lossy);
    var m := InsertPresent(es);
    LowCustomsFromPairs(buf, lossy);
    if k in m {
      var i :| 0 <= i < |es| && EntrySets(es, i, k) && es[i].1 == Some(m[k]) && LastSetter(es, i, k);
      forall j' | i < j' < n
        ensures PairKey(buf, table, j', lossy) != k
      {
        assert !EntrySets(es, j', k);
      }
    } else {
      forall j | 0 <= j < n
        ensures PairKey(buf, table, j, lossy) != k
      {
        assert !EntrySets(es, j, k);
      }
    }
  }

  /** A non-empty custom table is read pair by pair into the result map. */
  lemma LowCustomsFromPairs(buf: Bytes, lossy: Utf8Lossy)
    requires LowDecodable(buf) && LowField(buf, LOW_CUSTOM_COUNT) > 0
    ensures LowUnpack(buf, lossy).value.customStrategyResults
            == Some(InsertPresent(LowPairs(buf, LowField(buf, LOW_CUSTOM_OFFSET), LowField(buf, LOW_CUSTOM_COUNT) / 2, lossy)))
  {
  }

  /** `EnabledResponse` of the low-level API. */
  datatype QuickResponse = QuickResponse(value: u8, error: Option<FfiError>)

  /** `quick_check`. A null or empty message is reported as `Utf8Error`, not
      `NullError`; an unknown toggle answers 2, an error 3. */
  function QuickCheck<E>(engine: Option<E>, message: Option<Bytes>, lossy: Utf8Lossy,
                         checkEnabled: (E, LowMessage) -> Option<bool>): (r: QuickResponse)
    requires engine.Some? && message.Some? && |message.value| >= LOW_HEADER_SIZE ==> LowDecodable(message.value)
    ensures r.value <= 3 && (r.error.Some? <==> r.value == 3)
    ensures engine.None? ==> r.error == Some(NullError)
    ensures engine.Some? && (message.None? || |message.value| == 0) ==> r.error == Some(Utf8Error)
    ensures engine.Some? && message.Some? && 0 < |message.value| < LOW_HEADER_SIZE ==> r.error == Some(InvalidMessageFormat)
    ensures engine.Some? && message.Some? && |message.value| >= LOW_HEADER_SIZE ==>
              var answer := checkEnabled(engine.value, LowUnpack(message.value, lossy).value);
              r.error.None? && (answer.None? <==> r.value == 2) && (answer.Some? ==> (r.value == 1) == answer.value)
  {
    match GetEngine(engine)
    case Failure(e) => QuickResponse(3, Some(e))
    case Success(eng) =>
      if message.None? || |message.value| == 0 then QuickResponse(3, Some(Utf8Error))
      else
        match LowUnpack(message.value, lossy)
        case Failure(e) => QuickResponse(3, Some(e))
        case Success(msg) =>
          match checkEnabled(eng, msg)
          case Some(v) => QuickResponse(if v then 1 else 0, None)
          case None => QuickResponse(2, None)
  }
}

=== FILE: metrics_registry.dfy ===
/** The in-memory metric registry of the impact-metrics crate: counters by
    name, collected together and restored from collected batches. */
module MetricsRegistry {
  import opened Common
  import opened ImpactMetrics

  /** `InMemoryMetricRegistry`: the counters by name. */
  datatype Registry = Registry(counters: map<string, CounterState>)

  const NEW_REGISTRY: Registry := Registry(map[])

  /** `counter(opts)`: the counter registered under the name, created from
      the options' name and help when there is none (an existing counter
      keeps its help; the label names are not passed on). */
  function DefineCounter(r: Registry, opts: MetricOptions): (r2: Registry)
    ensures opts.name in r2.counters
    ensures opts.name in r.counters ==> r2 == r
    ensures opts.name !in r.counters ==>
              r2.counters == r.counters[opts.name := NewCounter(NewOptions(opts.name, opts.help))]
    ensures opts.name !in r.counters ==> |r2.counters[opts.name].opts.labelNames| == 0
  {
    if opts.name in r.counters then r else Registry(r.counters[opts.name := NewCounter(NewOptions(opts.name, opts.help))])
  }

  /** `get_counter`. */
  function GetCounter(r: Registry, name: string): (c: Option<CounterState>)
    ensures c.None? <==> name !in r.counters
    ensures c.Some? ==> c.value == r.counters[name]
  {
    if name in r.counters then Some(r.counters[name]) else None
  }

  /** A name is found exactly after it was defined. */
  lemma DefinedCounterIsFound(r: Registry, opts: MetricOptions, name: string)
    ensures GetCounter(DefineCounter(r, opts), name).Some? <==> name == opts.name || name in r.counters
    ensures GetCounter(NEW_REGISTRY, name).None?
  {
  }

  /** `collect` of the registry: every counter collected, one metric each,
      in the registry's iteration order `names`; `orders[i]` is the
      iteration order of the `i`-th counter's values. */
  function CollectAll(r: Registry, names: seq<string>, orders: seq<seq<string>>): (out: (Registry, seq<CollectedMetric>))
    requires Lists(names, r.counters.Keys) && |orders| == |names|
    requires forall i :: 0 <= i < |names| ==> Lists(orders[i], r.counters[names[i]].values.Keys)
    ensures out.0.counters.Keys == r.counters.Keys
    ensures |out.1| == |names|
    ensures forall i :: 0 <= i < |names| ==>
              out.1[i] == Collect(r.counters[names[i]], orders[i]).1 &&
              out.0.counters[names[i]] == Collect(r.counters[names[i]], orders[i]).0
  {
    var metrics := seq(|names|, i requires 0 <= i < |names| => Collect(r.counters[names[i]], orders[i]).1);
    var counters := map k | k in r.counters :: r.counters[k].(values := map[]);
    (Registry(counters), metrics)
  }

  /** Restoring one metric: a counter metric's samples are added back to the
      counter of its name (defined if needed); other metrics are ignored. */
  function RestoreMetric(r: Registry, m: CollectedMetric): (r2: Registry)
    ensures m.metricType != Counter ==> r2 == r
    ensures m.metricType == Counter ==>
              var defined := DefineCounter(r, NewOptions(m.name, m.help));
              r2.counters == defined.counters[m.name := RestoreSamples(defined.counters[m.name], m.samples)]
  {
    if m.metricType != Counter then r
    else
      var defined := DefineCounter(r, NewOptions(m.name, m.help));
      Registry(defined.counters[m.name := RestoreSamples(defined.counters[m.name], m.samples)])
  }

  /** `restore`: the metrics in order. */
  function Restore(r: Registry, metrics: seq<CollectedMetric>): (r2: Registry)
    ensures r.counters.Keys <= r2.counters.Keys
    ensures (forall i :: 0 <= i < |metrics| ==> metrics[i].metricType != Counter) ==> r2 == r
    decreases |metrics|
  {
    if |metrics| == 0 then r else Restore(RestoreMetric(r, metrics[0]), metrics[1..])
  }

  /** A registry holding one counter collects exactly that counter. */
  lemma CollectSingle(c: CounterState, order: seq<string>)
    requires Lists(order, c.values.Keys)
    ensures var r := Registry(map[c.opts.name := c]);
            r.counters[c.opts.name] == c && Lists([c.opts.name], r.counters.Keys) &&
            CollectAll(r, [c.opts.name], [order]) ==
              (Registry(map[c.opts.name := Collect(c, order).0]), [Collect(c, order).1])
  {
    var name := c.opts.name;
    var r := Registry(map[name := c]);
    SingleNameListed(r, name);
    SingleCounters(r, name, order);
    SingleMetrics(r, name, order);
  }

  /** Collecting a one-counter registry empties that counter. */
  lemma SingleCounters(r: Registry, name: string, order: seq<string>)
    requires r.counters.Keys == {name} && Lists([name], r.counters.Keys)
    requires Lists(order, r.counters[name].values.Keys)
    ensures CollectAll(r, [name], [order]).0 == Registry(map[name := Collect(r.counters[name], order).0])
  {
    var out := CollectAll(r, [name], [order]);
    assert out.0.counters.Keys == {name};
    assert out.0.counters[name] == Collect(r.counters[name], order).0;
  }

  /** Collecting a one-counter registry reports that counter alone. */
  lemma SingleMetrics(r: Registry, name: string, order: seq<string>)
    requires r.counters.Keys == {name} && Lists([name], r.counters.Keys)
    requires Lists(order, r.counters[name].values.Keys)
    ensures CollectAll(r, [name], [order]).1 == [Collect(r.counters[name], order).1]
  {
    var out := CollectAll(r, [name], [order]);
    assert |out.1| == 1 && out.1[0] == Collect(r.counters[name], order).1;
  }

  /** A registry with one name is listed by that name alone. */
  lemma SingleNameListed(r: Registry, name: string)
    requires r.counters.Keys == {name}
    ensures Lists([name], r.counters.Keys)
  {
  }

  /** After a collect, collecting again gives only the zero sample. */
  lemma CollectAgainIsZero(c: CounterState, order: seq<string>)
    requires Lists(order, c.values.Keys)
    ensures var emptied := Collect(c, order).0;
            Lists([], emptied.values.Keys) &&
            CollectAll(Registry(map[c.opts.name := emptied]), [c.opts.name], [[]]).1 ==
              [CollectedMetric(c.opts.name, c.opts.help, Counter, [ZERO_SAMPLE])]
  {
    CollectSingle(Collect(c, order).0, []);
  }

  /** Restoring a counter metric into a registry holding a counter of that
      name adds its samples to that counter. */
  lemma RestoreSingle(c: CounterState, m: CollectedMetric)
    requires m.metricType == Counter && m.name == c.opts.name
    ensures Restore(Registry(map[m.name := c]), [m]) == Registry(map[m.name := RestoreSamples(c, m.samples)])
  {
    assert [m][1..] == [];
  }

  /** The flush-and-restore scenario of a registry holding one counter:
      collect, collect again (only the zero sample), restore the first
      batch, and collect the first batch once more. */
  lemma RegistryRestoreRoundTrip(c: CounterState, order: seq<string>)
    requires Lists(order, c.values.Keys) && Canonical(c.values)
    requires exists k :: k in c.values && c.values[k] != 0
    ensures var name := c.opts.name;
            var (emptied, first) := Collect(c, order);
            var restored := RestoreSamples(emptied, first.samples);
            var nz := NonZeroKeys(c.values, order);
            var reg := Registry(map[name := restored]);
            Restore(Registry(map[name := emptied]), [first]) == reg &&
            Lists(nz, restored.values.Keys) &&
            reg.counters[name] == restored && Lists([name], reg.counters.Keys) &&
            CollectAll(reg, [name], [nz]).1 == [first]
  {
    var name := c.opts.name;
    var (emptied, first) := Collect(c, order);
    RestoreSingle(emptied, first);
    CollectRestoreCollect(c, order);
    var restored := RestoreSamples(emptied, first.samples);
    CollectSingle(restored, NonZeroKeys(c.values, order));
  }
}

=== FILE: one_shot.dfy ===
/** The one-shot entry points of `yggdrasilffi/src/packed_message_api.rs`:
    `one_shot_is_enabled` and `one_shot_get_variant` decode a packed message,
    ask the engine, record metrics as the message's request byte says, and
    answer with a C struct whose strings the caller hands back to
    `free_enabled_response` / `free_variant_response`. The engine is a
    parameter; metrics are returned as the sequence of counts the engine
    records, in order. A string field of a response is `None` for a null
    pointer. */
module PackedOneShot {
  import opened Common
  import opened WireBytes
  import opened FfiEnvelope
  import opened PackedMessage

  datatype PackedPayload = PackedPayload(payloadType: Bytes, value: Bytes)
  datatype PackedVariant = PackedVariant(name: Bytes, payload: Option<PackedPayload>, enabled: bool)

  /** The engine as the one-shot calls see it: `check_enabled` (`None` for an
      unknown toggle), `check_variant` and `should_emit_impression_event`. */
  datatype OneShotEngine = OneShotEngine(
    checkEnabled: (Bytes, PackedContext, Option<map<Bytes, bool>>) -> Option<bool>,
    checkVariant: (Bytes, PackedContext, Option<map<Bytes, bool>>) -> Option<PackedVariant>,
    impressionData: Bytes -> bool)

  /** One call of `count_toggle` or `count_variant`. */
  datatype MetricEvent = ToggleCount(toggle: Bytes, enabled: bool) | VariantCount(toggle: Bytes, variant: Bytes)

  /** `"disabled"` as bytes. */
  const DISABLED: Bytes := [0x64, 0x69, 0x73, 0x61, 0x62, 0x6C, 0x65, 0x64]

  /** `EnabledResponse`. */
  datatype EnabledResponse = EnabledResponse(value: u8, impressionData: u8, error: Option<FfiError>)

  /** `VariantResponse`. */
  datatype VariantResponse = VariantResponse(
    featureEnabled: u8,
    isEnabled: u8,
    variantName: Option<Bytes>,
    payloadType: Option<Bytes>,
    payloadValue: Option<Bytes>,
    impressionData: u8,
    error: Option<FfiError>)

  function Flag(b: bool): (v: u8)
    ensures (v == 1) == b && v <= 1
  {
    if b then 1 else 0
  }

  // ---------------------------------------------------------------------------
  // Decoding the call
  // ---------------------------------------------------------------------------

  /** The message pointer is null (`None`) or names a buffer that the decoder
      can read without panicking. */
  predicate MessageDefined(message: Option<Bytes>) {
    message.Some? && |message.value| >= HEADER_SIZE ==> Decodable(message.value)
  }

  /** The shared prologue: `get_engine`, the null / zero-length check, then
      `unpack_message`. */
  function ReadCall(engine: Option<OneShotEngine>, message: Option<Bytes>): (r: Outcome<(OneShotEngine, Message)>)
    requires engine.Some? ==> MessageDefined(message)
    ensures engine.None? ==> r == Failure(NullError)
    ensures engine.Some? && (message.None? || |message.value| == 0) ==> r == Failure(NullError)
    ensures engine.Some? && message.Some? && 0 < |message.value| < HEADER_SIZE ==> r == Failure(InvalidMessageFormat)
    ensures r.Success? <==> engine.Some? && message.Some? && |message.value| >= HEADER_SIZE
    ensures r.Success? ==> r.value.0 == engine.value && Unpack(message.value) == Success(r.value.1)
  {
    match GetEngine(engine)
    case Failure(e) => Failure(e)
    case Success(eng) =>
      if message.None? || |message.value| == 0 then Failure(NullError)
      else
        match Unpack(message.value)
        case Failure(e) => Failure(e)
        case Success(msg) => Success((eng, msg))
  }

  // ---------------------------------------------------------------------------
  // Metrics policy
  // ---------------------------------------------------------------------------

  /** The toggle count of one call: `Always` counts even an unknown toggle (as
      disabled), `IfExists` counts only a known one, `None` never counts. */
  function ToggleMetrics(request: MetricRequest, toggle: Bytes, enabled: Option<bool>): (events: seq<MetricEvent>)
    ensures |events| <= 1
    ensures |events| == 1 <==> request == Always || (request == IfExists && enabled.Some?)
    ensures |events| == 1 ==> events[0] == ToggleCount(toggle, enabled == Some(true))
  {
    match enabled
    case Some(v) => if request == Always || request == IfExists then [ToggleCount(toggle, v)] else []
    case None => if request == Always then [ToggleCount(toggle, false)] else []
  }

  /** The variant name `one_shot_get_variant` counts: the chosen variant's,
      else the message's default variant name, else `"disabled"`. */
  function CountedVariant(variant: Option<PackedVariant>, defaultName: Option<Bytes>): (name: Bytes)
    ensures variant.Some? ==> name == variant.value.name
    ensures variant.None? ==> name == defaultName.GetOr(DISABLED)
  {
    match variant
    case Some(v) => v.name
    case None => defaultName.GetOr(DISABLED)
  }

  /** Number of toggle counts in a run of metric events. */
  function ToggleCounts(events: seq<MetricEvent>): (n: nat)
    ensures n <= |events|
  {
    if |events| == 0 then 0
    else (if events[0].ToggleCount? then 1 else 0) + ToggleCounts(events[1..])
  }

  /** Whatever the request, a call records a toggle at most once, and `None`
      records nothing. */
  lemma {:induction false} PolicyCountsOnce(request: MetricRequest, toggle: Bytes, enabled: Option<bool>)
    ensures ToggleCounts(ToggleMetrics(request, toggle, enabled)) <= 1
    ensures request == Never ==> ToggleMetrics(request, toggle, enabled) == []
    ensures request == Always ==> ToggleCounts(ToggleMetrics(request, toggle, enabled)) == 1
  {
    var events := ToggleMetrics(request, toggle, enabled);
    if |events| == 1 {
      assert events[1..] == [];
    }
  }

  // ---------------------------------------------------------------------------
  // one_shot_is_enabled
  // ---------------------------------------------------------------------------

  /** The value byte: 0 or 1 for a known toggle, 2 for an unknown one. */
  function EnabledStatus(enabled: Option<bool>): (b: u8)
    ensures b <= 2
  {
    match enabled
    case Some(v) => Flag(v)
    case None => 2
  }

  /** How a caller reads the value byte back. */
  datatype EnabledMeaning = Known(enabled: bool) | Unknown | Errored | Unexpected

  function ReadEnabledStatus(b: u8): (m: EnabledMeaning)
    ensures m.Unexpected? <==> b > 3
  {
    if b <= 1 then Known(b == 1) else if b == 2 then Unknown else if b == 3 then Errored else Unexpected
  }

  /** The value byte carries the engine's answer without loss. */
  lemma EnabledStatusRoundTrip(enabled: Option<bool>)
    ensures ReadEnabledStatus(EnabledStatus(enabled)) == (if enabled.Some? then Known(enabled.value) else Unknown)
  {
  }

  /** `one_shot_is_enabled`: the response and the metrics recorded. An error
      answers 3 with the error and records nothing; otherwise the value byte
      is the engine's answer and the toggle is counted as the request byte
      says. */
  function OneShotIsEnabled(engine: Option<OneShotEngine>, message: Option<Bytes>): (r: (EnabledResponse, seq<MetricEvent>))
    requires engine.Some? ==> MessageDefined(message)
    ensures r.0.value <= 3
    ensures r.0.error.Some? <==> r.0.value == 3
    ensures r.0.error.Some? <==> ReadCall(engine, message).Failure?
    ensures r.0.error.Some? ==> r.0.error.value == ReadCall(engine, message).error && r.0.impressionData == 0 && r.1 == []
    ensures r.0.error.None? ==>
              var (eng, msg) := ReadCall(engine, message).value;
              var enabled := eng.checkEnabled(msg.toggleName, msg.context, msg.customStrategyResults);
              ReadEnabledStatus(r.0.value) == (if enabled.Some? then Known(enabled.value) else Unknown)
              && (r.0.impressionData == 1) == eng.impressionData(msg.toggleName)
              && r.1 == ToggleMetrics(msg.metricsRequest, msg.toggleName, enabled)
  {
    match ReadCall(engine, message)
    case Failure(e) => (EnabledResponse(3, 0, Some(e)), [])
    case Success((eng, msg)) =>
      var enabled := eng.checkEnabled(msg.toggleName, msg.context, msg.customStrategyResults);
      EnabledStatusRoundTrip(enabled);
      (EnabledResponse(EnabledStatus(enabled), Flag(eng.impressionData(msg.toggleName)), None),
       ToggleMetrics(msg.metricsRequest, msg.toggleName, enabled))
  }

  /** End to end: a message packed from `input` is answered with what the
      engine says about exactly the fields of `input`. */
  lemma OneShotIsEnabledPacked(engine: OneShotEngine, input: PackInput)
    requires Packable(input)
    ensures MessageDefined(Some(Pack(input)))
    ensures var msg := Expected(input);
            var enabled := engine.checkEnabled(input.toggleName, msg.context, msg.customStrategyResults);
            var r := OneShotIsEnabled(Some(engine), Some(Pack(input)));
            r.0.error.None?
            && ReadEnabledStatus(r.0.value) == (if enabled.Some? then Known(enabled.value) else Unknown)
            && r.1 == ToggleMetrics(input.metrics, input.toggleName, enabled)
  {
    UnpackPack(input);
  }

  // ---------------------------------------------------------------------------
  // one_shot_get_variant
  // ---------------------------------------------------------------------------

  /** `CString::new(..).unwrap()` panics on an interior NUL: the strings the
      response copies must not hold one. */
  predicate Writable(v: PackedVariant) {
    0 !in v.name && (v.payload.Some? ==> 0 !in v.payload.value.payloadType && 0 !in v.payload.value.value)
  }

  /** The call does not panic: the message decodes, and a variant the engine
      returns for a known toggle can be copied into C strings. */
  predicate VariantCallDefined(engine: Option<OneShotEngine>, message: Option<Bytes>) {
    (engine.Some? ==> MessageDefined(message))
    && (engine.Some? && message.Some? && |message.value| >= HEADER_SIZE ==>
          var msg := Unpack(message.value).value;
          var eng := engine.value;
          eng.checkEnabled(msg.toggleName, msg.context, msg.customStrategyResults).Some? ==>
            var v := eng.checkVariant(msg.toggleName, msg.context, msg.customStrategyResults);
            v.None? || Writable(v.value))
  }

  /** The metrics of a variant call on a known toggle: the variant count,
      then the toggle count unless the request is `None`. */
  function VariantMetrics(msg: Message, enabled: bool, variant: Option<PackedVariant>): (events: seq<MetricEvent>)
    ensures |events| >= 1 && events[0] == VariantCount(msg.toggleName, CountedVariant(variant, msg.defaultVariantName))
    ensures events[1..] == ToggleMetrics(msg.metricsRequest, msg.toggleName, Some(enabled))
  {
    [VariantCount(msg.toggleName, CountedVariant(variant, msg.defaultVariantName))]
    + ToggleMetrics(msg.metricsRequest, msg.toggleName, Some(enabled))
  }

  function ErrorVariantResponse(e: FfiError): VariantResponse {
    VariantResponse(0, 0, None, None, None, 0, Some(e))
  }

  /** `one_shot_get_variant`: the response and the metrics recorded. */
  function OneShotGetVariant(engine: Option<OneShotEngine>, message: Option<Bytes>): (r: (VariantResponse, seq<MetricEvent>))
    requires VariantCallDefined(engine, message)
    ensures r.0.error.Some? <==> ReadCall(engine, message).Failure?
    ensures r.0.error.Some? ==> r.0 == ErrorVariantResponse(ReadCall(engine, message).error) && r.1 == []
    ensures r.0.variantName.None? ==> r.0.isEnabled == 0 && r.0.payloadType.None? && r.0.payloadValue.None?
    ensures r.0.payloadType.Some? <==> r.0.payloadValue.Some?
    ensures r.0.error.None? ==>
              var (eng, msg) := ReadCall(engine, message).value;
              var enabled := eng.checkEnabled(msg.toggleName, msg.context, msg.customStrategyResults);
              match enabled
              case None =>
                r.0 == VariantResponse(0, 0, None, None, None, 0, None)
                && r.1 == ToggleMetrics(msg.metricsRequest, msg.toggleName, None)
              case Some(on) =>
                var v := eng.checkVariant(msg.toggleName, msg.context, msg.customStrategyResults);
                (r.0.featureEnabled == 1) == on
                && (r.0.impressionData == 1) == eng.impressionData(msg.toggleName)
                && (r.0.variantName.Some? <==> v.Some?)
                && (v.Some? ==> r.0.variantName == Some(v.value.name) && (r.0.isEnabled == 1) == v.value.enabled
                                && (r.0.payloadType.Some? <==> v.value.payload.Some?)
                                && (v.value.payload.Some? ==> r.0.payloadType == Some(v.value.payload.value.payloadType)
                                                              && r.0.payloadValue == Some(v.value.payload.value.value)))
                && r.1 == VariantMetrics(msg, on, v)
  {
    match ReadCall(engine, message)
    case Failure(e) => (ErrorVariantResponse(e), [])
    case Success((eng, msg)) =>
      match eng.checkEnabled(msg.toggleName, msg.context, msg.customStrategyResults)
      case None =>
        (VariantResponse(0, 0, None, None, None, 0, None), ToggleMetrics(msg.metricsRequest, msg.toggleName, None))
      case Some(on) =>
        var v := eng.checkVariant(msg.toggleName, msg.context, msg.customStrategyResults);
        var impression := Flag(eng.impressionData(msg.toggleName));
        var response := match v
          case Some(variant) =>
            VariantResponse(Flag(on), Flag(variant.enabled), Some(variant.name),
                            if variant.payload.Some? then Some(variant.payload.value.payloadType) else None,
                            if variant.payload.Some? then Some(variant.payload.value.value) else None,
                            impression, None)
          case None => VariantResponse(Flag(on), 0, None, None, None, impression, None);
        (response, VariantMetrics(msg, on, v))
  }

  /** The variant counted is the variant answered, whenever one is answered. */
  lemma CountedIsAnswered(engine: Option<OneShotEngine>, message: Option<Bytes>)
    requires VariantCallDefined(engine, message)
    ensures var r := OneShotGetVariant(engine, message);
            r.0.variantName.Some? ==> |r.1| >= 1 && r.1[0].VariantCount? && r.1[0].variant == r.0.variantName.value
  {
  }

  // ---------------------------------------------------------------------------
  // Releasing responses
  // ---------------------------------------------------------------------------

  function Owned(p: Option<Bytes>): (n: nat)
    ensures n <= 1
  {
    if p.Some? then 1 else 0
  }

  /** The C strings an enabled response owns. */
  function EnabledOwned(r: EnabledResponse): nat {
    if r.error.Some? then 1 else 0
  }

  /** The C strings a variant response owns. */
  function VariantOwned(r: VariantResponse): nat {
    (if r.error.Some? then 1 else 0) + Owned(r.variantName) + Owned(r.payloadType) + Owned(r.payloadValue)
  }

  /** `free_enabled_response`: the response after the call (`None` for a null
      pointer) and the number of strings released. */
  function FreeEnabledResponse(response: Option<EnabledResponse>): (r: (Option<EnabledResponse>, nat))
    ensures response.None? ==> r == (None, 0)
    ensures response.Some? ==> r.0.Some? && EnabledOwned(r.0.value) == 0 && r.1 == EnabledOwned(response.value)
    ensures response.Some? ==> r.0.value.value == response.value.value && r.0.value.impressionData == response.value.impressionData
  {
    match response
    case None => (None, 0)
    case Some(resp) =>
      if resp.error.Some? then (Some(resp.(error := None)), 1) else (Some(resp), 0)
  }

  /** `free_variant_response`: each non-null string is released once and its
      pointer nulled; the flags are untouched. */
  function FreeVariantResponse(response: Option<VariantResponse>): (r: (Option<VariantResponse>, nat))
    ensures response.None? ==> r == (None, 0)
    ensures response.Some? ==> r.0.Some? && VariantOwned(r.0.value) == 0 && r.1 == VariantOwned(response.value)
    ensures response.Some? ==> r.0.value.featureEnabled == response.value.featureEnabled
                               && r.0.value.isEnabled == response.value.isEnabled
                               && r.0.value.impressionData == response.value.impressionData
  {
    match response
    case None => (None, 0)
    case Some(resp) =>
      var released := VariantOwned(resp);
      (Some(resp.(error := None, variantName := None, payloadType := None, payloadValue := None)), released)
  }

  /** Freeing twice releases every string exactly once: the second call
      releases nothing. */
  lemma FreeTwiceReleasesOnce(enabled: Option<EnabledResponse>, variant: Option<VariantResponse>)
    ensures var (e1, n1) := FreeEnabledResponse(enabled);
            var (_, n2) := FreeEnabledResponse(e1);
            n2 == 0 && n1 + n2 == (if enabled.Some? then EnabledOwned(enabled.value) else 0)
    ensures var (v1, m1) := FreeVariantResponse(variant);
            var (_, m2) := FreeVariantResponse(v1);
            m2 == 0 && m1 + m2 == (if variant.Some? then VariantOwned(variant.value) else 0)
  {
  }

  /** What a fresh variant response owns: the error string on failure, and on
      success the name iff a variant was chosen and both payload strings iff
      it has a payload. */
  lemma VariantResponseOwnership(engine: Option<OneShotEngine>, message: Option<Bytes>)
    requires VariantCallDefined(engine, message)
    ensures var r := OneShotGetVariant(engine, message).0;
            VariantOwned(r) == (if r.error.Some? then 1 else 0) + Owned(r.variantName) + 2 * Owned(r.payloadType)
            && (r.error.Some? ==> VariantOwned(r) == 1)
  {
  }
}

=== FILE: packed.dfy ===
/** The packed one-shot message of `yggdrasilffi/src/packed_message_api.rs`:
    a 52-byte header (twelve little-endian `u32` fields and the metric-request
    byte, padded to four bytes), a properties table of 8-byte entries, a
    custom-result table of 5-byte entries, and NUL-terminated strings addressed
    by offset from the start of the buffer. Text is kept as bytes: the decoder
    reinterprets them without checking (`from_utf8_unchecked`). Reading past a
    bound or a string without a NUL panics in the source; `Decodable` is the
    precondition that rules those panics out. */
module PackedMessage {
  import opened Common
  import opened WireBytes
  import opened FfiEnvelope

  /** `size_of::<MessageHeader>()`: 12 * 4 bytes and one byte, padded to 52. */
  const HEADER_SIZE: nat := 52
  const PROPERTIES_ENTRY_SIZE: nat := 8
  const STRATEGIES_ENTRY_SIZE: nat := 5
  /** Where the `#[repr(u8)]` metric request sits in the header. */
  const METRIC_BYTE: nat := 48

  /** Header fields, as indices of the twelve words. */
  const TOGGLE_NAME: nat := 0
  const USER_ID: nat := 1
  const SESSION_ID: nat := 2
  const REMOTE_ADDRESS: nat := 3
  const ENVIRONMENT: nat := 4
  const CURRENT_TIME: nat := 5
  const APP_NAME: nat := 6
  const DEFAULT_VARIANT_NAME: nat := 7
  const PROPERTIES_OFFSET: nat := 8
  const PROPERTIES_COUNT: nat := 9
  const CUSTOM_STRATEGIES_OFFSET: nat := 10
  const CUSTOM_STRATEGIES_COUNT: nat := 11

  /** `ToggleMetricRequest`: `Always = 0`, `IfExists = 1`, `None = 2`. */
  datatype MetricRequest = Always | IfExists | Never

  function MetricCode(m: MetricRequest): (b: u8)
    ensures b <= 2
  {
    match m
    case Always => 0
    case IfExists => 1
    case Never => 2
  }

  /** The metric byte read as the enum; any other byte is undefined behaviour
      in the source, so it is excluded by `Decodable`. */
  function MetricOf(b: u8): (m: MetricRequest)
    requires b <= 2
    ensures MetricCode(m) == b
  {
    if b == 0 then Always else if b == 1 then IfExists else Never
  }

  /** The context the decoder builds (`unleash_yggdrasil::Context`). */
  datatype PackedContext = PackedContext(
    userId: Option<Bytes>,
    sessionId: Option<Bytes>,
    remoteAddress: Option<Bytes>,
    environment: Option<Bytes>,
    appName: Option<Bytes>,
    currentTime: Option<Bytes>,
    properties: Option<map<Bytes, Bytes>>)

  /** `Message`. */
  datatype Message = Message(
    toggleName: Bytes,
    context: PackedContext,
    customStrategyResults: Option<map<Bytes, bool>>,
    metricsRequest: MetricRequest,
    defaultVariantName: Option<Bytes>)

  // ---------------------------------------------------------------------------
  // Reading
  // ---------------------------------------------------------------------------

  function HeaderField(buf: Bytes, k: nat): u32
    requires k < 12 && |buf| >= HEADER_SIZE
  {
    ReadU32(buf, 4 * k)
  }

  /** The header can be read, names a toggle, carries a valid metric byte, and
      every string field is absent or NUL-terminated. */
  predicate HeaderDecodable(buf: Bytes) {
    |buf| >= HEADER_SIZE
    && buf[METRIC_BYTE] <= 2
    && HeaderField(buf, TOGGLE_NAME) != 0
    && forall k :: 0 <= k < 8 ==> StringReadable(buf, HeaderField(buf, k))
  }

  /** Properties entry `i` of the table at `table`: the two offsets lie in the
      buffer and both strings can be read (both are read before either is
      tested). */
  predicate PropEntryDecodable(buf: Bytes, table: nat, i: nat) {
    table + 8 * i + 8 <= |buf|
    && StringReadable(buf, ReadU32(buf, table + 8 * i))
    && StringReadable(buf, ReadU32(buf, table + 8 * i + 4))
  }

  function PropKey(buf: Bytes, table: nat, i: nat): Option<Bytes>
    requires PropEntryDecodable(buf, table, i)
  {
    GetString(ReadU32(buf, table + 8 * i), buf)
  }

  function PropValue(buf: Bytes, table: nat, i: nat): Option<Bytes>
    requires PropEntryDecodable(buf, table, i)
  {
    GetString(ReadU32(buf, table + 8 * i + 4), buf)
  }

  /** Custom-result entry `i`: the key offset lies in the buffer and can be
      read; the flag byte is read only when the key is present. */
  predicate CustomEntryDecodable(buf: Bytes, table: nat, i: nat) {
    table + 5 * i + 4 <= |buf|
    && StringReadable(buf, ReadU32(buf, table + 5 * i))
    && (ReadU32(buf, table + 5 * i) != 0 ==> table + 5 * i + 4 < |buf|)
  }

  function CustomKey(buf: Bytes, table: nat, i: nat): Option<Bytes>
    requires CustomEntryDecodable(buf, table, i)
  {
    GetString(ReadU32(buf, table + 5 * i), buf)
  }

  /** Any non-zero flag byte is `true`. */
  function CustomFlag(buf: Bytes, table: nat, i: nat): bool
    requires CustomEntryDecodable(buf, table, i) && CustomKey(buf, table, i).Some?
  {
    buf[table + 5 * i + 4] != 0
  }

  /** `unpack_message` does not panic on this buffer. */
  predicate Decodable(buf: Bytes) {
    HeaderDecodable(buf)
    && (forall i :: 0 <= i < HeaderField(buf, PROPERTIES_COUNT) ==>
          PropEntryDecodable(buf, HeaderField(buf, PROPERTIES_OFFSET), i))
    && (forall i :: 0 <= i < HeaderField(buf, CUSTOM_STRATEGIES_COUNT) ==>
          CustomEntryDecodable(buf, HeaderField(buf, CUSTOM_STRATEGIES_OFFSET), i))
  }

  /** The properties table as read: key and value of each of the first `n`
      entries. */
  function PropEntries(buf: Bytes, table: nat, n: nat): (es: seq<(Option<Bytes>, Option<Bytes>)>)
    requires forall i :: 0 <= i < n ==> PropEntryDecodable(buf, table, i)
    ensures |es| == n
    ensures forall i :: 0 <= i < n ==> es[i] == (PropKey(buf, table, i), PropValue(buf, table, i))
  {
    seq(n, i requires 0 <= i < n && PropEntryDecodable(buf, table, i) => (PropKey(buf, table, i), PropValue(buf, table, i)))
  }

  /** The custom-result table as read: the key of each of the first `n`
      entries and, when the key is present, its flag. */
  function CustomEntries(buf: Bytes, table: nat, n: nat): (es: seq<(Option<Bytes>, Option<bool>)>)
    requires forall i :: 0 <= i < n ==> CustomEntryDecodable(buf, table, i)
    ensures |es| == n
    ensures forall i :: 0 <= i < n ==> es[i].0 == CustomKey(buf, table, i)
    ensures forall i :: 0 <= i < n && CustomKey(buf, table, i).Some? ==> es[i].1 == Some(CustomFlag(buf, table, i))
    ensures forall i :: 0 <= i < n ==> (es[i].1.Some? <==> es[i].0.Some?)
  {
    seq(n, i requires 0 <= i < n && CustomEntryDecodable(buf, table, i) =>
      var key := CustomKey(buf, table, i);
      (key, if key.Some? then Some(CustomFlag(buf, table, i)) else None))
  }

  function HeaderString(buf: Bytes, k: nat): Option<Bytes>
    requires HeaderDecodable(buf) && k < 8
  {
    GetString(HeaderField(buf, k), buf)
  }

  /** `unpack_message`. */
  function Unpack(buf: Bytes): (r: Outcome<Message>)
    requires |buf| >= HEADER_SIZE ==> Decodable(buf)
    ensures r.Failure? <==> |buf| < HEADER_SIZE
    ensures r.Failure? ==> r.error == InvalidMessageFormat
    ensures r.Success? ==> (r.value.context.properties.None? <==> HeaderField(buf, PROPERTIES_COUNT) == 0)
    ensures r.Success? ==> (r.value.customStrategyResults.None? <==> HeaderField(buf, CUSTOM_STRATEGIES_COUNT) == 0)
    ensures r.Success? ==> r.value.toggleName == HeaderString(buf, TOGGLE_NAME).value
                           && 0 !in r.value.toggleName
  {
    if |buf| < HEADER_SIZE then Failure(InvalidMessageFormat)
    else
      var toggleName := HeaderString(buf, TOGGLE_NAME).value;
      var propsCount := HeaderField(buf, PROPERTIES_COUNT);
      var properties := if propsCount > 0 then Some(InsertPresent(PropEntries(buf, HeaderField(buf, PROPERTIES_OFFSET), propsCount))) else None;
      var customsCount := HeaderField(buf, CUSTOM_STRATEGIES_COUNT);
      var customs := if customsCount > 0 then Some(InsertPresent(CustomEntries(buf, HeaderField(buf, CUSTOM_STRATEGIES_OFFSET), customsCount))) else None;
      var context := PackedContext(
        HeaderString(buf, USER_ID), HeaderString(buf, SESSION_ID), HeaderString(buf, REMOTE_ADDRESS),
        HeaderString(buf, ENVIRONMENT), HeaderString(buf, APP_NAME), HeaderString(buf, CURRENT_TIME), properties);
      Success(Message(toggleName, context, customs, MetricOf(buf[METRIC_BYTE]), HeaderString(buf, DEFAULT_VARIANT_NAME)))
  }

  // ---------------------------------------------------------------------------
  // Writing: the layout a binding produces
  // ---------------------------------------------------------------------------

  /** What a binding puts into one message. */
  datatype PackInput = PackInput(
    toggleName: Bytes,
    userId: Option<Bytes>,
    sessionId: Option<Bytes>,
    remoteAddress: Option<Bytes>,
    environment: Option<Bytes>,
    currentTime: Option<Bytes>,
    appName: Option<Bytes>,
    defaultVariantName: Option<Bytes>,
    properties: seq<(Bytes, Bytes)>,
    customResults: seq<(Bytes, bool)>,
    metrics: MetricRequest)

  /** The eight string fields in header order. */
  function StringFields(input: PackInput): (fs: seq<Option<Bytes>>)
    ensures |fs| == 8 && fs[TOGGLE_NAME] == Some(input.toggleName)
  {
    [Some(input.toggleName), input.userId, input.sessionId, input.remoteAddress,
     input.environment, input.currentTime, input.appName, input.defaultVariantName]
  }

  /** Every string of the message, in heap order: the eight header strings
      (an absent one as a placeholder), then key and value of each property,
      then the key of each custom result. */
  function Slots(input: PackInput): (slots: seq<Bytes>)
    ensures |slots| == 8 + 2 * |input.properties| + |input.customResults|
  {
    var fs := StringFields(input);
    var np := |input.properties|;
    seq(8, k requires 0 <= k < 8 => fs[k].GetOr([]))
    + seq(2 * np, j requires 0 <= j < 2 * np => if j % 2 == 0 then input.properties[j / 2].0 else input.properties[j / 2].1)
    + seq(|input.customResults|, j requires 0 <= j < |input.customResults| => input.customResults[j].0)
  }

  /** Where the strings start: after the header and both tables. */
  function HeapBase(input: PackInput): nat {
    CustomTableStart(input) + 5 * |input.customResults|
  }

  function EncodedSize(input: PackInput): nat {
    HeapBase(input) + SlotOffset(Slots(input), |Slots(input)|)
  }

  /** The message fits the `u32` offsets and no string holds a NUL. */
  predicate Packable(input: PackInput) {
    EncodedSize(input) < U32_LIMIT
    && forall s :: 0 <= s < |Slots(input)| ==> 0 !in Slots(input)[s]
  }

  /** The offset of string slot `s`. */
  function SlotAddress(input: PackInput, s: nat): (a: u32)
    requires Packable(input) && s < |Slots(input)|
    ensures a >= HEADER_SIZE
  {
    SlotOffsetBound(Slots(input), s);
    HeapBase(input) + SlotOffset(Slots(input), s)
  }

  function HeaderWord(input: PackInput, k: nat): u32
    requires Packable(input) && k < 12
  {
    if k < 8 then (if StringFields(input)[k].Some? then SlotAddress(input, k) else 0)
    else if k == PROPERTIES_OFFSET then HEADER_SIZE
    else if k == PROPERTIES_COUNT then |input.properties|
    else if k == CUSTOM_STRATEGIES_OFFSET then CustomTableStart(input)
    else |input.customResults|
  }

  function HeaderWords(input: PackInput): (ws: seq<u32>)
    requires Packable(input)
    ensures |ws| == 12 && forall k :: 0 <= k < 12 ==> ws[k] == HeaderWord(input, k)
  {
    seq(12, k requires 0 <= k < 12 => HeaderWord(input, k))
  }

  /** Properties table words: key and value offset of each entry in turn. */
  function PropWords(input: PackInput): (ws: seq<u32>)
    requires Packable(input)
    ensures |ws| == 2 * |input.properties|
    ensures forall j :: 0 <= j < |ws| ==> ws[j] == SlotAddress(input, 8 + j)
  {
    seq(2 * |input.properties|, j requires 0 <= j < 2 * |input.properties| => SlotAddress(input, 8 + j))
  }

  /** Where the custom-result table starts: right after the properties. */
  function CustomTableStart(input: PackInput): nat {
    HEADER_SIZE + 8 * |input.properties|
  }

  /** One 5-byte custom-result entry. */
  function CustomEntryBytes(key: u32, flag: bool): (b: Bytes)
    ensures |b| == 5
  {
    U32Bytes(key) + [if flag then 1 else 0]
  }

  function CustomTable(entries: seq<(u32, bool)>): (b: Bytes)
    ensures |b| == 5 * |entries|
  {
    if |entries| == 0 then [] else CustomEntryBytes(entries[0].0, entries[0].1) + CustomTable(entries[1..])
  }

  lemma {:induction false} CustomTableAt(entries: seq<(u32, bool)>, j: nat)
    requires j < |entries|
    ensures 5 * j + 5 <= |CustomTable(entries)|
    ensures CustomTable(entries)[5 * j..5 * j + 5] == CustomEntryBytes(entries[j].0, entries[j].1)
  {
    if j > 0 {
      CustomTableAt(entries[1..], j - 1);
      assert CustomTable(entries)[5 * j..5 * j + 5] == CustomTable(entries[1..])[5 * (j - 1)..5 * (j - 1) + 5];
    }
  }

  function CustomWords(input: PackInput): (es: seq<(u32, bool)>)
    requires Packable(input)
    ensures |es| == |input.customResults|
    ensures forall j :: 0 <= j < |es| ==>
              es[j] == (SlotAddress(input, 8 + 2 * |input.properties| + j), input.customResults[j].1)
  {
    seq(|input.customResults|, j requires 0 <= j < |input.customResults| =>
      (SlotAddress(input, 8 + 2 * |input.properties| + j), input.customResults[j].1))
  }

  function HeaderBytes(input: PackInput): (b: Bytes)
    requires Packable(input)
    ensures |b| == HEADER_SIZE
  {
    Words(HeaderWords(input)) + [MetricCode(input.metrics), 0, 0, 0]
  }

  /** The message laid out as the decoder expects it. */
  function Pack(input: PackInput): (buf: Bytes)
    requires Packable(input)
    ensures |buf| == EncodedSize(input)
  {
    HeaderBytes(input) + Words(PropWords(input)) + CustomTable(CustomWords(input)) + Heap(Slots(input))
  }

  /** The properties as table entries, every key and value present. */
  function PropPairs(input: PackInput): (es: seq<(Option<Bytes>, Option<Bytes>)>)
    ensures |es| == |input.properties|
  {
    seq(|input.properties|, i requires 0 <= i < |input.properties| =>
      (Some(input.properties[i].0), Some(input.properties[i].1)))
  }

  /** The custom results as table entries, every key and flag present. */
  function CustomPairs(input: PackInput): (es: seq<(Option<Bytes>, Option<bool>)>)
    ensures |es| == |input.customResults|
  {
    seq(|input.customResults|, i requires 0 <= i < |input.customResults| =>
      (Some(input.customResults[i].0), Some(input.customResults[i].1)))
  }

  /** The message a decoder should recover: absent fields stay absent, the
      tables become maps (last entry wins) and are absent when empty. */
  function Expected(input: PackInput): Message {
    Message(
      input.toggleName,
      PackedContext(input.userId, input.sessionId, input.remoteAddress, input.environment, input.appName,
                    input.currentTime,
                    if |input.properties| == 0 then None else Some(InsertPresent(PropPairs(input)))),
      if |input.customResults| == 0 then None else Some(InsertPresent(CustomPairs(input))),
      input.metrics,
      input.defaultVariantName)
  }

  // ---------------------------------------------------------------------------
  // Decode after encode
  // ---------------------------------------------------------------------------

  /** Where the four parts of a packed message sit. */
  lemma {:induction false} PackLaid(input: PackInput)
    requires Packable(input)
    ensures Placed(Pack(input), Words(HeaderWords(input)), 0)
    ensures |Pack(input)| >= HEADER_SIZE && Pack(input)[METRIC_BYTE] == MetricCode(input.metrics)
    ensures Placed(Pack(input), Words(PropWords(input)), HEADER_SIZE)
    ensures Placed(Pack(input), CustomTable(CustomWords(input)), CustomTableStart(input))
    ensures Placed(Pack(input), Heap(Slots(input)), HeapBase(input))
  {
    var header := HeaderBytes(input);
    PlacedParts(header, Words(PropWords(input)), CustomTable(CustomWords(input)), Heap(Slots(input)));
    PlacedPair(Words(HeaderWords(input)), [MetricCode(input.metrics), 0, 0, 0]);
    PlacedTrans(Pack(input), header, 0, Words(HeaderWords(input)), 0);
    PlacedByte(Pack(input), header, 0, METRIC_BYTE);
  }

  /** Where custom-result entry `j` of a table at `table` sits. */
  function EntryOffset(table: nat, j: nat): nat {
    table + 5 * j
  }

  /** What a reader sees of a custom-result table placed at `table`: entry
      `j` has its key offset at `table + 5 * j` and its flag right after. */
  predicate CustomsAt(buf: Bytes, entries: seq<(u32, bool)>, table: nat) {
    table + 5 * |entries| <= |buf|
    && forall j {:trigger EntryOffset(table, j)} :: 0 <= j < |entries| ==>
         ReadU32(buf, EntryOffset(table, j)) == entries[j].0 && (buf[EntryOffset(table, j) + 4] != 0) == entries[j].1
  }

  lemma {:induction false} PlacedCustomAt(buf: Bytes, entries: seq<(u32, bool)>, table: nat, j: nat)
    requires Placed(buf, CustomTable(entries), table) && j < |entries|
    ensures table + 5 * j + 5 <= |buf|
    ensures ReadU32(buf, table + 5 * j) == entries[j].0
    ensures (buf[table + 5 * j + 4] != 0) == entries[j].1
  {
    var part := CustomTable(entries);
    CustomTableAt(entries, j);
    var entry := part[5 * j..5 * j + 5];
    assert part[5 * j..5 * j + 4] == entry[..4] == U32Bytes(entries[j].0);
    ReadPlacedU32(buf, part, table, 5 * j, entries[j].0);
    PlacedByte(buf, part, table, 5 * j + 4);
    assert part[5 * j + 4] == entry[4];
  }

  lemma {:induction false} CustomRead(buf: Bytes, entries: seq<(u32, bool)>, table: nat, j: nat)
    requires CustomsAt(buf, entries, table) && j < |entries|
    ensures table + 5 * j + 5 <= |buf|
    ensures ReadU32(buf, table + 5 * j) == entries[j].0 && (buf[table + 5 * j + 4] != 0) == entries[j].1
  {
    assert ReadU32(buf, EntryOffset(table, j)) == entries[j].0;
  }

  lemma {:induction false} PlacedCustomsAt(buf: Bytes, entries: seq<(u32, bool)>, table: nat)
    requires Placed(buf, CustomTable(entries), table)
    ensures CustomsAt(buf, entries, table)
  {
    forall j | 0 <= j < |entries|
      ensures ReadU32(buf, EntryOffset(table, j)) == entries[j].0 && (buf[EntryOffset(table, j) + 4] != 0) == entries[j].1
    {
      PlacedCustomAt(buf, entries, table, j);
    }
  }

  /** Everything a reader sees of a buffer laid out like `Pack(input)`. */
  predicate ReadsAs(input: PackInput, buf: Bytes)
    requires Packable(input)
  {
    |buf| >= HEADER_SIZE
    && WordsAt(buf, HeaderWords(input), 0)
    && buf[METRIC_BYTE] == MetricCode(input.metrics)
    && WordsAt(buf, PropWords(input), HEADER_SIZE)
    && CustomsAt(buf, CustomWords(input), CustomTableStart(input))
    && StringsAt(buf, Slots(input), HeapBase(input))
  }

  lemma {:induction false} PackReadsAs(input: PackInput)
    requires Packable(input)
    ensures ReadsAs(input, Pack(input))
  {
    var buf := Pack(input);
    PackLaid(input);
    PlacedWordsAt(buf, HeaderWords(input), 0);
    PlacedWordsAt(buf, PropWords(input), HEADER_SIZE);
    PlacedCustomsAt(buf, CustomWords(input), CustomTableStart(input));
    PlacedStringsAt(buf, Slots(input), HeapBase(input));
  }

  /** The header strings sit in the first eight slots. */
  lemma {:induction false} HeaderSlot(input: PackInput, k: nat)
    requires k < 8
    ensures Slots(input)[k] == StringFields(input)[k].GetOr([])
  {
  }

  lemma {:induction false} PropSlots(input: PackInput, i: nat)
    requires i < |input.properties|
    ensures Slots(input)[8 + 2 * i] == input.properties[i].0
    ensures Slots(input)[8 + 2 * i + 1] == input.properties[i].1
  {
    var np := |input.properties|;
    var pairs := seq(2 * np, j requires 0 <= j < 2 * np => if j % 2 == 0 then input.properties[j / 2].0 else input.properties[j / 2].1);
    assert (2 * i) % 2 == 0 && (2 * i) / 2 == i;
    assert (2 * i + 1) % 2 == 1 && (2 * i + 1) / 2 == i;
    assert pairs[2 * i] == input.properties[i].0;
    assert pairs[2 * i + 1] == input.properties[i].1;
    assert Slots(input)[8 + 2 * i] == pairs[2 * i];
    assert Slots(input)[8 + 2 * i + 1] == pairs[2 * i + 1];
  }

  lemma {:induction false} CustomSlot(input: PackInput, j: nat)
    requires j < |input.customResults|
    ensures Slots(input)[8 + 2 * |input.properties| + j] == input.customResults[j].0
  {
  }

  /** Header strings seen through the reader view: a zero word is absent,
      a word holding a heap offset is that heap string. */
  lemma {:induction false} HeaderFromReads(buf: Bytes, hw: seq<u32>, strs: seq<Bytes>, base: nat, fields: seq<Option<Bytes>>)
    requires |buf| >= HEADER_SIZE && |hw| == 12 && |fields| == 8 && |strs| >= 8
    requires WordsAt(buf, hw, 0) && StringsAt(buf, strs, base)
    requires forall k :: 0 <= k < 8 ==> fields[k].None? ==> hw[k] == 0
    requires forall k :: 0 <= k < 8 ==> fields[k].Some? ==> hw[k] == base + SlotOffset(strs, k) && strs[k] == fields[k].value
    ensures forall k :: 0 <= k < 12 ==> HeaderField(buf, k) == hw[k]
    ensures forall k :: 0 <= k < 8 ==> StringReadable(buf, HeaderField(buf, k)) && GetString(HeaderField(buf, k), buf) == fields[k]
  {
    forall k | 0 <= k < 12
      ensures HeaderField(buf, k) == hw[k]
    {
      WordRead(buf, hw, 0, k, 4 * k);
    }
    forall k | 0 <= k < 8
      ensures StringReadable(buf, HeaderField(buf, k)) && GetString(HeaderField(buf, k), buf) == fields[k]
    {
      if fields[k].Some? {
        StringRead(buf, strs, base, k);
      }
    }
  }

  /** The properties table seen through the reader view: word `2i` / `2i+1`
      holds the offset of heap string `8+2i` / `9+2i`, which are the key and
      value of property `i`. */
  lemma {:induction false} PropsFromReads(buf: Bytes, props: seq<(Bytes, Bytes)>, ws: seq<u32>, strs: seq<Bytes>, base: nat)
    requires |ws| == 2 * |props| && |strs| >= 8 + 2 * |props|
    requires WordsAt(buf, ws, HEADER_SIZE) && StringsAt(buf, strs, base)
    requires forall j :: 0 <= j < |ws| ==> ws[j] == base + SlotOffset(strs, 8 + j)
    requires forall i :: 0 <= i < |props| ==> strs[8 + 2 * i] == props[i].0 && strs[8 + 2 * i + 1] == props[i].1
    ensures forall i :: 0 <= i < |props| ==> PropEntryDecodable(buf, HEADER_SIZE, i)
    ensures forall i :: 0 <= i < |props| ==>
              PropKey(buf, HEADER_SIZE, i) == Some(props[i].0) && PropValue(buf, HEADER_SIZE, i) == Some(props[i].1)
  {
    forall i | 0 <= i < |props|
      ensures PropEntryDecodable(buf, HEADER_SIZE, i)
      ensures PropKey(buf, HEADER_SIZE, i) == Some(props[i].0) && PropValue(buf, HEADER_SIZE, i) == Some(props[i].1)
    {
      SlotString(buf, strs, base, 8 + 2 * i, ws[2 * i], props[i].0);
      SlotString(buf, strs, base, 8 + 2 * i + 1, ws[2 * i + 1], props[i].1);
      PropEntryAt(buf, ws, HEADER_SIZE, i, props[i].0, props[i].1);
    }
  }

  /** Heap string `s` read at the address some table entry holds. */
  lemma {:induction false} SlotString(buf: Bytes, strs: seq<Bytes>, base: nat, s: nat, address: nat, str: Bytes)
    requires StringsAt(buf, strs, base) && s < |strs|
    requires address == base + SlotOffset(strs, s) && strs[s] == str
    ensures StringReadable(buf, address) && GetString(address, buf) == Some(str)
  {
    StringRead(buf, strs, base, s);
  }

  /** Property entry `i` whose two words address the strings `key` and
      `value` decodes to that pair. */
  lemma {:induction false} PropEntryAt(buf: Bytes, ws: seq<u32>, table: nat, i: nat, key: Bytes, value: Bytes)
    requires 2 * i + 1 < |ws| && WordsAt(buf, ws, table)
    requires StringReadable(buf, ws[2 * i]) && GetString(ws[2 * i], buf) == Some(key)
    requires StringReadable(buf, ws[2 * i + 1]) && GetString(ws[2 * i + 1], buf) == Some(value)
    ensures PropEntryDecodable(buf, table, i)
    ensures PropKey(buf, table, i) == Some(key) && PropValue(buf, table, i) == Some(value)
  {
    WordString(buf, ws, table, 2 * i, table + 8 * i, key);
    WordString(buf, ws, table, 2 * i + 1, table + 8 * i + 4, value);
  }

  /** A word of a table that addresses a readable string `str`. */
  lemma {:induction false} WordString(buf: Bytes, ws: seq<u32>, start: nat, k: nat, p: nat, str: Bytes)
    requires WordsAt(buf, ws, start) && k < |ws| && p == start + 4 * k
    requires StringReadable(buf, ws[k]) && GetString(ws[k], buf) == Some(str)
    ensures p + 4 <= |buf| && StringReadable(buf, ReadU32(buf, p)) && GetString(ReadU32(buf, p), buf) == Some(str)
  {
    WordRead(buf, ws, start, k, p);
  }

  /** The custom-result table seen through the reader view: entry `j` holds
      the offset of heap string `first + j`, the key of result `j`, and its
      flag. */
  lemma {:induction false} CustomsFromReads(buf: Bytes, results: seq<(Bytes, bool)>, entries: seq<(u32, bool)>, table: nat,
                                            strs: seq<Bytes>, base: nat, first: nat)
    requires |entries| == |results| && first + |results| <= |strs|
    requires CustomsAt(buf, entries, table) && StringsAt(buf, strs, base)
    requires forall j :: 0 <= j < |entries| ==> entries[j] == (base + SlotOffset(strs, first + j), results[j].1)
    requires forall j :: 0 <= j < |results| ==> strs[first + j] == results[j].0
    ensures forall j :: 0 <= j < |results| ==> CustomEntryDecodable(buf, table, j)
    ensures forall j :: 0 <= j < |results| ==>
              CustomKey(buf, table, j) == Some(results[j].0) && CustomFlag(buf, table, j) == results[j].1
  {
    forall j | 0 <= j < |results|
      ensures CustomEntryDecodable(buf, table, j)
      ensures CustomKey(buf, table, j) == Some(results[j].0) && CustomFlag(buf, table, j) == results[j].1
    {
      CustomRead(buf, entries, table, j);
      StringRead(buf, strs, base, first + j);
    }
  }

  /** The slot facts the reader view needs, from the layout definitions. */
  /** Where the encoder put the eight header strings: an absent one has
      offset 0, a present one the address of its heap slot. */
  lemma {:induction false} HeaderLayout(input: PackInput)
    requires Packable(input)
    ensures forall k :: 0 <= k < 8 ==> StringFields(input)[k].None? ==> HeaderWords(input)[k] == 0
    ensures forall k :: 0 <= k < 8 ==> StringFields(input)[k].Some? ==>
              HeaderWords(input)[k] == HeapBase(input) + SlotOffset(Slots(input), k) && Slots(input)[k] == StringFields(input)[k].value
  {
    forall k | 0 <= k < 8
      ensures Slots(input)[k] == StringFields(input)[k].GetOr([])
    {
      HeaderSlot(input, k);
    }
  }

  /** Where the encoder put the property strings: word `j` of the table
      addresses heap slot `8 + j`, which holds the key or value it stands for. */
  lemma {:induction false} PropsLayout(input: PackInput)
    requires Packable(input)
    ensures forall j :: 0 <= j < |PropWords(input)| ==> PropWords(input)[j] == HeapBase(input) + SlotOffset(Slots(input), 8 + j)
    ensures forall i :: 0 <= i < |input.properties| ==>
              Slots(input)[8 + 2 * i] == input.properties[i].0 && Slots(input)[8 + 2 * i + 1] == input.properties[i].1
  {
    forall i | 0 <= i < |input.properties|
      ensures Slots(input)[8 + 2 * i] == input.properties[i].0 && Slots(input)[8 + 2 * i + 1] == input.properties[i].1
    {
      PropSlots(input, i);
    }
  }

  /** Where the encoder put the custom-result keys: entry `j` addresses the
      heap slot after the properties' that holds key `j`, and carries its flag. */
  lemma {:induction false} CustomsLayout(input: PackInput)
    requires Packable(input)
    ensures forall j :: 0 <= j < |CustomWords(input)| ==>
              CustomWords(input)[j] == (HeapBase(input) + SlotOffset(Slots(input), 8 + 2 * |input.properties| + j), input.customResults[j].1)
    ensures forall j :: 0 <= j < |input.customResults| ==> Slots(input)[8 + 2 * |input.properties| + j] == input.customResults[j].0
  {
    forall j | 0 <= j < |input.customResults|
      ensures Slots(input)[8 + 2 * |input.properties| + j] == input.customResults[j].0
    {
      CustomSlot(input, j);
    }
  }

  /** The header of a packed message can be read, and its fields are as
      written. */
  /** A header whose words and strings read as `hw` and `fields`, with a
      toggle name and a valid metric byte, is decodable and its string fields
      are `fields`. */
  lemma {:induction false} HeaderStrings(buf: Bytes, hw: seq<u32>, fields: seq<Option<Bytes>>)
    requires |buf| >= HEADER_SIZE && |hw| == 12 && |fields| == 8
    requires buf[METRIC_BYTE] <= 2 && hw[TOGGLE_NAME] != 0
    requires forall k :: 0 <= k < 12 ==> HeaderField(buf, k) == hw[k]
    requires forall k :: 0 <= k < 8 ==> StringReadable(buf, HeaderField(buf, k)) && GetString(HeaderField(buf, k), buf) == fields[k]
    ensures HeaderDecodable(buf)
    ensures forall k :: 0 <= k < 8 ==> HeaderString(buf, k) == fields[k]
  {
    assert HeaderField(buf, TOGGLE_NAME) == hw[TOGGLE_NAME];
  }

  lemma {:induction false} HeaderPartDecodable(input: PackInput, buf: Bytes)
    requires Packable(input) && ReadsAs(input, buf)
    ensures HeaderDecodable(buf)
    ensures HeaderField(buf, PROPERTIES_OFFSET) == HEADER_SIZE
    ensures HeaderField(buf, PROPERTIES_COUNT) == |input.properties|
    ensures HeaderField(buf, CUSTOM_STRATEGIES_OFFSET) == CustomTableStart(input)
    ensures HeaderField(buf, CUSTOM_STRATEGIES_COUNT) == |input.customResults|
    ensures HeaderString(buf, TOGGLE_NAME) == Some(input.toggleName)
    ensures HeaderString(buf, USER_ID) == input.userId
    ensures HeaderString(buf, SESSION_ID) == input.sessionId
    ensures HeaderString(buf, REMOTE_ADDRESS) == input.remoteAddress
    ensures HeaderString(buf, ENVIRONMENT) == input.environment
    ensures HeaderString(buf, CURRENT_TIME) == input.currentTime
    ensures HeaderString(buf, APP_NAME) == input.appName
    ensures HeaderString(buf, DEFAULT_VARIANT_NAME) == input.defaultVariantName
    ensures MetricOf(buf[METRIC_BYTE]) == input.metrics
  {
    var hw := HeaderWords(input);
    var fs := StringFields(input);
    HeaderLayout(input);
    HeaderFromReads(buf, hw, Slots(input), HeapBase(input), fs);
    HeaderStrings(buf, hw, fs);
    assert fs[USER_ID] == input.userId && fs[SESSION_ID] == input.sessionId && fs[REMOTE_ADDRESS] == input.remoteAddress;
    assert fs[ENVIRONMENT] == input.environment && fs[CURRENT_TIME] == input.currentTime;
    assert fs[APP_NAME] == input.appName && fs[DEFAULT_VARIANT_NAME] == input.defaultVariantName;
  }

  /** The properties table of a packed message reads back entry by entry. */
  lemma {:induction false} PropsReadBack(input: PackInput, buf: Bytes)
    requires Packable(input) && ReadsAs(input, buf)
    ensures forall i :: 0 <= i < |input.properties| ==> PropEntryDecodable(buf, HEADER_SIZE, i)
    ensures PropEntries(buf, HEADER_SIZE, |input.properties|) == PropPairs(input)
  {
    PropsLayout(input);
    PropsFromReads(buf, input.properties, PropWords(input), Slots(input), HeapBase(input));
  }

  /** The custom-result table of a packed message reads back entry by entry. */
  lemma {:induction false} CustomsReadBack(input: PackInput, buf: Bytes)
    requires Packable(input) && ReadsAs(input, buf)
    ensures forall j :: 0 <= j < |input.customResults| ==> CustomEntryDecodable(buf, CustomTableStart(input), j)
    ensures CustomEntries(buf, CustomTableStart(input), |input.customResults|) == CustomPairs(input)
  {
    CustomsLayout(input);
    CustomsFromReads(buf, input.customResults, CustomWords(input), CustomTableStart(input), Slots(input), HeapBase(input),
                     8 + 2 * |input.properties|);
  }

  lemma {:induction false} TablesDecodable(buf: Bytes, np: nat, table: nat, nc: nat)
    requires HeaderDecodable(buf)
    requires HeaderField(buf, PROPERTIES_OFFSET) == HEADER_SIZE && HeaderField(buf, PROPERTIES_COUNT) == np
    requires HeaderField(buf, CUSTOM_STRATEGIES_OFFSET) == table && HeaderField(buf, CUSTOM_STRATEGIES_COUNT) == nc
    requires forall i :: 0 <= i < np ==> PropEntryDecodable(buf, HEADER_SIZE, i)
    requires forall j :: 0 <= j < nc ==> CustomEntryDecodable(buf, table, j)
    ensures Decodable(buf)
  {
  }

  /** The decoder's result, given what each part of the buffer reads back as. */
  lemma {:induction false} UnpackReadBack(input: PackInput, buf: Bytes)
    requires Decodable(buf)
    requires HeaderField(buf, PROPERTIES_OFFSET) == HEADER_SIZE
    requires HeaderField(buf, PROPERTIES_COUNT) == |input.properties|
    requires HeaderField(buf, CUSTOM_STRATEGIES_OFFSET) == CustomTableStart(input)
    requires HeaderField(buf, CUSTOM_STRATEGIES_COUNT) == |input.customResults|
    requires HeaderString(buf, TOGGLE_NAME) == Some(input.toggleName)
    requires HeaderString(buf, USER_ID) == input.userId
    requires HeaderString(buf, SESSION_ID) == input.sessionId
    requires HeaderString(buf, REMOTE_ADDRESS) == input.remoteAddress
    requires HeaderString(buf, ENVIRONMENT) == input.environment
    requires HeaderString(buf, CURRENT_TIME) == input.currentTime
    requires HeaderString(buf, APP_NAME) == input.appName
    requires HeaderString(buf, DEFAULT_VARIANT_NAME) == input.defaultVariantName
    requires MetricOf(buf[METRIC_BYTE]) == input.metrics
    requires PropEntries(buf, HEADER_SIZE, |input.properties|) == PropPairs(input)
    requires CustomEntries(buf, CustomTableStart(input), |input.customResults|) == CustomPairs(input)
    ensures Unpack(buf) == Success(Expected(input))
  {
  }

  /** A buffer that reads like a packed message decodes to the message
      written. */
  lemma {:induction false} ReadsAsUnpacks(input: PackInput, buf: Bytes)
    requires Packable(input) && ReadsAs(input, buf)
    ensures Decodable(buf)
    ensures Unpack(buf) == Success(Expected(input))
  {
    HeaderPartDecodable(input, buf);
    PropsReadBack(input, buf);
    CustomsReadBack(input, buf);
    TablesDecodable(buf, |input.properties|, CustomTableStart(input), |input.customResults|);
    UnpackReadBack(input, buf);
  }

  /** A packed message never makes the decoder panic. */
  lemma {:induction false} PackDecodable(input: PackInput)
    requires Packable(input)
    ensures Decodable(Pack(input))
  {
    PackReadsAs(input);
    ReadsAsUnpacks(input, Pack(input));
  }

  /** Decode after encode: unpacking a packed message recovers every present
      field, keeps every absent field absent (never empty), and turns the two
      tables into their last-entry-wins maps, absent when empty. */
  lemma {:induction false} UnpackPack(input: PackInput)
    requires Packable(input)
    ensures Decodable(Pack(input))
    ensures Unpack(Pack(input)) == Success(Expected(input))
  {
    PackReadsAs(input);
    ReadsAsUnpacks(input, Pack(input));
  }
}

=== FILE: pure_wasm.dfy ===
/** The reply side of the `pure-wasm` engine (`pure-wasm/src/serialisation.rs`,
    `pure-wasm/src/logging.rs`) and the Java host that reads it
    (`java-engine/.../WasmInterface.java`). A reply is a FlatBuffers table
    copied out of a thread-local builder and handed over as one `u64` carrying
    pointer and length. FlatBuffers encoding itself is not modelled: a table
    is the record of the fields that were set, with the schema default for
    the ones that were not. */
module PureWasm {
  import opened Common
  import opened Features
  import opened FfiEnvelope

  // ---------------------------------------------------------------------------
  // Pointer and length in one u64
  // ---------------------------------------------------------------------------

  /** `build_response`: `((len as u64) << 32) | ptr as u64`. */
  function PackReply(ptr: bv32, len: bv32): (packed: bv64) {
    ((len as bv64) << 32) | (ptr as bv64)
  }

  /** `derefWasmPointer`: `ptr = (int) (packed & 0xFFFFFFFFL)`,
      `len = (int) (packed >>> 32)`, as the 32 bits each int holds. */
  function UnpackReply(packed: bv64): (r: (bv32, bv32)) {
    ((packed & 0xFFFF_FFFF) as bv32, (packed >> 32) as bv32)
  }

  /** The host recovers exactly the pointer and length the guest packed, and
      every packed value is the packing of what the host reads from it. */
  lemma PackRoundTrip(ptr: bv32, len: bv32, packed: bv64)
    ensures UnpackReply(PackReply(ptr, len)) == (ptr, len)
    ensures PackReply(UnpackReply(packed).0, UnpackReply(packed).1) == packed
  {
  }

  /** The value of Java's `(int)` cast: the 32 bits read as two's complement. */
  function JavaInt(b: bv32): (i: int)
    ensures -0x8000_0000 <= i < 0x8000_0000
    ensures i >= 0 <==> b as int < 0x8000_0000
  {
    var v := b as int;
    if v < 0x8000_0000 then v else v - 0x1_0000_0000
  }

  /** Below 2^31 the Java ints are the pointer and length themselves. */
  lemma JavaIntsAreValues(ptr: bv32, len: bv32)
    requires ptr as int < 0x8000_0000 && len as int < 0x8000_0000
    ensures JavaInt(UnpackReply(PackReply(ptr, len)).0) == ptr as int
    ensures JavaInt(UnpackReply(PackReply(ptr, len)).1) == len as int
  {
    PackRoundTrip(ptr, len, 0);
  }

  /** The thread-local `FlatBufferBuilder`: the bytes written into it since
      it was last reset. Between calls it keeps the previous reply. */
  datatype Builder = Builder(written: seq<u8>)

  /** `builder.reset()`: everything written so far is discarded. */
  function Reset(b: Builder): (r: Builder)
    ensures r.written == []
  {
    b.(written := [])
  }

  /** Writing a table (`as_flat_buffer` and `finish`): the bytes follow
      whatever the builder already holds. */
  function Write(b: Builder, bytes: seq<u8>): (r: Builder)
    ensures r.written == b.written + bytes
    ensures |r.written| == |b.written| + |bytes|
  {
    b.(written := b.written + bytes)
  }

  /** `build_response`: reset the builder, write the table, copy out the
      finished data; the builder is left holding the reply. */
  function BuildResponse<T>(b: Builder, encode: T -> seq<u8>, input: T): (r: (seq<u8>, Builder))
    ensures r.1.written == r.0
  {
    var built := Write(Reset(b), encode(input));
    (built.written, built)
  }

  /** Whatever an earlier reply left in the builder, the reply is exactly
      the new table. */
  lemma NoLeftoverLeaks<T>(b: Builder, encode: T -> seq<u8>, input: T)
    ensures BuildResponse(b, encode, input).0 == encode(input)
  {
  }

  /** Writing without the reset would put the previous reply in front. */
  lemma WriteKeepsLeftover(b: Builder, bytes: seq<u8>)
    requires |b.written| > 0
    ensures Write(b, bytes).written != bytes
  {
  }

  /** A run of calls on one thread: each reply, and the builder they share
      afterwards. */
  function BuildAll<T>(b: Builder, encode: T -> seq<u8>, inputs: seq<T>): (r: (seq<seq<u8>>, Builder))
    ensures |r.0| == |inputs|
    decreases |inputs|
  {
    if |inputs| == 0 then ([], b)
    else
      var first := BuildResponse(b, encode, inputs[0]);
      var rest := BuildAll(first.1, encode, inputs[1..]);
      ([first.0] + rest.0, rest.1)
  }

  /** Every reply of a run is exactly its own input's table, whatever the
      builder held when the run began. */
  lemma {:induction false} RepliesIndependent<T>(b: Builder, encode: T -> seq<u8>, inputs: seq<T>)
    ensures forall i :: 0 <= i < |inputs| ==> BuildAll(b, encode, inputs).0[i] == encode(inputs[i])
    decreases |inputs|
  {
    if |inputs| > 0 {
      var first := BuildResponse(b, encode, inputs[0]);
      NoLeftoverLeaks(b, encode, inputs[0]);
      RepliesIndependent(first.1, encode, inputs[1..]);
      var r := BuildAll(b, encode, inputs);
      forall i | 0 <= i < |inputs|
        ensures r.0[i] == encode(inputs[i])
      {
        if i > 0 {
          assert r.0[i] == BuildAll(first.1, encode, inputs[1..]).0[i - 1];
        }
      }
    }
  }

  // ---------------------------------------------------------------------------
  // Tables
  // ---------------------------------------------------------------------------

  /** `Result<Option<T>, WasmError>` with the error already printed. */
  datatype WasmResult<T> = WasmOk(value: Option<T>) | WasmErr(text: string)

  /** The `Response` table: `enabled` and `has_enabled` default to false. */
  datatype FlatResponse = FlatResponse(enabled: bool, hasEnabled: bool, error: Option<string>)

  function BoolTable(from: WasmResult<bool>): (t: FlatResponse)
    ensures t.hasEnabled <==> from.WasmOk? && from.value.Some?
    ensures t.error.Some? <==> from.WasmErr?
    ensures !t.hasEnabled ==> !t.enabled
  {
    match from
    case WasmOk(Some(flag)) => FlatResponse(flag, true, None)
    case WasmOk(None) => FlatResponse(false, false, None)
    case WasmErr(text) => FlatResponse(false, false, Some(text))
  }

  /** How a reader interprets the table: an error, else the flag when
      `has_enabled` is set. */
  function ReadBoolTable(t: FlatResponse): WasmResult<bool> {
    if t.error.Some? then WasmErr(t.error.value)
    else if t.hasEnabled then WasmOk(Some(t.enabled))
    else WasmOk(None)
  }

  lemma BoolTableRoundTrip(from: WasmResult<bool>)
    ensures ReadBoolTable(BoolTable(from)) == from
  {
  }

  /** The `Variant` table. */
  datatype FlatVariant = FlatVariant(
    featureEnabled: bool,
    enabled: bool,
    name: Option<string>,
    payload: Option<Payload>,
    error: Option<string>)

  const EMPTY_VARIANT_TABLE: FlatVariant := FlatVariant(false, false, None, None, None)

  function VariantTable(from: WasmResult<ExtendedVariantDef>): (t: FlatVariant)
    ensures from == WasmOk(None) ==> t == EMPTY_VARIANT_TABLE
    ensures from.WasmErr? ==> t == EMPTY_VARIANT_TABLE.(error := Some(from.text))
    ensures from.WasmOk? && from.value.Some? ==> t.name == Some(from.value.value.name) && t.payload == from.value.value.payload
  {
    match from
    case WasmOk(Some(v)) => FlatVariant(v.featureEnabled, v.enabled, Some(v.name), v.payload, None)
    case WasmOk(None) => EMPTY_VARIANT_TABLE
    case WasmErr(text) => EMPTY_VARIANT_TABLE.(error := Some(text))
  }

  /** A reader: an error, else no variant when the name is unset, else the
      variant with its flags and optional payload. */
  function ReadVariantTable(t: FlatVariant): WasmResult<ExtendedVariantDef> {
    if t.error.Some? then WasmErr(t.error.value)
    else if t.name.None? then WasmOk(None)
    else WasmOk(Some(ExtendedVariantDef(t.name.value, t.payload, t.enabled, t.featureEnabled)))
  }

  lemma VariantTableRoundTrip(from: WasmResult<ExtendedVariantDef>)
    ensures ReadVariantTable(VariantTable(from)) == from
  {
  }

  /** Per-toggle counts of a metrics bucket, in the order the map is walked. */
  datatype ToggleStats = ToggleStats(yes: nat, no: nat, variants: seq<(string, nat)>)
  datatype MetricBucket = MetricBucket(start: int, stop: int, toggles: seq<(string, ToggleStats)>)

  /** The `MetricsBucket` table; an unset vector reads as empty and unset
      timestamps as 0. */
  datatype FlatBucket = FlatBucket(start: int, stop: int, toggles: seq<(string, ToggleStats)>)

  function BucketTable(metrics: Option<MetricBucket>): (t: FlatBucket)
    ensures metrics.None? ==> t == FlatBucket(0, 0, [])
    ensures metrics.Some? ==> t.toggles == metrics.value.toggles && t.start == metrics.value.start && t.stop == metrics.value.stop
  {
    match metrics
    case Some(m) => FlatBucket(m.start, m.stop, m.toggles)
    case None => FlatBucket(0, 0, [])
  }

  /** `ToggleDefinition`. */
  datatype ToggleDefinition = ToggleDefinition(name: string, project: string, featureType: Option<string>, enabled: bool)
  datatype FlatFeatureDef = FlatFeatureDef(name: string, project: string, enabled: bool, featureType: Option<string>)

  function FeatureDefsTable(toggles: seq<ToggleDefinition>): (items: seq<FlatFeatureDef>)
    ensures |items| == |toggles|
    ensures forall i :: 0 <= i < |toggles| ==>
              items[i].name == toggles[i].name && items[i].project == toggles[i].project
              && items[i].enabled == toggles[i].enabled && items[i].featureType == toggles[i].featureType
  {
    seq(|toggles|, i requires 0 <= i < |toggles| =>
      FlatFeatureDef(toggles[i].name, toggles[i].project, toggles[i].enabled, toggles[i].featureType))
  }

  /** The definitions can be read back from the table, in order. */
  lemma FeatureDefsRoundTrip(toggles: seq<ToggleDefinition>)
    ensures var items := FeatureDefsTable(toggles);
            seq(|items|, i requires 0 <= i < |items| =>
              ToggleDefinition(items[i].name, items[i].project, items[i].featureType, items[i].enabled)) == toggles
  {
  }

  // ---------------------------------------------------------------------------
  // The log buffer
  // ---------------------------------------------------------------------------

  /** `BufWriter` over the shared log buffer. */
  datatype LogWriter = LogWriter(buf: seq<u8>, pos: nat)

  /** The writable room: one byte is kept for the terminator. */
  function Capacity(len: nat): (c: nat)
    ensures len > 0 ==> c == len - 1
    ensures len == 0 ==> c == 0
  {
    if len > 0 then len - 1 else 0
  }

  function Min(a: nat, b: nat): nat {
    if a <= b then a else b
  }

  /** `write_str`: copies as much of `s` as fits before the reserved byte. */
  function WriteStr(w: LogWriter, s: seq<u8>): (r: LogWriter)
    requires w.pos <= Capacity(|w.buf|)
    ensures |r.buf| == |w.buf| && r.pos == w.pos + Min(|s|, Capacity(|w.buf|) - w.pos)
    ensures r.pos <= Capacity(|w.buf|)
    ensures r.buf[..w.pos] == w.buf[..w.pos]
    ensures r.buf[w.pos..r.pos] == s[..r.pos - w.pos]
    ensures forall i :: r.pos <= i < |w.buf| ==> r.buf[i] == w.buf[i]
  {
    var space := if |w.buf| >= w.pos + 1 then |w.buf| - (w.pos + 1) else 0;
    var count := Min(|s|, space);
    LogWriter(w.buf[..w.pos] + s[..count] + w.buf[w.pos + count..], w.pos + count)
  }

  /** `finalize`: a NUL at the position reached, when it lies in the buffer,
      and the number of bytes written. */
  function Finalize(w: LogWriter): (r: (seq<u8>, nat))
    requires w.pos <= |w.buf|
    ensures |r.0| == |w.buf| && r.1 == w.pos
    ensures w.pos < |w.buf| ==> r.0[w.pos] == 0
    ensures forall i :: 0 <= i < |w.buf| && i != w.pos ==> r.0[i] == w.buf[i]
  {
    if w.pos < |w.buf| then (w.buf[w.pos := 0], w.pos) else (w.buf, w.pos)
  }

  /** The formatted message: the pieces `write!` hands to `write_str`. */
  function Concat(parts: seq<seq<u8>>): (m: seq<u8>)
  {
    if |parts| == 0 then [] else Concat(parts[..|parts| - 1]) + parts[|parts| - 1]
  }

  /** `wasm_log!`: the buffer after the call and the count the macro
      returns. The stored bytes are the message truncated to the buffer less
      one byte, a NUL follows them, and nothing after it is touched. */
  method WasmLog(buf: seq<u8>, parts: seq<seq<u8>>) returns (out: seq<u8>, n: nat)
    ensures |out| == |buf|
    ensures n == Min(|Concat(parts)|, Capacity(|buf|))
    ensures out[..n] == Concat(parts)[..n]
    ensures |buf| > 0 ==> n < |buf| && out[n] == 0
    ensures forall i :: n < i < |buf| ==> out[i] == buf[i]
  {
    var w := LogWriter(buf, 0);
    var k := 0;
    while k < |parts|
      invariant 0 <= k <= |parts|
      invariant |w.buf| == |buf| && w.pos == Min(|Concat(parts[..k])|, Capacity(|buf|))
      invariant w.buf[..w.pos] == Concat(parts[..k])[..w.pos]
      invariant forall i :: w.pos <= i < |buf| ==> w.buf[i] == buf[i]
    {
      var before := w;
      w := WriteStr(w, parts[k]);
      assert parts[..k + 1][..k] == parts[..k];
      assert Concat(parts[..k + 1]) == Concat(parts[..k]) + parts[k];
      assert w.buf[..w.pos] == before.buf[..before.pos] + w.buf[before.pos..w.pos];
      k := k + 1;
    }
    assert parts[..k] == parts;
    out, n := Finalize(w).0, Finalize(w).1;
    assert out[..n] == w.buf[..n];
  }
}

=== FILE: python_binding.dfy ===
/** The Python binding's reading of engine replies
    (`python-engine/yggdrasil_engine/engine.py`): every reply goes through the
    context manager `materialize_pointer`, whose `finally` block releases it
    after the caller's own block has run, whatever that block does. JSON
    decoding is the parameter outcome `PyReply`. */
module PythonBinding {
  import opened Common
  import opened FfiEnvelope
  import opened ReleaseLedger

  /** A JSON object as `json.loads` returns it, reduced to the three keys the
      binding looks up with `[...]` or `.get`. */
  datatype PyEnvelope<V> = PyEnvelope(statusCode: Option<string>, value: Option<V>, errorMessage: Option<string>)

  /** The reply: bytes that decode and load as a JSON object, or a failure of
      `.decode("utf-8")` / `json.loads` with its message. */
  datatype PyReply<V> = Loaded(envelope: PyEnvelope<V>) | Unloadable(message: string)

  /** `StatusCode`. */
  datatype PyStatus = PyOk | PyNotFound | PyError

  /** `StatusCode(value)`: the enum member with that value, or `ValueError`. */
  function PyStatusOf(name: string): (s: Option<PyStatus>)
    ensures s.Some? <==> ParseStatusName(name).Some?
  {
    if name == "Ok" then Some(PyOk)
    else if name == "NotFound" then Some(PyNotFound)
    else if name == "Error" then Some(PyError)
    else None
  }

  /** `Response`. */
  datatype PyResponse<W> = PyResponse(statusCode: PyStatus, value: Option<W>, errorMessage: Option<string>)

  /** `Response.from_json`: a missing status raises `KeyError`, an unknown
      one `ValueError`; an absent value stays `None`, and a present one goes
      through the deserializer registered for the requested type (the
      parameter `convert`). */
  function FromJson<V, W>(data: PyEnvelope<V>, convert: V -> W): (r: HostResult<PyResponse<W>>)
    ensures r.Returned? <==> data.statusCode.Some? && PyStatusOf(data.statusCode.value).Some?
    ensures r.Returned? ==> r.value.statusCode == PyStatusOf(data.statusCode.value).value
                            && (r.value.value.Some? <==> data.value.Some?)
                            && (data.value.Some? ==> r.value.value.value == convert(data.value.value))
                            && r.value.errorMessage == data.errorMessage
    ensures !r.Exited?
  {
    match data.statusCode
    case None => Raised("KeyError: 'status_code'")
    case Some(name) =>
      match PyStatusOf(name)
      case None => Raised("ValueError: '" + name + "' is not a valid StatusCode")
      case Some(status) =>
        var value := if data.value.Some? then Some(convert(data.value.value)) else None;
        Returned(PyResponse(status, value, data.errorMessage))
  }

  /** `materialize_pointer` around a caller's block: load, build the
      response, run the block on it, and release the reply in `finally`
      whether loading, building or the block raised. */
  function Materialize<V, W, R>(reply: PyReply<V>, convert: V -> W, block: PyResponse<W> -> HostResult<R>)
    : (c: HostCall<R>)
    ensures ReleasedOnce(c.trace, Reply) && c.trace[|c.trace| - 1] == Released(Reply)
    ensures Decoded in c.trace ==> Precedes(c.trace, Decoded, Released(Reply))
    ensures reply.Unloadable? ==> c.result == Raised(reply.message)
    ensures reply.Loaded? && FromJson(reply.envelope, convert).Returned? ==>
              c.result == block(FromJson(reply.envelope, convert).value)
  {
    match reply
    case Unloadable(m) => HostCall(Raised(m), UnbuiltTrace(true))
    case Loaded(data) =>
      match FromJson(data, convert)
      case Returned(response) =>
        var result := block(response);
        HostCall(result, BlockTrace(result.Raised?))
      case Raised(m) => HostCall(Raised(m), UnbuiltTrace(true))
      case Exited => HostCall(Exited, UnbuiltTrace(false))
  }

  /** The steps when no response is built: loading or building raises or
      exits, and `finally` still releases the reply last. */
  function UnbuiltTrace(raised: bool): (t: seq<Event>)
    ensures ReleasedOnce(t, Reply) && t[|t| - 1] == Released(Reply)
    ensures Decoded !in t
    ensures Threw in t <==> raised
  {
    if raised then [Copied, Threw, Released(Reply)] else [Copied, Released(Reply)]
  }

  /** The steps once the response is built: the block runs, possibly
      raising, and `finally` releases the reply last. */
  function BlockTrace(raised: bool): (t: seq<Event>)
    ensures ReleasedOnce(t, Reply) && t[|t| - 1] == Released(Reply)
    ensures Precedes(t, Decoded, Released(Reply))
    ensures Threw in t <==> raised
  {
    if raised then
      var t := [Copied, Decoded, Threw, Released(Reply)];
      PrecedesAt(t, Decoded, Released(Reply), 1, 3);
      t
    else
      var t := [Copied, Decoded, Released(Reply)];
      PrecedesAt(t, Decoded, Released(Reply), 1, 2);
      t
  }

  /** The block of `is_enabled`, `get_variant`, `get_metrics` and
      `list_known_toggles`: an `Error` status raises `YggdrasilError` with
      the message (`None` printing as `None`), anything else gives the value. */
  function RaiseOnError<W>(response: PyResponse<W>): (r: HostResult<Option<W>>)
    ensures r.Raised? <==> response.statusCode == PyError
    ensures r.Raised? ==> r.message == response.errorMessage.GetOr("None")
    ensures r.Returned? ==> r.value == response.value
  {
    if response.statusCode == PyError then Raised(response.errorMessage.GetOr("None"))
    else Returned(response.value)
  }

  /** `is_enabled`. */
  function IsEnabled(reply: PyReply<bool>): (c: HostCall<Option<bool>>)
    ensures ReleasedOnce(c.trace, Reply)
  {
    Materialize(reply, (b: bool) => b, RaiseOnError)
  }

  /** End to end: the engine's flag, `None` for an unknown toggle, and the
      engine's error as `YggdrasilError`; the reply is released once in every
      case. */
  lemma IsEnabledAgreesWithEngine(result: Outcome<Option<bool>>, debug: DebugFormat)
    requires result.Failure? ==> !result.error.InvalidMessageFormat?
    ensures var w := ToWire(FromResult(result, debug));
            var c := IsEnabled(Loaded(PyEnvelope(Some(w.statusCode), w.value, w.errorMessage)));
            ReleasedOnce(c.trace, Reply)
            && (result.Success? ==> c.result == Returned(result.value))
            && (result.Failure? ==> c.result == Raised(ErrorText(result.error, debug)))
  {
  }

  /** The dictionary a `Variant` is built from: the keys `name`, `payload`,
      `enabled` and `featureEnabled`, each possibly absent. */
  datatype VariantDict = VariantDict(name: Option<string>, payload: Option<map<string, string>>,
                                     enabled: Option<bool>, featureEnabled: Option<bool>)

  /** `Variant`. */
  datatype PyVariant = PyVariant(name: string, payload: Option<map<string, string>>, enabled: bool, featureEnabled: bool)

  /** `Variant.from_dict`: an absent name is `""`, absent flags are false. */
  function VariantFromDict(d: VariantDict): (v: PyVariant)
    ensures d.name.None? ==> v.name == ""
    ensures d.enabled.None? ==> !v.enabled
    ensures d.featureEnabled.None? ==> !v.featureEnabled
    ensures d.payload == v.payload
  {
    PyVariant(d.name.GetOr(""), d.payload, d.enabled.GetOr(false), d.featureEnabled.GetOr(false))
  }

  /** The dictionary of a variant with every key present. */
  function VariantToDict(v: PyVariant): VariantDict {
    VariantDict(Some(v.name), v.payload, Some(v.enabled), Some(v.featureEnabled))
  }

  /** A dictionary carrying every key reads back as the variant it came from. */
  lemma VariantDictRoundTrip(v: PyVariant)
    ensures VariantFromDict(VariantToDict(v)) == v
  {
  }

  /** `get_variant`: the value goes through `Variant.from_dict`. */
  function GetVariant(reply: PyReply<VariantDict>): (c: HostCall<Option<PyVariant>>)
    ensures ReleasedOnce(c.trace, Reply)
    ensures reply.Loaded? && reply.envelope.statusCode == Some("NotFound") && reply.envelope.value.None? ==>
              c.result == Returned(None)
    ensures reply.Loaded? && reply.envelope.statusCode == Some("Ok") && reply.envelope.value.Some? ==>
              c.result == Returned(Some(VariantFromDict(reply.envelope.value.value)))
  {
    Materialize(reply, VariantFromDict, RaiseOnError)
  }

  /** `FeatureDefinition`, with `from_dict`'s defaults. */
  datatype FeatureDefinition = FeatureDefinition(name: string, project: string, featureType: Option<string>)
  datatype FeatureDict = FeatureDict(name: Option<string>, project: Option<string>, featureType: Option<string>)

  function FeatureFromDict(d: FeatureDict): (f: FeatureDefinition)
    ensures f.name == d.name.GetOr("") && f.project == d.project.GetOr("") && f.featureType == d.featureType
  {
    FeatureDefinition(d.name.GetOr(""), d.project.GetOr(""), d.featureType)
  }

  /** `load_feature_defs`: one definition per dictionary, in order. */
  function LoadFeatureDefs(raw: seq<FeatureDict>): (defs: seq<FeatureDefinition>)
    ensures |defs| == |raw|
    ensures forall i :: 0 <= i < |raw| ==> defs[i] == FeatureFromDict(raw[i])
  {
    seq(|raw|, i requires 0 <= i < |raw| => FeatureFromDict(raw[i]))
  }

  /** `take_state`. The status is never looked at, so an `Error` reply
      (a partial update, a state that does not parse) returns `None` like
      success; a non-empty value would be iterated as if it were the list
      of warnings, which the `Response` object is not. */
  function TakeState(reply: PyReply<seq<EvalWarning>>): (c: HostCall<Option<string>>)
    ensures ReleasedOnce(c.trace, Reply)
    ensures (reply.Loaded? && FromJson(reply.envelope, (ws: seq<EvalWarning>) => ws).Returned?
             && (reply.envelope.value.None? || reply.envelope.value == Some([]))) ==> c.result == Returned(None)
  {
    Materialize(reply, (ws: seq<EvalWarning>) => ws,
      (response: PyResponse<seq<EvalWarning>>) =>
        if response.value.Some? && |response.value.value| > 0 then Raised("TypeError: 'Response' object is not iterable")
        else Returned(None))
  }

  /** An error from the engine's `take_state` does not reach the caller. */
  lemma TakeStateIgnoresErrors(message: string)
    ensures TakeState(Loaded(PyEnvelope(Some("Error"), None, Some(message)))).result == Returned(None)
  {
  }

  /** `count_toggle` / `count_variant`: the reply is released straight away
      without being read. */
  function CountCall(): (c: HostCall<()>)
    ensures ReleasedOnce(c.trace, Reply) && Decoded !in c.trace
  {
    HostCall(Returned(()), [Called, Released(Reply)])
  }
}

=== FILE: python_custom.dfy ===
/** The Python engine's resolver of custom strategies
    (`python-engine/yggdrasil_engine/custom_strategy.py`). The state text
    is read by a parameter; a Python dictionary, whose keys keep their
    first insertion position, is a sequence of entries with distinct keys.
    Every strategy whose name is not standard is numbered, registered or
    not; an unregistered one answers false. */
module PythonCustom {
  import opened Common
  import opened Features
  import opened CustomResults
  import Upgrade

  /** `_STANDARD_STRATEGIES` as written: seven names, without
      `applicationHostname`. */
  const STANDARD_STRATEGIES: seq<string> := [
    "default", "userWithId", "gradualRolloutUserId", "gradualRolloutSessionId",
    "gradualRolloutRandom", "flexibleRollout", "remoteAddress"]

  // ---------------------------------------------------------------------------
  // Dictionaries keyed by toggle name
  // ---------------------------------------------------------------------------

  type Dict = seq<(string, FeatureDecl)>

  /** `d.get(k)`. */
  function Find(d: Dict, k: string): Option<FeatureDecl> {
    if |d| == 0 then None else if d[0].0 == k then Some(d[0].1) else Find(d[1..], k)
  }

  /** No key occurs twice. */
  predicate Distinct(d: Dict) {
    |d| == 0 || (Find(d[1..], d[0].0).None? && Distinct(d[1..]))
  }

  /** Every entry is keyed by its feature's name. */
  predicate NamesMatch(d: Dict) {
    forall i :: 0 <= i < |d| ==> d[i].1.name == d[i].0
  }

  /** `d[k] = v`: an existing key keeps its position, a new one goes last. */
  function Put(d: Dict, k: string, v: FeatureDecl): (r: Dict)
    ensures Find(r, k) == Some(v)
    ensures forall n :: n != k ==> Find(r, n) == Find(d, n)
    ensures Distinct(d) ==> Distinct(r)
    ensures NamesMatch(d) && v.name == k ==> NamesMatch(r)
    ensures |r| == if Find(d, k).Some? then |d| else |d| + 1
  {
    if |d| == 0 then [(k, v)]
    else if d[0].0 == k then [(k, v)] + d[1..]
    else [d[0]] + Put(d[1..], k, v)
  }

  /** `d.pop(k, None)`: the key's entry goes, the others keep their order. */
  function Pop(d: Dict, k: string): (r: Dict)
    ensures Find(r, k).None?
    ensures forall n :: n != k ==> Find(r, n) == Find(d, n)
    ensures Distinct(d) ==> Distinct(r)
    ensures NamesMatch(d) ==> NamesMatch(r)
    ensures |r| <= |d|
  {
    if |d| == 0 then []
    else if d[0].0 == k then Pop(d[1..], k)
    else [d[0]] + Pop(d[1..], k)
  }

  /** The last feature of a list with a given name. */
  function LastNamed(fs: seq<FeatureDecl>, n: string): Option<FeatureDecl> {
    if |fs| == 0 then None
    else if fs[|fs| - 1].name == n then Some(fs[|fs| - 1])
    else LastNamed(fs[..|fs| - 1], n)
  }

  /** `{feature["name"]: feature for feature in features}`. */
  function FromFeatures(fs: seq<FeatureDecl>): (d: Dict)
    ensures Distinct(d) && NamesMatch(d)
    ensures forall n :: Find(d, n) == LastNamed(fs, n)
  {
    if |fs| == 0 then []
    else
      var n := |fs| - 1;
      Put(FromFeatures(fs[..n]), fs[n].name, fs[n])
  }

  /** `list(features.values())`. */
  function DictValues(d: Dict): (fs: seq<FeatureDecl>)
    ensures |fs| == |d|
    ensures forall i :: 0 <= i < |d| ==> fs[i] == d[i].1
  {
    seq(|d|, i requires 0 <= i < |d| => d[i].1)
  }

  // ---------------------------------------------------------------------------
  // Reading a state
  // ---------------------------------------------------------------------------

  datatype Event =
    | FeatureUpdated(feature: FeatureDecl)
    | FeatureRemoved(featureName: string)
    | Hydration(features: seq<FeatureDecl>)
    | OtherEvent(eventType: string)

  /** A parsed state: `features` present (`None` when it is `null`), else
      `events` present, else neither. */
  datatype Message = HasFeatures(features: Option<seq<FeatureDecl>>) | HasEvents(events: seq<Event>) | NoFeatures

  function ApplyEvent(d: Dict, e: Event): (r: Dict)
    ensures Distinct(d) && NamesMatch(d) ==> Distinct(r) && NamesMatch(r)
    ensures e.FeatureUpdated? ==> Find(r, e.feature.name) == Some(e.feature)
                                  && forall n :: n != e.feature.name ==> Find(r, n) == Find(d, n)
    ensures e.FeatureRemoved? ==> Find(r, e.featureName).None?
                                  && forall n :: n != e.featureName ==> Find(r, n) == Find(d, n)
    ensures e.Hydration? ==> forall n :: Find(r, n) == LastNamed(e.features, n)
    ensures e.OtherEvent? ==> r == d
  {
    match e
    case FeatureUpdated(f) => Put(d, f.name, f)
    case FeatureRemoved(n) => Pop(d, n)
    case Hydration(fs) => FromFeatures(fs)
    case OtherEvent(_) => d
  }

  /** The events in list order from an empty dictionary. */
  function ApplyEvents(d: Dict, es: seq<Event>): (r: Dict)
    ensures Distinct(d) && NamesMatch(d) ==> Distinct(r) && NamesMatch(r)
    decreases |es|
  {
    if |es| == 0 then d else ApplyEvents(ApplyEvent(d, es[0]), es[1..])
  }

  /** A name no event after the last hydration mentions keeps what that
      hydration gave it. */
  lemma {:induction false} UntouchedAfterHydration(d: Dict, es: seq<Event>, n: string)
    requires forall i :: 0 <= i < |es| ==> !Mentions(es[i], n)
    ensures Find(ApplyEvents(d, es), n) == Find(d, n)
    decreases |es|
  {
    if |es| > 0 {
      UntouchedAfterHydration(ApplyEvent(d, es[0]), es[1..], n);
    }
  }

  /** Whether an event can change a name's entry. */
  predicate Mentions(e: Event, n: string) {
    match e
    case FeatureUpdated(f) => f.name == n
    case FeatureRemoved(m) => m == n
    case Hydration(_) => true
    case OtherEvent(_) => false
  }

  /** `get_features_json`: the `features` list as it stands; otherwise the
      features the events leave; otherwise `None` (which the caller then
      fails to iterate). */
  function GetFeaturesJson(msg: Message): (r: Option<seq<FeatureDecl>>)
    ensures msg.HasFeatures? ==> r == msg.features
    ensures msg.NoFeatures? ==> r.None?
    ensures msg.HasEvents? ==> r.Some? && forall i, j :: 0 <= i < j < |r.value| ==> r.value[i].name != r.value[j].name
  {
    match msg
    case HasFeatures(fs) => fs
    case NoFeatures => None
    case HasEvents(es) =>
      var d := ApplyEvents([], es);
      DistinctNames(d);
      Some(DictValues(d))
  }

  /** A dictionary keyed by names lists features with distinct names. */
  lemma {:induction false} DistinctNames(d: Dict)
    requires Distinct(d) && NamesMatch(d)
    ensures forall i, j :: 0 <= i < j < |d| ==> d[i].1.name != d[j].1.name
  {
    if |d| > 0 {
      DistinctNames(d[1..]);
      forall j | 0 < j < |d| ensures d[0].0 != d[j].0 {
        FindAbsent(d[1..], d[0].0, j - 1);
      }
    }
  }

  /** A key `Find` misses is at no position. */
  lemma {:induction false} FindAbsent(d: Dict, k: string, j: nat)
    requires Find(d, k).None? && j < |d|
    ensures d[j].0 != k
  {
    if j > 0 {
      FindAbsent(d[1..], k, j - 1);
    }
  }

  // ---------------------------------------------------------------------------
  // The handler
  // ---------------------------------------------------------------------------

  /** A registered object: which one it is, and the number of parameters of
      its `apply` method (`None` when it has none). */
  datatype PyImpl = PyImpl(id: nat, applyArity: Option<nat>)

  datatype Handler = Handler(definitions: map<string, seq<StrategyDecl>>, implementations: map<string, PyImpl>)

  /** What the loop of `update_strategies` stores for a toggle: first the
      name of a custom strategy, then the list of all of them. */
  datatype Slot = StrategyName(name: string) | Listed(strategies: seq<StrategyDecl>)

  /** The inner loop: each strategy that is not standard stores its name. */
  function NameEach(acc: map<string, Slot>, toggle: string, ds: seq<StrategyDecl>, standard: seq<string>): (r: map<string, Slot>)
    ensures forall t :: t != toggle ==> (t in r <==> t in acc) && (t in r ==> r[t] == acc[t])
    ensures Foreign(ds, standard) == [] ==> r == acc
    ensures Foreign(ds, standard) != [] ==> toggle in r
  {
    if |ds| == 0 then acc
    else
      var n := |ds| - 1;
      var front := NameEach(acc, toggle, ds[..n], standard);
      assert forall d :: d in ds <==> d in ds[..n] || d == ds[n];
      if ds[n].name !in standard then front[toggle := StrategyName(ds[n].name)] else front
  }

  /** One toggle of the outer loop, as written. */
  function StoreToggle(acc: map<string, Slot>, f: FeatureDecl, standard: seq<string>): (r: map<string, Slot>)
    requires f.strategies.Some?
  {
    var named := NameEach(acc, f.name, f.strategies.value, standard);
    var kept := Foreign(f.strategies.value, standard);
    if kept != [] then named[f.name := Listed(kept)] else named
  }

  /** The outer loop as written, over toggles that all carry `strategies`. */
  function StoreAll(fs: seq<FeatureDecl>, standard: seq<string>): (r: map<string, Slot>)
    requires forall i :: 0 <= i < |fs| ==> fs[i].strategies.Some?
  {
    if |fs| == 0 then map[]
    else StoreToggle(StoreAll(fs[..|fs| - 1], standard), fs[|fs| - 1], standard)
  }

  /** The name stored first is always overwritten: the loop leaves exactly
      the reference's lists, none of them empty. */
  lemma {:induction false} StoreAllIsCustomDefinitions(fs: seq<FeatureDecl>, standard: seq<string>)
    requires forall i :: 0 <= i < |fs| ==> fs[i].strategies.Some?
    ensures forall t :: t in StoreAll(fs, standard) <==> t in CustomDefinitions(fs, standard)
    ensures forall t :: t in StoreAll(fs, standard) ==>
              StoreAll(fs, standard)[t] == Listed(CustomDefinitions(fs, standard)[t])
              && CustomDefinitions(fs, standard)[t] != []
  {
    if |fs| > 0 {
      var n := |fs| - 1;
      StoreAllIsCustomDefinitions(fs[..n], standard);
      var acc := StoreAll(fs[..n], standard);
      assert StoreAll(fs, standard) == StoreToggle(acc, fs[n], standard);
      var kept := Foreign(fs[n].strategies.value, standard);
      var named := NameEach(acc, fs[n].name, fs[n].strategies.value, standard);
      if kept == [] {
        assert named == acc;
      }
    }
  }

  /** The toggles a parsed state lists, when it can be read, lists some and
      every toggle carries `strategies`. */
  function StateFeatures(msg: Option<Message>): (r: Option<seq<FeatureDecl>>)
    ensures r.Some? ==> forall i :: 0 <= i < |r.value| ==> r.value[i].strategies.Some?
    ensures r.Some? <==> msg.Some? && GetFeaturesJson(msg.value).Some?
                         && forall i :: 0 <= i < |GetFeaturesJson(msg.value).value| ==>
                              GetFeaturesJson(msg.value).value[i].strategies.Some?
  {
    match msg
    case None => None
    case Some(m) =>
      match GetFeaturesJson(m)
      case None => None
      case Some(fs) => if forall i :: 0 <= i < |fs| ==> fs[i].strategies.Some? then Some(fs) else None
  }

  /** `update_strategies`, given how the text reads (`None` for a
      `JSONDecodeError`): the definitions are replaced by the toggles that
      have a non-standard strategy; an unreadable text, a state without
      features, or a toggle without `strategies` raises and leaves the
      handler as it was. */
  function UpdateStrategiesWith(h: Handler, text: string, parse: string -> Option<Message>, standard: seq<string>): (r: Option<Handler>)
    ensures r.Some? <==> StateFeatures(parse(text)).Some?
    ensures r.Some? ==> r.value.implementations == h.implementations
                        && r.value.definitions == CustomDefinitions(StateFeatures(parse(text)).value, standard)
  {
    match StateFeatures(parse(text))
    case None => None
    case Some(fs) =>
      var slots := StoreAll(fs, standard);
      StoreAllIsCustomDefinitions(fs, standard);
      var defs := map t | t in slots :: slots[t].strategies;
      assert defs == CustomDefinitions(fs, standard);
      Some(h.(definitions := defs))
  }

  /** `update_strategies` as written, with the seven standard names. */
  function UpdateStrategiesAsWritten(h: Handler, text: string, parse: string -> Option<Message>): (r: Option<Handler>)
    ensures r.Some? <==> StateFeatures(parse(text)).Some?
    ensures r.Some? ==> r.value.definitions == CustomDefinitions(StateFeatures(parse(text)).value, STANDARD_STRATEGIES)
  {
    UpdateStrategiesWith(h, text, parse, STANDARD_STRATEGIES)
  }

  /** `update_strategies` with the engine's built-in names as the standard
      ones, so that `applicationHostname` is not numbered. */
  function UpdateStrategies(h: Handler, text: string, parse: string -> Option<Message>): (r: Option<Handler>)
    ensures r.Some? <==> StateFeatures(parse(text)).Some?
    ensures r.Some? ==> r.value.definitions == CustomDefinitions(StateFeatures(parse(text)).value, Upgrade.BUILT_IN_NAMES)
  {
    UpdateStrategiesWith(h, text, parse, Upgrade.BUILT_IN_NAMES)
  }

  /** An object whose `apply` method takes exactly two parameters. */
  predicate Valid(impl: PyImpl) {
    impl.applyArity == Some(2)
  }

  /** `register_custom_strategies` over the entries of a dictionary: each
      object with a two-parameter `apply` is stored in turn over the
      existing ones; the first other one raises a `ValueError`, and the
      entries before it stay stored. The result says whether it raised. */
  function Register(h: Handler, entries: seq<(string, PyImpl)>): (r: (Handler, bool))
    ensures r.0.definitions == h.definitions
    ensures r.1 <==> exists i :: 0 <= i < |entries| && !Valid(entries[i].1)
    ensures forall n :: n in h.implementations && n !in Names(entries) ==>
              n in r.0.implementations && r.0.implementations[n] == h.implementations[n]
    ensures forall n :: n in r.0.implementations ==> n in h.implementations || n in Names(entries)
  {
    var (impls, raised) := StoreEach(h.implementations, entries, Valid);
    (h.(implementations := impls), raised)
  }

  /** The verdict of one stored strategy: a registered object's `apply` on
      the strategy's parameters, false for an unregistered name, `None` when
      `apply` raises. */
  function Verdict(h: Handler, s: StrategyDecl, run: (PyImpl, Option<map<string, string>>) -> Option<bool>): Option<bool> {
    if s.name in h.implementations then run(h.implementations[s.name], s.parameters) else Some(false)
  }

  function Verdicts(h: Handler, ds: seq<StrategyDecl>, run: (PyImpl, Option<map<string, string>>) -> Option<bool>): (vs: Option<seq<bool>>)
    ensures vs.None? <==> exists k :: 0 <= k < |ds| && Verdict(h, ds[k], run).None?
    ensures vs.Some? ==> |vs.value| == |ds| && forall k :: 0 <= k < |ds| ==> Verdict(h, ds[k], run) == Some(vs.value[k])
  {
    if |ds| == 0 then Some([])
    else
      var n := |ds| - 1;
      match Verdicts(h, ds[..n], run)
      case None => None
      case Some(front) =>
        match Verdict(h, ds[n], run)
        case None => None
        case Some(b) => Some(front + [b])
  }

  /** `evaluate_custom_strategies`: each stored strategy of the toggle under
      `customStrategy<n>`, numbered from 1; `{}` for a toggle with none;
      `None` when an `apply` raises. */
  function Evaluate(h: Handler, toggle: string, run: (PyImpl, Option<map<string, string>>) -> Option<bool>): (r: Option<map<string, bool>>)
    ensures toggle !in h.definitions ==> r == Some(map[])
    ensures toggle in h.definitions ==>
              match Verdicts(h, h.definitions[toggle], run)
              case None => r.None?
              case Some(vs) => r == Some(ResultsOf(vs))
  {
    var ds := if toggle in h.definitions then h.definitions[toggle] else [];
    match Verdicts(h, ds, run)
    case None => None
    case Some(vs) =>
      var pairs := seq(|ds|, k requires 0 <= k < |ds| => (ResultName(k), vs[k]));
      NumberedPairsAreResults(pairs);
      assert Values(pairs) == vs;
      Some(LastWins(pairs))
  }

  /** With the engine's built-in names as the standard ones, a toggle's
      custom strategy is reported under the key the upgrader's rule text
      reads for it, with its own verdict. */
  lemma EvaluateAgreesWithUpgrade(h: Handler, toggle: string, ss: seq<Strategy>, i: nat,
                                  run: (PyImpl, Option<map<string, string>>) -> Option<bool>)
    requires toggle in h.definitions && h.definitions[toggle] == Foreign(Decls(ss), Upgrade.BUILT_IN_NAMES)
    requires i < |ss| && Upgrade.IsCustom(ss[i])
    ensures var k := Upgrade.Ordinal(ss, i);
            var r := Evaluate(h, toggle, run);
            Upgrade.StrategyRule(ss[i], k) == "external_value[\"" + ResultName(k - 1) + "\"]"
            && (r.Some? ==> ResultName(k - 1) in r.value && Verdict(h, DeclOf(ss[i]), run) == Some(r.value[ResultName(k - 1)]))
  {
    OrdinalIsForeignPosition(ss, i);
  }

  /** As written, `applicationHostname` counts as custom: for a toggle with
      it first and a custom strategy `c` second, the handler reports `c`
      under `customStrategy2` and the hostname's false under
      `customStrategy1`, which is the key the rule text reads for `c`. */
  lemma HostnameShiftsNumbering(h: Handler, text: string, parse: string -> Option<Message>, c: string)
    requires c !in Upgrade.BUILT_IN_NAMES
    requires var host := StrategyDecl("applicationHostname", None);
             parse(text) == Some(HasFeatures(Some([FeatureDecl("t", Some([host, StrategyDecl(c, None)]))])))
    ensures var sh := Strategy("applicationHostname", None, None, None, None);
            var sc := Strategy(c, None, None, None, None);
            var r := UpdateStrategiesAsWritten(h, text, parse);
            Upgrade.Ordinal([sh, sc], 1) == 1
            && r.Some? && r.value.definitions["t"] == [DeclOf(sh), DeclOf(sc)]
  {
    var sh := Strategy("applicationHostname", None, None, None, None);
    var sc := Strategy(c, None, None, None, None);
    Upgrade.OrdinalStep([sh, sc], 1);
    Upgrade.OrdinalStep([sh, sc], 0);
    assert [sh, sc][..1][..0] == [];
    assert !Upgrade.IsCustom(sh);
    var ds := [DeclOf(sh), DeclOf(sc)];
    assert ds[..1][..0] == [] && ds[..1] == [DeclOf(sh)];
    assert Foreign(ds[..1][..0], STANDARD_STRATEGIES) == [];
    assert Foreign(ds[..1], STANDARD_STRATEGIES) == [DeclOf(sh)];
    assert Foreign(ds, STANDARD_STRATEGIES) == ds;
    var fs := [FeatureDecl("t", Some(ds))];
    assert fs[..0] == [];
    assert CustomDefinitions(fs, STANDARD_STRATEGIES) == map["t" := ds];
  }
}

=== FILE: release_ledger.dfy ===
/** What a binding does with the buffers of one call into the engine, written
    down as the trace of its steps. Every binding reads a reply the engine
    allocated and must hand it back exactly once; some also allocate the
    arguments they pass. Whether a buffer is released, how often, and whether
    that happens before or after the reply is decoded or an exception escapes
    are properties of the trace. */
module ReleaseLedger {
  /** The buffers of a call: the argument the host allocated, the engine's
      reply, and further argument strings numbered by the host. */
  datatype Buffer = Input | Reply | Argument(index: nat)

  datatype Event =
    | Allocated(buffer: Buffer)
    | Written
    | Called
    | Copied
    | Decoded
    | Released(buffer: Buffer)
    | Threw

  /** How a host call ends: with a value, with an exception carrying a
      message, or with the process exiting. */
  datatype HostResult<V> = Returned(value: V) | Raised(message: string) | Exited

  /** One call: how it ended and what it did on the way. */
  datatype HostCall<V> = HostCall(result: HostResult<V>, trace: seq<Event>)

  /** How often `e` occurs in the trace. */
  function Count(trace: seq<Event>, e: Event): nat {
    multiset(trace)[e]
  }

  /** Both steps happen and the first `a` comes before the first `b`: some
      `b` has an `a` before it and no `b` before it. */
  predicate Precedes(trace: seq<Event>, a: Event, b: Event) {
    exists j :: 0 <= j < |trace| && trace[j] == b && b !in trace[..j] && a in trace[..j]
  }

  predicate ReleasedOnce(trace: seq<Event>, b: Buffer) {
    Count(trace, Released(b)) == 1
  }

  /** Allocated by the host, or handed over by the engine, and never given
      back. */
  predicate Leaked(trace: seq<Event>, b: Buffer) {
    (Allocated(b) in trace || (b == Reply && Called in trace)) && Released(b) !in trace
  }

  /** Counting distributes over traces run one after the other. */
  lemma CountAppend(a: seq<Event>, b: seq<Event>, e: Event)
    ensures Count(a + b, e) == Count(a, e) + Count(b, e)
  {
    assert multiset(a + b) == multiset(a) + multiset(b);
  }

  /** A prefix keeps its order when more steps follow. */
  lemma PrecedesAppend(a: seq<Event>, b: seq<Event>, x: Event, y: Event)
    requires Precedes(a, x, y)
    ensures Precedes(a + b, x, y)
  {
    var j :| 0 <= j < |a| && a[j] == y && y !in a[..j] && x in a[..j];
    assert (a + b)[..j] == a[..j];
  }

  /** A step appended after `a` comes after it, if it had not happened yet. */
  lemma PrecedesLast(t: seq<Event>, a: Event, b: Event)
    requires a in t && b !in t
    ensures Precedes(t + [b], a, b)
  {
    assert (t + [b])[..|t|] == t;
  }

  /** `a` at `i` and the first `b` at `j > i`. */
  lemma PrecedesAt(t: seq<Event>, a: Event, b: Event, i: nat, j: nat)
    requires i < j < |t| && t[i] == a && t[j] == b
    requires forall k :: 0 <= k < j ==> t[k] != b
    ensures Precedes(t, a, b)
  {
    assert t[..j][i] == a;
  }

  /** A buffer released at `i` and nowhere else is released once. */
  lemma ReleasedOnceAt(t: seq<Event>, b: Buffer, i: nat)
    requires i < |t| && t[i] == Released(b)
    requires forall k :: 0 <= k < |t| && k != i ==> t[k] != Released(b)
    ensures ReleasedOnce(t, b)
  {
    assert t == t[..i] + [t[i]] + t[i + 1..];
    assert Released(b) !in t[..i] && Released(b) !in t[i + 1..];
    assert multiset(t) == multiset(t[..i]) + multiset{t[i]} + multiset(t[i + 1..]);
  }
}

=== FILE: ruby_custom.dfy ===
/** The Ruby engine's resolver of custom strategies
    (`ruby-engine/lib/custom_strategy.rb`). The state text is read by a
    parameter. Every strategy whose name is not standard is numbered,
    registered or not; an unregistered one answers false. A delta state is
    read as every hydrated feature followed by every updated one, whatever
    the order of the events, and removals are not read at all. */
module RubyCustom {
  import opened Common
  import opened Features
  import opened CustomResults
  import Upgrade

  /** `STANDARD_STRATEGIES` as written: seven names, without
      `applicationHostname`. */
  const STANDARD_STRATEGIES: seq<string> := [
    "default", "userWithId", "gradualRolloutUserId", "gradualRolloutSessionId",
    "gradualRolloutRandom", "flexibleRollout", "remoteAddress"]

  // ---------------------------------------------------------------------------
  // Reading a state
  // ---------------------------------------------------------------------------

  /** A delta event; a hydration's `features` is `None` when missing or
      `nil`. */
  datatype Event =
    | Hydration(features: Option<seq<FeatureDecl>>)
    | FeatureUpdated(feature: FeatureDecl)
    | FeatureRemoved(featureName: string)
    | OtherEvent(eventType: string)

  /** A parsed state: a hash with `features` (`None` when it is `nil`), a
      hash with `events`, or anything else. */
  datatype Message = HasFeatures(features: Option<seq<FeatureDecl>>) | HasEvents(events: seq<Event>) | Other

  /** The features of the hydration events, in event order. */
  function Hydrated(es: seq<Event>): (fs: seq<FeatureDecl>)
    ensures forall f :: f in fs <==> exists i :: 0 <= i < |es| && es[i].Hydration? && es[i].features.Some? && f in es[i].features.value
  {
    if |es| == 0 then []
    else
      var n := |es| - 1;
      var front := Hydrated(es[..n]);
      assert forall i :: 0 <= i < n ==> es[..n][i] == es[i];
      front + (if es[n].Hydration? then es[n].features.GetOr([]) else [])
  }

  /** The features of the update events, in event order. */
  function Updated(es: seq<Event>): (fs: seq<FeatureDecl>)
    ensures forall f :: f in fs <==> exists i :: 0 <= i < |es| && es[i] == FeatureUpdated(f)
  {
    if |es| == 0 then []
    else
      var n := |es| - 1;
      var front := Updated(es[..n]);
      assert forall i :: 0 <= i < n ==> es[..n][i] == es[i];
      front + (if es[n].FeatureUpdated? then [es[n].feature] else [])
  }

  /** `extract_features`: the `features` list as it stands; for events, the
      hydrated features and then the updated ones; `[]` for anything else. */
  function ExtractFeatures(msg: Message): (r: Option<seq<FeatureDecl>>)
    ensures msg.HasFeatures? ==> r == msg.features
    ensures msg.HasEvents? ==> r == Some(Hydrated(msg.events) + Updated(msg.events))
    ensures msg.Other? ==> r == Some([])
  {
    match msg
    case HasFeatures(fs) => fs
    case HasEvents(es) => Some(Hydrated(es) + Updated(es))
    case Other => Some([])
  }

  /** A removal changes nothing that is read. */
  lemma RemovalIsIgnored(es: seq<Event>, name: string)
    ensures ExtractFeatures(HasEvents(es + [FeatureRemoved(name)])) == ExtractFeatures(HasEvents(es))
  {
    var es' := es + [FeatureRemoved(name)];
    assert es'[..|es|] == es;
    assert Hydrated(es') == Hydrated(es) + [];
    assert Updated(es') == Updated(es) + [];
    assert Hydrated(es') == Hydrated(es) && Updated(es') == Updated(es);
  }

  // ---------------------------------------------------------------------------
  // The handler
  // ---------------------------------------------------------------------------

  /** A registered object: which one it is, what its `name` returns when it
      is a `String` (`None` when there is no `name` or it returns something
      else), and whether it has `enabled?`. */
  datatype RbImpl = RbImpl(id: nat, name: Option<string>, hasEnabled: bool)

  datatype Handler = Handler(definitions: map<string, seq<StrategyDecl>>, implementations: map<string, RbImpl>)

  /** The toggles a parsed state lists, when it can be read and every toggle
      carries `strategies` (a `nil` list raises). */
  function StateFeatures(msg: Option<Message>): (r: Option<seq<FeatureDecl>>)
    ensures r.Some? ==> forall i :: 0 <= i < |r.value| ==> r.value[i].strategies.Some?
    ensures r.Some? <==> msg.Some? && ExtractFeatures(msg.value).Some?
                         && forall i :: 0 <= i < |ExtractFeatures(msg.value).value| ==>
                              ExtractFeatures(msg.value).value[i].strategies.Some?
  {
    match msg
    case None => None
    case Some(m) =>
      match ExtractFeatures(m)
      case None => None
      case Some(fs) => if forall i :: 0 <= i < |fs| ==> fs[i].strategies.Some? then Some(fs) else None
  }

  /** `update_strategies`, given how the text reads (`None` when
      `JSON.parse` raises): the definitions are replaced by the toggles that
      have a non-standard strategy, or the call raises and the handler is as
      it was. */
  function UpdateStrategiesWith(h: Handler, text: string, parse: string -> Option<Message>, standard: seq<string>): (r: Option<Handler>)
    ensures r.Some? <==> StateFeatures(parse(text)).Some?
    ensures r.Some? ==> r.value.implementations == h.implementations
                        && r.value.definitions == CustomDefinitions(StateFeatures(parse(text)).value, standard)
  {
    match StateFeatures(parse(text))
    case None => None
    case Some(fs) => Some(h.(definitions := CustomDefinitions(fs, standard)))
  }

  /** `update_strategies` as written, with the seven standard names. */
  function UpdateStrategiesAsWritten(h: Handler, text: string, parse: string -> Option<Message>): (r: Option<Handler>)
    ensures r.Some? <==> StateFeatures(parse(text)).Some?
    ensures r.Some? ==> r.value.definitions == CustomDefinitions(StateFeatures(parse(text)).value, STANDARD_STRATEGIES)
  {
    UpdateStrategiesWith(h, text, parse, STANDARD_STRATEGIES)
  }

  /** `update_strategies` with the engine's built-in names as the standard
      ones, so that `applicationHostname` is not numbered. */
  function UpdateStrategies(h: Handler, text: string, parse: string -> Option<Message>): (r: Option<Handler>)
    ensures r.Some? <==> StateFeatures(parse(text)).Some?
    ensures r.Some? ==> r.value.definitions == CustomDefinitions(StateFeatures(parse(text)).value, Upgrade.BUILT_IN_NAMES)
  {
    UpdateStrategiesWith(h, text, parse, Upgrade.BUILT_IN_NAMES)
  }

  /** An object with a `String` name and an `enabled?` method. */
  predicate Valid(impl: RbImpl) {
    impl.name.Some? && impl.hasEnabled
  }

  /** Each object under the name it reports. */
  function NamedEntries(impls: seq<RbImpl>): (entries: seq<(string, RbImpl)>)
    ensures |entries| == |impls|
    ensures forall i :: 0 <= i < |impls| ==> entries[i] == (impls[i].name.GetOr(""), impls[i])
  {
    seq(|impls|, i requires 0 <= i < |impls| => (impls[i].name.GetOr(""), impls[i]))
  }

  /** `register_custom_strategies`: each valid object is stored under its
      name over the existing ones, a later one of the same name winning; the
      first invalid object raises, and the ones before it stay stored. The
      result says whether it raised. */
  function Register(h: Handler, impls: seq<RbImpl>): (r: (Handler, bool))
    ensures r.0.definitions == h.definitions
    ensures r.1 <==> exists i :: 0 <= i < |impls| && !Valid(impls[i])
    ensures !r.1 ==> forall n :: n in h.implementations && (forall i :: 0 <= i < |impls| ==> impls[i].name != Some(n)) ==>
                       n in r.0.implementations && r.0.implementations[n] == h.implementations[n]
  {
    var entries := NamedEntries(impls);
    var (stored, raised) := StoreEach(h.implementations, entries, Valid);
    if raised then (h.(implementations := stored), raised)
    else
      NamesAreReported(impls);
      (h.(implementations := stored), raised)
  }

  /** When every object is valid, each stored name is one an object
      reports. */
  lemma NamesAreReported(impls: seq<RbImpl>)
    requires forall i :: 0 <= i < |impls| ==> Valid(impls[i])
    ensures forall n :: n in Names(NamedEntries(impls)) ==> exists i :: 0 <= i < |impls| && impls[i].name == Some(n)
  {
    var entries := NamedEntries(impls);
    forall n | n in Names(entries) ensures exists i :: 0 <= i < |impls| && impls[i].name == Some(n) {
      var i :| 0 <= i < |entries| && entries[i].0 == n;
      assert impls[i].name == Some(n);
    }
  }

  /** The verdict of one stored strategy: `impl&.enabled?(...) || false`,
      false for an unregistered name, `None` when `enabled?` raises. */
  function Verdict(h: Handler, s: StrategyDecl, run: (RbImpl, Option<map<string, string>>) -> Option<bool>): Option<bool> {
    if s.name in h.implementations then run(h.implementations[s.name], s.parameters) else Some(false)
  }

  function Verdicts(h: Handler, ds: seq<StrategyDecl>, run: (RbImpl, Option<map<string, string>>) -> Option<bool>): (vs: Option<seq<bool>>)
    ensures vs.None? <==> exists k :: 0 <= k < |ds| && Verdict(h, ds[k], run).None?
    ensures vs.Some? ==> |vs.value| == |ds| && forall k :: 0 <= k < |ds| ==> Verdict(h, ds[k], run) == Some(vs.value[k])
  {
    if |ds| == 0 then Some([])
    else
      var n := |ds| - 1;
      match Verdicts(h, ds[..n], run)
      case None => None
      case Some(front) =>
        match Verdict(h, ds[n], run)
        case None => None
        case Some(b) => Some(front + [b])
  }

  /** `evaluate_custom_strategies`: each stored strategy of the toggle under
      `customStrategy<n>`, numbered from 1; `{}` for a toggle with none;
      `None` when `enabled?` raises. */
  function Evaluate(h: Handler, toggle: string, run: (RbImpl, Option<map<string, string>>) -> Option<bool>): (r: Option<map<string, bool>>)
    ensures toggle !in h.definitions ==> r == Some(map[])
    ensures toggle in h.definitions ==>
              match Verdicts(h, h.definitions[toggle], run)
              case None => r.None?
              case Some(vs) => r == Some(ResultsOf(vs))
  {
    var ds := if toggle in h.definitions then h.definitions[toggle] else [];
    match Verdicts(h, ds, run)
    case None => None
    case Some(vs) =>
      var pairs := seq(|ds|, k requires 0 <= k < |ds| => (ResultName(k), vs[k]));
      NumberedPairsAreResults(pairs);
      assert Values(pairs) == vs;
      Some(LastWins(pairs))
  }

  /** With the engine's built-in names as the standard ones, a toggle's
      custom strategy is reported under the key the upgrader's rule text
      reads for it, with its own verdict. */
  lemma EvaluateAgreesWithUpgrade(h: Handler, toggle: string, ss: seq<Strategy>, i: nat,
                                  run: (RbImpl, Option<map<string, string>>) -> Option<bool>)
    requires toggle in h.definitions && h.definitions[toggle] == Foreign(Decls(ss), Upgrade.BUILT_IN_NAMES)
    requires i < |ss| && Upgrade.IsCustom(ss[i])
    ensures var k := Upgrade.Ordinal(ss, i);
            var r := Evaluate(h, toggle, run);
            Upgrade.StrategyRule(ss[i], k) == "external_value[\"" + ResultName(k - 1) + "\"]"
            && (r.Some? ==> ResultName(k - 1) in r.value && Verdict(h, DeclOf(ss[i]), run) == Some(r.value[ResultName(k - 1)]))
  {
    OrdinalIsForeignPosition(ss, i);
  }

  /** As written, `applicationHostname` counts as custom: for a toggle with
      it first and a custom strategy `c` second, `c` is stored second and so
      reported under `customStrategy2`, while the rule text reads `c` from
      `customStrategy1`. */
  lemma HostnameShiftsNumbering(h: Handler, text: string, parse: string -> Option<Message>, c: string)
    requires c !in Upgrade.BUILT_IN_NAMES
    requires var host := StrategyDecl("applicationHostname", None);
             parse(text) == Some(HasFeatures(Some([FeatureDecl("t", Some([host, StrategyDecl(c, None)]))])))
    ensures var sh := Strategy("applicationHostname", None, None, None, None);
            var sc := Strategy(c, None, None, None, None);
            var r := UpdateStrategiesAsWritten(h, text, parse);
            Upgrade.Ordinal([sh, sc], 1) == 1
            && r.Some? && r.value.definitions["t"] == [DeclOf(sh), DeclOf(sc)]
  {
    var sh := Strategy("applicationHostname", None, None, None, None);
    var sc := Strategy(c, None, None, None, None);
    Upgrade.OrdinalStep([sh, sc], 1);
    Upgrade.OrdinalStep([sh, sc], 0);
    assert [sh, sc][..1][..0] == [];
    assert !Upgrade.IsCustom(sh);
    HostnameStoredAsCustom(sh, sc);
  }

  /** A strategy list holding `applicationHostname` and a strategy outside
      the standard names is stored whole. */
  lemma HostnameStoredAsCustom(sh: Strategy, sc: Strategy)
    requires sh.name == "applicationHostname" && sc.name !in STANDARD_STRATEGIES
    ensures CustomDefinitions([FeatureDecl("t", Some([DeclOf(sh), DeclOf(sc)]))], STANDARD_STRATEGIES)
            == map["t" := [DeclOf(sh), DeclOf(sc)]]
  {
    var ds := [DeclOf(sh), DeclOf(sc)];
    assert ds[..1][..0] == [] && ds[..1] == [DeclOf(sh)];
    assert Foreign(ds[..1][..0], STANDARD_STRATEGIES) == [];
    assert Foreign(ds[..1], STANDARD_STRATEGIES) == [DeclOf(sh)];
    assert Foreign(ds, STANDARD_STRATEGIES) == ds;
    var fs := [FeatureDecl("t", Some(ds))];
    assert fs[..0] == [];
  }

  /** Updates are read after hydrations, whatever the event order: a toggle
      updated and then hydrated again keeps the custom strategies of the
      update, not of the later hydration. */
  lemma UpdateOutranksLaterHydration(older: StrategyDecl, newer: StrategyDecl)
    requires older.name !in Upgrade.BUILT_IN_NAMES && newer.name !in Upgrade.BUILT_IN_NAMES && older != newer
    ensures var es := [FeatureUpdated(FeatureDecl("t", Some([older]))), Hydration(Some([FeatureDecl("t", Some([newer]))]))];
            var fs := ExtractFeatures(HasEvents(es)).value;
            fs == [FeatureDecl("t", Some([newer])), FeatureDecl("t", Some([older]))]
            && CustomDefinitions(fs, Upgrade.BUILT_IN_NAMES)["t"] == [older]
  {
    var es := [FeatureUpdated(FeatureDecl("t", Some([older]))), Hydration(Some([FeatureDecl("t", Some([newer]))]))];
    assert es[..1][..0] == [] && es[..1] == [es[0]];
    assert Hydrated(es[..1]) == [] + [];
    assert Hydrated(es) == [] + [FeatureDecl("t", Some([newer]))];
    assert Updated(es[..1]) == [] + [FeatureDecl("t", Some([older]))];
    assert Updated(es) == Updated(es[..1]) + [];
    var fs := [FeatureDecl("t", Some([newer])), FeatureDecl("t", Some([older]))];
    assert [older][..0] == [] && [newer][..0] == [];
    assert Foreign([older], Upgrade.BUILT_IN_NAMES) == [older];
    assert Foreign([newer], Upgrade.BUILT_IN_NAMES) == [newer];
    assert fs[..1][..0] == [] && fs[..1] == [fs[0]];
  }
}

=== FILE: ruby_engine.dfy ===
/** The Ruby binding over the JSON envelope
    (`ruby-engine/lib/yggdrasil_engine.rb`). Replies are read as strings and
    parsed with `JSON.parse(..., symbolize_names: true)`; the parse is the
    parameter outcome `RbReply`, and a key that is absent reads as `nil`. */
module RubyEngine {
  import opened Common
  import opened FfiEnvelope
  import opened ReleaseLedger

  /** The parsed hash, reduced to the keys the binding looks up. */
  datatype RbEnvelope<V> = RbEnvelope(statusCode: Option<string>, value: Option<V>, errorMessage: Option<string>)

  datatype RbReply<V> = RbParsed(envelope: RbEnvelope<V>) | RbUnparsable(message: string)

  /** `"Error: #{message}"`: `nil` interpolates as the empty string. */
  function RbErrorText(message: Option<string>): string {
    "Error: " + message.GetOr("")
  }

  /** What `enabled?` makes of a parsed envelope: an `Error` status raises,
      `NotFound` is `nil`, and anything else is whether the value is
      literally `true`. */
  function EnabledValue(e: RbEnvelope<bool>): (r: HostResult<Option<bool>>)
    ensures e.statusCode == Some("Error") <==> r.Raised?
    ensures r.Raised? ==> r.message == RbErrorText(e.errorMessage)
    ensures e.statusCode == Some("NotFound") ==> r == Returned(None)
    ensures e.statusCode != Some("Error") && e.statusCode != Some("NotFound") ==> r == Returned(Some(e.value == Some(true)))
  {
    if e.statusCode == Some("Error") then Raised(RbErrorText(e.errorMessage))
    else if e.statusCode == Some("NotFound") then Returned(None)
    else Returned(Some(e.value == Some(true)))
  }

  /** `enabled?`: the string is read, the reply released, and only then
      parsed. */
  function Enabled(reply: RbReply<bool>): (c: HostCall<Option<bool>>)
    ensures ReleasedOnce(c.trace, Reply) && |c.trace| >= 2 && c.trace[0] == Copied && c.trace[1] == Released(Reply)
    ensures Decoded in c.trace ==> Precedes(c.trace, Released(Reply), Decoded)
    ensures reply.RbParsed? ==> c.result == EnabledValue(reply.envelope)
    ensures reply.RbUnparsable? ==> c.result == Raised(reply.message)
  {
    match reply
    case RbUnparsable(m) => HostCall(Raised(m), [Copied, Released(Reply), Threw])
    case RbParsed(e) =>
      var r := EnabledValue(e);
      HostCall(r, if r.Raised? then [Copied, Released(Reply), Decoded, Threw] else [Copied, Released(Reply), Decoded])
  }

  /** End to end: a known toggle's flag, `nil` for an unknown one, the
      engine's error raised. */
  lemma EnabledAgreesWithEngine(result: Outcome<Option<bool>>, debug: DebugFormat)
    requires result.Failure? ==> !result.error.InvalidMessageFormat?
    ensures var w := ToWire(FromResult(result, debug));
            var c := Enabled(RbParsed(RbEnvelope(Some(w.statusCode), w.value, w.errorMessage)));
            (result.Success? ==> c.result == Returned(result.value))
            && (result.Failure? ==> c.result == Raised("Error: " + ErrorText(result.error, debug)))
  {
    var r := FromResult(result, debug);
    var w := ToWire(r);
    var e := RbEnvelope(Some(w.statusCode), w.value, w.errorMessage);
    assert Enabled(RbParsed(e)).result == EnabledValue(e);
    assert w.statusCode == StatusName(r.statusCode);
    match result
    case Success(Some(b)) =>
      assert e.statusCode != Some("Error") && e.statusCode != Some("NotFound") && e.value == Some(b);
    case Success(None) =>
    case Failure(_) =>
  }

  /** A Ruby symbol; `to_s` gives its text back. */
  datatype Symbol = Symbol(text: string)

  /** The variant hash as parsed: symbol keys, payload keys symbolized too. */
  datatype RawVariant = RawVariant(name: Option<string>, enabled: Option<bool>, featureEnabled: Option<bool>,
                                   payload: Option<map<Symbol, string>>)

  /** The variant hash handed to the caller. */
  datatype RbVariant = RbVariant(name: Option<string>, enabled: Option<bool>, featureEnabled: Option<bool>,
                                 payload: Option<map<string, string>>)

  /** `transform_keys(&:to_s)`. */
  function StringKeys(p: map<Symbol, string>): (r: map<string, string>)
    ensures forall k :: k in p ==> k.text in r && r[k.text] == p[k]
    ensures forall s :: s in r ==> Symbol(s) in p
  {
    map s | s in (set k | k in p :: k.text) :: p[Symbol(s)]
  }

  /** `symbolize_names: true` applied to a payload. */
  function SymbolKeys(p: map<string, string>): map<Symbol, string> {
    map k | k in (set s | s in p :: Symbol(s)) :: p[k.text]
  }

  /** Stringifying the keys undoes the parser's symbolizing. */
  lemma PayloadKeysRoundTrip(p: map<string, string>)
    ensures StringKeys(SymbolKeys(p)) == p
  {
    var q := SymbolKeys(p);
    assert forall s :: s in p ==> Symbol(s) in q && q[Symbol(s)] == p[s];
    assert StringKeys(q).Keys == p.Keys;
  }

  /** `to_variant`: `featureEnabled` becomes `feature_enabled` and payload
      keys become strings; nothing else changes. */
  function ToVariant(raw: RawVariant): (v: RbVariant)
    ensures v.name == raw.name && v.enabled == raw.enabled && v.featureEnabled == raw.featureEnabled
    ensures v.payload.Some? <==> raw.payload.Some?
    ensures raw.payload.Some? ==> forall k :: k in raw.payload.value ==> k.text in v.payload.value && v.payload.value[k.text] == raw.payload.value[k]
  {
    RbVariant(raw.name, raw.enabled, raw.featureEnabled,
              if raw.payload.Some? then Some(StringKeys(raw.payload.value)) else None)
  }

  /** `get_variant`: released before parsing; `NotFound` is `nil`, `Ok` the
      converted variant, and an `Error` status falls through to `nil`
      instead of raising. `to_variant` of a missing value raises. */
  function GetVariant(reply: RbReply<RawVariant>): (c: HostCall<Option<RbVariant>>)
    ensures ReleasedOnce(c.trace, Reply) && |c.trace| >= 2 && c.trace[0] == Copied && c.trace[1] == Released(Reply)
    ensures reply.RbParsed? && reply.envelope.statusCode != Some("Ok") ==> c.result == Returned(None)
    ensures reply.RbParsed? && reply.envelope.statusCode == Some("Ok") && reply.envelope.value.Some? ==>
              c.result == Returned(Some(ToVariant(reply.envelope.value.value)))
  {
    var released := [Copied, Released(Reply)];
    match reply
    case RbUnparsable(m) => HostCall(Raised(m), released + [Threw])
    case RbParsed(e) =>
      if e.statusCode == Some("NotFound") then HostCall(Returned(None), released + [Decoded])
      else if e.statusCode == Some("Ok") then
        match e.value
        case Some(raw) => HostCall(Returned(Some(ToVariant(raw))), released + [Decoded])
        case None => HostCall(Raised("NoMethodError: undefined method `[]' for nil"), released + [Decoded, Threw])
      else HostCall(Returned(None), released + [Decoded])
  }

  /** An engine error never reaches the caller of `get_variant`. */
  lemma GetVariantSwallowsErrors(message: Option<string>)
    ensures GetVariant(RbParsed(RbEnvelope(Some("Error"), None, message))).result == Returned(None)
  {
  }

  /** `get_metrics` and `take_state` parse before releasing: a reply that
      does not parse raises with the reply still held. The status is not
      looked at; `get_metrics` returns the value field. */
  function ParseThenRelease<V>(reply: RbReply<V>): (c: HostCall<Option<V>>)
    ensures reply.RbParsed? <==> ReleasedOnce(c.trace, Reply)
    ensures reply.RbUnparsable? ==> Leaked(c.trace, Reply) && c.result == Raised(reply.message)
    ensures reply.RbParsed? ==> c.result == Returned(reply.envelope.value)
  {
    match reply
    case RbUnparsable(m) => HostCall(Raised(m), [Called, Copied, Threw])
    case RbParsed(e) => HostCall(Returned(e.value), [Called, Copied, Decoded, Released(Reply)])
  }

  /** `count_toggle` / `count_variant`: the engine functions are attached as
      returning `void`, so the pointer handed to `free_response` is `nil`
      and the engine's reply is never released. */
  function CountCall(): (c: HostCall<()>)
    ensures Leaked(c.trace, Reply)
  {
    HostCall(Returned(()), [Called])
  }
}

=== FILE: ruby_legacy.dfy ===
/** The legacy Ruby binding (`ruby-engine/lib/unleash_engine.rb`),
    written against an older engine whose `check_enabled`
    answered with the statuses `Enabled`, `Disabled`, `NotFound` and `Error`
    instead of an envelope with a value. JSON parsing is the parameter
    outcome `RbReply` of the newer binding. */
module RubyLegacyEngine {
  import opened Common
  import opened FfiEnvelope
  import opened ReleaseLedger
  import opened RubyEngine

  const TOGGLE_MISSING_RESPONSE: string := "NotFound"
  const ERROR_RESPONSE: string := "Error"
  const ENABLED_RESPONSE: string := "Enabled"
  const DISABLED_RESPONSE: string := "Disabled"

  /** The flag `enabled?` reports for a parsed reply: an `Error` status
      raises, `NotFound` is `nil`, and any other status is whether it is
      `Enabled`. */
  function LegacyFlag<V>(e: RbEnvelope<V>): (r: HostResult<Option<bool>>)
    ensures r.Raised? <==> e.statusCode == Some(ERROR_RESPONSE)
    ensures r.Raised? ==> r.message == RbErrorText(e.errorMessage)
    ensures e.statusCode == Some(TOGGLE_MISSING_RESPONSE) ==> r == Returned(None)
    ensures r == Returned(Some(true)) <==> e.statusCode == Some(ENABLED_RESPONSE)
    ensures !r.Exited?
  {
    if e.statusCode == Some(ERROR_RESPONSE) then Raised(RbErrorText(e.errorMessage))
    else if e.statusCode == Some(TOGGLE_MISSING_RESPONSE) then Returned(None)
    else Returned(Some(e.statusCode == Some(ENABLED_RESPONSE)))
  }

  /** `enabled?`: the reply is read as a string straight from the call and
      the pointer is dropped, so it is never released, whatever the reply. */
  function LegacyEnabled<V>(reply: RbReply<V>): (c: HostCall<Option<bool>>)
    ensures Leaked(c.trace, Reply)
    ensures reply.RbUnparsable? ==> c.result == Raised(reply.message)
    ensures reply.RbParsed? ==> c.result == LegacyFlag(reply.envelope)
  {
    match reply
    case RbUnparsable(m) => HostCall(Raised(m), [Called, Copied, Threw])
    case RbParsed(e) =>
      var r := LegacyFlag(e);
      HostCall(r, if r.Raised? then [Called, Copied, Decoded, Threw] else [Called, Copied, Decoded])
  }

  /** Against the envelope the current engine writes, the legacy `enabled?`
      reads every known toggle as disabled, since the status is then `Ok`
      rather than `Enabled`; missing toggles and errors still read as `nil`
      and as an exception. */
  lemma LegacyReadsCurrentEnvelope(result: Outcome<Option<bool>>, debug: DebugFormat)
    requires result.Failure? ==> !result.error.InvalidMessageFormat?
    ensures var w := ToWire(FromResult(result, debug));
            var c := LegacyEnabled(RbParsed(RbEnvelope(Some(w.statusCode), w.value, w.errorMessage)));
            Leaked(c.trace, Reply)
            && (result.Success? && result.value.Some? ==> c.result == Returned(Some(false)))
            && (result == Success(None) ==> c.result == Returned(None))
            && (result.Failure? ==> c.result == Raised("Error: " + ErrorText(result.error, debug)))
  {
    var w := ToWire(FromResult(result, debug));
    match result
    case Success(Some(b)) =>
      assert w.statusCode == "Ok";
    case Success(None) =>
      assert w.statusCode == "NotFound";
    case Failure(e) =>
      assert w.statusCode == "Error";
  }

  /** The hash `check_variant` answered with: a status and a `variant`. */
  datatype LegacyVariantReply<A> = LegacyVariantReply(statusCode: Option<string>, variant: Option<A>)

  /** `JSON.parse` of the variant reply: the hash, or the parser's message. */
  datatype LegacyParse<T> = LegacyParsed(hash: T) | LegacyUnparsable(message: string)

  /** `get_variant`: the reply is parsed before it is released, so a reply
      that does not parse raises with the reply still held. `NotFound` is
      `nil`, `Enabled` is the raw variant hash, and any other status falls
      off the end of the method as `nil`. */
  function LegacyGetVariant<A>(reply: LegacyParse<LegacyVariantReply<A>>): (c: HostCall<Option<A>>)
    ensures reply.LegacyParsed? <==> ReleasedOnce(c.trace, Reply)
    ensures reply.LegacyUnparsable? ==> Leaked(c.trace, Reply) && c.result == Raised(reply.message)
    ensures reply.LegacyParsed? ==> Precedes(c.trace, Decoded, Released(Reply))
    ensures reply.LegacyParsed? ==>
              (c.result == Returned(reply.hash.variant) <==> reply.hash.statusCode == Some(ENABLED_RESPONSE) || reply.hash.variant.None?)
              && (reply.hash.statusCode != Some(ENABLED_RESPONSE) ==> c.result == Returned(None))
  {
    match reply
    case LegacyUnparsable(m) => HostCall(Raised(m), [Called, Copied, Threw])
    case LegacyParsed(r) =>
      var trace := [Called, Copied, Decoded, Released(Reply)];
      PrecedesAt(trace, Decoded, Released(Reply), 2, 3);
      if r.statusCode == Some(TOGGLE_MISSING_RESPONSE) then HostCall(Returned(None), trace)
      else if r.statusCode == Some(ENABLED_RESPONSE) then HostCall(Returned(r.variant), trace)
      else HostCall(Returned(None), trace)
  }

  /** The attributes hash `Variant.new` reads. */
  datatype VariantAttributes = VariantAttributes(enabled: Option<bool>, name: Option<string>, payload: Option<map<string, string>>)

  /** `Variant`. */
  datatype LegacyVariant = LegacyVariant(enabled: bool, name: string, payload: Option<map<string, string>>)

  /** `Variant.new`: `||` falls back only on `nil` (and `false`), so an
      absent name is `disabled`, an empty one is kept, and an absent flag is
      false. */
  function VariantNew(a: VariantAttributes): (v: LegacyVariant)
    ensures a.name.None? ==> v.name == "disabled"
    ensures a.name.Some? ==> v.name == a.name.value
    ensures v.enabled <==> a.enabled == Some(true)
    ensures v.payload == a.payload
  {
    LegacyVariant(a.enabled.GetOr(false), a.name.GetOr("disabled"), a.payload)
  }

  /** The attributes of a variant with every key present. */
  function VariantAttributesOf(v: LegacyVariant): VariantAttributes {
    VariantAttributes(Some(v.enabled), Some(v.name), v.payload)
  }

  /** Building from a variant's own attributes gives the variant back, and
      the empty hash gives the disabled variant. */
  lemma VariantNewRoundTrip(v: LegacyVariant)
    ensures VariantNew(VariantAttributesOf(v)) == v
    ensures VariantNew(VariantAttributes(None, None, None)) == LegacyVariant(false, "disabled", None)
  {
  }
}

=== FILE: rule_parser.dfy ===
/** The earliest rule evaluator (`rule-parser/src/lib.rs`): numeric, semver
    and rollout constraints over a context whose only accessor is the user id.
    Its precedence-climbing combinator ignores the operator it is given, so
    `or` behaves as `and`. */
module RuleParser {
  import opened Common
  import opened FragmentOps

  /** `Context::new` sets the environment to `""`. */
  datatype RuleContext = RuleContext(userId: string, environment: string, properties: map<string, string>)

  function NewRuleContext(userId: string, properties: map<string, string>): (c: RuleContext)
    ensures c.userId == userId && c.properties == properties && c.environment == ""
  {
    RuleContext(userId, "", properties)
  }

  datatype RuleEnv = RuleEnv(context: RuleContext, murmur: Murmur, numeric: Comparison, semver: Comparison)

  datatype BooleanOperator = AndOp | OrOp

  datatype RuleLeaf =
    | NumericConstraint(op: Ordinal, number: string)
    | SemverConstraint(op: Ordinal, version: string)
    /** `sticky` holds when the rule names `user_id` as its stickiness. */
    | RolloutConstraint(percent: u8, sticky: bool, groupId: Option<string>)

  datatype RuleExpr =
    | Term(leaf: RuleLeaf)
    | Infix(left: RuleExpr, op: BooleanOperator, right: RuleExpr)

  /** Numeric and semver constraints are false when the user id does not
      parse; rollouts hash `group:stickiness` modulo 100, both defaulting to
      `""`, and a hashing error is false. */
  function RuleLeafHolds(leaf: RuleLeaf, env: RuleEnv): (r: bool)
    ensures leaf.NumericConstraint? ==> (r <==> env.numeric(env.context.userId, leaf.op, leaf.number) == Some(true))
    ensures leaf.SemverConstraint? ==> (r <==> env.semver(env.context.userId, leaf.op, leaf.version) == Some(true))
    ensures leaf.RolloutConstraint? ==>
              (r <==> var h := RemainderHash(env.murmur, leaf.groupId.GetOr(""), if leaf.sticky then env.context.userId else "", 100);
                      h.Some? && h.value <= leaf.percent)
  {
    match leaf
    case NumericConstraint(op, number) => env.numeric(env.context.userId, op, number).GetOr(false)
    case SemverConstraint(op, version) => env.semver(env.context.userId, op, version).GetOr(false)
    case RolloutConstraint(percent, sticky, groupId) =>
      var value := if sticky then env.context.userId else "";
      var group := match groupId
        case Some(g) => g
        case None => "";
      match RemainderHash(env.murmur, group, value, 100)
      case Some(h) => h <= percent
      case None => false
  }

  /** The combinator returns `left && right` whatever the operator. */
  function RuleEval(e: RuleExpr, env: RuleEnv): bool {
    match e
    case Term(leaf) => RuleLeafHolds(leaf, env)
    case Infix(l, _, r) => RuleEval(l, env) && RuleEval(r, env)
  }

  /** `or` is evaluated as conjunction, exactly like `and`. */
  lemma OrActsAsAnd(l: RuleExpr, r: RuleExpr, env: RuleEnv)
    ensures RuleEval(Infix(l, OrOp, r), env) == RuleEval(Infix(l, AndOp, r), env)
    ensures RuleEval(Infix(l, OrOp, r), env) <==> RuleEval(l, env) && RuleEval(r, env)
  {
  }
}

=== FILE: ui_parsing.dfy ===
/** The response checks of the engine playground page
    (`yggdrasil-ui/src/App.tsx`): the WebAssembly engine hands back plain
    JavaScript values, and the page keeps only what has the shape it
    renders. A JavaScript value is modelled as the JSON-like datatype below;
    `typeof`, truthiness and property reads follow JavaScript's rules. */
module UiParsing {
  import opened Common

  /** A JavaScript value as the engine returns it. Numbers are integers here;
      no value read below is a number. */
  datatype JsValue =
    | JUndefined
    | JNull
    | JBool(b: bool)
    | JNumber(n: int)
    | JString(s: string)
    | JArray(items: seq<JsValue>)
    | JObject(fields: map<string, JsValue>)

  /** `typeof v`: `null` and arrays are objects too. */
  function TypeOf(v: JsValue): string {
    match v
    case JUndefined => "undefined"
    case JBool(_) => "boolean"
    case JNumber(_) => "number"
    case JString(_) => "string"
    case _ => "object"
  }

  /** Truthiness: `undefined`, `null`, `false`, `0` and `""` are falsy. */
  predicate Truthy(v: JsValue) {
    match v
    case JUndefined => false
    case JNull => false
    case JBool(b) => b
    case JNumber(n) => n != 0
    case JString(s) => s != ""
    case _ => true
  }

  /** `v[key]` for the named (non-index) properties read on this page: an
      object's own field, an array's `length`, otherwise `undefined`. */
  function Get(v: JsValue, key: string): (r: JsValue)
    ensures v.JObject? ==> r == if key in v.fields then v.fields[key] else JUndefined
    ensures !v.JObject? && !v.JArray? ==> r == JUndefined
  {
    match v
    case JObject(fields) => if key in fields then fields[key] else JUndefined
    case JArray(items) => if key == "length" then JNumber(|items|) else JUndefined
    case _ => JUndefined
  }

  /** `!v || typeof v !== 'object'` fails exactly for objects and arrays. */
  lemma ObjectGuard(v: JsValue)
    ensures (Truthy(v) && TypeOf(v) == "object") <==> (v.JObject? || v.JArray?)
  {
  }

  // ---------------------------------------------------------------------------
  // flatMap with a keep-or-drop step
  // ---------------------------------------------------------------------------

  /** `items.flatMap(step)` where each step returns an empty or a one-element
      array. */
  function Keep<T(==,!new)>(items: seq<JsValue>, step: JsValue -> Option<T>): (r: seq<T>)
    ensures |r| <= |items|
    ensures forall x :: x in r <==> exists i :: 0 <= i < |items| && step(items[i]) == Some(x)
  {
    if |items| == 0 then []
    else
      var rest := Keep(items[1..], step);
      assert forall i :: 1 <= i < |items| ==> items[i] == items[1..][i - 1];
      match step(items[0])
      case Some(x) => [x] + rest
      case None => rest
  }

  /** Keeping distributes over concatenation: the kept entries stay in
      their order. */
  lemma {:induction false} KeepAppend<T(!new)>(a: seq<JsValue>, b: seq<JsValue>, step: JsValue -> Option<T>)
    ensures Keep(a + b, step) == Keep(a, step) + Keep(b, step)
  {
    if |a| > 0 {
      assert (a + b)[1..] == a[1..] + b;
      KeepAppend(a[1..], b, step);
    } else {
      assert a + b == b;
    }
  }

  /** When every entry is kept, the result is the entries' images, index by
      index. */
  lemma {:induction false} KeepAll<T(!new)>(items: seq<JsValue>, step: JsValue -> Option<T>)
    requires forall i :: 0 <= i < |items| ==> step(items[i]).Some?
    ensures |Keep(items, step)| == |items|
    ensures forall i :: 0 <= i < |items| ==> Keep(items, step)[i] == step(items[i]).value
  {
    if |items| > 0 {
      KeepAll(items[1..], step);
      assert forall i :: 1 <= i < |items| ==> items[i] == items[1..][i - 1];
    }
  }

  // ---------------------------------------------------------------------------
  // parseWarnings
  // ---------------------------------------------------------------------------

  datatype EvalWarning = EvalWarning(toggleName: string, message: string)

  /** One entry of the warning list: an object with string `toggle_name` and
      `message`. */
  function WarningOf(entry: JsValue): (r: Option<EvalWarning>)
    ensures r.Some? <==> (entry.JObject? || entry.JArray?) &&
                         Get(entry, "toggle_name").JString? && Get(entry, "message").JString?
    ensures r.Some? ==> r.value == EvalWarning(Get(entry, "toggle_name").s, Get(entry, "message").s)
  {
    if !Truthy(entry) || TypeOf(entry) != "object" then None
    else
      var toggleName := Get(entry, "toggle_name");
      var message := Get(entry, "message");
      if TypeOf(toggleName) == "string" && TypeOf(message) == "string" then
        Some(EvalWarning(toggleName.s, message.s))
      else None
  }

  /** `parseWarnings`: `[]` for a non-array, otherwise exactly the
      well-formed entries. */
  function ParseWarnings(value: JsValue): (r: seq<EvalWarning>)
    ensures !value.JArray? ==> r == []
    ensures value.JArray? ==> |r| <= |value.items|
    ensures value.JArray? ==>
              forall w :: w in r <==> exists i :: 0 <= i < |value.items| && WarningOf(value.items[i]) == Some(w)
  {
    if !value.JArray? then [] else Keep(value.items, WarningOf)
  }

  /** The engine's shape of a warning list. */
  function WarningsValue(ws: seq<EvalWarning>): (v: JsValue)
    ensures v.JArray? && |v.items| == |ws|
  {
    JArray(seq(|ws|, i requires 0 <= i < |ws| =>
      JObject(map["toggle_name" := JString(ws[i].toggleName), "message" := JString(ws[i].message)])))
  }

  /** Every warning the engine reports is kept, in order. */
  lemma WarningsRoundTrip(ws: seq<EvalWarning>)
    ensures ParseWarnings(WarningsValue(ws)) == ws
  {
    var items := WarningsValue(ws).items;
    KeepAll(items, WarningOf);
  }

  /** The warnings of two lists side by side are those of each, in order. */
  lemma WarningsConcatenate(a: seq<JsValue>, b: seq<JsValue>)
    ensures ParseWarnings(JArray(a + b)) == ParseWarnings(JArray(a)) + ParseWarnings(JArray(b))
  {
    KeepAppend(a, b, WarningOf);
  }

  // ---------------------------------------------------------------------------
  // parseToggles
  // ---------------------------------------------------------------------------

  /** `ToggleSummary`; `featureType` is whatever `feature_type ?? null` gave. */
  datatype ToggleSummary = ToggleSummary(name: string, project: string, enabled: bool, featureType: JsValue)

  /** `raw.feature_type ?? null`. */
  function NullishToNull(v: JsValue): (r: JsValue)
    ensures v.JUndefined? || v.JNull? ==> r == JNull
    ensures !v.JUndefined? && !v.JNull? ==> r == v
  {
    if v.JUndefined? || v.JNull? then JNull else v
  }

  function ToggleOf(entry: JsValue): (r: Option<ToggleSummary>)
    ensures r.Some? <==> (entry.JObject? || entry.JArray?) && Get(entry, "name").JString? &&
                         Get(entry, "project").JString? && Get(entry, "enabled").JBool?
    ensures r.Some? ==> r.value.name == Get(entry, "name").s && r.value.project == Get(entry, "project").s &&
                        r.value.enabled == Get(entry, "enabled").b && !r.value.featureType.JUndefined?
  {
    if !Truthy(entry) || TypeOf(entry) != "object" then None
    else
      var name := Get(entry, "name");
      var project := Get(entry, "project");
      var enabled := Get(entry, "enabled");
      if TypeOf(name) != "string" || TypeOf(project) != "string" || TypeOf(enabled) != "boolean" then None
      else Some(ToggleSummary(name.s, project.s, enabled.b, NullishToNull(Get(entry, "feature_type"))))
  }

  /** `parseToggles`: `[]` for a non-array, otherwise exactly the entries
      with a string name and project and a boolean enabled flag. */
  function ParseToggles(value: JsValue): (r: seq<ToggleSummary>)
    ensures !value.JArray? ==> r == []
    ensures value.JArray? ==> |r| <= |value.items|
    ensures value.JArray? ==>
              forall t :: t in r <==> exists i :: 0 <= i < |value.items| && ToggleOf(value.items[i]) == Some(t)
  {
    if !value.JArray? then [] else Keep(value.items, ToggleOf)
  }

  /** No parsed toggle has an undefined feature type: a missing one is
      `null`. */
  lemma FeatureTypeNeverUndefined(value: JsValue)
    ensures forall i :: 0 <= i < |ParseToggles(value)| ==> !ParseToggles(value)[i].featureType.JUndefined?
  {
    var r := ParseToggles(value);
    forall i | 0 <= i < |r|
      ensures !r[i].featureType.JUndefined?
    {
      assert r[i] in r;
    }
  }

  /** The engine's shape of a toggle list; an absent feature type is left
      out of the object. */
  function TogglesValue(ts: seq<ToggleSummary>): (v: JsValue)
    ensures v.JArray? && |v.items| == |ts|
  {
    JArray(seq(|ts|, i requires 0 <= i < |ts| => ToggleValue(ts[i])))
  }

  function ToggleValue(t: ToggleSummary): JsValue {
    var base := map["name" := JString(t.name), "project" := JString(t.project), "enabled" := JBool(t.enabled)];
    JObject(if t.featureType.JNull? then base else base["feature_type" := t.featureType])
  }

  /** Every toggle the engine lists is kept, in order; a missing feature
      type reads as `null`. */
  lemma TogglesRoundTrip(ts: seq<ToggleSummary>)
    requires forall i :: 0 <= i < |ts| ==> !ts[i].featureType.JUndefined?
    ensures ParseToggles(TogglesValue(ts)) == ts
  {
    var items := TogglesValue(ts).items;
    forall i | 0 <= i < |items|
      ensures ToggleOf(items[i]) == Some(ts[i])
    {
      assert items[i] == ToggleValue(ts[i]);
    }
    KeepAll(items, ToggleOf);
  }

  // ---------------------------------------------------------------------------
  // parseEvaluation
  // ---------------------------------------------------------------------------

  datatype VariantResult = VariantResult(name: string, payload: JsValue, enabled: bool, featureEnabled: bool)

  datatype EvaluationResult = EvaluationResult(enabled: bool, variant: VariantResult)

  /** The variant's `featureEnabled`, else its `feature_enabled`, when
      boolean. */
  function FeatureEnabledOf(variant: JsValue): (r: Option<bool>)
    ensures Get(variant, "featureEnabled").JBool? ==> r == Some(Get(variant, "featureEnabled").b)
    ensures !Get(variant, "featureEnabled").JBool? && Get(variant, "feature_enabled").JBool? ==>
              r == Some(Get(variant, "feature_enabled").b)
    ensures r.None? <==> !Get(variant, "featureEnabled").JBool? && !Get(variant, "feature_enabled").JBool?
  {
    var camel := Get(variant, "featureEnabled");
    var snake := Get(variant, "feature_enabled");
    if TypeOf(camel) == "boolean" then Some(camel.b)
    else if TypeOf(snake) == "boolean" then Some(snake.b)
    else None
  }

  /** `parseEvaluation`: `null` unless the value is an object with a boolean
      `enabled` and an object `variant` carrying a string name, a boolean
      enabled flag and a boolean feature flag under either spelling. */
  function ParseEvaluation(value: JsValue): (r: Option<EvaluationResult>)
    ensures r.Some? <==>
              (value.JObject? || value.JArray?) && Get(value, "enabled").JBool? &&
              (var variant := Get(value, "variant");
               (variant.JObject? || variant.JArray?) && Get(variant, "name").JString? &&
               Get(variant, "enabled").JBool? && FeatureEnabledOf(variant).Some?)
    ensures r.Some? ==>
              var variant := Get(value, "variant");
              r.value.enabled == Get(value, "enabled").b &&
              r.value.variant == VariantResult(Get(variant, "name").s, Get(variant, "payload"),
                                               Get(variant, "enabled").b, FeatureEnabledOf(variant).value)
  {
    if !Truthy(value) || TypeOf(value) != "object" then None
    else
      var enabled := Get(value, "enabled");
      var variant := Get(value, "variant");
      if TypeOf(enabled) != "boolean" || !Truthy(variant) || TypeOf(variant) != "object" then None
      else
        var featureEnabled := FeatureEnabledOf(variant);
        var name := Get(variant, "name");
        var variantEnabled := Get(variant, "enabled");
        if TypeOf(name) != "string" || TypeOf(variantEnabled) != "boolean" || featureEnabled.None? then None
        else
          Some(EvaluationResult(enabled.b,
            VariantResult(name.s, Get(variant, "payload"), variantEnabled.b, featureEnabled.value)))
  }

  /** The engine's shape of an evaluation, with the feature flag under the
      given spelling; an undefined payload is left out. */
  function EvaluationValue(e: EvaluationResult, flagKey: string): JsValue
    requires flagKey == "featureEnabled" || flagKey == "feature_enabled"
  {
    var base := map["name" := JString(e.variant.name), "enabled" := JBool(e.variant.enabled),
                     flagKey := JBool(e.variant.featureEnabled)];
    var variant := if e.variant.payload.JUndefined? then base else base["payload" := e.variant.payload];
    JObject(map["enabled" := JBool(e.enabled), "variant" := JObject(variant)])
  }

  /** An evaluation reads back whichever spelling carries the feature
      flag. */
  lemma EvaluationRoundTrip(e: EvaluationResult, flagKey: string)
    requires flagKey == "featureEnabled" || flagKey == "feature_enabled"
    ensures ParseEvaluation(EvaluationValue(e, flagKey)) == Some(e)
  {
  }

  /** With both spellings present, the camel-case one decides. */
  lemma CamelCaseFlagWins(fields: map<string, JsValue>, camel: bool, snake: bool)
    ensures FeatureEnabledOf(JObject(fields["featureEnabled" := JBool(camel)]["feature_enabled" := JBool(snake)])) == Some(camel)
  {
  }

  /** Without a boolean feature flag under either spelling there is no
      evaluation. */
  lemma MissingFlagRejects(value: JsValue)
    requires !FeatureEnabledOf(Get(value, "variant")).Some?
    ensures ParseEvaluation(value).None?
  {
  }

  // ---------------------------------------------------------------------------
  // ensureRecordOfStrings
  // ---------------------------------------------------------------------------

  /** `Object.entries(v)` values: an object's fields, an array's elements;
      other values have none. */
  predicate AllEntriesStrings(v: JsValue) {
    match v
    case JObject(fields) => forall k :: k in fields ==> fields[k].JString?
    case JArray(items) => forall i :: 0 <= i < |items| ==> items[i].JString?
    case _ => true
  }

  /** `ensureRecordOfStrings`: a non-null object all of whose entry values
      are strings. */
  function EnsureRecordOfStrings(value: JsValue): (r: bool)
    ensures r <==> (value.JObject? || value.JArray?) && AllEntriesStrings(value)
  {
    if TypeOf(value) != "object" || value == JNull then false else AllEntriesStrings(value)
  }

  /** The engine's shape of a grammar map. */
  function RecordValue(m: map<string, string>): JsValue {
    JObject(map k | k in m :: JString(m[k]))
  }

  /** Grammar maps pass the check, and the strings read back are the map. */
  lemma RecordRoundTrip(m: map<string, string>)
    ensures EnsureRecordOfStrings(RecordValue(m))
    ensures var fields := RecordValue(m).fields;
            fields.Keys == m.Keys && forall k :: k in m ==> fields[k] == JString(m[k])
  {
  }

  /** An array of strings passes too: arrays are objects to `typeof`. */
  lemma StringArrayPasses(items: seq<string>)
    ensures EnsureRecordOfStrings(JArray(seq(|items|, i requires 0 <= i < |items| => JString(items[i]))))
  {
  }
}

=== FILE: upgrade.dfy ===
/** The rule upgrader of the evaluation engine: it turns a toggle's declared
    strategies, constraints and segments into the text of one boolean rule
    (`unleash-yggdrasil/src/strategy_upgrade.rs`). Parsing that text is out of
    scope; what is modelled is the exact text produced, and in particular the
    custom-strategy ordinal that every binding-side resolver has to reproduce. */
module Upgrade {
  import opened Common
  import opened Features

  const DEFAULT_STICKINESS: string := "user_id | session_id | random"

  /** Rollout targets are parsed as `usize` (64-bit targets). */
  const USIZE_LIMIT: nat := U64_LIMIT

  datatype StrategyType =
    | Default | UserWithId | GradualRolloutUserId | GradualRolloutSessionId
    | GradualRolloutRandom | FlexibleRollout | RemoteAddress | ApplicationHostname
    | Custom(name: string)

  /** The eight strategy names the upgrader knows. */
  const BUILT_IN_NAMES: seq<string> := [
    "default", "userWithId", "gradualRolloutUserId", "gradualRolloutSessionId",
    "gradualRolloutRandom", "flexibleRollout", "remoteAddress", "applicationHostname"]

  /** `StrategyType::from`: a name outside the eight built-ins is custom. */
  function StrategyTypeOf(name: string): (t: StrategyType)
    ensures t.Custom? <==> name !in BUILT_IN_NAMES
    ensures t.Custom? ==> t.name == name
  {
    match name
    case "default" => Default
    case "userWithId" => UserWithId
    case "gradualRolloutUserId" => GradualRolloutUserId
    case "gradualRolloutSessionId" => GradualRolloutSessionId
    case "gradualRolloutRandom" => GradualRolloutRandom
    case "flexibleRollout" => FlexibleRollout
    case "remoteAddress" => RemoteAddress
    case "applicationHostname" => ApplicationHostname
    case _ => Custom(name)
  }

  predicate IsCustom(s: Strategy) {
    StrategyTypeOf(s.name).Custom?
  }

  // ---------------------------------------------------------------------------
  // Parameters, context names, stickiness and operators
  // ---------------------------------------------------------------------------

  /** `get_rollout_target`: the parameter parsed as an unsigned integer; absent
      and unparseable both give `None`. */
  function RolloutTarget(s: Strategy, property: string): (r: Option<nat>)
    ensures r.Some? ==> Param(s.parameters, property).Some?
    ensures r.Some? ==> ParseUnsigned(Param(s.parameters, property).value, USIZE_LIMIT) == r
    ensures Param(s.parameters, property).Some? && ParseUnsigned(Param(s.parameters, property).value, USIZE_LIMIT).Some? ==> r.Some?
  {
    match Param(s.parameters, property)
    case Some(v) => ParseUnsigned(v, USIZE_LIMIT)
    case None => None
  }

  /** `context["name"]`, the rule-text form of an arbitrary context property. */
  function PropertyReference(name: string): string {
    "context[\"" + name + "\"]"
  }

  /** `upgrade_context_name`: the six well-known camelCase names map to their
      snake_case rule names; any other name becomes a property reference. */
  function ContextName(name: string): (r: string)
    ensures name == "userId" ==> r == "user_id"
    ensures name == "sessionId" ==> r == "session_id"
    ensures name == "currentTime" ==> r == "current_time"
    ensures name == "environment" ==> r == "environment"
    ensures name == "appName" ==> r == "app_name"
    ensures name == "remoteAddress" ==> r == "remote_address"
    ensures name !in KNOWN_CONTEXT_NAMES ==> r == PropertyReference(name)
    ensures |r| > 0 && r[0] != '!'
  {
    match name
    case "userId" => "user_id"
    case "sessionId" => "session_id"
    case "currentTime" => "current_time"
    case "environment" => "environment"
    case "appName" => "app_name"
    case "remoteAddress" => "remote_address"
    case _ => PropertyReference(name)
  }

  const KNOWN_CONTEXT_NAMES: seq<string> := ["userId", "sessionId", "currentTime", "environment", "appName", "remoteAddress"]

  /** Reads a rule-text context name back to the declared name. */
  function ContextNameSource(r: string): string {
    if r == "user_id" then "userId"
    else if r == "session_id" then "sessionId"
    else if r == "current_time" then "currentTime"
    else if r == "environment" then "environment"
    else if r == "app_name" then "appName"
    else if r == "remote_address" then "remoteAddress"
    else if |r| >= 11 then r[9..|r| - 2]
    else r
  }

  /** The context-name mapping loses nothing: the declared name can be read
      back from the rule text, so distinct names never collide. */
  lemma ContextNameRoundTrip(name: string)
    ensures ContextNameSource(ContextName(name)) == name
  {
    if name !in KNOWN_CONTEXT_NAMES {
      var r := PropertyReference(name);
      assert r[1] == 'o' && r[7] == '[';
      assert r[9..|r| - 2] == name;
    }
  }

  /** `upgrade_stickiness`: absent or `"default"` means the fallback chain,
      `"random"` stays, anything else is a context name. */
  function Stickiness(param: Option<string>): (r: string)
    ensures param.None? || param == Some("default") ==> r == DEFAULT_STICKINESS
    ensures param == Some("random") ==> r == "random"
    ensures param.Some? && param.value != "default" && param.value != "random" ==> r == ContextName(param.value)
  {
    match param
    case None => DEFAULT_STICKINESS
    case Some("random") => "random"
    case Some("default") => DEFAULT_STICKINESS
    case Some(other) => ContextName(other)
  }

  /** `is_stringy`: operators whose operand is a list of strings. */
  predicate IsStringy(op: Operator) {
    op.NotIn? || op.In? || op.StrEndsWith? || op.StrStartsWith? || op.StrContains?
  }

  predicate IsSemver(op: Operator) {
    op.SemverEq? || op.SemverLt? || op.SemverGt?
  }

  /** `upgrade_operator`: only an unknown operator has no rule text; case
      insensitivity changes only the three string-fragment operators, and the
      numeric, date and semver operators share the comparison symbols. */
  function OperatorText(op: Operator, caseInsensitive: bool): (r: Option<string>)
    ensures r.None? <==> op.Unknown?
    ensures (op.StrEndsWith? || op.StrStartsWith? || op.StrContains?) ==>
              (caseInsensitive <==> EndsWith(r.value, "_ignore_case"))
    ensures op.In? ==> r == Some("in")
    ensures op.NotIn? ==> r == Some("not_in")
    ensures op.StrEndsWith? ==> r == Some(if caseInsensitive then "ends_with_any_ignore_case" else "ends_with_any")
    ensures op.StrStartsWith? ==> r == Some(if caseInsensitive then "starts_with_any_ignore_case" else "starts_with_any")
    ensures op.StrContains? ==> r == Some(if caseInsensitive then "contains_any_ignore_case" else "contains_any")
    ensures op.NumEq? || op.SemverEq? ==> r == Some("==")
    ensures op.NumGt? || op.DateAfter? || op.SemverGt? ==> r == Some(">")
    ensures op.NumGte? ==> r == Some(">=")
    ensures op.NumLt? || op.DateBefore? || op.SemverLt? ==> r == Some("<")
    ensures op.NumLte? ==> r == Some("<=")
  {
    match op
    case In => Some("in")
    case NotIn => Some("not_in")
    case StrEndsWith => Some(FragmentOperatorText(op, caseInsensitive))
    case StrStartsWith => Some(FragmentOperatorText(op, caseInsensitive))
    case StrContains => Some(FragmentOperatorText(op, caseInsensitive))
    case NumEq => Some("==")
    case NumGt => Some(">")
    case NumGte => Some(">=")
    case NumLt => Some("<")
    case NumLte => Some("<=")
    case DateAfter => Some(">")
    case DateBefore => Some("<")
    case SemverEq => Some("==")
    case SemverLt => Some("<")
    case SemverGt => Some(">")
    case Unknown(_) => None
  }

  /** The text of a string-fragment operator, which ends in `_ignore_case`
      exactly in its case-insensitive spelling. */
  function FragmentOperatorText(op: Operator, caseInsensitive: bool): (r: string)
    requires op.StrEndsWith? || op.StrStartsWith? || op.StrContains?
    ensures op.StrEndsWith? ==> r == if caseInsensitive then "ends_with_any_ignore_case" else "ends_with_any"
    ensures op.StrStartsWith? ==> r == if caseInsensitive then "starts_with_any_ignore_case" else "starts_with_any"
    ensures op.StrContains? ==> r == if caseInsensitive then "contains_any_ignore_case" else "contains_any"
    ensures caseInsensitive <==> EndsWith(r, "_ignore_case")
  {
    IgnoreCaseSpellings();
    if op.StrEndsWith? then (if caseInsensitive then "ends_with_any_ignore_case" else "ends_with_any")
    else if op.StrStartsWith? then (if caseInsensitive then "starts_with_any_ignore_case" else "starts_with_any")
    else (if caseInsensitive then "contains_any_ignore_case" else "contains_any")
  }

  // ---------------------------------------------------------------------------
  // Constraints
  // ---------------------------------------------------------------------------

  /** The upgrader unwraps the single value of a non-list operator, which
      panics when it is missing; this is the condition under which
      `upgrade_constraint` returns. */
  predicate Upgradable(c: Constraint) {
    !c.operator.Unknown? && !IsStringy(c.operator) ==> c.value.Some?
  }

  /** Each value as an escaped, double-quoted rule literal. */
  function QuoteAll(values: seq<string>): (r: seq<string>)
    ensures |r| == |values|
    ensures forall i :: 0 <= i < |values| ==> r[i] == QuoteEscaped(values[i])
  {
    seq(|values|, i requires 0 <= i < |values| => QuoteEscaped(values[i]))
  }

  /** The `[..]` list operand of a string operator; absent values give `[]`. */
  function ValueList(values: Option<seq<string>>): string {
    "[" + Join(", ", QuoteAll(values.GetOr([]))) + "]"
  }

  /** True iff the constraint is rejected outright as the rule `false`. */
  predicate Rejected(c: Constraint)
    requires Upgradable(c)
  {
    c.operator.Unknown? || (IsSemver(c.operator) && StartsWith(c.value.value, "v"))
  }

  /** `upgrade_constraint`. */
  function UpgradeConstraint(c: Constraint): (r: string)
    requires Upgradable(c)
    ensures r == "false" <==> Rejected(c)
    ensures !Rejected(c) ==> |r| > 0 && (c.inverted <==> r[0] == '!')
    ensures !Rejected(c) && IsStringy(c.operator) ==> EndsWith(r, " " + ValueList(c.values))
    ensures !Rejected(c) && !IsStringy(c.operator) ==> EndsWith(r, " " + c.value.value)
    ensures !Rejected(c) ==>
              r == (if c.inverted then "!" else "") + ContextName(c.contextName) + " "
                   + OperatorText(c.operator, c.caseInsensitive).value + " "
                   + (if IsStringy(c.operator) then ValueList(c.values) else c.value.value)
  {
    if c.operator.Unknown? then "false"
    else
      var op := OperatorText(c.operator, c.caseInsensitive).value;
      var inversion := if c.inverted then "!" else "";
      if !IsStringy(c.operator) && IsSemver(c.operator) && StartsWith(c.value.value, "v") then "false"
      else
        var value := if IsStringy(c.operator) then ValueList(c.values) else c.value.value;
        ConstraintTextShape(inversion, ContextName(c.contextName), op, value);
        inversion + ContextName(c.contextName) + " " + op + " " + value
  }

  /** The string-fragment operator names end in `_ignore_case` exactly in
      their case-insensitive spelling. */
  lemma IgnoreCaseSpellings()
    ensures EndsWith("ends_with_any_ignore_case", "_ignore_case") && !EndsWith("ends_with_any", "_ignore_case")
    ensures EndsWith("starts_with_any_ignore_case", "_ignore_case") && !EndsWith("starts_with_any", "_ignore_case")
    ensures EndsWith("contains_any_ignore_case", "_ignore_case") && !EndsWith("contains_any", "_ignore_case")
  {
    EndsWithSpelling();
    StartsWithSpelling();
    ContainsSpelling();
  }

  lemma EndsWithSpelling()
    ensures EndsWith("ends_with_any_ignore_case", "_ignore_case") && !EndsWith("ends_with_any", "_ignore_case")
  {
    assert "ends_with_any_ignore_case"[13..] == "_ignore_case";
    assert "ends_with_any"[1..][0] != '_';
  }

  lemma StartsWithSpelling()
    ensures EndsWith("starts_with_any_ignore_case", "_ignore_case") && !EndsWith("starts_with_any", "_ignore_case")
  {
    assert "starts_with_any_ignore_case"[15..] == "_ignore_case";
    assert "starts_with_any"[3..][0] != '_';
  }

  lemma ContainsSpelling()
    ensures EndsWith("contains_any_ignore_case", "_ignore_case") && !EndsWith("contains_any", "_ignore_case")
  {
    assert "contains_any_ignore_case"[12..] == "_ignore_case";
    assert "contains_any"[0..][0] != '_';
  }

  /** Within one operand kind the operator text loses nothing: two list
      operators, or two numeric operators, with the same text are the same
      operator, and a string-fragment operator's text also tells whether it
      ignores case. */
  lemma OperatorTextInjective(a: Operator, ca: bool, b: Operator, cb: bool)
    requires !a.Unknown? && !b.Unknown?
    requires IsStringy(a) == IsStringy(b)
    requires (IsNumeric(a) && IsNumeric(b)) || IsStringy(a)
    requires OperatorText(a, ca) == OperatorText(b, cb)
    ensures a == b
    ensures (a.StrEndsWith? || a.StrStartsWith? || a.StrContains?) ==> ca == cb
  {
  }

  predicate IsNumeric(op: Operator) {
    op.NumEq? || op.NumGt? || op.NumGte? || op.NumLt? || op.NumLte?
  }

  /** A rendered constraint: the optional `!`, the context name (which never
      starts with `!`), the operator, a space and the value; so it is never
      the text `false`. */
  lemma ConstraintTextShape(inversion: string, name: string, op: string, value: string)
    requires inversion == "" || inversion == "!"
    requires |name| > 0 && name[0] != '!'
    ensures var r := inversion + name + " " + op + " " + value;
            r != "false" && |r| > 0 && (r[0] == '!' <==> inversion == "!") && EndsWith(r, " " + value)
  {
    var head := inversion + name + " " + op;
    var r := head + " " + value;
    assert r == head + (" " + value);
    assert r[|inversion|] == name[0];
    assert r[|head|] == ' ';
  }

  predicate AllUpgradable(cs: seq<Constraint>) {
    forall i :: 0 <= i < |cs| ==> Upgradable(cs[i])
  }

  function RenderAll(cs: seq<Constraint>): (r: seq<string>)
    requires AllUpgradable(cs)
    ensures |r| == |cs|
    ensures forall i :: 0 <= i < |cs| ==> r[i] == UpgradeConstraint(cs[i])
  {
    seq(|cs|, i requires 0 <= i < |cs| && Upgradable(cs[i]) => UpgradeConstraint(cs[i]))
  }

  /** `upgrade_constraints`: no constraints gives no clause; otherwise the
      rendered constraints in order, joined with `and`. */
  function UpgradeConstraints(cs: seq<Constraint>): (r: Option<string>)
    requires AllUpgradable(cs)
    ensures r.None? <==> |cs| == 0
    ensures r.Some? ==> r.value == Join(" and ", RenderAll(cs))
  {
    if |cs| == 0 then None else Some(Join(" and ", RenderAll(cs)))
  }

  // ---------------------------------------------------------------------------
  // Segments
  // ---------------------------------------------------------------------------

  /** The constraints of the listed segments, concatenated in order, or `None`
      when any id is missing from the segment map. */
  function SegmentConstraints(ids: seq<int>, segments: map<int, Segment>): (r: Option<seq<Constraint>>)
    ensures r.None? <==> exists i :: 0 <= i < |ids| && ids[i] !in segments
  {
    if |ids| == 0 then Some([])
    else if ids[0] !in segments then None
    else
      match SegmentConstraints(ids[1..], segments)
      case None =>
        var i :| 0 <= i < |ids[1..]| && ids[1..][i] !in segments;
        assert ids[i + 1] !in segments;
        None
      case Some(rest) =>
        assert forall i :: 1 <= i < |ids| ==> ids[i] == ids[1..][i - 1];
        Some(segments[ids[0]].constraints + rest)
  }

  /** Every constraint the strategy is guarded by: its own, then those of its
      segments; `None` when a referenced segment is missing. */
  function ResolvedConstraints(s: Strategy, segments: map<int, Segment>): (r: Option<seq<Constraint>>)
    ensures s.segments.None? ==> r == Some(s.constraints.GetOr([]))
    ensures r.None? <==> s.segments.Some? && SegmentConstraints(s.segments.value, segments).None?
  {
    match s.segments
    case None => Some(s.constraints.GetOr([]))
    case Some(ids) =>
      match SegmentConstraints(ids, segments)
      case None => None
      case Some(fromSegments) => Some(s.constraints.GetOr([]) + fromSegments)
  }

  predicate StrategyUpgradable(s: Strategy, segments: map<int, Segment>) {
    ResolvedConstraints(s, segments).Some? ==> AllUpgradable(ResolvedConstraints(s, segments).value)
  }

  // ---------------------------------------------------------------------------
  // The built-in strategies
  // ---------------------------------------------------------------------------

  /** Rule text of a rollout percentage with an optional group. */
  function GroupClause(group: string): string {
    " with group_id of \"" + group + "\""
  }

  /** `upgrade_flexible_rollout_strategy`. */
  function FlexibleRolloutRule(s: Strategy): (r: string)
    ensures RolloutTarget(s, "rollout").None? ==> r == "false"
    ensures RolloutTarget(s, "rollout").Some? ==>
              StartsWith(r, NatToString(RolloutTarget(s, "rollout").value) + "% sticky on "
                            + Stickiness(Param(s.parameters, "stickiness")))
    ensures RolloutTarget(s, "rollout").Some? && Param(s.parameters, "groupId").Some? ==>
              EndsWith(r, GroupClause(Param(s.parameters, "groupId").value))
    ensures RolloutTarget(s, "rollout").Some? && Param(s.parameters, "groupId").Some? ==>
              r == NatToString(RolloutTarget(s, "rollout").value) + "% sticky on "
                   + Stickiness(Param(s.parameters, "stickiness"))
                   + " with group_id of \"" + Param(s.parameters, "groupId").value + "\""
    ensures RolloutTarget(s, "rollout").Some? && Param(s.parameters, "groupId").None? ==>
              r == NatToString(RolloutTarget(s, "rollout").value) + "% sticky on "
                   + Stickiness(Param(s.parameters, "stickiness"))
  {
    match RolloutTarget(s, "rollout")
    case None => "false"
    case Some(rollout) =>
      var rule := NatToString(rollout) + "% sticky on " + Stickiness(Param(s.parameters, "stickiness"));
      match Param(s.parameters, "groupId")
      case Some(group) => rule + GroupClause(group)
      case None => rule
  }

  /** The user ids of a `userWithId` strategy as quoted, escaped literals. */
  function QuotedUserIds(raw: string): (r: seq<string>)
    ensures |r| == |Split(raw, ',')|
    ensures forall i :: 0 <= i < |r| ==> UnescapeQuotes(StripEnds(r[i])) == Trim(Split(raw, ',')[i])
  {
    var parts := Split(raw, ',');
    var r := seq(|parts|, i requires 0 <= i < |parts| => QuoteEscaped(Trim(parts[i])));
    forall i | 0 <= i < |r|
      ensures UnescapeQuotes(StripEnds(r[i])) == Trim(parts[i])
    {
      QuotedLiteralRoundTrip(Trim(parts[i]));
    }
    r
  }

  /** `upgrade_user_id_strategy`: each comma-separated id, trimmed, becomes a
      quoted literal that the evaluator's `string` rule decodes back to that id. */
  function UserWithIdRule(s: Strategy): (r: string)
    ensures Param(s.parameters, "userIds").None? ==> r == "false"
    ensures Param(s.parameters, "userIds").Some? ==>
              r == "user_id in [" + Join(",", QuotedUserIds(Param(s.parameters, "userIds").value)) + "]"
  {
    match Param(s.parameters, "userIds")
    case Some(raw) => "user_id in [" + Join(",", QuotedUserIds(raw)) + "]"
    case None => "false"
  }

  /** Trimmed comma-separated entries, each wrapped in quotes without escaping. */
  function QuotedEntries(raw: string): (r: seq<string>)
    ensures |r| == |Split(raw, ',')|
    ensures forall i :: 0 <= i < |r| ==> StripEnds(r[i]) == Trim(Split(raw, ',')[i])
  {
    var parts := Split(raw, ',');
    seq(|parts|, i requires 0 <= i < |parts| => "\"" + Trim(parts[i]) + "\"")
  }

  /** `upgrade_remote_address`. */
  function RemoteAddressRule(s: Strategy): (r: string)
    ensures Param(s.parameters, "IPs").None? ==> r == "false"
    ensures Param(s.parameters, "IPs").Some? ==>
              r == "remote_address contains_ip [" + Join(", ", QuotedEntries(Param(s.parameters, "IPs").value)) + "]"
  {
    match Param(s.parameters, "IPs")
    case Some(addresses) => "remote_address contains_ip [" + Join(", ", QuotedEntries(addresses)) + "]"
    case None => "false"
  }

  /** `upgrade_session_id_rollout_strategy` and `upgrade_user_id_rollout_strategy`:
      both a parseable percentage and a group id are required. */
  function GradualRolloutRule(s: Strategy, stickiness: string): (r: string)
    ensures RolloutTarget(s, "percentage").None? || Param(s.parameters, "groupId").None? ==> r == "false"
    ensures RolloutTarget(s, "percentage").Some? && Param(s.parameters, "groupId").Some? ==>
              r == NatToString(RolloutTarget(s, "percentage").value) + "% sticky on " + stickiness
                   + GroupClause(Param(s.parameters, "groupId").value)
  {
    match (RolloutTarget(s, "percentage"), Param(s.parameters, "groupId"))
    case (Some(percentage), Some(group)) => NatToString(percentage) + "% sticky on " + stickiness + GroupClause(group)
    case _ => "false"
  }

  /** `upgrade_hostname`: a missing `hostNames` is read as `""`. */
  function HostnameRule(s: Strategy): (r: string)
    ensures r == "hostname in [" + Join(", ", QuotedEntries(Param(s.parameters, "hostNames").GetOr(""))) + "]"
    ensures Param(s.parameters, "hostNames").None? ==> r == "hostname in [\"\"]"
  {
    var hosts := QuotedEntries(Param(s.parameters, "hostNames").GetOr(""));
    assert Param(s.parameters, "hostNames").None? ==> Split("", ',') == [""];
    "hostname in [" + Join(", ", hosts) + "]"
  }

  /** `upgrade_random`. */
  function RandomRule(s: Strategy): (r: string)
    ensures RolloutTarget(s, "percentage").None? ==> r == "false"
    ensures RolloutTarget(s, "percentage").Some? ==> r == "random < " + NatToString(RolloutTarget(s, "percentage").value)
  {
    match RolloutTarget(s, "percentage")
    case Some(percent) => "random < " + NatToString(percent)
    case None => "false"
  }

  /** `external_value["customStrategyN"]`. */
  function ExternalValue(ordinal: nat): string {
    "external_value[\"customStrategy" + NatToString(ordinal) + "\"]"
  }

  /** The rule of the strategy itself, before its constraints are attached. */
  function StrategyRule(s: Strategy, ordinal: nat): (r: string)
    ensures IsCustom(s) ==> r == ExternalValue(ordinal)
    ensures s.name == "default" ==> r == "true"
    ensures s.name == "userWithId" ==> r == UserWithIdRule(s)
    ensures s.name == "gradualRolloutUserId" ==> r == GradualRolloutRule(s, "user_id")
    ensures s.name == "gradualRolloutSessionId" ==> r == GradualRolloutRule(s, "session_id")
    ensures s.name == "gradualRolloutRandom" ==> r == RandomRule(s)
    ensures s.name == "flexibleRollout" ==> r == FlexibleRolloutRule(s)
    ensures s.name == "remoteAddress" ==> r == RemoteAddressRule(s)
    ensures s.name == "applicationHostname" ==> r == HostnameRule(s)
  {
    match StrategyTypeOf(s.name)
    case Default => "true"
    case UserWithId => UserWithIdRule(s)
    case GradualRolloutUserId => GradualRolloutRule(s, "user_id")
    case GradualRolloutSessionId => GradualRolloutRule(s, "session_id")
    case GradualRolloutRandom => RandomRule(s)
    case FlexibleRollout => FlexibleRolloutRule(s)
    case RemoteAddress => RemoteAddressRule(s)
    case ApplicationHostname => HostnameRule(s)
    case Custom(_) => ExternalValue(ordinal)
  }

  /** `upgrade_strategy`: a missing segment turns the whole strategy into
      `false`; otherwise the strategy rule, guarded by its own and its
      segments' constraints when there are any. */
  function UpgradeStrategy(s: Strategy, segments: map<int, Segment>, ordinal: nat): (r: string)
    requires StrategyUpgradable(s, segments)
    ensures ResolvedConstraints(s, segments).None? ==> r == "false"
    ensures ResolvedConstraints(s, segments) == Some([]) ==> r == StrategyRule(s, ordinal)
    ensures ResolvedConstraints(s, segments).Some? && |ResolvedConstraints(s, segments).value| > 0 ==>
              r == "(" + StrategyRule(s, ordinal) + " and ("
                   + Join(" and ", RenderAll(ResolvedConstraints(s, segments).value)) + "))"
  {
    match ResolvedConstraints(s, segments)
    case None => "false"
    case Some(cs) =>
      match UpgradeConstraints(cs)
      case Some(clause) => "(" + StrategyRule(s, ordinal) + " and (" + clause + "))"
      case None => StrategyRule(s, ordinal)
  }

  // ---------------------------------------------------------------------------
  // Whole toggles: the custom-strategy ordinal
  // ---------------------------------------------------------------------------

  /** The custom strategies of a list, in declaration order. */
  function Customs(ss: seq<Strategy>): (r: seq<Strategy>)
    ensures |r| <= |ss|
  {
    if |ss| == 0 then []
    else Customs(ss[..|ss| - 1]) + (if IsCustom(ss[|ss| - 1]) then [ss[|ss| - 1]] else [])
  }

  /** The ordinal the upgrader assigns at position `i`: the number of custom
      strategies up to and including position `i`. */
  function Ordinal(ss: seq<Strategy>, i: nat): nat
    requires i < |ss|
  {
    |Customs(ss[..i + 1])|
  }

  /** The custom strategies of a prefix are a prefix of the custom strategies. */
  lemma {:induction false} CustomsOfPrefix(ss: seq<Strategy>, j: nat)
    requires j <= |ss|
    ensures Customs(ss[..j]) <= Customs(ss)
    decreases |ss| - j
  {
    if j < |ss| {
      CustomsOfPrefix(ss, j + 1);
      assert ss[..j + 1][..j] == ss[..j];
      var a, b, c := Customs(ss[..j]), Customs(ss[..j + 1]), Customs(ss);
      assert a <= b;
      assert |a| <= |b| <= |c| && a == b[..|a|] && b == c[..|b|];
      assert a == c[..|a|];
    } else {
      assert ss[..j] == ss;
    }
  }

  /** One step of the counter: position `i` adds one exactly when it is custom. */
  lemma OrdinalStep(ss: seq<Strategy>, i: nat)
    requires i < |ss|
    ensures Ordinal(ss, i) == |Customs(ss[..i])| + (if IsCustom(ss[i]) then 1 else 0)
  {
    assert ss[..i + 1][..i] == ss[..i];
  }

  /** The ordinal contract: built-in strategies never advance the counter, and
      the strategy at a custom position `i` is the k-th custom strategy, where
      k is the ordinal it receives (so its rule is `customStrategyk`). */
  lemma OrdinalIsRank(ss: seq<Strategy>, i: nat)
    requires i < |ss|
    ensures !IsCustom(ss[i]) ==> Ordinal(ss, i) == |Customs(ss[..i])|
    ensures IsCustom(ss[i]) ==> Ordinal(ss, i) == |Customs(ss[..i])| + 1
    ensures IsCustom(ss[i]) ==> 1 <= Ordinal(ss, i) <= |Customs(ss)| && Customs(ss)[Ordinal(ss, i) - 1] == ss[i]
    ensures IsCustom(ss[i]) ==> StrategyRule(ss[i], Ordinal(ss, i)) == ExternalValue(Ordinal(ss, i))
  {
    OrdinalStep(ss, i);
    assert ss[..i + 1][..i] == ss[..i];
    CustomsOfPrefix(ss, i + 1);
  }

  predicate AllStrategiesUpgradable(ss: seq<Strategy>, segments: map<int, Segment>) {
    forall i :: 0 <= i < |ss| ==> StrategyUpgradable(ss[i], segments)
  }

  /** The rule of the strategy at position `i`, numbered as the upgrader does. */
  function RuleAt(ss: seq<Strategy>, segments: map<int, Segment>, i: nat): string
    requires i < |ss| && AllStrategiesUpgradable(ss, segments)
  {
    UpgradeStrategy(ss[i], segments, Ordinal(ss, i))
  }

  /** The rules of a strategy list as the upgrader numbers them. */
  function RuleList(ss: seq<Strategy>, segments: map<int, Segment>): (r: seq<string>)
    requires AllStrategiesUpgradable(ss, segments)
    ensures |r| == |ss|
    ensures forall i :: 0 <= i < |ss| ==> r[i] == RuleAt(ss, segments, i)
  {
    seq(|ss|, i requires 0 <= i < |ss| => RuleAt(ss, segments, i))
  }

  /** The running `custom_strat_count` of `upgrade`: the value the counter
      holds when the strategy at each position is rendered. */
  method CustomCounter(ss: seq<Strategy>) returns (ords: seq<nat>)
    ensures |ords| == |ss|
    ensures forall i :: 0 <= i < |ss| ==> ords[i] == Ordinal(ss, i)
  {
    var count := 0;
    ords := [];
    var i := 0;
    while i < |ss|
      invariant 0 <= i <= |ss|
      invariant count == |Customs(ss[..i])|
      invariant |ords| == i
      invariant forall j :: 0 <= j < i ==> ords[j] == Ordinal(ss, j)
    {
      OrdinalStep(ss, i);
      if IsCustom(ss[i]) {
        count := count + 1;
      }
      ords := ords + [count];
      i := i + 1;
    }
  }

  /** The text `upgrade` produces, for callers that compile it. */
  function UpgradeText(ss: seq<Strategy>, segments: map<int, Segment>): string
    requires AllStrategiesUpgradable(ss, segments)
  {
    if |ss| == 0 then "true" else Join(" or ", RuleList(ss, segments))
  }

  /** `upgrade`: `true` for no strategies; otherwise every strategy's rule in
      declaration order, joined with `or`, each custom strategy numbered by
      the running counter. */
  method Upgrade(ss: seq<Strategy>, segments: map<int, Segment>) returns (text: string)
    requires AllStrategiesUpgradable(ss, segments)
    ensures |ss| == 0 ==> text == "true"
    ensures |ss| > 0 ==> text == Join(" or ", RuleList(ss, segments))
    ensures text == UpgradeText(ss, segments)
  {
    if |ss| == 0 {
      return "true";
    }
    var ords := CustomCounter(ss);
    var rules := seq(|ss|, i requires 0 <= i < |ss| => UpgradeStrategy(ss[i], segments, ords[i]));
    assert rules == RuleList(ss, segments);
    text := Join(" or ", rules);
  }

  /** One entry of `build_variant_rules`. */
  datatype VariantRule = VariantRule(rule: string, variants: seq<StrategyVariant>, stickiness: string, groupId: string)

  /** The strategies that declare variants, in order
      (`filter(|s| s.variants.is_some())`). */
  function WithVariants(ss: seq<Strategy>): (r: seq<Strategy>)
    ensures |r| <= |ss|
    ensures forall i :: 0 <= i < |r| ==> r[i].variants.Some?
    ensures forall s :: s in r <==> s in ss && s.variants.Some?
    ensures |r| == |ss| <==> forall i :: 0 <= i < |ss| ==> ss[i].variants.Some?
  {
    if |ss| == 0 then []
    else
      var rest := WithVariants(ss[1..]);
      assert forall s :: s in ss <==> s == ss[0] || s in ss[1..];
      assert forall i :: 1 <= i < |ss| ==> ss[i] == ss[1..][i - 1];
      (if ss[0].variants.Some? then [ss[0]] else []) + rest
  }

  /** The selection keeps the declaration order: selecting from two lists
      side by side is selecting from each, one after the other. */
  lemma {:induction false} WithVariantsAppend(a: seq<Strategy>, b: seq<Strategy>)
    ensures WithVariants(a + b) == WithVariants(a) + WithVariants(b)
  {
    if |a| == 0 {
      assert a + b == b;
    } else {
      var head := if a[0].variants.Some? then [a[0]] else [];
      assert (a + b)[0] == a[0];
      assert (a + b)[1..] == a[1..] + b;
      WithVariantsAppend(a[1..], b);
      WithVariantsUnfold(a + b);
      WithVariantsUnfold(a);
      calc {
        WithVariants(a + b);
        head + WithVariants(a[1..] + b);
        head + (WithVariants(a[1..]) + WithVariants(b));
        { ConcatAssoc(head, WithVariants(a[1..]), WithVariants(b)); }
        (head + WithVariants(a[1..])) + WithVariants(b);
        WithVariants(a) + WithVariants(b);
      }
    }
  }

  /** One step of the selection: the first strategy, when it declares
      variants, followed by the selection from the rest. */
  lemma WithVariantsUnfold(ss: seq<Strategy>)
    requires |ss| > 0
    ensures WithVariants(ss) == (if ss[0].variants.Some? then [ss[0]] else []) + WithVariants(ss[1..])
  {
  }

  /** `build_variant_rules`: the variant-bearing strategies are selected first
      and only then numbered, so the custom ordinal counts custom strategies
      among those alone; stickiness defaults to `"default"` and the group to
      the toggle name. */
  method BuildVariantRules(ss: seq<Strategy>, segments: map<int, Segment>, toggleName: string)
    returns (rules: seq<VariantRule>)
    requires AllStrategiesUpgradable(ss, segments)
    ensures |rules| == |WithVariants(ss)|
    ensures AllStrategiesUpgradable(WithVariants(ss), segments)
    ensures forall i :: 0 <= i < |rules| ==>
              var w := WithVariants(ss)[i];
              rules[i] == VariantRule(
                RuleAt(WithVariants(ss), segments, i),
                w.variants.value,
                Param(w.parameters, "stickiness").GetOr("default"),
                Param(w.parameters, "groupId").GetOr(toggleName))
  {
    var ws := WithVariants(ss);
    WithVariantsSubset(ss, segments);
    var ords := CustomCounter(ws);
    rules := seq(|ws|, i requires 0 <= i < |ws| => VariantRule(
      UpgradeStrategy(ws[i], segments, ords[i]),
      ws[i].variants.value,
      Param(ws[i].parameters, "stickiness").GetOr("default"),
      Param(ws[i].parameters, "groupId").GetOr(toggleName)));
  }

  /** The selection keeps the upgrade precondition. */
  lemma {:induction false} WithVariantsSubset(ss: seq<Strategy>, segments: map<int, Segment>)
    requires AllStrategiesUpgradable(ss, segments)
    ensures AllStrategiesUpgradable(WithVariants(ss), segments)
  {
    if |ss| > 0 {
      WithVariantsSubset(ss[1..], segments);
      var head := if ss[0].variants.Some? then [ss[0]] else [];
      assert WithVariants(ss) == head + WithVariants(ss[1..]);
    }
  }
}

=== FILE: upgrade_legacy.dfy ===
/** The older rule upgrader of `sdk-core` (`sdk-core/src/strategy_upgrade.rs`).
    It knows seven strategy names, renders every other name (custom ones
    included) as `true`, inserts parameters without parsing or escaping them,
    and renders missing parameters as the empty string. */
module UpgradeLegacy {
  import opened Common
  import opened CoreState

  /** `upgrade_context_name` of the older upgrader (no `currentTime`). */
  function LegacyContextName(name: string): (r: string)
    ensures name == "userId" ==> r == "user_id"
    ensures name == "sessionId" ==> r == "session_id"
    ensures name == "environment" ==> r == "environment"
    ensures name == "appName" ==> r == "app_name"
    ensures name == "remoteAddress" ==> r == "remote_address"
    ensures name !in ["userId", "sessionId", "environment", "appName", "remoteAddress"] ==>
              r == "context[\"" + name + "\"]"
  {
    match name
    case "userId" => "user_id"
    case "sessionId" => "session_id"
    case "environment" => "environment"
    case "appName" => "app_name"
    case "remoteAddress" => "remote_address"
    case _ => "context[\"" + name + "\"]"
  }

  /** Each value wrapped in double quotes, with no escaping. */
  function QuotePlain(values: seq<string>): (r: seq<string>)
    ensures |r| == |values|
    ensures forall i :: 0 <= i < |values| ==> StripEnds(r[i]) == values[i]
  {
    seq(|values|, i requires 0 <= i < |values| => "\"" + values[i] + "\"")
  }

  /** `upgrade_constraint`: `<ctx> in|not_in [<values>]`; absent values give an
      empty list, and the values are quoted but not escaped. */
  function LegacyConstraint(c: CoreConstraint): (r: string)
    ensures c.operator == In ==> StartsWith(r, LegacyContextName(c.contextName) + " in [")
    ensures c.operator == NotIn ==> StartsWith(r, LegacyContextName(c.contextName) + " not_in [")
    ensures c.values.None? ==> EndsWith(r, " []")
    ensures c.values.Some? ==> EndsWith(r, "[" + Join(", ", QuotePlain(c.values.value)) + "]")
    ensures r == LegacyContextName(c.contextName) + (if c.operator == In then " in [" else " not_in [")
                 + Join(", ", QuotePlain(c.values.GetOr([]))) + "]"
  {
    var head := LegacyContextName(c.contextName) + (if c.operator == In then " in [" else " not_in [");
    var values := Join(", ", QuotePlain(c.values.GetOr([])));
    assert c.values.None? ==> values == "" by {
      assert QuotePlain([]) == [];
    }
    Bracketed(head, values)
  }

  /** `head` followed by `body` and a closing bracket, where `head` ends in `" ["`. */
  function Bracketed(head: string, body: string): (r: string)
    requires EndsWith(head, " [")
    ensures r == head + body + "]"
    ensures StartsWith(r, head)
    ensures EndsWith(r, "[" + body + "]")
    ensures body == "" ==> EndsWith(r, " []")
  {
    var r := head + body + "]";
    assert r[..|head|] == head;
    assert r[|r| - |body| - 2..] == "[" + body + "]" by {
      assert r[|head| - 1] == '[';
    }
    assert body == "" ==> r[|r| - 3..] == " []" by {
      assert r[|head| - 2] == ' ';
    }
    r
  }

  function LegacyConstraintList(cs: seq<CoreConstraint>): (r: seq<string>)
    ensures |r| == |cs|
    ensures forall i :: 0 <= i < |cs| ==> r[i] == LegacyConstraint(cs[i])
  {
    seq(|cs|, i requires 0 <= i < |cs| => LegacyConstraint(cs[i]))
  }

  /** `upgrade_constraints`: absent and empty lists both give no clause. */
  function LegacyConstraints(cs: Option<seq<CoreConstraint>>): (r: Option<string>)
    ensures r.None? <==> cs.None? || |cs.value| == 0
    ensures r.Some? ==> r.value == Join(" and ", LegacyConstraintList(cs.value))
  {
    match cs
    case None => None
    case Some(list) => if |list| == 0 then None else Some(Join(" and ", LegacyConstraintList(list)))
  }

  /** `upgrade_flexible_rollout_strategy`: the raw rollout text followed by `%`;
      a stickiness other than `"default"` adds `sticky on`, a group id adds
      `with group_id of`. */
  function LegacyFlexibleRollout(s: CoreStrategy): (r: string)
    ensures CoreParam(s, "rollout").None? ==> r == "false"
    ensures CoreParam(s, "rollout").Some? ==> StartsWith(r, CoreParam(s, "rollout").value + "%")
    ensures CoreParam(s, "rollout").Some? && CoreParam(s, "groupId").None? &&
            (CoreParam(s, "stickiness").None? || CoreParam(s, "stickiness") == Some("default")) ==>
              r == CoreParam(s, "rollout").value + "%"
    ensures CoreParam(s, "rollout").Some? && CoreParam(s, "stickiness").Some? && CoreParam(s, "stickiness") != Some("default")
            && CoreParam(s, "groupId").None? ==>
              r == CoreParam(s, "rollout").value + "% sticky on " + LegacyContextName(CoreParam(s, "stickiness").value)
    ensures CoreParam(s, "rollout").Some? && CoreParam(s, "groupId").Some? ==>
              EndsWith(r, " with group_id of \"" + CoreParam(s, "groupId").value + "\"")
    ensures CoreParam(s, "rollout").Some? && CoreParam(s, "groupId").Some? ==>
              r == CoreParam(s, "rollout").value + "%"
                   + (if CoreParam(s, "stickiness").Some? && CoreParam(s, "stickiness") != Some("default")
                      then " sticky on " + LegacyContextName(CoreParam(s, "stickiness").value) else "")
                   + " with group_id of \"" + CoreParam(s, "groupId").value + "\""
  {
    RolloutRule(CoreParam(s, "rollout"), CoreParam(s, "stickiness"), CoreParam(s, "groupId"))
  }

  /** The rollout rule from the three parameter values as they are read. */
  function RolloutRule(rollout: Option<string>, stickiness: Option<string>, groupId: Option<string>): (r: string)
    ensures rollout.None? ==> r == "false"
    ensures rollout.Some? ==> StartsWith(r, rollout.value + "%")
    ensures rollout.Some? && groupId.None? && (stickiness.None? || stickiness == Some("default")) ==>
              r == rollout.value + "%"
    ensures rollout.Some? && stickiness.Some? && stickiness != Some("default") && groupId.None? ==>
              r == rollout.value + "% sticky on " + LegacyContextName(stickiness.value)
    ensures rollout.Some? && groupId.Some? ==> EndsWith(r, " with group_id of \"" + groupId.value + "\"")
    ensures rollout.Some? && groupId.Some? ==>
              r == rollout.value + "%"
                   + (if stickiness.Some? && stickiness != Some("default")
                      then " sticky on " + LegacyContextName(stickiness.value) else "")
                   + " with group_id of \"" + groupId.value + "\""
  {
    match rollout
    case None => "false"
    case Some(percent) =>
      var sticky := StickyRollout(percent, stickiness);
      match groupId
      case Some(group) =>
        var clause := " with group_id of \"" + group + "\"";
        StartsWithAppendKeeps(sticky, clause, percent + "%");
        EndsWithPrepend(sticky, clause);
        var mid := if stickiness.Some? && stickiness != Some("default")
                   then " sticky on " + LegacyContextName(stickiness.value) else "";
        StickyParts(percent, stickiness);
        GroupedRollout(percent, mid, group, sticky);
        sticky + clause
      case None => sticky
  }

  /** The sticky rollout is the percentage, `%` and the optional stickiness
      clause side by side. */
  lemma StickyParts(percent: string, stickiness: Option<string>)
    ensures StickyRollout(percent, stickiness) ==
            percent + "%" + (if stickiness.Some? && stickiness != Some("default")
                             then " sticky on " + LegacyContextName(stickiness.value) else "")
  {
    if stickiness.Some? && stickiness != Some("default") {
      var name := LegacyContextName(stickiness.value);
      assert "% sticky on " == "%" + " sticky on ";
      calc {
        StickyRollout(percent, stickiness);
        percent + "% sticky on " + name;
        percent + ("%" + " sticky on ") + name;
        percent + "%" + (" sticky on " + name);
      }
    } else {
      assert percent + "%" + "" == percent + "%";
    }
  }

  /** The rollout with its group clause, spelt out piece by piece. */
  lemma GroupedRollout(percent: string, mid: string, group: string, sticky: string)
    requires sticky == percent + "%" + mid
    ensures sticky + (" with group_id of \"" + group + "\"") ==
            percent + "%" + mid + " with group_id of \"" + group + "\""
  {
  }

  /** The percentage and `%`, followed by `sticky on` and the context name
      for a stickiness other than `"default"`. */
  function StickyRollout(percent: string, stickiness: Option<string>): (r: string)
    ensures StartsWith(r, percent + "%")
    ensures stickiness.None? || stickiness == Some("default") ==> r == percent + "%"
    ensures stickiness.Some? && stickiness != Some("default") ==>
              r == percent + "% sticky on " + LegacyContextName(stickiness.value)
  {
    if stickiness.Some? && stickiness.value != "default" then
      var r := percent + "% sticky on " + LegacyContextName(stickiness.value);
      assert r[..|percent| + 1] == percent + "%" by {
        assert r[..|percent|] == percent && r[|percent|] == '%';
      }
      r
    else
      StartsWithAppend(percent + "%", "");
      assert percent + "%" + "" == percent + "%";
      percent + "%"
  }

  /** The strategy names whose rule reads parameters. */
  const LEGACY_PARAMETERISED: seq<string> := ["userWithId", "gradualRolloutUserId", "gradualRolloutSessionId",
                                              "gradualRolloutRandom", "flexibleRollout", "remoteAddress"]

  /** The rule of one strategy before its constraints are attached; missing
      parameters give `""` rather than `false`, and every unrecognised name,
      custom strategies included, gives `true`. */
  function LegacyStrategyRule(s: CoreStrategy): (r: string)
    ensures s.name !in LEGACY_PARAMETERISED ==> r == "true"
    ensures s.name == "userWithId" ==>
              r == (if CoreParam(s, "userIds").Some? then "user_id in [" + CoreParam(s, "userIds").value + "]" else "")
    ensures s.name == "gradualRolloutRandom" ==>
              r == (if CoreParam(s, "percentage").Some? then "random() < " + CoreParam(s, "percentage").value else "")
    ensures s.name in ["gradualRolloutUserId", "gradualRolloutSessionId", "remoteAddress"] ==>
              (r == "" <==> (if s.name == "remoteAddress" then CoreParam(s, "IPs").None?
                             else CoreParam(s, "percentage").None? || CoreParam(s, "groupId").None?))
    ensures s.name == "gradualRolloutUserId" ==> r == LegacyGradual(s, "user_id")
    ensures s.name == "gradualRolloutSessionId" ==> r == LegacyGradual(s, "session_id")
    ensures s.name == "remoteAddress" && CoreParam(s, "IPs").Some? ==>
              r == "remote_address in [" + Join(", ", QuotePlain(TrimAll(Split(CoreParam(s, "IPs").value, ',')))) + "]"
    ensures s.name == "flexibleRollout" ==> r == LegacyFlexibleRollout(s)
  {
    match s.name
    case "default" => "true"
    case "userWithId" =>
      (match CoreParam(s, "userIds")
       case Some(ids) => "user_id in [" + ids + "]"
       case None => "")
    case "gradualRolloutUserId" => LegacyGradual(s, "user_id")
    case "gradualRolloutSessionId" => LegacyGradual(s, "session_id")
    case "gradualRolloutRandom" =>
      (match CoreParam(s, "percentage")
       case Some(p) => "random() < " + p
       case None => "")
    case "flexibleRollout" => LegacyFlexibleRollout(s)
    case "remoteAddress" =>
      (match CoreParam(s, "IPs")
       case Some(addresses) =>
         "remote_address in [" + Join(", ", QuotePlain(TrimAll(Split(addresses, ',')))) + "]"
       case None => "")
    case _ => "true"
  }

  /** Each entry trimmed, in order. */
  function TrimAll(parts: seq<string>): (r: seq<string>)
    ensures |r| == |parts|
    ensures forall i :: 0 <= i < |parts| ==> r[i] == Trim(parts[i])
  {
    seq(|parts|, i requires 0 <= i < |parts| => Trim(parts[i]))
  }

  /** The two gradual rollouts: percentage and group id are both required. */
  function LegacyGradual(s: CoreStrategy, stickiness: string): (r: string)
    ensures CoreParam(s, "percentage").None? || CoreParam(s, "groupId").None? ==> r == ""
    ensures CoreParam(s, "percentage").Some? && CoreParam(s, "groupId").Some? ==>
              r == CoreParam(s, "percentage").value + "% sticky on " + stickiness
                   + " with group_id of \"" + CoreParam(s, "groupId").value + "\""
  {
    match (CoreParam(s, "percentage"), CoreParam(s, "groupId"))
    case (Some(p), Some(g)) => p + "% sticky on " + stickiness + " with group_id of \"" + g + "\""
    case _ => ""
  }

  /** `upgrade_strategy`: the rule, wrapped with the constraints when there are any. */
  function LegacyUpgradeStrategy(s: CoreStrategy): (r: string)
    ensures LegacyConstraints(s.constraints).None? ==> r == LegacyStrategyRule(s)
    ensures LegacyConstraints(s.constraints).Some? ==>
              r == "(" + LegacyStrategyRule(s) + " and (" + LegacyConstraints(s.constraints).value + "))"
  {
    match LegacyConstraints(s.constraints)
    case Some(clause) => "(" + LegacyStrategyRule(s) + " and (" + clause + "))"
    case None => LegacyStrategyRule(s)
  }

  /** `upgrade`: `true` for no strategies, otherwise each strategy's rule in
      order, joined with `or`. */
  function LegacyUpgrade(ss: seq<CoreStrategy>): (text: string)
    ensures |ss| == 0 ==> text == "true"
    ensures |ss| > 0 ==> text == Join(" or ", MapSeq(LegacyUpgradeStrategy, ss))
  {
    if |ss| == 0 then "true"
    else Join(" or ", MapSeq(LegacyUpgradeStrategy, ss))
  }

  /** Upgrading two non-empty strategy lists one after the other gives the
      two rules joined with `or`: each strategy contributes its own rule,
      whatever the others are. */
  lemma LegacyUpgradeAppend(a: seq<CoreStrategy>, b: seq<CoreStrategy>)
    requires |a| > 0 && |b| > 0
    ensures LegacyUpgrade(a + b) == LegacyUpgrade(a) + " or " + LegacyUpgrade(b)
  {
    MapSeqAppend(LegacyUpgradeStrategy, a, b);
    JoinAppend(" or ", MapSeq(LegacyUpgradeStrategy, a), MapSeq(LegacyUpgradeStrategy, b));
  }

  /** A custom strategy without constraints is always on in the older
      upgrader, where the newer one defers to `external_value`. */
  lemma CustomStrategyIsTrue(s: CoreStrategy)
    requires s.name !in ["default", "userWithId", "gradualRolloutUserId", "gradualRolloutSessionId",
                         "gradualRolloutRandom", "flexibleRollout", "remoteAddress"]
    requires s.constraints.None? || s.constraints == Some([])
    ensures LegacyUpgrade([s]) == "true"
  {
  }
}

=== FILE: wasm_engine.dfy ===
/** The WebAssembly engine of `yggdrasil-wasm/src/lib.rs` (`WasmEngine`): a
    compiled state plus the rule text ("grammar") of every toggle, updated by
    loading a features document or by replacing one toggle's grammar, and
    evaluated with parent dependencies and variant resolution. Parsing JSON,
    compiling a document or a rule and running a compiled rule are
    parameters; `R` is the compiled rule. A Rust panic, which traps the
    WebAssembly instance, is the `Trapped` outcome. */
module WasmEngine {
  import opened Common
  import opened Features
  import opened Upgrade
  import opened Fragments
  import opened CustomResults
  import Ygg = YggdrasilEngine

  /** `VARIANT_NORMALIZATION_SEED`. */
  const VARIANT_NORMALIZATION_SEED: u32 := 86028157

  /** The variants of one strategy, chosen when its rule holds. */
  datatype VariantRule<R> = VariantRule(rule: R, variants: seq<Variant>, groupId: string)

  datatype Toggle<R> = Toggle(
    name: string,
    enabled: bool,
    rule: R,
    variants: seq<Variant>,
    variantRules: Option<seq<VariantRule<R>>>,
    dependencies: seq<Dependency>)

  datatype Engine<R> = Engine(compiled: map<string, Toggle<R>>, grammars: map<string, string>)

  /** `WasmEngine::new`: nothing compiled, no grammars. */
  function NewEngine<R>(): (e: Engine<R>)
    ensures |e.compiled| == 0 && |e.grammars| == 0
  {
    Engine(map[], map[])
  }

  /** A computation that may panic. */
  datatype Run<T> = Ran(value: T) | Panicked

  /** An entry point's answer: a value, an error message, or a trap. */
  datatype Outcome<T> = Done(value: T) | Failed(message: string) | Trapped

  // ---------------------------------------------------------------------------
  // State updates
  // ---------------------------------------------------------------------------

  /** `compute_grammars`: every toggle's upgraded rule text by name; a later
      toggle with the same name replaces an earlier one. */
  function ComputeGrammars(doc: ClientFeatures): (r: map<string, string>)
    requires forall i :: 0 <= i < |doc.features| ==>
               AllStrategiesUpgradable(Ygg.StrategiesOf(doc.features[i]), Ygg.SegmentMap(doc.segments))
    ensures forall name :: name in r <==> exists i :: 0 <= i < |doc.features| && doc.features[i].name == name
    ensures forall i :: 0 <= i < |doc.features| && LastOfKey(GrammarPairs(doc), i) ==>
              r[doc.features[i].name] == UpgradeText(Ygg.StrategiesOf(doc.features[i]), Ygg.SegmentMap(doc.segments))
  {
    var pairs := GrammarPairs(doc);
    forall name | name in LastWins(pairs)
      ensures exists i :: 0 <= i < |doc.features| && doc.features[i].name == name
    {
      KeysOfExact(pairs, name);
    }
    LastWins(pairs)
  }

  /** The pairs `(toggle.name, grammar)` in document order. */
  function GrammarPairs(doc: ClientFeatures): (r: seq<(string, string)>)
    requires forall i :: 0 <= i < |doc.features| ==>
               AllStrategiesUpgradable(Ygg.StrategiesOf(doc.features[i]), Ygg.SegmentMap(doc.segments))
    ensures |r| == |doc.features|
    ensures forall i :: 0 <= i < |doc.features| ==>
              r[i] == (doc.features[i].name, UpgradeText(Ygg.StrategiesOf(doc.features[i]), Ygg.SegmentMap(doc.segments)))
  {
    var segments := Ygg.SegmentMap(doc.segments);
    seq(|doc.features|, i requires 0 <= i < |doc.features| =>
          (doc.features[i].name, UpgradeText(Ygg.StrategiesOf(doc.features[i]), segments)))
  }

  /** Every strategy of a parsed document can be upgraded. */
  predicate Upgradable(parsed: Outcome<ClientFeatures>) {
    parsed.Done? ==>
      forall i :: 0 <= i < |parsed.value.features| ==>
        AllStrategiesUpgradable(Ygg.StrategiesOf(parsed.value.features[i]), Ygg.SegmentMap(parsed.value.segments))
  }

  /** `load_client_features_internal`: an unparseable document is reported
      and changes nothing; otherwise the compiled state and the grammars are
      both replaced, and the compiler's warnings are returned. */
  function LoadClientFeatures<R, W>(e: Engine<R>, json: string, parse: string -> Outcome<ClientFeatures>,
                                    compileState: ClientFeatures -> (map<string, Toggle<R>>, seq<W>))
    : (r: (Engine<R>, Outcome<seq<W>>))
    requires !parse(json).Trapped? && Upgradable(parse(json))
    ensures parse(json).Failed? ==> r.0 == e && r.1 == Failed("Invalid Unleash response JSON: " + parse(json).message)
    ensures parse(json).Done? ==>
              r.0.compiled == compileState(parse(json).value).0 &&
              r.0.grammars == ComputeGrammars(parse(json).value) &&
              r.1 == Done(compileState(parse(json).value).1)
  {
    match parse(json)
    case Failed(message) => (e, Failed("Invalid Unleash response JSON: " + message))
    case Done(doc) =>
      var (compiled, warnings) := compileState(doc);
      (Engine(compiled, ComputeGrammars(doc)), Done(warnings))
  }

  /** `get_toggle_grammar`. */
  function ToggleGrammar<R>(e: Engine<R>, name: string): (r: Option<string>)
    ensures r.Some? <==> name in e.grammars
    ensures r.Some? ==> r.value == e.grammars[name]
  {
    if name in e.grammars then Some(e.grammars[name]) else None
  }

  /** After loading, a toggle without strategies reads back the grammar
      `"true"`, provided no later toggle of the document has its name. */
  lemma NoStrategiesReadsTrue<R, W>(e: Engine<R>, json: string, parse: string -> Outcome<ClientFeatures>,
                                    compileState: ClientFeatures -> (map<string, Toggle<R>>, seq<W>), i: nat)
    requires !parse(json).Trapped? && Upgradable(parse(json))
    requires parse(json).Done? && i < |parse(json).value.features|
    requires |Ygg.StrategiesOf(parse(json).value.features[i])| == 0
    requires forall j :: i < j < |parse(json).value.features| ==>
               parse(json).value.features[j].name != parse(json).value.features[i].name
    ensures ToggleGrammar(LoadClientFeatures(e, json, parse, compileState).0, parse(json).value.features[i].name) == Some("true")
  {
    var doc := parse(json).value;
    var pairs := GrammarPairs(doc);
    assert LastOfKey(pairs, i) by {
      forall j | i < j < |pairs| ensures pairs[j].0 != pairs[i].0 {
      }
    }
  }

  /** The message of an unknown toggle. */
  function UnknownToggle(name: string): string {
    "Unknown toggle '" + name + "'"
  }

  /** `apply_grammar_internal`: the grammar is compiled first (its error
      reported as is), then the toggle looked up; only when both succeed are
      the toggle's rule and its grammar replaced. `None` is success. */
  function ApplyGrammar<R>(e: Engine<R>, name: string, grammar: string, compile: string -> Outcome<R>)
    : (r: (Engine<R>, Option<string>))
    requires !compile(grammar).Trapped?
    ensures compile(grammar).Failed? ==> r == (e, Some(compile(grammar).message))
    ensures compile(grammar).Done? && name !in e.compiled ==> r == (e, Some(UnknownToggle(name)))
    ensures r.1.None? <==> compile(grammar).Done? && name in e.compiled
    ensures r.1.None? ==>
              r.0.compiled == e.compiled[name := e.compiled[name].(rule := compile(grammar).value)] &&
              r.0.grammars == e.grammars[name := grammar]
    ensures r.0.compiled.Keys == e.compiled.Keys
  {
    match compile(grammar)
    case Failed(message) => (e, Some(message))
    case Done(rule) =>
      if name !in e.compiled then (e, Some(UnknownToggle(name)))
      else
        var t := e.compiled[name];
        (Engine(e.compiled[name := t.(rule := rule)], e.grammars[name := grammar]), None)
  }

  /** An update `apply_grammar_internal` refuses. */
  predicate Refused<R>(e: Engine<R>, update: (string, string), compile: string -> Outcome<R>) {
    compile(update.1).Failed? || update.0 !in e.compiled
  }

  /** The grammar updates of `set_grammars`, applied one by one in iteration
      order; the first refused update stops the loop with its error, and the
      updates before it stay applied. */
  function ApplyEach<R>(e: Engine<R>, updates: seq<(string, string)>, compile: string -> Outcome<R>)
    : (r: (Engine<R>, Option<string>))
    requires forall i :: 0 <= i < |updates| ==> !compile(updates[i].1).Trapped?
    ensures r.0.compiled.Keys == e.compiled.Keys
    ensures r.1.None? <==> forall i :: 0 <= i < |updates| ==> !Refused(e, updates[i], compile)
    decreases |updates|
  {
    if |updates| == 0 then (e, None)
    else
      var (next, error) := ApplyGrammar(e, updates[0].0, updates[0].1, compile);
      if error.Some? then (e, error)
      else
        var rest := ApplyEach(next, updates[1..], compile);
        assert forall i :: 1 <= i < |updates| ==> updates[i] == updates[1..][i - 1];
        assert forall u :: Refused(next, u, compile) == Refused(e, u, compile);
        rest
  }

  /** `set_grammars`: an undecodable payload is an error that changes nothing. */
  function SetGrammars<R>(e: Engine<R>, payload: Outcome<seq<(string, string)>>, compile: string -> Outcome<R>)
    : (r: (Engine<R>, Option<string>))
    requires !payload.Trapped?
    requires payload.Done? ==> forall i :: 0 <= i < |payload.value| ==> !compile(payload.value[i].1).Trapped?
    ensures payload.Failed? ==> r == (e, Some("Invalid grammar payload: " + payload.message))
    ensures payload.Done? ==> r == ApplyEach(e, payload.value, compile)
  {
    match payload
    case Failed(message) => (e, Some("Invalid grammar payload: " + message))
    case Done(updates) => ApplyEach(e, updates, compile)
  }

  /** The loop of `set_grammars` stops at the first refused update: the
      result is the state after the updates before it, with its error. */
  lemma {:induction false} ApplyEachStopsAtFirstRefusal<R>(e: Engine<R>, updates: seq<(string, string)>,
                                                           compile: string -> Outcome<R>, k: nat)
    requires forall i :: 0 <= i < |updates| ==> !compile(updates[i].1).Trapped?
    requires k < |updates| && Refused(e, updates[k], compile)
    requires forall i :: 0 <= i < k ==> !Refused(e, updates[i], compile)
    ensures ApplyEach(e, updates, compile).0 == ApplyEach(e, updates[..k], compile).0
    ensures ApplyEach(e, updates, compile).1 ==
              ApplyGrammar(ApplyEach(e, updates[..k], compile).0, updates[k].0, updates[k].1, compile).1
    decreases k
  {
    if k > 0 {
      var next := ApplyGrammar(e, updates[0].0, updates[0].1, compile).0;
      assert forall u :: Refused(next, u, compile) == Refused(e, u, compile);
      assert forall i :: 1 <= i < |updates| ==> updates[i] == updates[1..][i - 1];
      ApplyEachStopsAtFirstRefusal(next, updates[1..], compile, k - 1);
      assert updates[..k][1..] == updates[1..][..k - 1];
    }
  }

  // ---------------------------------------------------------------------------
  // Variant resolution
  // ---------------------------------------------------------------------------

  /** `lookup_override_context`: the context value an override names. */
  function OverrideValue(o: Override, c: Ygg.Context): Option<string> {
    if o.contextName == "currentTime" then c.currentTime
    else if o.contextName == "userId" then c.userId
    else if o.contextName == "sessionId" then c.sessionId
    else if o.contextName == "environment" then c.environment
    else if o.contextName == "appName" then c.appName
    else if o.contextName == "remoteAddress" then c.remoteAddress
    else match c.properties
      case Some(props) => if o.contextName in props then Some(props[o.contextName]) else None
      case None => None
  }

  /** One of the variant's overrides lists the context value it names. */
  predicate Overrides(v: Variant, c: Ygg.Context) {
    v.overrides.Some? &&
    exists k :: 0 <= k < |v.overrides.value| && OverrideValue(v.overrides.value[k], c).Some? &&
                OverrideValue(v.overrides.value[k], c).value in v.overrides.value[k].values
  }

  /** `get_seed`: with no stickiness or `"default"`, the user id and then the
      session id; otherwise the named context field or property. */
  function GetSeed(stickiness: Option<string>, c: Ygg.Context): (r: Option<string>)
    ensures (stickiness.None? || stickiness == Some("default")) && c.userId.Some? ==> r == c.userId
    ensures (stickiness.None? || stickiness == Some("default")) && c.userId.None? ==> r == c.sessionId
    ensures stickiness.Some? && stickiness != Some("default") ==> r == Ygg.StickinessValue(stickiness.value, c)
  {
    match stickiness
    case None => if c.userId.Some? then c.userId else c.sessionId
    case Some(s) =>
      if s == "default" then (if c.userId.Some? then c.userId else c.sessionId)
      else Ygg.StickinessValue(s, c)
  }

  /** The selection loop from position `i` on: the first variant whose running
      weight reaches the target. */
  function SelectFrom(vs: seq<Variant>, target: nat, i: nat): (r: Option<nat>)
    requires i <= |vs|
    ensures r.Some? ==> i <= r.value < |vs| && Ygg.Running(vs, r.value + 1) >= target
    ensures r.Some? ==> forall j :: i < j <= r.value ==> Ygg.Running(vs, j) < target
    ensures r.None? ==> forall j :: i < j <= |vs| ==> Ygg.Running(vs, j) < target
    decreases |vs| - i
  {
    if i == |vs| then None
    else if Ygg.Running(vs, i + 1) >= target then Some(i)
    else SelectFrom(vs, target, i + 1)
  }

  /** The loop finds a variant exactly when the target is at most the total
      weight; otherwise `variants.last()` is taken. */
  lemma SelectsIffWithinTotal(vs: seq<Variant>, target: nat)
    ensures SelectFrom(vs, target, 0).Some? <==> |vs| > 0 && target <= Ygg.TotalWeight(vs)
  {
    var r := SelectFrom(vs, target, 0);
    if r.Some? {
      Ygg.RunningMonotone(vs, r.value + 1, |vs|);
    } else if |vs| > 0 {
      assert Ygg.Running(vs, |vs|) < target;
    }
  }

  /** A found variant's weight interval holds the target. */
  lemma SelectionInterval(vs: seq<Variant>, target: nat)
    requires SelectFrom(vs, target, 0).Some?
    ensures var k := SelectFrom(vs, target, 0).value;
            Ygg.Running(vs, k) < target <= Ygg.Running(vs, k + 1) || (k == 0 && target == 0)
  {
    var k := SelectFrom(vs, target, 0).value;
    if k > 0 {
      assert Ygg.Running(vs, k) < target;
    }
  }

  /** The outcome of `resolve_variant`: a position in the list, no variant
      (the list is empty), or a trap. */
  datatype Resolution = Chosen(index: nat) | NoVariant | Abort

  /** `resolve_variant`: an override wins; otherwise the first variant whose
      running weight reaches the target, else the last one. The target is
      the seed's hash in 1..total, or 1 without a seed (and when hashing fails).
      The total weight overflowing a `u32`, or being 0 when there is a seed to
      hash, panics. */
  function ResolveVariant(vs: seq<Variant>, group: string, c: Ygg.Context, murmur: Murmur): (r: Resolution)
    ensures r.NoVariant? <==> |vs| == 0
    ensures r.Chosen? ==> r.index < |vs|
    ensures |vs| > 0 && FirstWhere(vs, (v: Variant) => Overrides(v, c)).Some? ==>
              r == Chosen(FirstWhere(vs, (v: Variant) => Overrides(v, c)).value)
    ensures r.Abort? <==>
              |vs| > 0 && FirstWhere(vs, (v: Variant) => Overrides(v, c)).None? &&
              (Ygg.TotalWeight(vs) >= U32_LIMIT || (GetSeed(vs[0].stickiness, c).Some? && Ygg.TotalWeight(vs) == 0))
  {
    if |vs| == 0 then NoVariant
    else match FirstWhere(vs, (v: Variant) => Overrides(v, c))
      case Some(k) => Chosen(k)
      case None =>
        var total := Ygg.TotalWeight(vs);
        if total >= U32_LIMIT then Abort
        else
          var target := match GetSeed(vs[0].stickiness, c)
            case Some(seed) =>
              if total == 0 then None
              else Some(NormalizedHash(murmur, group, seed, total, VARIANT_NORMALIZATION_SEED).GetOr(1))
            case None => Some(1);
          match target
          case None => Abort
          case Some(t) =>
            match SelectFrom(vs, t, 0)
            case Some(k) => Chosen(k)
            case None => Chosen(|vs| - 1)
  }

  /** With weights, a seeded target always lands inside the list: the last
      variant is taken as a fallback only when the target exceeds the total. */
  lemma SeededTargetIsSelected(vs: seq<Variant>, group: string, seed: string, murmur: Murmur)
    requires 0 < Ygg.TotalWeight(vs) < U32_LIMIT
    ensures var target := NormalizedHash(murmur, group, seed, Ygg.TotalWeight(vs), VARIANT_NORMALIZATION_SEED).GetOr(1);
            SelectFrom(vs, target, 0).Some?
  {
    var target := NormalizedHash(murmur, group, seed, Ygg.TotalWeight(vs), VARIANT_NORMALIZATION_SEED).GetOr(1);
    SelectsIffWithinTotal(vs, target);
  }

  /** `check_variant_by_toggle`: the variants of the first strategy whose rule
      holds, if it has any, else the toggle's own variants hashed under the
      toggle's name; a resolved variant is reported enabled. */
  function CheckVariant<R>(t: Toggle<R>, c: Ygg.Context, ruleToggle: string,
                           holds: (R, EnrichedContext) -> bool, murmur: Murmur): (r: Run<Option<VariantDef>>)
    ensures r.Ran? && r.value.Some? ==> r.value.value.enabled
  {
    var ctx := Ygg.Enrich(c, ruleToggle);
    var fromStrategy := match t.variantRules
      case Some(rules) =>
        (match FirstWhere(rules, (vr: VariantRule<R>) => holds(vr.rule, ctx))
         case Some(k) => if |rules[k].variants| > 0 then Some(rules[k]) else None
         case None => None)
      case None => None;
    var (vs, group) := match fromStrategy
      case Some(vr) => (vr.variants, vr.groupId)
      case None => (t.variants, t.name);
    match ResolveVariant(vs, group, c, murmur)
    case Abort => Panicked
    case NoVariant => Ran(None)
    case Chosen(k) => Ran(Some(VariantDef(vs[k].name, vs[k].payload, true)))
  }

  // ---------------------------------------------------------------------------
  // Evaluation
  // ---------------------------------------------------------------------------

  /** One parent dependency of toggle `t` (evaluated with the context
      renamed to `t`): unsatisfied when the parent is missing or has
      dependencies of its own, when the parent's enabled state differs from
      the expected one (true by default), or when the parent resolves a
      variant outside a non-empty expected list. The parent's variant is
      resolved in any case, and may trap. */
  function DependencySatisfied<R>(e: Engine<R>, t: Toggle<R>, d: Dependency, c: Ygg.Context,
                                  holds: (R, EnrichedContext) -> bool, murmur: Murmur): (r: Run<bool>)
    ensures d.feature !in e.compiled ==> r == Ran(false)
    ensures d.feature in e.compiled && |e.compiled[d.feature].dependencies| > 0 ==> r == Ran(false)
    ensures r == Ran(true) ==>
              d.feature in e.compiled &&
              var p := e.compiled[d.feature];
              |p.dependencies| == 0 &&
              (p.enabled && holds(p.rule, Ygg.Enrich(c, t.name))) == d.enabled.GetOr(true)
  {
    if d.feature !in e.compiled then Ran(false)
    else
      var p := e.compiled[d.feature];
      if |p.dependencies| > 0 then Ran(false)
      else
        var parentEnabled := p.enabled && holds(p.rule, Ygg.Enrich(c, t.name));
        var expected := d.enabled.GetOr(true);
        match CheckVariant(p, c, t.name, holds, murmur)
        case Panicked => Panicked
        case Ran(variant) =>
          var variantOk :=
            if d.variants.Some? && variant.Some? then |d.variants.value| == 0 || variant.value.name in d.variants.value
            else true;
          Ran(variantOk && parentEnabled == expected)
  }

  /** `dependencies.iter().all(..)` from position `i` on: stops at the
      first unsatisfied dependency. */
  function ParentsSatisfied<R>(e: Engine<R>, t: Toggle<R>, i: nat, c: Ygg.Context,
                               holds: (R, EnrichedContext) -> bool, murmur: Murmur): (r: Run<bool>)
    requires i <= |t.dependencies|
    ensures r == Ran(true) ==>
              forall j :: i <= j < |t.dependencies| ==> DependencySatisfied(e, t, t.dependencies[j], c, holds, murmur) == Ran(true)
    ensures (forall j :: i <= j < |t.dependencies| ==> DependencySatisfied(e, t, t.dependencies[j], c, holds, murmur) == Ran(true))
              ==> r == Ran(true)
    decreases |t.dependencies| - i
  {
    if i == |t.dependencies| then Ran(true)
    else match DependencySatisfied(e, t, t.dependencies[i], c, holds, murmur)
      case Panicked => Panicked
      case Ran(ok) => if !ok then Ran(false) else ParentsSatisfied(e, t, i + 1, c, holds, murmur)
  }

  /** `compiled_toggle_enabled`: switched on, every parent dependency
      satisfied, and the toggle's rule holds. */
  function ToggleEnabled<R>(e: Engine<R>, t: Toggle<R>, c: Ygg.Context, ruleToggle: string,
                            holds: (R, EnrichedContext) -> bool, murmur: Murmur): (r: Run<bool>)
    ensures !t.enabled ==> r == Ran(false)
    ensures r == Ran(true) <==>
              t.enabled && ParentsSatisfied(e, t, 0, c, holds, murmur) == Ran(true) &&
              holds(t.rule, Ygg.Enrich(c, ruleToggle))
  {
    if !t.enabled then Ran(false)
    else match ParentsSatisfied(e, t, 0, c, holds, murmur)
      case Panicked => Panicked
      case Ran(ok) => Ran(ok && holds(t.rule, Ygg.Enrich(c, ruleToggle)))
  }

  /** `parse_context`: blank text (after Rust's `trim`) is read as `{}`. */
  function ParseContext(json: string, parse: string -> Outcome<Ygg.Context>): (r: Outcome<Ygg.Context>)
    ensures |Trim(json)| == 0 && !parse("{}").Failed? ==> r == parse("{}")
    ensures |Trim(json)| > 0 && !parse(json).Failed? ==> r == parse(json)
    ensures r.Failed? ==>
              r.message == "Invalid context JSON: " + (if |Trim(json)| == 0 then parse("{}") else parse(json)).message
  {
    var payload := if |Trim(json)| == 0 then "{}" else json;
    match parse(payload)
    case Failed(message) => Failed("Invalid context JSON: " + message)
    case other => other
  }

  datatype ToggleEvaluation = ToggleEvaluation(enabled: bool, variant: ExtendedVariantDef)

  /** `evaluate_internal`: an unknown toggle is an error (checked before the
      context is read); otherwise the toggle is evaluated against the outcome
      of reading the context. */
  function Evaluate<R>(e: Engine<R>, name: string, json: string, parse: string -> Outcome<Ygg.Context>,
                       holds: (R, EnrichedContext) -> bool, murmur: Murmur): (r: Outcome<ToggleEvaluation>)
    ensures name !in e.compiled ==> r == Failed(UnknownToggle(name))
    ensures name in e.compiled && ParseContext(json, parse).Failed? ==> r == Failed(ParseContext(json, parse).message)
    ensures r.Done? ==> r.value.variant.featureEnabled == r.value.enabled
    ensures r.Done? && !r.value.enabled ==> r.value.variant == ToEnriched(DEFAULT_VARIANT, false)
    ensures r.Done? ==>
              name in e.compiled && ParseContext(json, parse).Done? &&
              (r.value.enabled <==>
                 ToggleEnabled(e, e.compiled[name], ParseContext(json, parse).value, name, holds, murmur) == Ran(true))
  {
    if name !in e.compiled then Failed(UnknownToggle(name))
    else EvaluateIn(e, name, ParseContext(json, parse), holds, murmur)
  }

  /** A known toggle against the outcome of reading the context: a failed
      read is passed on; an enabled toggle reports its variant or the default
      one, a disabled toggle the default one, both marked with the toggle's
      state. */
  function EvaluateIn<R>(e: Engine<R>, name: string, context: Outcome<Ygg.Context>,
                         holds: (R, EnrichedContext) -> bool, murmur: Murmur): (r: Outcome<ToggleEvaluation>)
    requires name in e.compiled
    ensures context.Failed? ==> r == Failed(context.message)
    ensures r.Done? ==> r.value.variant.featureEnabled == r.value.enabled
    ensures r.Done? && !r.value.enabled ==> r.value.variant == ToEnriched(DEFAULT_VARIANT, false)
    ensures r.Done? ==>
              context.Done? &&
              (r.value.enabled <==> ToggleEnabled(e, e.compiled[name], context.value, name, holds, murmur) == Ran(true))
  {
    var t := e.compiled[name];
    match context
    case Failed(message) => Failed(message)
    case Trapped => Trapped
    case Done(c) =>
      match ToggleEnabled(e, t, c, name, holds, murmur)
      case Panicked => Trapped
      case Ran(enabled) =>
        if !enabled then Done(ToggleEvaluation(false, ToEnriched(DEFAULT_VARIANT, false)))
        else match CheckVariant(t, c, name, holds, murmur)
          case Panicked => Trapped
          case Ran(v) => Done(ToggleEvaluation(true, ToEnriched(v.GetOr(DEFAULT_VARIANT), true)))
  }

  /** Replacing a toggle's grammar by one whose rule never holds (such as
      `"false"`) switches the toggle off for every context. */
  lemma NeverHoldingGrammarDisables<R>(e: Engine<R>, name: string, grammar: string, compile: string -> Outcome<R>,
                                      json: string, parse: string -> Outcome<Ygg.Context>,
                                      holds: (R, EnrichedContext) -> bool, murmur: Murmur)
    requires compile(grammar).Done? && name in e.compiled
    requires forall x :: !holds(compile(grammar).value, x)
    ensures var r := Evaluate(ApplyGrammar(e, name, grammar, compile).0, name, json, parse, holds, murmur);
            r.Done? ==> !r.value.enabled
  {
  }

  /** A dependency on a missing parent, or on a parent with dependencies of
      its own, keeps the child off. */
  lemma UnsatisfiedDependencyDisables<R>(e: Engine<R>, t: Toggle<R>, k: nat, c: Ygg.Context, ruleToggle: string,
                                         holds: (R, EnrichedContext) -> bool, murmur: Murmur)
    requires k < |t.dependencies|
    requires var d := t.dependencies[k];
             d.feature !in e.compiled || |e.compiled[d.feature].dependencies| > 0
    ensures ToggleEnabled(e, t, c, ruleToggle, holds, murmur) != Ran(true)
  {
  }

  /** Loading a document and evaluating a toggle with blank context text is
      the same as evaluating it with `{}`. */
  lemma BlankContextIsEmptyObject<R>(e: Engine<R>, name: string, json: string, parse: string -> Outcome<Ygg.Context>,
                                     holds: (R, EnrichedContext) -> bool, murmur: Murmur)
    requires forall k :: 0 <= k < |json| ==> IsWhitespace(json[k])
    ensures Evaluate(e, name, json, parse, holds, murmur) == Evaluate(e, name, "{}", parse, holds, murmur)
  {
    BlankParsesAsEmptyObject(json, parse);
  }

  /** Blank context text is read as `{}`. */
  lemma BlankParsesAsEmptyObject(json: string, parse: string -> Outcome<Ygg.Context>)
    requires forall k :: 0 <= k < |json| ==> IsWhitespace(json[k])
    ensures ParseContext(json, parse) == ParseContext("{}", parse)
  {
    BlankTrimsEmpty(json);
    assert Trim("{}") == "{}" by {
      assert !IsWhitespace('{') && !IsWhitespace('}');
    }
  }
}

=== FILE: wasm_envelope.dfy ===
/** The JavaScript-facing `Engine` of `yggdrasilwasm/src/lib.rs`. It builds
    the same `{status_code, value, error_message}` envelope as the C ABI, but
    by hand: arguments arrive as JavaScript values that serde may fail to
    read, and each entry point picks its own statuses. Parsing a JavaScript
    value is the parameter outcome `Parsed`, with serde's message on
    failure; the engine's answers are parameters. */
module WasmEnvelope {
  import opened Common
  import opened Features
  import opened FfiEnvelope

  /** The outcome of `serde_wasm_bindgen::from_value`. */
  datatype Parsed<T> = Parsed(value: T) | Unparsable(message: string)

  /** The custom-results argument: `null` / `undefined`, or a value to read. */
  datatype JsArg<T> = Nullish | Given(parsed: Parsed<T>)

  const STATE_ERROR_PREFIX: string := "Error parsing state: "
  const PARTIAL_UPDATE_TEXT: string := "Partial update with warnings"
  const CONTEXT_ERROR_PREFIX: string := "Invalid context object: "
  const RESULTS_ERROR_PREFIX: string := "Invalid strategy results: "
  const NO_METRICS_TEXT: string := "No metrics available"

  /** `take_state`: the new engine state and the envelope. A state that does
      not parse leaves the engine as it was; warnings still apply the update
      but answer `Error`. */
  function WasmTakeState<S, U>(state: S, update: Parsed<U>, apply: (S, U) -> (S, Option<seq<EvalWarning>>))
    : (r: (S, Response<()>))
    ensures update.Unparsable? ==> r.0 == state && r == (state, Response(Error, None, Some(STATE_ERROR_PREFIX + update.message)))
    ensures update.Parsed? ==> r.0 == apply(state, update.value).0
    ensures update.Parsed? ==>
              (r.1.statusCode == Ok <==> apply(state, update.value).1.None?)
              && (r.1.statusCode == Error ==> r.1.errorMessage == Some(PARTIAL_UPDATE_TEXT))
    ensures r.1.statusCode != NotFound
  {
    match update
    case Unparsable(msg) => (state, Response(Error, None, Some(STATE_ERROR_PREFIX + msg)))
    case Parsed(u) =>
      var (next, warnings) := apply(state, u);
      if warnings.Some? then (next, Response(Error, None, Some(PARTIAL_UPDATE_TEXT)))
      else (next, Response(Ok, Some(()), None))
  }

  /** The context and custom results, read in that order; `null` or
      `undefined` results are `None`. */
  function ReadArguments<C, R>(context: Parsed<C>, results: JsArg<R>): (r: Outcome<(C, Option<R>)>)
  {
    match context
    case Unparsable(_) => Failure(NullError)
    case Parsed(ctx) =>
      match results
      case Nullish => Success((ctx, None))
      case Given(Unparsable(_)) => Failure(NullError)
      case Given(Parsed(res)) => Success((ctx, Some(res)))
  }

  /** The error message of a rejected argument. */
  function ArgumentError<C, R>(context: Parsed<C>, results: JsArg<R>): (msg: Option<string>)
    ensures msg.Some? <==> ReadArguments(context, results).Failure?
    ensures context.Unparsable? ==> msg == Some(CONTEXT_ERROR_PREFIX + context.message)
    ensures context.Parsed? && results.Given? && results.parsed.Unparsable? ==>
              msg == Some(RESULTS_ERROR_PREFIX + results.parsed.message)
  {
    match context
    case Unparsable(m) => Some(CONTEXT_ERROR_PREFIX + m)
    case Parsed(_) =>
      match results
      case Given(Unparsable(m)) => Some(RESULTS_ERROR_PREFIX + m)
      case _ => None
  }

  /** `check_enabled`: `Ok` whenever the arguments are read, carrying the
      engine's answer, which is `None` for an unknown toggle. It never
      answers `NotFound`. */
  function WasmCheckEnabled<C, R>(context: Parsed<C>, results: JsArg<R>, checkEnabled: (C, Option<R>) -> Option<bool>)
    : (r: Response<bool>)
    ensures r.statusCode != NotFound
    ensures r.statusCode == Error <==> ReadArguments(context, results).Failure?
    ensures r.statusCode == Error ==> r.value.None? && r.errorMessage == ArgumentError(context, results)
    ensures r.statusCode == Ok ==>
              var args := ReadArguments(context, results).value;
              r.value == checkEnabled(args.0, args.1) && r.errorMessage.None?
  {
    match ReadArguments(context, results)
    case Failure(_) => Response(Error, None, ArgumentError(context, results))
    case Success((ctx, res)) => Response(Ok, checkEnabled(ctx, res), None)
  }

  /** `check_variant`: `Ok` whenever the arguments are read; the engine's
      variant, if any, enriched with `is_enabled` of the same call. */
  function WasmCheckVariant<C, R>(context: Parsed<C>, results: JsArg<R>,
                                  checkVariant: (C, Option<R>) -> Option<VariantDef>, isEnabled: (C, Option<R>) -> bool)
    : (r: Response<ExtendedVariantDef>)
    ensures r.statusCode != NotFound
    ensures r.statusCode == Error <==> ReadArguments(context, results).Failure?
    ensures r.statusCode == Error ==> r.value.None? && r.errorMessage == ArgumentError(context, results)
    ensures r.statusCode == Ok ==>
              var args := ReadArguments(context, results).value;
              var v := checkVariant(args.0, args.1);
              (r.value.Some? <==> v.Some?)
              && (v.Some? ==> r.value.value.name == v.value.name && r.value.value.payload == v.value.payload
                              && r.value.value.enabled == v.value.enabled
                              && r.value.value.featureEnabled == isEnabled(args.0, args.1))
  {
    match ReadArguments(context, results)
    case Failure(_) => Response(Error, None, ArgumentError(context, results))
    case Success((ctx, res)) =>
      var v := checkVariant(ctx, res);
      var enabled := isEnabled(ctx, res);
      Response(Ok, if v.Some? then Some(ToEnriched(v.value, enabled)) else None, None)
  }

  /** What `get_metrics` hands back: the metrics themselves, not wrapped in
      an envelope, or a `NotFound` envelope. */
  datatype MetricsReply<M> = BareMetrics(metrics: M) | MetricsEnvelope(response: Response<()>)

  function WasmGetMetrics<M>(metrics: Option<M>): (r: MetricsReply<M>)
    ensures metrics.Some? <==> r.BareMetrics?
    ensures metrics.Some? ==> r.metrics == metrics.value
    ensures metrics.None? ==> r.response.statusCode == NotFound && r.response.value.None?
                              && r.response.errorMessage == Some(NO_METRICS_TEXT)
  {
    match metrics
    case Some(m) => BareMetrics(m)
    case None => MetricsEnvelope(Response(NotFound, None, Some(NO_METRICS_TEXT)))
  }

  /** `count_toggle` / `count_variant`: the engine records the count (the
      parameter `record`) and the envelope is always `Ok`. */
  function WasmCount<S, X>(state: S, count: X, record: (S, X) -> S): (r: (S, Response<()>))
    ensures r.0 == record(state, count)
    ensures r.1.statusCode == Ok && r.1.errorMessage.None?
  {
    (record(state, count), Response(Ok, Some(()), None))
  }

  /** A binding decoding the envelopes: `check_enabled` never reads as
      missing, and a counted metric always reads as success. */
  lemma WasmEnvelopesDecode<C, R, S, X>(context: Parsed<C>, results: JsArg<R>,
                                        checkEnabled: (C, Option<R>) -> Option<bool>, state: S, count: X, record: (S, X) -> S)
    ensures DecodeWire(ToWire(WasmCheckEnabled(context, results, checkEnabled))) != Some(Missing)
    ensures DecodeWire(ToWire(WasmCount(state, count, record).1)) == Some(Found(()))
  {
    StatusNameRoundTrip(WasmCheckEnabled(context, results, checkEnabled).statusCode);
    StatusNameRoundTrip(Ok);
  }
}

=== FILE: wire_bytes.dfy ===
/** Byte-level building blocks of the packed wire messages of `yggdrasilffi`:
    little-endian `u32` fields, NUL-terminated strings addressed by offset,
    and the inverse encoders used to state round trips. */
module WireBytes {
  import opened Common

  type Bytes = seq<u8>

  /** `u32::from_le_bytes` of the four bytes at `p`. */
  function ReadU32(buf: Bytes, p: nat): (r: u32)
    requires p + 4 <= |buf|
  {
    LittleEndian(buf[p..p + 4])
  }

  /** The number four bytes spell, least significant first. */
  function LittleEndian(b: Bytes): (r: u32)
    requires |b| == 4
  {
    b[0] as int + 0x100 * (b[1] as int) + 0x1_0000 * (b[2] as int) + 0x100_0000 * (b[3] as int)
  }

  /** `x.to_le_bytes()`. */
  function U32Bytes(x: u32): (b: Bytes)
    ensures |b| == 4
  {
    [x % 0x100, x / 0x100 % 0x100, x / 0x100 / 0x100 % 0x100, x / 0x100 / 0x100 / 0x100]
  }

  /** Reading four bytes back gives the encoded number. */
  lemma {:induction false} ReadU32Bytes(buf: Bytes, p: nat, x: u32)
    requires p + 4 <= |buf| && buf[p..p + 4] == U32Bytes(x)
    ensures ReadU32(buf, p) == x
  {
    var q1 := x / 0x100;
    var q2 := q1 / 0x100;
    var q3 := q2 / 0x100;
    assert x == x % 0x100 + 0x100 * q1;
    assert q1 == q1 % 0x100 + 0x100 * q2;
    assert q2 == q2 % 0x100 + 0x100 * q3;
    assert buf[p..p + 4] == [x % 0x100, q1 % 0x100, q2 % 0x100, q3];
  }

  /** The words in order, four little-endian bytes each. */
  function Words(ws: seq<u32>): (b: Bytes)
    ensures |b| == 4 * |ws|
  {
    if |ws| == 0 then [] else U32Bytes(ws[0]) + Words(ws[1..])
  }

  lemma {:induction false} WordAt(ws: seq<u32>, k: nat)
    requires k < |ws|
    ensures 4 * k + 4 <= |Words(ws)|
    ensures Words(ws)[4 * k..4 * k + 4] == U32Bytes(ws[k])
  {
    if k > 0 {
      WordAt(ws[1..], k - 1);
      assert Words(ws) == U32Bytes(ws[0]) + Words(ws[1..]);
      assert Words(ws)[4 * k..4 * k + 4] == Words(ws[1..])[4 * (k - 1)..4 * (k - 1) + 4];
    }
  }

  /** `part` sits in `buf` starting at `start`. */
  predicate Placed(buf: Bytes, part: Bytes, start: nat) {
    start + |part| <= |buf| && buf[start..start + |part|] == part
  }

  lemma {:induction false} PlacedSlice(buf: Bytes, part: Bytes, start: nat, x: nat, n: nat)
    requires Placed(buf, part, start) && x + n <= |part|
    ensures buf[start + x..start + x + n] == part[x..x + n]
  {
    var window := buf[start..start + |part|];
    var a := buf[start + x..start + x + n];
    var b := part[x..x + n];
    forall i | 0 <= i < n
      ensures a[i] == b[i]
    {
      assert window[x + i] == buf[start + x + i];
    }
    assert a == b;
  }

  lemma {:induction false} PlacedByte(buf: Bytes, part: Bytes, start: nat, x: nat)
    requires Placed(buf, part, start) && x < |part|
    ensures buf[start + x] == part[x]
  {
    assert buf[start..start + |part|][x] == buf[start + x];
  }

  /** Four bytes of a placed part that encode `x` read back as `x`. */
  lemma {:induction false} ReadPlacedU32(buf: Bytes, part: Bytes, start: nat, x: nat, v: u32)
    requires Placed(buf, part, start) && x + 4 <= |part| && part[x..x + 4] == U32Bytes(v)
    ensures start + x + 4 <= |buf|
    ensures ReadU32(buf, start + x) == v
  {
    PlacedSlice(buf, part, start, x, 4);
    ReadU32Bytes(buf, start + x, v);
  }

  /** A word of `ws`, placed at `start`, reads back from `buf`. */
  lemma {:induction false} ReadPlacedWord(buf: Bytes, ws: seq<u32>, start: nat, k: nat)
    requires Placed(buf, Words(ws), start) && k < |ws|
    ensures start + 4 * k + 4 <= |buf|
    ensures ReadU32(buf, start + 4 * k) == ws[k]
  {
    WordAt(ws, k);
    ReadWordAt(buf, ws, start, k);
  }

  lemma {:induction false} ReadWordAt(buf: Bytes, ws: seq<u32>, start: nat, k: nat)
    requires Placed(buf, Words(ws), start) && k < |ws|
    requires 4 * k + 4 <= |Words(ws)| && Words(ws)[4 * k..4 * k + 4] == U32Bytes(ws[k])
    ensures start + 4 * k + 4 <= |buf|
    ensures ReadU32(buf, start + 4 * k) == ws[k]
  {
    ReadPlacedU32(buf, Words(ws), start, 4 * k, ws[k]);
  }

  // ---------------------------------------------------------------------------
  // NUL-terminated strings
  // ---------------------------------------------------------------------------

  /** A zero byte occurs at or after `start`. */
  predicate HasNul(buf: Bytes, start: nat) {
    exists k :: start <= k < |buf| && buf[k] == 0
  }

  /** `data[start..].iter().position(|&b| b == 0).unwrap() + start`. */
  function NulIndex(buf: Bytes, start: nat): (k: nat)
    requires HasNul(buf, start)
    ensures start <= k < |buf| && buf[k] == 0
    ensures forall j :: start <= j < k ==> buf[j] != 0
    decreases |buf| - start
  {
    if buf[start] == 0 then start
    else
      assert HasNul(buf, start + 1) by {
        var k :| start <= k < |buf| && buf[k] == 0;
        assert k != start;
      }
      NulIndex(buf, start + 1)
  }

  /** The reader does not panic on this offset: 0 means absent, any other
      offset needs a NUL at or after it. */
  predicate StringReadable(buf: Bytes, offset: nat) {
    offset == 0 || HasNul(buf, offset)
  }

  /** `get_string`: offset 0 is absent (never the empty string); any other
      offset yields the bytes from there up to the first NUL. */
  function GetString(offset: nat, buf: Bytes): (r: Option<Bytes>)
    requires StringReadable(buf, offset)
    ensures r.None? <==> offset == 0
    ensures r.Some? ==> 0 !in r.value && Placed(buf, r.value + [0], offset)
  {
    if offset == 0 then None
    else
      var end := NulIndex(buf, offset);
      assert buf[offset..end + 1] == buf[offset..end] + [0];
      Some(buf[offset..end])
  }

  /** A NUL-free string followed by a NUL is read back whole. */
  lemma {:induction false} GetPlacedString(buf: Bytes, s: Bytes, offset: nat)
    requires offset > 0 && 0 !in s && Placed(buf, s + [0], offset)
    ensures StringReadable(buf, offset)
    ensures GetString(offset, buf) == Some(s)
  {
    PlacedByte(buf, s + [0], offset, |s|);
    assert HasNul(buf, offset);
    var end := NulIndex(buf, offset);
    forall j | offset <= j < offset + |s|
      ensures buf[j] != 0
    {
      PlacedByte(buf, s + [0], offset, j - offset);
    }
    assert end == offset + |s|;
    PlacedSlice(buf, s + [0], offset, 0, |s|);
    assert (s + [0])[0..|s|] == s;
  }

  /** The strings, each followed by a NUL, one after the other. */
  function Heap(strs: seq<Bytes>): (b: Bytes)
    ensures |b| == SlotOffset(strs, |strs|)
  {
    if |strs| == 0 then [] else strs[0] + [0] + Heap(strs[1..])
  }

  /** Where the `i`-th string of `Heap(strs)` starts. */
  function SlotOffset(strs: seq<Bytes>, i: nat): nat
    requires i <= |strs|
  {
    if i == 0 then 0 else |strs[0]| + 1 + SlotOffset(strs[1..], i - 1)
  }

  lemma {:induction false} HeapSlot(strs: seq<Bytes>, i: nat)
    requires i < |strs|
    ensures Placed(Heap(strs), strs[i] + [0], SlotOffset(strs, i))
  {
    var rest := Heap(strs[1..]);
    assert Heap(strs) == (strs[0] + [0]) + rest;
    if i == 0 {
      assert Heap(strs)[0..|strs[0]| + 1] == strs[0] + [0];
    } else {
      HeapSlot(strs[1..], i - 1);
      var start := |strs[0]| + 1;
      var inner := SlotOffset(strs[1..], i - 1);
      assert strs[1..][i - 1] == strs[i];
      assert Heap(strs)[start + inner..start + inner + |strs[i]| + 1]
             == rest[inner..inner + |strs[i]| + 1];
    }
  }

  lemma {:induction false} SlotOffsetBound(strs: seq<Bytes>, i: nat)
    requires i < |strs|
    ensures SlotOffset(strs, i) + |strs[i]| + 1 <= SlotOffset(strs, |strs|)
  {
    HeapSlot(strs, i);
  }

  /** A part placed inside a part placed inside `buf` is placed in `buf`. */
  lemma {:induction false} PlacedTrans(buf: Bytes, outer: Bytes, start: nat, inner: Bytes, at: nat)
    requires Placed(buf, outer, start) && Placed(outer, inner, at)
    ensures Placed(buf, inner, start + at)
  {
    PlacedSlice(buf, outer, start, at, |inner|);
  }

  /** The four parts of a concatenation are placed at their running offsets. */
  lemma {:induction false} PlacedParts(a: Bytes, b: Bytes, c: Bytes, d: Bytes)
    ensures Placed(a + b + c + d, a, 0)
    ensures Placed(a + b + c + d, b, |a|)
    ensures Placed(a + b + c + d, c, |a| + |b|)
    ensures Placed(a + b + c + d, d, |a| + |b| + |c|)
  {
    var buf := a + b + c + d;
    assert buf[0..|a|] == a;
    assert buf[|a|..|a| + |b|] == b;
    assert buf[|a| + |b|..|a| + |b| + |c|] == c;
    assert buf[|a| + |b| + |c|..|a| + |b| + |c| + |d|] == d;
  }

  /** Heap string `s`, placed at `base`, reads back from its offset. */
  lemma {:induction false} HeapString(buf: Bytes, strs: seq<Bytes>, base: nat, s: nat)
    requires Placed(buf, Heap(strs), base) && s < |strs| && 0 !in strs[s] && base > 0
    ensures StringReadable(buf, base + SlotOffset(strs, s))
    ensures GetString(base + SlotOffset(strs, s), buf) == Some(strs[s])
  {
    HeapSlot(strs, s);
    PlacedTrans(buf, Heap(strs), base, strs[s] + [0], SlotOffset(strs, s));
    GetPlacedString(buf, strs[s], base + SlotOffset(strs, s));
  }

  /** Where word `k` of a table at `start` sits. */
  function WordOffset(start: nat, k: nat): nat {
    start + 4 * k
  }

  /** What a reader sees of words placed at `start`: word `k` reads back at
      `start + 4 * k`. */
  predicate WordsAt(buf: Bytes, ws: seq<u32>, start: nat) {
    start + 4 * |ws| <= |buf|
    && forall k {:trigger WordOffset(start, k)} :: 0 <= k < |ws| ==> ReadU32(buf, WordOffset(start, k)) == ws[k]
  }

  /** Word `k` read at `p`, its offset. */
  lemma {:induction false} WordRead(buf: Bytes, ws: seq<u32>, start: nat, k: nat, p: nat)
    requires WordsAt(buf, ws, start) && k < |ws| && p == start + 4 * k
    ensures p + 4 <= |buf|
    ensures ReadU32(buf, p) == ws[k]
  {
    assert ReadU32(buf, WordOffset(start, k)) == ws[k];
  }

  lemma {:induction false} PlacedWordsAt(buf: Bytes, ws: seq<u32>, start: nat)
    requires Placed(buf, Words(ws), start)
    ensures WordsAt(buf, ws, start)
  {
    forall k | 0 <= k < |ws|
      ensures ReadU32(buf, WordOffset(start, k)) == ws[k]
    {
      ReadPlacedWord(buf, ws, start, k);
    }
  }

  /** Where heap string `s` starts when the heap sits at `base`. */
  function SlotStart(strs: seq<Bytes>, base: nat, s: nat): nat
    requires s <= |strs|
  {
    base + SlotOffset(strs, s)
  }

  /** What a reader sees of a heap placed at `base`: string `s` reads back
      from its offset. */
  predicate StringsAt(buf: Bytes, strs: seq<Bytes>, base: nat) {
    forall s {:trigger SlotStart(strs, base, s)} :: 0 <= s < |strs| ==>
      StringReadable(buf, SlotStart(strs, base, s)) && GetString(SlotStart(strs, base, s), buf) == Some(strs[s])
  }

  lemma {:induction false} StringRead(buf: Bytes, strs: seq<Bytes>, base: nat, s: nat)
    requires StringsAt(buf, strs, base) && s < |strs|
    ensures StringReadable(buf, base + SlotOffset(strs, s))
    ensures GetString(base + SlotOffset(strs, s), buf) == Some(strs[s])
  {
    assert SlotStart(strs, base, s) == base + SlotOffset(strs, s);
  }

  lemma {:induction false} PlacedStringsAt(buf: Bytes, strs: seq<Bytes>, base: nat)
    requires Placed(buf, Heap(strs), base) && base > 0
    requires forall s :: 0 <= s < |strs| ==> 0 !in strs[s]
    ensures StringsAt(buf, strs, base)
  {
    forall s | 0 <= s < |strs|
      ensures StringReadable(buf, SlotStart(strs, base, s))
      ensures GetString(SlotStart(strs, base, s), buf) == Some(strs[s])
    {
      HeapString(buf, strs, base, s);
    }
  }

  /** Both parts of a concatenation are placed at their offsets. */
  lemma {:induction false} PlacedPair(a: Bytes, b: Bytes)
    ensures Placed(a + b, a, 0)
    ensures Placed(a + b, b, |a|)
  {
    assert (a + b)[0..|a|] == a;
    assert (a + b)[|a|..|a| + |b|] == b;
  }

  // ---------------------------------------------------------------------------
  // Tables decoded into maps
  // ---------------------------------------------------------------------------

  /** Entry `i` of a decoded table carries key `k` and a value. */
  predicate EntrySets<K(==), V>(entries: seq<(Option<K>, Option<V>)>, i: nat, k: K)
    requires i < |entries|
  {
    entries[i].0 == Some(k) && entries[i].1.Some?
  }

  /** No entry after `i` sets `k`. */
  predicate LastSetter<K(==), V>(entries: seq<(Option<K>, Option<V>)>, i: nat, k: K)
    requires i < |entries|
  {
    forall j :: i < j < |entries| ==> !EntrySets(entries, j, k)
  }

  /** `HashMap::insert` of every entry whose key and value are both present,
      in table order: a later entry overwrites an earlier one with the same
      key. */
  function InsertPresent<K(==, !new), V(==)>(entries: seq<(Option<K>, Option<V>)>): (m: map<K, V>)
    ensures forall k :: k in m <==> exists i :: 0 <= i < |entries| && EntrySets(entries, i, k)
    ensures forall k :: k in m ==>
              exists i :: 0 <= i < |entries| && EntrySets(entries, i, k) && entries[i].1 == Some(m[k])
                          && LastSetter(entries, i, k)
  {
    if |entries| == 0 then map[]
    else
      var front := entries[..|entries| - 1];
      var last := entries[|entries| - 1];
      var m := InsertPresent(front);
      assert entries == front + [last];
      InsertLastKeys(front, last, m);
      InsertLastValues(front, last, m);
      InsertLast(m, last)
  }

  /** One table entry applied to the map built so far. */
  function InsertLast<K, V>(m: map<K, V>, entry: (Option<K>, Option<V>)): map<K, V> {
    if entry.0.Some? && entry.1.Some? then m[entry.0.value := entry.1.value] else m
  }

  lemma {:induction false} InsertLastKeys<K(!new), V>(front: seq<(Option<K>, Option<V>)>, last: (Option<K>, Option<V>), m: map<K, V>)
    requires forall k :: k in m <==> exists i :: 0 <= i < |front| && EntrySets(front, i, k)
    ensures forall k :: k in InsertLast(m, last) <==>
              exists i :: 0 <= i < |front + [last]| && EntrySets(front + [last], i, k)
  {
    var entries := front + [last];
    var r := InsertLast(m, last);
    forall k ensures k in r <==> exists i :: 0 <= i < |entries| && EntrySets(entries, i, k) {
      if k in r && !(last.0 == Some(k) && last.1.Some?) {
        var i :| 0 <= i < |front| && EntrySets(front, i, k);
        assert EntrySets(entries, i, k);
      }
      if k in r && last.0 == Some(k) && last.1.Some? {
        assert EntrySets(entries, |front|, k);
      }
      if exists i :: 0 <= i < |entries| && EntrySets(entries, i, k) {
        var i :| 0 <= i < |entries| && EntrySets(entries, i, k);
        if i < |front| {
          assert EntrySets(front, i, k);
        }
      }
    }
  }

  lemma {:induction false} InsertLastValues<K(!new), V>(front: seq<(Option<K>, Option<V>)>, last: (Option<K>, Option<V>), m: map<K, V>)
    requires forall k :: k in m ==>
               exists i :: 0 <= i < |front| && EntrySets(front, i, k) && front[i].1 == Some(m[k]) && LastSetter(front, i, k)
    ensures forall k :: k in InsertLast(m, last) ==>
              exists i :: 0 <= i < |front + [last]| && EntrySets(front + [last], i, k)
                          && (front + [last])[i].1 == Some(InsertLast(m, last)[k]) && LastSetter(front + [last], i, k)
  {
    var entries := front + [last];
    var r := InsertLast(m, last);
    forall k | k in r
      ensures exists i :: 0 <= i < |entries| && EntrySets(entries, i, k) && entries[i].1 == Some(r[k])
                          && LastSetter(entries, i, k)
    {
      if last.0 == Some(k) && last.1.Some? {
        assert EntrySets(entries, |front|, k) && LastSetter(entries, |front|, k);
      } else {
        var i :| 0 <= i < |front| && EntrySets(front, i, k) && front[i].1 == Some(m[k]) && LastSetter(front, i, k);
        assert front[i] == entries[i];
        forall j | i < j < |entries|
          ensures !EntrySets(entries, j, k)
        {
          if j < |front| {
            assert !EntrySets(front, j, k);
            assert front[j] == entries[j];
          }
        }
        assert EntrySets(entries, i, k);
      }
    }
  }

}

=== FILE: ygg_engine.dfy ===
/** The evaluation engine of `unleash-yggdrasil` (`unleash-yggdrasil/src/lib.rs`):
    `compile_state` turns a features document into one compiled rule per toggle
    name, `is_enabled` runs that rule, and `get_variant` resolves a toggle's
    variant from overrides, stickiness and weights. Compiling rule text and
    running a compiled rule are parameters (`R` is the compiled rule), and so
    are the hash normalisation and the random draw of `get_variant`. */
module YggdrasilEngine {
  import opened Common
  import opened Features
  import opened Upgrade
  import opened Fragments
  import opened CustomResults

  /** The caller's context (`InnerContext`). */
  datatype Context = Context(
    userId: Option<string>,
    sessionId: Option<string>,
    environment: Option<string>,
    appName: Option<string>,
    currentTime: Option<string>,
    remoteAddress: Option<string>,
    properties: Option<map<string, string>>)

  /** The context a compiled rule of `toggleName` is run against. */
  function Enrich(c: Context, toggleName: string): (r: EnrichedContext)
    ensures r.toggleName == toggleName && r.externalResults.None?
    ensures r.userId == c.userId && r.sessionId == c.sessionId && r.properties == c.properties
  {
    EnrichedContext(c.userId, c.sessionId, c.environment, c.appName, c.remoteAddress,
                    c.currentTime, c.properties, toggleName, None)
  }

  // ---------------------------------------------------------------------------
  // Compiling a state
  // ---------------------------------------------------------------------------

  /** The pairs `(segment.id, segment)` in document order. */
  function SegmentPairs(ss: seq<Segment>): (r: seq<(int, Segment)>)
    ensures |r| == |ss|
    ensures forall i :: 0 <= i < |ss| ==> r[i] == (ss[i].id, ss[i])
  {
    seq(|ss|, i requires 0 <= i < |ss| => (ss[i].id, ss[i]))
  }

  /** `build_segment_map`: segments by id, a later segment replacing an
      earlier one with the same id; no segments give an empty map. */
  function SegmentMap(segments: Option<seq<Segment>>): (r: map<int, Segment>)
    ensures segments.None? ==> r == map[]
    ensures segments.Some? ==> r.Keys == KeysOf(SegmentPairs(segments.value))
    ensures segments.Some? ==>
              forall i :: 0 <= i < |segments.value| && LastOfKey(SegmentPairs(segments.value), i) ==>
                r[segments.value[i].id] == segments.value[i]
  {
    match segments
    case None => map[]
    case Some(ss) => LastWins(SegmentPairs(ss))
  }

  /** A toggle's declared strategies; an absent list is empty. */
  function StrategiesOf(f: ClientFeature): seq<Strategy> {
    f.strategies.GetOr([])
  }

  /** `compile_rule(upgrade(..)).unwrap()` succeeds for the toggle. */
  predicate Compilable<R>(f: ClientFeature, segments: map<int, Segment>, compile: string -> Option<R>) {
    AllStrategiesUpgradable(StrategiesOf(f), segments) &&
    compile(UpgradeText(StrategiesOf(f), segments)).Some?
  }

  /** Every toggle of the document compiles: the source unwraps the result. */
  predicate Compiles<R>(doc: ClientFeatures, compile: string -> Option<R>) {
    forall i :: 0 <= i < |doc.features| ==> Compilable(doc.features[i], SegmentMap(doc.segments), compile)
  }

  datatype CompiledToggle<R> = CompiledToggle(
    name: string,
    enabled: bool,
    rule: R,
    variants: Option<seq<Variant>>)

  /** One toggle compiled: its upgraded rule text, compiled. */
  function CompileToggle<R>(f: ClientFeature, segments: map<int, Segment>, compile: string -> Option<R>): (t: CompiledToggle<R>)
    requires Compilable(f, segments, compile)
    ensures t.name == f.name && t.enabled == f.enabled && t.variants == f.variants
    ensures Some(t.rule) == compile(UpgradeText(StrategiesOf(f), segments))
  {
    CompiledToggle(f.name, f.enabled, compile(UpgradeText(StrategiesOf(f), segments)).value, f.variants)
  }

  /** The pairs `(toggle.name, compiled toggle)` in document order. */
  function CompiledPairs<R>(fs: seq<ClientFeature>, segments: map<int, Segment>, compile: string -> Option<R>)
    : (r: seq<(string, CompiledToggle<R>)>)
    requires forall i :: 0 <= i < |fs| ==> Compilable(fs[i], segments, compile)
    ensures |r| == |fs|
    ensures forall i :: 0 <= i < |fs| ==> r[i] == (fs[i].name, CompileToggle(fs[i], segments, compile))
  {
    seq(|fs|, i requires 0 <= i < |fs| => (fs[i].name, CompileToggle(fs[i], segments, compile)))
  }

  /** `compile_state`: one entry per toggle name, inserted in document order
      so that a later toggle with the same name replaces an earlier one. */
  function CompileState<R>(doc: ClientFeatures, compile: string -> Option<R>): (r: map<string, CompiledToggle<R>>)
    requires Compiles(doc, compile)
    ensures forall name :: name in r <==> exists i :: 0 <= i < |doc.features| && doc.features[i].name == name
    ensures forall i :: 0 <= i < |doc.features| && LastOfKey(CompiledPairs(doc.features, SegmentMap(doc.segments), compile), i) ==>
              r[doc.features[i].name] == CompileToggle(doc.features[i], SegmentMap(doc.segments), compile)
  {
    var pairs := CompiledPairs(doc.features, SegmentMap(doc.segments), compile);
    var r := LastWins(pairs);
    forall name | name in r
      ensures exists i :: 0 <= i < |doc.features| && doc.features[i].name == name
    {
      KeysOfExact(pairs, name);
    }
    r
  }

  // ---------------------------------------------------------------------------
  // The engine
  // ---------------------------------------------------------------------------

  /** `EngineState`: no compiled state until the first `take_state`. */
  datatype Engine<R> = Engine(compiled: Option<map<string, CompiledToggle<R>>>)

  const NEW_ENGINE: Engine<bool> := Engine(None)

  /** `take_state`: the compiled document replaces any earlier state. */
  function TakeState<R>(e: Engine<R>, doc: ClientFeatures, compile: string -> Option<R>): (r: Engine<R>)
    requires Compiles(doc, compile)
    ensures r.compiled == Some(CompileState(doc, compile))
  {
    Engine(Some(CompileState(doc, compile)))
  }

  /** `get_toggle`. */
  function GetToggle<R>(e: Engine<R>, name: string): (r: Option<CompiledToggle<R>>)
    ensures r.Some? <==> e.compiled.Some? && name in e.compiled.value
    ensures r.Some? ==> r.value == e.compiled.value[name]
  {
    match e.compiled
    case Some(state) => if name in state then Some(state[name]) else None
    case None => None
  }

  /** `enabled`: a present toggle that is switched on and whose rule holds
      on the context carrying its name. */
  function Enabled<R>(t: Option<CompiledToggle<R>>, c: Context, holds: (R, EnrichedContext) -> bool): (r: bool)
    ensures r <==> t.Some? && t.value.enabled && holds(t.value.rule, Enrich(c, t.value.name))
  {
    match t
    case Some(toggle) => toggle.enabled && holds(toggle.rule, Enrich(c, toggle.name))
    case None => false
  }

  /** `is_enabled`. */
  function IsEnabled<R>(e: Engine<R>, name: string, c: Context, holds: (R, EnrichedContext) -> bool): (r: bool)
    ensures e.compiled.None? ==> !r
    ensures e.compiled.Some? && name !in e.compiled.value ==> !r
    ensures r ==> e.compiled.value[name].enabled
  {
    match e.compiled
    case Some(_) => Enabled(GetToggle(e, name), c, holds)
    case None => false
  }

  /** After `take_state`, a toggle answers as the LAST toggle of that name in
      the document: switched on, and its own upgraded and compiled rule holds. */
  lemma EnabledAfterTakeState<R>(e: Engine<R>, doc: ClientFeatures, compile: string -> Option<R>,
                                 i: nat, c: Context, holds: (R, EnrichedContext) -> bool)
    requires Compiles(doc, compile)
    requires i < |doc.features| && forall j :: i < j < |doc.features| ==> doc.features[j].name != doc.features[i].name
    ensures var f := doc.features[i];
            IsEnabled(TakeState(e, doc, compile), f.name, c, holds) <==>
              f.enabled && holds(compile(UpgradeText(StrategiesOf(f), SegmentMap(doc.segments))).value, Enrich(c, f.name))
  {
    var pairs := CompiledPairs(doc.features, SegmentMap(doc.segments), compile);
    assert LastOfKey(pairs, i);
  }

  /** A name no toggle of the document carries is off after `take_state`. */
  lemma UnknownAfterTakeState<R>(e: Engine<R>, doc: ClientFeatures, compile: string -> Option<R>,
                                 name: string, c: Context, holds: (R, EnrichedContext) -> bool)
    requires Compiles(doc, compile)
    requires forall j :: 0 <= j < |doc.features| ==> doc.features[j].name != name
    ensures !IsEnabled(TakeState(e, doc, compile), name, c, holds)
  {
  }

  // ---------------------------------------------------------------------------
  // Variants
  // ---------------------------------------------------------------------------

  /** `weight as u32`: the variant weight is a 32-bit signed integer, so a
      negative weight wraps around. */
  function AsU32(w: int): u32 {
    w % U32_LIMIT
  }

  /** The running weight after the first `n` variants, unbounded. */
  function Running(vs: seq<Variant>, n: nat): nat
    requires n <= |vs|
  {
    if n == 0 then 0 else Running(vs, n - 1) + AsU32(vs[n - 1].weight)
  }

  /** The total weight (`iter().map(..).sum()`). */
  function TotalWeight(vs: seq<Variant>): nat {
    Running(vs, |vs|)
  }

  /** Running weights never decrease. */
  lemma {:induction false} RunningMonotone(vs: seq<Variant>, m: nat, n: nat)
    requires m <= n <= |vs|
    ensures Running(vs, m) <= Running(vs, n)
    decreases n - m
  {
    if m < n {
      RunningMonotone(vs, m, n - 1);
    }
  }

  /** The variant's overrides list the context's user id under `userId`;
      every other context name is ignored. */
  predicate OverridesUser(v: Variant, c: Context) {
    c.userId.Some? && v.overrides.Some? &&
    exists k :: 0 <= k < |v.overrides.value| && v.overrides.value[k].contextName == "userId" &&
                c.userId.value in v.overrides.value[k].values
  }

  /** `check_for_variant_override`: the first variant overriding for the user. */
  function VariantOverride(vs: seq<Variant>, c: Context): (r: Option<nat>)
    ensures r.Some? ==> r.value < |vs| && OverridesUser(vs[r.value], c)
    ensures r.Some? ==> forall j :: 0 <= j < r.value ==> !OverridesUser(vs[j], c)
    ensures r.None? ==> forall j :: 0 <= j < |vs| ==> !OverridesUser(vs[j], c)
  {
    FirstWhere(vs, (v: Variant) => OverridesUser(v, c))
  }

  /** An override on any context name other than `userId` never applies. */
  lemma OnlyUserIdOverrides(v: Variant, c: Context)
    requires v.overrides.Some? && forall k :: 0 <= k < |v.overrides.value| ==> v.overrides.value[k].contextName != "userId"
    ensures !OverridesUser(v, c)
  {
  }

  /** The context field a stickiness name reads; any other name is looked up
      among the context properties. */
  function StickinessValue(name: string, c: Context): Option<string> {
    if name == "userId" then c.userId
    else if name == "sessionId" then c.sessionId
    else if name == "environment" then c.environment
    else if name == "appName" then c.appName
    else if name == "remoteAddress" then c.remoteAddress
    else match c.properties
      case Some(props) => if name in props then Some(props[name]) else None
      case None => None
  }

  /** `get_custom_stickiness`: the first variant's stickiness read from the
      context; `None` is the error of a stickiness the context lacks, and
      `Some(None)` means no custom stickiness was asked for. */
  function CustomStickiness(vs: seq<Variant>, c: Context): (r: Option<Option<string>>)
    ensures (|vs| == 0 || vs[0].stickiness.None?) ==> r == Some(None)
    ensures |vs| > 0 && vs[0].stickiness.Some? ==>
              (r.None? <==> StickinessValue(vs[0].stickiness.value, c).None?)
    ensures r.Some? && r.value.Some? ==>
              (|vs| > 0 && vs[0].stickiness.Some? && r.value == StickinessValue(vs[0].stickiness.value, c))
  {
    if |vs| == 0 || vs[0].stickiness.None? then Some(None)
    else
      var value := StickinessValue(vs[0].stickiness.value, c);
      if value.None? then None else Some(value)
  }

  /** The seed of the variant hash: the custom stickiness value, else the
      user id, else the session id. */
  function Seed(custom: Option<string>, c: Context): (r: Option<string>)
    ensures custom.Some? ==> r == custom
    ensures custom.None? && c.userId.Some? ==> r == c.userId
    ensures custom.None? && c.userId.None? ==> r == c.sessionId
  {
    if custom.Some? then custom else if c.userId.Some? then c.userId else c.sessionId
  }

  /** The selection loop from position `i` on: the first variant whose
      running weight strictly exceeds the target, if any. */
  function SelectFrom(vs: seq<Variant>, target: nat, i: nat): (r: Option<nat>)
    requires i <= |vs|
    ensures r.Some? ==> i <= r.value < |vs| && Running(vs, r.value + 1) > target
    ensures r.Some? ==> forall j :: i < j <= r.value ==> Running(vs, j) <= target
    ensures r.None? ==> forall j :: i < j <= |vs| ==> Running(vs, j) <= target
    decreases |vs| - i
  {
    if i == |vs| then None
    else if Running(vs, i + 1) > target then Some(i)
    else SelectFrom(vs, target, i + 1)
  }

  /** The selection loop over all variants. */
  function SelectAbove(vs: seq<Variant>, target: nat): (r: Option<nat>)
    ensures r.Some? ==> r.value < |vs| && Running(vs, r.value + 1) > target
    ensures r.Some? ==> forall j :: 0 < j <= r.value ==> Running(vs, j) <= target
    ensures r.None? ==> forall j :: 0 < j <= |vs| ==> Running(vs, j) <= target
  {
    SelectFrom(vs, target, 0)
  }

  /** The chosen variant is the one whose weight interval holds the target:
      the running weight before it is at most the target and after it exceeds it. */
  lemma SelectionInterval(vs: seq<Variant>, target: nat)
    requires SelectAbove(vs, target).Some?
    ensures var k := SelectAbove(vs, target).value;
            Running(vs, k) <= target < Running(vs, k + 1)
  {
    var k := SelectAbove(vs, target).value;
    if k > 0 {
      assert Running(vs, k) <= target;
    }
  }

  /** Some variant is chosen exactly when the target is below the total
      weight; a target equal to the total weight chooses none. */
  lemma SelectsIffBelowTotal(vs: seq<Variant>, target: nat)
    ensures SelectAbove(vs, target).Some? <==> target < TotalWeight(vs)
  {
    var r := SelectAbove(vs, target);
    if r.Some? {
      RunningMonotone(vs, r.value + 1, |vs|);
    } else if |vs| > 0 {
      assert Running(vs, |vs|) <= target;
    }
  }

  /** The chosen variant as `get_variant` reports it. */
  function Reported(v: Variant): VariantDef {
    VariantDef(v.name, v.payload, true)
  }

  /** The hash `get_variant` reduces a seed with: murmur3 and the hash seed
      `normalized_hash` is called with. */
  datatype VariantHash = VariantHash(murmur: Murmur, seed: u32)

  /** The enabled toggle has variants, none overrides for the user, any
      custom stickiness is present, and a seed exists: the target is hashed. */
  predicate HashedPath<R>(e: Engine<R>, name: string, c: Context, holds: (R, EnrichedContext) -> bool) {
    var t := GetToggle(e, name);
    Enabled(t, c, holds) && t.value.variants.Some? &&
    (var vs := t.value.variants.value;
     VariantOverride(vs, c).None? && CustomStickiness(vs, c).Some? &&
     Seed(CustomStickiness(vs, c).value, c).Some?)
  }

  /** The path of `get_variant` that draws its target at random: the toggle
      is enabled with variants, no override applies, the stickiness is found,
      and neither it nor the user id nor the session id gives a seed. */
  predicate DrawnPath<R>(e: Engine<R>, name: string, c: Context, holds: (R, EnrichedContext) -> bool) {
    var t := GetToggle(e, name);
    Enabled(t, c, holds) && t.value.variants.Some? &&
    (var vs := t.value.variants.value;
     VariantOverride(vs, c).None? && CustomStickiness(vs, c).Some? &&
     Seed(CustomStickiness(vs, c).value, c).None?)
  }

  /** `get_variant` does not abort: the total weight fits in a `u32` (the sum
      overflows otherwise), and on the hashed path the total is not zero (the
      modulus of `normalized_hash`) and the hash succeeds (it is unwrapped). */
  predicate VariantComputable<R>(e: Engine<R>, name: string, c: Context,
                                 holds: (R, EnrichedContext) -> bool, h: VariantHash) {
    var t := GetToggle(e, name);
    (Enabled(t, c, holds) && t.value.variants.Some? && VariantOverride(t.value.variants.value, c).None? ==>
       TotalWeight(t.value.variants.value) < U32_LIMIT) &&
    (HashedPath(e, name, c, holds) ==>
       (var vs := t.value.variants.value;
        TotalWeight(vs) > 0 &&
        h.murmur(HashKey(name, Seed(CustomStickiness(vs, c).value, c).value), h.seed).Some?))
  }

  /** The hashed target: `normalized_hash(toggle, seed, total)`, a bucket in
      1..total. */
  function HashedTarget<R>(e: Engine<R>, name: string, c: Context, holds: (R, EnrichedContext) -> bool,
                           h: VariantHash): (r: nat)
    requires HashedPath(e, name, c, holds) && VariantComputable(e, name, c, holds, h)
    ensures 1 <= r <= TotalWeight(GetToggle(e, name).value.variants.value)
  {
    var vs := GetToggle(e, name).value.variants.value;
    NormalizedHash(h.murmur, name, Seed(CustomStickiness(vs, c).value, c).value, TotalWeight(vs), h.seed).value
  }

  /** `get_variant`: the default variant unless the toggle exists, is enabled
      and has variants; then an override for the user, else the first variant
      whose running weight exceeds the hashed (or, without a seed, randomly
      drawn) target. A custom stickiness missing from the context gives the
      default. */
  function GetVariant<R>(e: Engine<R>, name: string, c: Context, holds: (R, EnrichedContext) -> bool,
                         h: VariantHash, roll: Draw): (r: VariantDef)
    requires VariantComputable(e, name, c, holds, h)
    ensures !Enabled(GetToggle(e, name), c, holds) ==> r == DEFAULT_VARIANT
    ensures Enabled(GetToggle(e, name), c, holds) && GetToggle(e, name).value.variants.None? ==> r == DEFAULT_VARIANT
    ensures r != DEFAULT_VARIANT ==>
              var vs := GetToggle(e, name).value.variants.value;
              r.enabled && exists k :: 0 <= k < |vs| && r == Reported(vs[k])
    ensures Enabled(GetToggle(e, name), c, holds) && GetToggle(e, name).value.variants.Some? ==>
              var vs := GetToggle(e, name).value.variants.value;
              VariantOverride(vs, c).Some? ==> r == Reported(vs[VariantOverride(vs, c).value])
  {
    var t := GetToggle(e, name);
    if !Enabled(t, c, holds) then DEFAULT_VARIANT
    else match t.value.variants
      case None => DEFAULT_VARIANT
      case Some(vs) =>
        match VariantOverride(vs, c)
        case Some(k) => Reported(vs[k])
        case None =>
          match CustomStickiness(vs, c)
          case None => DEFAULT_VARIANT
          case Some(custom) =>
            var target := if Seed(custom, c).Some? then HashedTarget(e, name, c, holds, h) else roll;
            match SelectAbove(vs, target)
            case Some(k) => Reported(vs[k])
            case None => DEFAULT_VARIANT
  }

  /** A custom stickiness the context lacks gives the default variant even
      for an enabled toggle (no override applying). */
  lemma MissingStickinessGivesDefault<R>(e: Engine<R>, name: string, c: Context, holds: (R, EnrichedContext) -> bool,
                                         h: VariantHash, roll: Draw)
    requires VariantComputable(e, name, c, holds, h)
    requires Enabled(GetToggle(e, name), c, holds) && GetToggle(e, name).value.variants.Some?
    requires var vs := GetToggle(e, name).value.variants.value;
             VariantOverride(vs, c).None? && |vs| > 0 && vs[0].stickiness.Some? &&
             StickinessValue(vs[0].stickiness.value, c).None?
    ensures GetVariant(e, name, c, holds, h, roll) == DEFAULT_VARIANT
  {
  }

  /** The stickiness name `"default"` gets no special treatment here: it is
      looked up as a context property, and without such a property the answer
      is the default variant. */
  lemma DefaultStickinessIsAProperty(c: Context)
    requires c.properties.None? || "default" !in c.properties.value
    ensures StickinessValue("default", c).None?
  {
  }

  /** With a seed, the hashed target (a bucket in 1..total) selects a variant
      exactly when it is below the total weight, and then the variant whose
      interval holds it. */
  lemma SeededSelection<R>(e: Engine<R>, name: string, c: Context, holds: (R, EnrichedContext) -> bool,
                           h: VariantHash, roll: Draw)
    requires VariantComputable(e, name, c, holds, h) && HashedPath(e, name, c, holds)
    ensures var vs := GetToggle(e, name).value.variants.value;
            var target := HashedTarget(e, name, c, holds, h);
            (GetVariant(e, name, c, holds, h, roll) != DEFAULT_VARIANT <==> target < TotalWeight(vs)) &&
            (target < TotalWeight(vs) ==>
               GetVariant(e, name, c, holds, h, roll) == Reported(vs[SelectAbove(vs, target).value]))
  {
    var vs := GetToggle(e, name).value.variants.value;
    SelectsIffBelowTotal(vs, HashedTarget(e, name, c, holds, h));
  }

  /** Without a seed, the drawn number (0..98) selects a variant exactly when
      it is below the total weight, and then the variant whose interval holds
      it; the corrected selection keeps this path unchanged. */
  lemma UnseededSelection<R>(e: Engine<R>, name: string, c: Context, holds: (R, EnrichedContext) -> bool,
                             h: VariantHash, roll: Draw)
    requires VariantComputable(e, name, c, holds, h) && DrawnPath(e, name, c, holds)
    ensures var vs := GetToggle(e, name).value.variants.value;
            (GetVariant(e, name, c, holds, h, roll) != DEFAULT_VARIANT <==> roll < TotalWeight(vs)) &&
            (roll < TotalWeight(vs) ==>
               GetVariant(e, name, c, holds, h, roll) == Reported(vs[SelectAbove(vs, roll).value]))
    ensures GetVariantIntended(e, name, c, holds, h, roll) == GetVariant(e, name, c, holds, h, roll)
  {
    var vs := GetToggle(e, name).value.variants.value;
    SelectsIffBelowTotal(vs, roll);
  }

  /** As written, the top bucket of the hash (target equal to the total
      weight) selects no variant: an enabled toggle answers the default
      variant for those callers. */
  lemma TopBucketGivesDefault<R>(e: Engine<R>, name: string, c: Context, holds: (R, EnrichedContext) -> bool,
                                 h: VariantHash, roll: Draw)
    requires VariantComputable(e, name, c, holds, h) && HashedPath(e, name, c, holds)
    requires HashedTarget(e, name, c, holds, h) == TotalWeight(GetToggle(e, name).value.variants.value)
    ensures Enabled(GetToggle(e, name), c, holds)
    ensures GetVariant(e, name, c, holds, h, roll) == DEFAULT_VARIANT
  {
    SeededSelection(e, name, c, holds, h, roll);
  }

  /** A concrete case: an enabled toggle whose only variant has weight 1
      never gives a seeded caller that variant. */
  lemma SingleUnitVariantNeverChosen<R>(e: Engine<R>, name: string, c: Context, holds: (R, EnrichedContext) -> bool,
                                        h: VariantHash, roll: Draw)
    requires VariantComputable(e, name, c, holds, h) && HashedPath(e, name, c, holds)
    requires var vs := GetToggle(e, name).value.variants.value;
             |vs| == 1 && vs[0].weight == 1
    ensures Enabled(GetToggle(e, name), c, holds)
    ensures GetVariant(e, name, c, holds, h, roll) == DEFAULT_VARIANT
  {
    var vs := GetToggle(e, name).value.variants.value;
    assert TotalWeight(vs) == Running(vs, 0) + AsU32(vs[0].weight) == 1;
    TopBucketGivesDefault(e, name, c, holds, h, roll);
  }

  /** `get_variant` as evidently intended: the hashed target counts from 1,
      so a variant is chosen once the running weight reaches it (`>=`). The
      random draw, counting from 0, keeps the strict comparison. */
  function GetVariantIntended<R>(e: Engine<R>, name: string, c: Context, holds: (R, EnrichedContext) -> bool,
                                 h: VariantHash, roll: Draw): (r: VariantDef)
    requires VariantComputable(e, name, c, holds, h)
    ensures !Enabled(GetToggle(e, name), c, holds) ==> r == DEFAULT_VARIANT
    ensures Enabled(GetToggle(e, name), c, holds) && GetToggle(e, name).value.variants.None? ==> r == DEFAULT_VARIANT
    ensures r != DEFAULT_VARIANT ==>
              var vs := GetToggle(e, name).value.variants.value;
              r.enabled && exists k :: 0 <= k < |vs| && r == Reported(vs[k])
    ensures !HashedPath(e, name, c, holds) ==> r == GetVariant(e, name, c, holds, h, roll)
  {
    var t := GetToggle(e, name);
    if !Enabled(t, c, holds) then DEFAULT_VARIANT
    else match t.value.variants
      case None => DEFAULT_VARIANT
      case Some(vs) =>
        match VariantOverride(vs, c)
        case Some(k) => Reported(vs[k])
        case None =>
          match CustomStickiness(vs, c)
          case None => DEFAULT_VARIANT
          case Some(custom) =>
            var below := if Seed(custom, c).Some? then HashedTarget(e, name, c, holds, h) - 1 else roll;
            match SelectAbove(vs, below)
            case Some(k) => Reported(vs[k])
            case None => DEFAULT_VARIANT
  }

  /** With the intended comparison every seeded caller of an enabled toggle
      gets a variant: the one whose weight interval `(before, after]` holds
      the hashed target. */
  lemma IntendedSeededAlwaysSelects<R>(e: Engine<R>, name: string, c: Context, holds: (R, EnrichedContext) -> bool,
                                       h: VariantHash, roll: Draw)
    requires VariantComputable(e, name, c, holds, h) && HashedPath(e, name, c, holds)
    ensures var vs := GetToggle(e, name).value.variants.value;
            var target := HashedTarget(e, name, c, holds, h);
            exists k :: 0 <= k < |vs| && Running(vs, k) < target <= Running(vs, k + 1) &&
                        GetVariantIntended(e, name, c, holds, h, roll) == Reported(vs[k])
  {
    var vs := GetToggle(e, name).value.variants.value;
    var target := HashedTarget(e, name, c, holds, h);
    SelectsIffBelowTotal(vs, target - 1);
    SelectionInterval(vs, target - 1);
    var k := SelectAbove(vs, target - 1).value;
    assert Running(vs, k) < target <= Running(vs, k + 1);
  }
}
